=== FILE: README.md ===
# Polymorph core in Dafny

Polymorph rewrites network packets in real time. A packet captured once is
dissected into a *template*: an ordered set of *layers*, each an ordered set
of *fields*. Each field records its name, its slice of the raw packet, its
size, a bit mask and a *type* (`Ftype`) that says how its bytes are shown:
big- or little-endian integer, bit field, text, bytes, hex, Ethernet or
EUI-64 address, IPv4/IPv6 address, absolute or relative time. The user
attaches Python functions to the template. The interceptor runs them on
every live packet that passes through the machine. Each function receives
a *packet view* where `packet['IP']['ttl']` reads a field by decoding its
bytes and assigning to it re-encodes the value in place. The function
returns the packet to continue, a falsy value to forward the packet as it
stands, or a packet whose `drop` flag is set to discard it.

The repository carries two generations of this core side by side: the
older `polymorph/` files and the newer `build/lib/polymorph/` files. Both
are modelled, as separate modules with the prefix `Legacy` for the older
one wherever the two differ:

- **Representations.** The converter (`Converter`, with `BitFields`,
  `Bits`, `Text` and `Bytes` underneath) maps field bytes to values and
  back. The model has one function per source method, the two dispatchers
  `get_frepr`/`get_fraw`, and round-trip lemmas stating which
  representations are lossless.
- **Types and fields.** `FieldTypes` holds the two enumerations with their
  numeric codes. `Fields` covers the newer field constructor, which infers
  a type from the dissector's type code and display text.
- **Templates.** `Layers`, `LegacyTemplates`/`Templates` and
  `LegacyTemplateLists`/`TemplateLists` are ordered dictionaries of layers,
  fields and functions, built on one `OrderedMap` module. `Structs`
  models the small binary-structure descriptions that
  `create_struct` builds for variable-position fields: pad/number/bytes
  segments whose widths are arithmetic expressions over earlier fields.
- **Packets.** `LegacyPackets`/`Packets` and `Payload` cover the view
  that reads and writes typed field values in the raw buffer, and the
  payload/padding convention behind `raw`, `len` and `insert`.
- **Interception.** `LegacyInterceptors`/`Interceptors` and `Interception`
  model the per-packet loop over the user functions. `Checksum` models the
  newer interceptor's IPv4/IPv6 transport checksum recomputation, against
  the Internet checksum of RFC 1071.
- **Front end.** `CommandParsing` is the option parser of the interactive
  shell. `Values` is the first generation's field value object.
  `CliHelpers` holds the helper functions of the command-line tool: the
  pattern precondition and the two insertion executions.

Python exceptions are modelled as `Err(...)` values of `Wrappers.Result`
(`KeyError`, `ValueError`, `TypeError`, `IndexError`, `AttributeError`,
`UnicodeDecodeError`, `OverflowError`, `ZeroDivisionError`, `NameError`,
...). Python's slicing with negative and out-of-range indices is written
out in `Bytes.PySlice`, `PyFrom`, `PyTo` and `PyIndex`. Everything the core
delegates to code outside the repository becomes a field of an `Env`
record of functions:

- UTF-8 encoding and decoding;
- IP address text;
- `inet_aton`/`inet_pton` packing;
- absolute-time formatting.

The user's functions become a `call` parameter.

## Model

| member | source | states |
|---|---|---|
| FieldTypes.FtypeCode | polymorph/ftype.py:60-74 | every representation type has its enumeration value, all within 0..12 |
| FieldTypes.FtypeOf | polymorph/ftype.py:60-74 | `Ftype(n)` succeeds exactly for 0..12, giving the type whose value is n; any other value raises ValueError |
| FieldTypes.FtypeCodeInjective | polymorph/ftype.py:60-74 | no two representation types share an enumeration value |
| FieldTypes.FtypeOfCode | polymorph/ftype.py:60-74 | looking up a type's own enumeration value gives the type back |
| FieldTypes.TtypeOf | polymorph/ftype.py:8-57 | `Ttype(code)` succeeds exactly for codes -1..46, and the member it returns carries that code; other codes raise ValueError |
| FieldTypes.TtypeOfCode | polymorph/ftype.py:8-57 | looking up the code of any dissector type gives that type back |
| Converter.RawToIntBe | polymorph/converter.py:15-18 | the big-endian value of n bytes is below 256^n |
| Converter.IntBeToRaw | polymorph/converter.py:20-23 | `to_bytes` succeeds exactly when 0 <= v < 256^size, and the bytes it returns read back as v |
| Converter.RawToIntLe | polymorph/converter.py:25-28 | the little-endian value of n bytes is below 256^n |
| Converter.IntLeToRaw | polymorph/converter.py:30-33 | little-endian `to_bytes` succeeds exactly in range, and the bytes it returns read back as v |
| Converter.IntRoundTrip | polymorph/converter.py:15-33 | decoding bytes as an integer and encoding at the same size restores the bytes, in both byte orders |
| Converter.IntLeIsReversedBe | polymorph/converter.py:25-28 | the little-endian value is the big-endian value of the reversed bytes |
| Converter.RawToHex | polymorph/converter.py:65-67 | the text is `0x` followed by hex digits only |
| Converter.HexToRaw | polymorph/converter.py:69-75 | the result is left-padded to `fsize` bytes, or is longer when the digits need it; malformed text raises ValueError |
| Converter.HexToRawPrefix | polymorph/converter.py:69-75 | a leading `0x` is ignored |
| Converter.HexRoundTrip | polymorph/converter.py:65-75 | hex text of non-empty bytes decodes to the same bytes at their size |
| Converter.HexRoundTripEmpty | polymorph/converter.py:65-75 | empty bytes become `0x0`, which does not decode (odd digit count) |
| Converter.RawToString | polymorph/converter.py:77-79 | decoding succeeds exactly when the bytes are valid UTF-8; otherwise UnicodeDecodeError |
| Converter.StringRoundTrip | polymorph/converter.py:77-83 | with a consistent codec, decoding and re-encoding restores the bytes |
| Converter.RawToEther | polymorph/converter.py:85-87 | the address text is the two-digit hex of each byte, joined by colons |
| Converter.EtherToRaw | polymorph/converter.py:89-91 | the result has one byte per two hex digits after removing colons; bad digits raise ValueError |
| Converter.EtherRoundTrip | polymorph/converter.py:85-91 | parsing the Ethernet text of any bytes gives the bytes back |
| Converter.RawToEui64 | polymorph/converter.py:93-95 | the EUI-64 text is the byte hexes in reverse order, joined by colons |
| Converter.Eui64IsReversedEther | polymorph/converter.py:85-95 | EUI-64 text is the Ethernet text of the reversed bytes |
| Converter.Eui64RoundTrip | polymorph/converter.py:93-99 | parsing the EUI-64 text of any bytes gives the bytes back |
| Converter.RawToIpv4 | polymorph/converter.py:101-104 | an address is shown exactly when there are 4 bytes; otherwise None |
| Converter.RawToIpv6 | polymorph/converter.py:110-113 | an address is shown exactly when there are 16 bytes; otherwise None |
| Converter.RawToRelative | polymorph/converter.py:146-149 | the text is the value's decimal digits left-aligned in 16 columns, zero-filled, with a dot inserted at position 7 |
| Converter.RelativeToRaw | polymorph/converter.py:151-153 | the result has `fsize` bytes; text whose digits stripped of zeros do not parse raises ValueError |
| Converter.RelativeDecode | polymorph/converter.py:146-153 | parsing the relative-time text of bytes gives the value with its trailing decimal zeros dropped, and raises ValueError for zero |
| Converter.RelativeRoundTrip | polymorph/converter.py:146-153 | the relative-time round trip restores the bytes exactly when the value does not end in a decimal zero |
| Converter.GetFrepr | polymorph/converter.py:155-182 | only text and absolute-time decoding can fail; text fails exactly on invalid UTF-8; IP fields give None exactly for wrong lengths; numeric types give non-negative integers; hex, Ethernet, EUI-64 and relative types give text |
| Converter.GetFraw | polymorph/converter.py:184-211 | integer encoding succeeds exactly for an in-range int and yields `fsize` bytes; text needs a str, bytes need bytes; bit fields need an int and a non-zero mask; hex yields at least `fsize` bytes; non-text values reach a str method and raise |
| Converter.BinFieldWriteKeepsLowestBit | polymorph/converter.py:194-197 | writing a bit field through `get_fraw` leaves the bit under the mask's lowest set bit as it was |
| Converter.FieldRoundTrip | polymorph/converter.py:155-211 | for every lossless type, writing back the decoded value of a field restores its bytes |
| BitFields.RawToBin | polymorph/converter.py:35-42 | the value read is the bits under the mask, shifted down by the mask's trailing zeros; zero for a zero mask |
| BitFields.RawToMaskBin | polymorph/converter.py:44-50 | the new mask is the complement of the previous one within the field width, and the value is read under that mask; a zero size raises ValueError |
| BitFields.RawToMaskBinComplement | polymorph/converter.py:44-50 | the previous and new masks are disjoint and together cover every bit of the field |
| BitFields.BinToRawAsWritten | polymorph/converter.py:52-63 | the source's bin2raw: a zero mask raises IndexError; the result has `fsize` bytes |
| BitFields.AsWrittenKeepsLowestBit | polymorph/converter.py:58-62 | for every in-range value, the as-written splice ends before the mask's lowest set bit, so that bit keeps its old value |
| BitFields.BinToRawLowestBitExample | polymorph/converter.py:52-63 | value 3 under mask 0xF0 into 0xA5 reads back as something other than 3 as written, and as 3 when corrected |
| BitFields.BinToRaw | polymorph/converter.py:52-63 | the corrected bin2raw: a zero mask raises IndexError; the result has `fsize` bytes |
| BitFields.BinSpliceBits | polymorph/converter.py:58-62 | for a field that fits its mask, the splice succeeds. Counting from the most significant bit, each output bit from the mask's first set bit up to its last comes from `field << tz`, where `tz` is the mask's trailing-zero count. The last set bit is excluded as written and included once corrected. Every other bit keeps its value in the prior bytes |
| BitFields.BinToRawRoundTrip | polymorph/converter.py:35-63 | for every value that fits under the mask, writing it with the corrected bin2raw and reading it back gives the value |
| Fields.IntOfText | build/lib/polymorph/tfield.py:224-227 | `int(trepr)` succeeds exactly when the text is a decimal numeral, with its value; otherwise ValueError |
| Fields.Infer | build/lib/polymorph/tfield.py:199-313 | an unknown type code falls back to hex; the mask is kept unless a bit field is inferred |
| Fields.InferIsDecoding | build/lib/polymorph/tfield.py:199-313 | whatever type is inferred, the representation stored is what `get_frepr` gives for that type and mask |
| Fields.InferNumberPriority | build/lib/polymorph/tfield.py:207-238 | for numeric dissector types: a non-zero mask means a bit field; big-endian is chosen exactly when the display text equals the big-endian value; little-endian exactly when only the little-endian value matches; unparsable text falls back to hex |
| Fields.InferSharedBits | build/lib/polymorph/tfield.py:230-238 | a numeric field matching neither byte order becomes a bit field under the complement of the previous field's mask when it shares that field's slice, and hex otherwise |
| Fields.InferAddressLength | build/lib/polymorph/tfield.py:287-301 | an inferred IPv4/IPv6 field has 4/16 bytes; any other length falls back to hex |
| Fields.InferAbsoluteTime | build/lib/polymorph/tfield.py:265-271 | absolute time is kept exactly when the formatted time is non-empty and agrees with the display text in its first 20 characters; otherwise hex |
| Fields.NewField | build/lib/polymorph/tfield.py:14-66 | the name is lower-cased and the raw bytes are the field's slice; a given type is kept with its mask and a given truthy representation; construction fails only when a type is given and decoding raises |
| Fields.NewFieldDecodes | build/lib/polymorph/tfield.py:55-57 | with a given type and no representation, the field is created exactly when `get_frepr` succeeds, holding its result |
| Fields.NewFieldInfers | build/lib/polymorph/tfield.py:59-66 | without a type, construction always succeeds, and the stored representation decodes from the stored type and mask |
| Fields.InferredTypeTests | build/lib/polymorph/tfield.py:74-106 | after inference, an int field holds its value in its byte order, a str field holds the decoded text, and a hex field holds the `0x` text of its bytes |
| Fields.Rename | build/lib/polymorph/tfield.py:108-115 | only the name changes, and it is lower-cased |
| Fields.RenameStoredName | build/lib/polymorph/tfield.py:108-115 | setting a field's name to its current name changes nothing |
| OrderedMap.Get | polymorph/tlayer.py:327-346 | a key is found exactly when it is present, with the value stored under it |
| OrderedMap.Pop | polymorph/tlayer.py:313-325 | `pop` raises KeyError exactly for an absent key; otherwise it removes that key alone and keeps the order of the rest |
| OrderedMap.MoveKey | build/lib/polymorph/template.py:199-218 | moving a present name keeps the same keys and puts the name at the clamped index; an absent name raises ValueError |
| OrderedMap.MoveKeyPreserves | build/lib/polymorph/template.py:199-218 | the other keys keep their relative order and the keys stay distinct |
| OrderedMap.MoveToValues | build/lib/polymorph/template.py:199-218 | reordering the dictionary leaves every key's value unchanged |
| Structs.Eval | polymorph/tlayer.py:274-276 | a `this.x` reference evaluates exactly when x is an integer already parsed; a true division never yields an integer width |
| Structs.FloatDividedByZero | polymorph/tlayer.py:274-276 | `1/2/0` is a closed division by zero, so the structure is never built, and as a width it is a float |
| Structs.ParseContext | polymorph/packet.py:116-123 | parsing a structure succeeds exactly when every segment fits in the buffer, and gives each segment's value under its name |
| Structs.ParsedPiece | polymorph/packet.py:116-123 | every parsed segment starts where the previous ones end and takes its width from its definition |
| Structs.FlensAreWidths | polymorph/packet.py:164-178 | `_getflens` gives each segment of a parsed structure its parsed width, in order |
| Structs.StartByteIsOffset | polymorph/packet.py:180-188 | `_get_start_byte` of a field is the total width of the segments before it |
| Structs.BlobValueAt | polymorph/packet.py:116-123 | a bytes segment's value is the buffer slice at its offset |
| Layers.NewLayer | polymorph/tlayer.py:15-52 | a new layer has the upper-cased name, the given fields, and no structures |
| Layers.Rename | polymorph/tlayer.py:76-83 | only the name changes, and it is upper-cased |
| Layers.AddField | polymorph/tlayer.py:290-311 | only the fields change |
| Layers.AddFieldFresh | polymorph/tlayer.py:304-306 | a new name is appended at the end with its field |
| Layers.AddFieldCollision | polymorph/tlayer.py:307-311 | a clashing name is stored under the name plus the random suffix, with the field renamed; the original entry stays |
| Layers.AddFieldOthers | polymorph/tlayer.py:290-311 | no other key changes |
| Layers.DelFieldRemoves | polymorph/tlayer.py:313-325 | deleting by field or by name fails with KeyError exactly for an absent key; otherwise that key alone is removed |
| Layers.GetField | polymorph/tlayer.py:327-346 | a field is found exactly when the lower-cased name is present, and it is the stored field |
| Layers.GetFieldCaseInsensitive | polymorph/tlayer.py:327-346 | lookups that differ only in ASCII case find the same field |
| Layers.GetAddedField | polymorph/tlayer.py:290-346 | a freshly added field is found under any spelling of its name |
| Layers.FieldNames | polymorph/tlayer.py:375-384 | the names of the fields, in order |
| Layers.AddFieldNamesMatch | polymorph/tlayer.py:290-384 | when every key equals its field's name, adding a field keeps that true, so `fieldnames` equals the keys |
| Layers.CustomFields | polymorph/tlayer.py:279-288 | exactly the custom fields are kept |
| Layers.SortByStart | polymorph/tlayer.py:259 | the dependencies are sorted by slice start and are a permutation of the input; the sort is stable, so the fields that start at the same byte (bit fields sharing a byte) keep their input order |
| Layers.InsertByStartStable | polymorph/tlayer.py:259 | inserting a field into a sorted list puts it ahead of every field with the same start, and leaves the order among those fields unchanged |
| Layers.SortByStartStep | polymorph/tlayer.py:259 | inserting the head into a stable sort of the tail gives a stable sort of the whole list |
| Layers.DepSegments | polymorph/tlayer.py:263-270 | each dependency contributes a padding segment up to its start and its numeric segment; an unsupported size raises KeyError |
| Layers.AllPresent | polymorph/tlayer.py:137 | a missing dependency (`getfield` gave None) raises AttributeError |
| Layers.CreateStruct | polymorph/tlayer.py:231-277 | building succeeds exactly when every dependency exists with a supported size, the target exists, and neither expression divides by zero; each failure gives its exception |
| Layers.Assemble | polymorph/tlayer.py:258-276 | the structure is one padding and one numeric segment per sorted dependency, then the target's padding and its bytes segment |
| Layers.CreateStructLayout | polymorph/tlayer.py:231-277 | with valid dependencies, the built structure is exactly the sorted layout, unless an expression divides by zero |
| Layers.AddStructStores | polymorph/tlayer.py:110-141 | the rule is always saved; the structure is stored exactly when building succeeds; on failure the structures are unchanged |
| Layers.DelStruct | polymorph/tlayer.py:155-165 | the field no longer has a structure and the others are unchanged; an absent name changes nothing |
| Layers.TestStruct | polymorph/tlayer.py:143-153 | without a structure the answer is None; otherwise it is the field's parsed value |
| Payload.Padded | polymorph/packet.py:40-44 | the stored buffer is 14 zero bytes followed by the payload |
| Payload.RawPadded | polymorph/packet.py:33-44 | reading `raw` back after setting it gives the payload |
| Payload.Length | polymorph/packet.py:30-31 | the length is that of the payload without the padding |
| Payload.EmptyPayloadFalsy | polymorph/packet.py:30-44 | a packet is falsy exactly when its payload is empty |
| Payload.Insert | polymorph/packet.py:77-95 | insertion fails exactly for a non-bytes value: ValueError when the indices are not increasing, TypeError otherwise; the padding is kept |
| Payload.InsertSplice | polymorph/packet.py:93-95 | the new payload is the old one with the slice between the indices (counted with the padding) replaced by the value |
| Payload.InsertReversed | polymorph/packet.py:90-95 | with reversed indices the value is still spliced in and the length grows accordingly |
| LegacyPackets.DecodeTagged | polymorph/packet.py:124-133 | int types read the bytes in their order; hex gives hex text; str decodes (failing exactly on invalid UTF-8); bytes are returned; other types give None |
| LegacyPackets.GetItem | polymorph/packet.py:116-133 | an unknown field raises KeyError; a plain field decodes its slice; a structure field decodes its parsed bytes |
| LegacyPackets.EncodeTagged | polymorph/packet.py:148-157 | int values encode exactly in range and read back; hex text encodes exactly when `fromhex` accepts it; str needs text; bytes are stored as given; other types cannot be assigned |
| LegacyPackets.SetItem | polymorph/packet.py:135-158 | an unknown field raises KeyError; a plain field's slice is replaced by the encoded value; a structure field is located by `_get_start_byte` |
| LegacyPackets.GetStruct | polymorph/packet.py:116-133 | a structure field reads the value the struct's parse of the whole buffer binds to its name, decoded by the field's type; the field's own slice plays no part |
| LegacyPackets.GetStructFails | polymorph/packet.py:116-121 | a structure field whose parse fails raises the parse error; one the parse binds nothing to raises KeyError |
| LegacyPackets.SetStruct | polymorph/packet.py:135-158 | a structure field bound to bytes is overwritten from the start byte `_get_start_byte` computes, over as many bytes as the parse bound, with the value encoded at that width; a field bound to an integer raises TypeError |
| LegacyPackets.SetStructFails | polymorph/packet.py:135-143 | a structure field whose parse, start byte or binding fails raises that error on a write |
| LegacyPackets.GetThenSet | polymorph/packet.py:116-158 | assigning a field the value just read from it leaves the buffer unchanged |
| LegacyPackets.SetIntThenGet | polymorph/packet.py:116-158 | after writing an in-range integer to a plain int field, reading it gives the integer, and the bytes outside the field are unchanged |
| LegacyPackets.EncodeDecoded | polymorph/packet.py:124-157 | every tagged decoding is re-encoded to the same bytes |
| LegacyPackets.LayerLength | polymorph/packet.py:160-162 | a layer's length is the number of bytes from its start to the end of the buffer |
| LegacyPackets.Layer | polymorph/packet.py:27-28 | a layer is found exactly when its name is present; otherwise KeyError |
| LegacyPackets.NewPacketLayers | polymorph/packet.py:14-25 | every template layer is reachable by name as its view, and other names raise KeyError |
| Packets.NewViewFields | build/lib/polymorph/packet.py:106-119 | each field's name maps to its slice, type, size and mask |
| Packets.GetItem | build/lib/polymorph/packet.py:121-130 | an unknown field raises KeyError; otherwise the field's bytes are decoded by `get_frepr` |
| Packets.StructFraw | build/lib/polymorph/packet.py:132-148 | bit fields inside a structure cannot be written (TypeError); an 8-byte NTP absolute time raises TypeError once `absolute2raw` has converted the value, because the parsed `fraw` is a Container that `fraw[4:]` cannot slice; every other type is encoded by `get_fraw` |
| Packets.SetItem | build/lib/polymorph/packet.py:132-148 | an unknown field raises KeyError; otherwise the field's bytes are replaced by the encoding of the value |
| Packets.GetThenSet | build/lib/polymorph/packet.py:121-148 | for a lossless plain field, assigning the value just read leaves the buffer unchanged |
| Packets.SetIntThenGet | build/lib/polymorph/packet.py:121-148 | after writing an integer to an int field, reading gives the integer back |
| Packets.LayerLength | build/lib/polymorph/packet.py:150-152 | a layer's length is the number of bytes from its start to the end of the buffer |
| Packets.NewPacket | build/lib/polymorph/packet.py:15-28 | a new packet is not dropped and has checksum recomputation on |
| Packets.Layer | build/lib/polymorph/packet.py:30-31 | a layer is found exactly when its name is present; otherwise KeyError |
| Packets.NewPacketLayers | build/lib/polymorph/packet.py:15-28 | every template layer is reachable by name as its view |
| Packets.SetRawThenRaw | build/lib/polymorph/packet.py:36-48 | after setting `raw`, reading it gives the payload, `len` is its length, and layers and flags are unchanged |
| Packets.InsertInto | build/lib/polymorph/packet.py:81-99 | insertion succeeds exactly for a bytes value and changes only the buffer |
| LegacyTemplates.NewTemplate | polymorph/template.py:24-50 | a new template has the three function groups, all empty, and no layers |
| LegacyTemplates.SetDescription | polymorph/template.py:87-92 | only str is accepted (TypeError otherwise), and only the description changes |
| LegacyTemplates.SetVersion | polymorph/template.py:99-104 | only str is accepted (TypeError otherwise), and only the version changes |
| LegacyTemplates.AddFunction | polymorph/template.py:336-394 | adding succeeds exactly for an existing group; otherwise KeyError |
| LegacyTemplates.AddThenGetFunction | polymorph/template.py:317-352 | a function just added to a group is returned by `get_function` |
| LegacyTemplates.GetFunction | polymorph/template.py:317-334 | lookup succeeds exactly when both the group and the name exist; otherwise KeyError |
| LegacyTemplates.DelFunctionRemoves | polymorph/template.py:170-181 | deleting removes the name from its group alone; the other groups are unchanged |
| LegacyTemplates.ChangeCondPos | polymorph/template.py:396-416 | an unknown group raises KeyError and an unknown name ValueError |
| LegacyTemplates.ChangeCondPosMoves | polymorph/template.py:396-416 | the name is moved to the clamped index within its group; the group keeps its keys and values, and the other groups are unchanged |
| LegacyTemplates.LayerNames | polymorph/template.py:418-427 | one name per layer |
| LegacyTemplates.AddLayerFresh | polymorph/template.py:429-450 | a new layer name is appended with its layer |
| LegacyTemplates.AddLayerCollision | polymorph/template.py:429-450 | a clashing name is stored under the name plus the random suffix |
| LegacyTemplates.DelLayerRemoves | polymorph/template.py:452-464 | deleting fails with KeyError exactly for an absent name; otherwise that layer alone is removed |
| LegacyTemplates.GetLayer | polymorph/template.py:477-496 | a layer is found exactly when the upper-cased name is present |
| LegacyTemplates.GetLayerCaseInsensitive | polymorph/template.py:477-496 | lookups that differ only in ASCII case find the same layer |
| LegacyTemplates.GetAddedLayer | polymorph/template.py:429-496 | a freshly added layer is found under any spelling of its name |
| LegacyTemplates.TemplateCustomLayers | polymorph/template.py:498-507 | exactly the custom layers are listed |
| Templates.NewTemplate | build/lib/polymorph/template.py:46-54 | a new template has no functions and the given layers |
| Templates.SetDescription | build/lib/polymorph/template.py:93-98 | only str is accepted (TypeError otherwise), and only the description changes |
| Templates.SetVersion | build/lib/polymorph/template.py:105-110 | only str is accepted (TypeError otherwise), and only the version changes |
| Templates.AddFunction | build/lib/polymorph/template.py:185-197 | the function is stored under its name and nothing else changes |
| Templates.DelFunction | build/lib/polymorph/template.py:128-137 | deleting raises KeyError exactly for an absent name; otherwise that function alone is removed |
| Templates.ChangeFuncPos | build/lib/polymorph/template.py:199-218 | an unknown name raises ValueError |
| Templates.ChangeFuncPosMoves | build/lib/polymorph/template.py:199-218 | the function moves to the clamped index, the others keep their order, and every name keeps its function |
| Templates.NewLname | build/lib/polymorph/template.py:253-261 | the name returned is not yet used; an unused name is kept as is; an empty used name raises IndexError |
| Templates.NewLnameNine | build/lib/polymorph/template.py:253-261 | `X9` clashing becomes `X10` |
| Templates.NewLnameCounts | build/lib/polymorph/template.py:253-261 | `IP` clashing with `IP` and `IP2` becomes `IP3` |
| Templates.AddLayer | build/lib/polymorph/template.py:231-251 | adding fails only when an empty name is already used, and changes only the layers |
| Templates.AddLayerAppends | build/lib/polymorph/template.py:231-251 | the layer is appended under an unused key |
| Templates.DelLayerRemoves | build/lib/polymorph/template.py:263-275 | deleting fails with KeyError exactly for an absent name; otherwise that layer alone is removed |
| Templates.GetLayer | build/lib/polymorph/template.py:288-307 | a layer is found exactly when the upper-cased name is present |
| Templates.GetLayerCaseInsensitive | build/lib/polymorph/template.py:288-307 | lookups that differ only in ASCII case find the same layer |
| LegacyTemplateLists.NewTList | polymorph/tlist.py:12-28 | a new list holds no templates yet, only the generator, the length and the names |
| LegacyTemplateLists.Name | polymorph/tlist.py:89-93 | a template's name is `Template:` followed by its layer names joined by `/` |
| LegacyTemplateLists.Pulled | polymorph/tlist.py:41-45 | pulling k templates appends the next k generated templates, each renamed |
| LegacyTemplateLists.GetItem | polymorph/tlist.py:30-46 | the length never changes; an index at or past the length raises IndexError; an already generated index is returned without generating |
| LegacyTemplateLists.GetItemGenerates | polymorph/tlist.py:30-46 | an index not yet generated pulls the generator up to it, and the list stays well formed |
| LegacyTemplateLists.GetItemKeepsGood | polymorph/tlist.py:30-46 | every access keeps the list well formed |
| LegacyTemplateLists.RepeatedAccessCached | polymorph/tlist.py:30-46 | a second access to the same index returns the same template without generating |
| LegacyTemplateLists.ShortGeneratorReturnsLast | polymorph/tlist.py:30-46 | when the generator is exhausted before the index, the last generated template is returned |
| LegacyTemplateLists.GenerateAll | polymorph/tlist.py:84-87 | every remaining template is generated, after those already held |
| TemplateLists.NewTList | build/lib/polymorph/tlist.py:12-27 | every template is generated at once, and each name is that template's name |
| TemplateLists.GetItem | build/lib/polymorph/tlist.py:29-31 | index i is the i-th template counted from 1; 0 and negative indices wrap from the end; others raise IndexError |
| TemplateLists.NamesMatchAccess | build/lib/polymorph/tlist.py:12-31 | the i-th name is the name of the template at index i |
| TemplateLists.PastEndRaises | build/lib/polymorph/tlist.py:29-31 | the index one past the end raises IndexError |
| Checksum.PadEven | build/lib/polymorph/interceptor.py:163-164 | odd data gets one zero byte appended |
| Checksum.HostOrderChecksum | build/lib/polymorph/interceptor.py:162-169 | for data up to 128 KiB, the bytes packed on a little-endian host are the big-endian RFC 1071 checksum |
| Checksum.ChecksumVerifies | build/lib/polymorph/interceptor.py:162-169 | storing the checksum of data into a zeroed, even-aligned two-byte field makes the checksum of the result zero |
| Interceptors.FieldValue | build/lib/polymorph/interceptor.py:171-266 | an absent layer raises KeyError; otherwise the field is read through the packet view |
| Interceptors.SetField | build/lib/polymorph/interceptor.py:171-266 | an absent layer raises KeyError; a write changes only the buffer |
| Interceptors.Guard | build/lib/polymorph/interceptor.py:174-184 | without the layer the guard is false; otherwise it holds exactly when the field reads the given integer |
| Interceptors.LayerLen | build/lib/polymorph/packet.py:150-152 | a layer's length plus its start is the buffer length; a start past the end would make `__len__` negative, which `len` rejects with ValueError |
| Interceptors.PackHeader | build/lib/polymorph/interceptor.py:186-191 | the pseudo-header packs exactly when the length fits 16 bits, and has two addresses plus four bytes |
| Interceptors.PackHeaderFields | build/lib/polymorph/interceptor.py:186-191 | the pseudo-header holds source, destination, a zero byte, the protocol and the big-endian length, in that order |
| Interceptors.ChksumAsWritten | build/lib/polymorph/interceptor.py:162-169 | the checksum helper always raises NameError, because `array` is not imported |
| Interceptors.RecChksumsAsWrittenRaises | build/lib/polymorph/interceptor.py:173-181 | as written, an IPv4 packet whose checksum field can be zeroed raises NameError at the header checksum, with or without a transport layer |
| Interceptors.FirstTransportAsWrittenRaises | build/lib/polymorph/interceptor.py:183-262 | as written, the first transport branch whose layer is present and whose protocol number the IP layer names raises NameError once its checksum field is zeroed |
| Interceptors.RecChksumsAsWrittenRaisesIpv6 | build/lib/polymorph/interceptor.py:221-262 | as written, an IPv6 packet with a TCP, ICMPV6 or UDP layer whose protocol `nxt` names raises NameError, when the pseudo-header packs and the checksum field can be zeroed |
| Interceptors.RecChksumsAsWrittenKeeps | build/lib/polymorph/interceptor.py:158-269 | as written, a recomputation that does not raise returns the packet unchanged |
| Interceptors.Chksum | build/lib/polymorph/interceptor.py:162-169 | the corrected helper always succeeds with four hex digits |
| Interceptors.ChksumIsNet | build/lib/polymorph/interceptor.py:162-169 | the four hex digits are the big-endian RFC 1071 checksum |
| Interceptors.StoreChecksum | build/lib/polymorph/interceptor.py:192-195 | an absent layer raises KeyError; success changes only the buffer |
| Interceptors.StoreChecksumVerifies | build/lib/polymorph/interceptor.py:192-195 | after recomputation, the checksum over pseudo-header and transport region is zero, so a receiver accepts the segment |
| Interceptors.RecChksums | build/lib/polymorph/interceptor.py:158-269 | recomputation changes only the buffer, and leaves a packet without an IP layer unchanged |
| Interceptors.Run | build/lib/polymorph/interceptor.py:67-82 | a drop stops with the drop flag set; a falsy return forwards the original or the current payload; an empty forward comes from an empty original |
| Interceptors.Modify | build/lib/polymorph/interceptor.py:53-89 | as written: a drop verdict means the packet's flag is set; a forward carries the original payload or the current buffer; an empty forward comes from an empty original; after a completed chain the stored packet is the chain's last one, since the recomputation either raises or changes nothing |
| Interceptors.ModifyIntended | build/lib/polymorph/interceptor.py:53-89 | with the corrected checksum: a drop verdict means the packet's flag is set; a forward carries the original payload or the current buffer; a chain that stops early has the same outcome as the code as written |
| Interceptors.RecomputeAsWritten | build/lib/polymorph/interceptor.py:83-89 | as written, with recomputation on, a completed chain forwards the unchanged buffer or raises the recomputation's error |
| Interceptors.ModifyAsWrittenRaises | build/lib/polymorph/interceptor.py:83-89 | as written, a completed chain over an IPv4 packet with recomputation on ends in NameError, not a forward |
| Interceptors.DropStops | build/lib/polymorph/interceptor.py:76-79 | once a function sets the drop flag, no later function runs |
| Interceptors.DropFlagPersists | build/lib/polymorph/interceptor.py:53-89 | the stored packet keeps its drop flag, so the next packet is dropped too |
| Interceptors.WindowsFalsyOriginal | build/lib/polymorph/interceptor.py:91-127 | on Windows a falsy return forwards the original payload |
| Interceptors.NoRecomputeForwards | build/lib/polymorph/interceptor.py:83-89 | with recomputation off, the packet is forwarded with the functions' payload |
| Interceptors.RecomputeBeforeForward | build/lib/polymorph/interceptor.py:83-89 | with the corrected checksum and recomputation on, the forwarded payload is the recomputed buffer, and a failing recomputation raises its error |
| Interceptors.EmptyChainForwards | build/lib/polymorph/interceptor.py:53-89 | without functions the payload is forwarded as received |
| Interceptors.BufferForgotten | build/lib/polymorph/interceptor.py:64-65 | the previous packet's buffer has no influence on the next verdict |
| Interception.FalsyVerdict | polymorph/interceptor.py:70-76 | a falsy return forwards; on Linux with a non-empty current packet the forward carries its payload, otherwise the original |
| LegacyInterceptors.Chain | polymorph/interceptor.py:34-42 | the chain has all preconditions, then executions, then postconditions; a missing group raises KeyError |
| LegacyInterceptors.NewTemplateChain | polymorph/interceptor.py:34-42 | a new template has an empty chain |
| LegacyInterceptors.AddExecutionChain | polymorph/interceptor.py:34-42 | an added execution runs after the preconditions and the earlier executions |
| LegacyInterceptors.Run | polymorph/interceptor.py:67-79 | the first version never drops; a forward carries the original or the current payload |
| LegacyInterceptors.Modify | polymorph/interceptor.py:53-115 | never drops; a forward carries the received payload or the current buffer |
| LegacyInterceptors.FalsyStops | polymorph/interceptor.py:72-76 | a falsy first return stops the chain |
| LegacyInterceptors.WindowsFalsyOriginal | polymorph/interceptor.py:106-108 | on Windows a falsy return forwards the received packet |
| LegacyInterceptors.LinuxNoneKeepsRewrite | polymorph/interceptor.py:72-76 | on Linux a falsy return after the packet was rewritten forwards the rewrite |
| LegacyInterceptors.EmptyChainForwards | polymorph/interceptor.py:53-83 | without functions the payload is forwarded as received |
| LegacyInterceptors.BufferForgotten | polymorph/interceptor.py:64-65 | the previous packet's buffer has no influence on the next verdict |
| CommandParsing.InitArgs | polymorph/UI/command_parser.py:6-10 | every option starts at its default |
| CommandParsing.InitDefaults | polymorph/UI/command_parser.py:6-10 | an option's argument is its default, and an unknown name has none |
| CommandParsing.ParseDecimal | polymorph/UI/command_parser.py:40-45 | a number is parsed exactly for decimal text |
| CommandParsing.ParseString | polymorph/UI/command_parser.py:47-60 | an unquoted word is returned unless it ends in a quote |
| CommandParsing.QuotedString | polymorph/UI/command_parser.py:47-56 | a quoted phrase over several words is joined by spaces, and its quotes stripped |
| CommandParsing.Parse | polymorph/UI/command_parser.py:12-38 | a bare command succeeds with the defaults; parsing never adds or removes option names |
| CommandParsing.UnknownOption | polymorph/UI/command_parser.py:36-37 | an unknown option fails and keeps the arguments |
| CommandParsing.FlagSet | polymorph/UI/command_parser.py:16-18 | a flag sets its option to true and parsing continues |
| CommandParsing.NumberOption | polymorph/UI/command_parser.py:19-26 | a number option takes a non-zero decimal value; zero or other text fails |
| CommandParsing.NumberRoundTrip | polymorph/UI/command_parser.py:12-45 | an option given the numeral of n is set to n |
| CommandParsing.NumberMissing | polymorph/UI/command_parser.py:21 | a number option at the end of the command fails |
| CommandParsing.EmptyQuotedRejected | polymorph/UI/command_parser.py:28-34 | an empty quoted string is rejected |
| CommandParsing.FailureKeepsEarlierOptions | polymorph/UI/command_parser.py:14-37 | options set before a failure stay set |
| Values.IntFromBytes | polymorph/value.py:41-42 | an int value is read in its byte order; no order raises TypeError |
| Values.GuessRepr | polymorph/value.py:38-58 | without a type, text is tried first and a non-UTF-8 value falls back to a big-endian int; the stored value always agrees with the stored type |
| Values.ToInt | polymorph/value.py:60-62 | the value becomes the integer read in the given order, with a matching type |
| Values.ToStr | polymorph/value.py:64-66 | the value becomes the decoded text, or UnicodeDecodeError |
| Values.Hex | polymorph/value.py:29-32 | the hex text decodes to the raw bytes, and the type becomes hex text |
| Values.ToHex | polymorph/value.py:68-70 | the value becomes hex text that decodes to the raw bytes |
| Values.AsBytes | polymorph/value.py:21-24 | `bytes(v)` is the raw value, and the type becomes bytes |
| Values.ToBytesValue | polymorph/value.py:72-74 | the value becomes the raw bytes |
| Values.ConversionsConsistent | polymorph/value.py:60-74 | every explicit conversion keeps the value consistent with its type |
| Values.ToIntRoundTrip | polymorph/value.py:60-62 | the integer converted back at the same size restores the bytes |
| Values.SideEffectsDesynchronise | polymorph/value.py:21-32 | `hex()` and `bytes()` change the type but not the value, so a non-text value becomes inconsistent |
| Values.UntypedFallbackRoundTrip | polymorph/value.py:52-58 | the big-endian fallback encodes back to the raw bytes |
| CliHelpers.Cast | polymorph/CLI/cli.py:80-86 | an `int` pattern parses or raises ValueError; a `bytes` pattern is encoded; other patterns stay text |
| CliHelpers.CastFrom | polymorph/CLI/cli.py:78-87 | each part is cast by its type, and casting fails exactly when one part fails |
| CliHelpers.GetPatterns | polymorph/CLI/cli.py:61-87 | one pattern per `;`-separated part; parts beyond the types stay text |
| CliHelpers.UntypedPatternsRoundTrip | polymorph/CLI/cli.py:78-87 | joining parts without `;` by `;` and splitting again gives the parts |
| CliHelpers.IntPatternRoundTrip | polymorph/CLI/cli.py:78-87 | the decimal numeral of n, typed `int`, becomes the pattern n |
| CliHelpers.IntHex | polymorph/CLI/cli.py:173-174 | `format(i, 'x')`: lower-case hex, with a minus sign for negatives |
| CliHelpers.PatternHexAsWritten | polymorph/CLI/cli.py:172-176 | a bytes pattern raises AttributeError; text is encoded then hex-printed |
| CliHelpers.PatternMatchAsWritten | polymorph/CLI/cli.py:168-179 | the match holds exactly when every pattern's hex occurs in the packet's hex; a bytes pattern raises |
| CliHelpers.PatternHex | polymorph/CLI/cli.py:172-176 | the corrected hex: a bytes pattern is hex-printed directly; otherwise as written |
| CliHelpers.PatternMatch | polymorph/CLI/cli.py:168-179 | the corrected match holds exactly when every pattern's hex occurs in the packet's hex |
| CliHelpers.BytesPatternRaises | polymorph/CLI/cli.py:85-86 | a pattern typed `bytes` always makes the as-written match raise AttributeError |
| CliHelpers.BytesInPacketMatch | polymorph/CLI/cli.py:168-179 | a bytes pattern that occurs in the packet matches, once corrected |
| CliHelpers.UnalignedMatch | polymorph/CLI/cli.py:168-179 | hex matching is textual, so `0x11` matches the bytes `01 10` across a byte boundary |
| CliHelpers.Collect | polymorph/CLI/cli.py:432-437 | every `this.` token contributes its name once, in first-seen order, and nothing else is added |
| CliHelpers.ExtracDeps | polymorph/CLI/cli.py:429-437 | the dependencies are distinct and are exactly the names after `this.` in either expression |
| CliHelpers.ThisPrefix | polymorph/CLI/cli.py:435-436 | `this.x` yields x, while `(this.x` yields `.x` |
| CliHelpers.Precondition | polymorph/CLI/cli.py:443-454 | as written: an exhausted count gives None; the packet is returned exactly when every pattern matches; a bytes pattern raises AttributeError |
| CliHelpers.PreconditionIntended | polymorph/CLI/cli.py:443-454 | corrected: the packet is returned exactly when the count is not exhausted and every pattern occurs |
| CliHelpers.PreconditionAgrees | polymorph/CLI/cli.py:443-454 | without bytes patterns the two agree; a single bytes pattern raises as written |
| CliHelpers.Execution | polymorph/CLI/cli.py:457-462 | the insert count grows by one, and the layers and values to insert are unchanged |
| CliHelpers.ExecutionWritesInt | polymorph/CLI/cli.py:457-462 | writing an int value into an int field succeeds, reads back, and leaves the bytes outside the field alone |
| CliHelpers.Offset | polymorph/CLI/cli.py:469-470 | an offset parses exactly when its text without backslashes is a numeral; otherwise ValueError |
| CliHelpers.Encode | polymorph/CLI/cli.py:471 | only text values can be encoded; others raise AttributeError |
| CliHelpers.InsertOne | polymorph/CLI/cli.py:467-471 | an insertion changes only the buffer |
| CliHelpers.Execution2 | polymorph/CLI/cli.py:465-472 | the insert count grows by one, and layers and values are unchanged |
| CliHelpers.Execution2Splices | polymorph/CLI/cli.py:465-472 | `a:b` with text s splices the encoded text between offsets a and b of the padded buffer |
| Bytes.ToBytes | polymorph/converter.py:20-23 | `int.to_bytes` succeeds exactly in range, otherwise OverflowError, and reads back |
| Bytes.ToBytesFromBytes | polymorph/converter.py:15-33 | reading bytes as an integer and writing it at the same size restores them |
| Bytes.PySlice | polymorph/packet.py:123 | Python slicing: equal to Dafny slicing for in-range indices, never longer than the sequence |
| Bytes.SpliceTwice | polymorph/packet.py:158 | writing a field twice keeps only the second value |
| Bytes.SpliceSelf | polymorph/packet.py:158 | writing a field's own bytes back changes nothing |
| Text.ParseIntOfNumeral | polymorph/CLI/cli.py:84 | `int` of a decimal numeral gives the number |
| Text.LowerIdempotent | build/lib/polymorph/tfield.py:43 | lower-casing twice is lower-casing once |
| Text.UpperIdempotent | polymorph/tlayer.py:81-83 | upper-casing twice is upper-casing once |

## Left out

- Env callbacks stand in for UTF-8 `encode`/`decode`, IP address text (`inet_ntop`), address packing (`inet_aton`, `inet_pton`), and the absolute-time conversions `raw2absolute`/`absolute2raw` (`absRaw`/`absText`). Their behaviour is a parameter, and `Converter.Utf8Consistent` states the one property the round trips need.
- Randomness: the three-digit suffix that the first generation's `addfield`/`addlayer` append on a name clash is a parameter `rand <= 999`.
- `eval` of the struct expressions: an `Expr` AST (literals, `this.x`, `+ - * /`) replaces Python's `eval` of arbitrary text. Closed sub-expressions are evaluated over exact reals for the build-time division check, so float rounding is not modelled.
- The construct library's errors beyond a short buffer (StreamError) are folded into one parse failure.
- `polymorph/tfield.py`, `build/lib/polymorph/tlayer.py` and the construct library are not part of this model. The newer packet view takes each field's slice, type, size and mask as data.
- Both generations keep the packet bytes in one module-global `raw` (polymorph/packet.py:8; build/lib/polymorph/packet.py:8, 36-48, 83-109 and 121-148), so every packet and layer object alive at once shares one buffer. The model gives each packet its own buffer: LegacyPackets passes it explicitly and Packets keeps it in the packet's `buf`. Writes through one packet showing up in another are not modelled.
- Stepped slices (`s[a:b:c]`) do not occur in the core and are not modelled.
- Text.FromHex: `bytes.fromhex` skips ASCII whitespace between digit pairs; the model rejects any whitespace.
- Text.ParseInt: Python's `int()` also accepts surrounding whitespace, `_` digit separators and non-ASCII Unicode digits; the model accepts only an optional sign followed by ASCII digits.
- Text.IsDigit: ASCII digits only, where `str.isdigit` also accepts other Unicode digits.
- Text.IsDecimal: ASCII digits only, where `str.isdecimal` also accepts other Unicode decimal digits.
- Text.Lower: ASCII case only, where `str.lower` maps all Unicode letters.
- Text.Upper: ASCII case only, where `str.upper` maps all Unicode letters.
- Checksum.HostOrderChecksum: proved for data up to 128 KiB only, where the 32-bit sum in the proof cannot overflow. IP packets are far shorter.
- Checksum: `array("H")` and `struct.pack("H")` use the host byte order, and the model fixes it as little-endian. On a big-endian host the two byte swaps cancel, so the same checksum results.
- Interceptors.Run and LegacyInterceptors.Run: a template function is modelled as returning the given packet (possibly rewritten), a falsy value, or raising. A function that returns some other truthy object (for example `True`) would replace the interceptor's packet (polymorph/interceptor.py:70-78, build/lib/polymorph/interceptor.py:68-79), and that path is not modelled.
- Interceptors.ModifyIntended: the clause about an empty forwarded payload also allows the case where checksums were recomputed, because the model does not prove that recomputation keeps the buffer length. Interceptors.Modify, the code as written, needs no such exception.
- Templates.NewLname: `str.isnumeric` also accepts characters such as '½' or '五', and for those `int()` raises ValueError (build/lib/polymorph/template.py:256). The model tests for ASCII digits only, so it appends `2` to such a name instead of raising.
- The state of the packet after `_rec_chksums` raises halfway is not modelled; the whole call is an error.
- IPv4 checksum recomputation takes the IP header length as 20 bytes, as the source does; IP options are not modelled.
- netfilterqueue, WinDivert, iptables and `subprocess` calls, capturing, printing, `show` methods, template `write`/`read` to disk, dill serialisation of functions (`get_function` returns the stored value), timestamps and the global variable store are I/O and are left out.
- LegacyTemplateLists.Pulled: each new name is written at the position just appended. The source finds that position with `list.index(item)`, which differs only if one template object is generated twice.

## Findings

| source | as written | input that shows it | evidently intended | confidence | as-written member | corrected member |
|---|---|---|---|---|---|---|
| polymorph/converter.py:62 | `bin2raw` splices `field_bin_inv[ones[0]:ones[-1]]`, which stops before the mask's lowest set bit, so that bit is never written | field 3, raw `A5`, mask `F0`, size 1, big-endian: result `25`, which reads back as 2 | splice up to and including `ones[-1]`: result `35`, which reads back as 3 | not executed | BitFields.BinToRawAsWritten, BitFields.AsWrittenKeepsLowestBit, BitFields.BinToRawLowestBitExample, Converter.BinFieldWriteKeepsLowestBit | BitFields.BinToRaw, BitFields.BinToRawRoundTrip |
| build/lib/polymorph/interceptor.py:165 | `chksum` calls `array.array` but the file never imports `array` | any IPv4 packet when checksums are recomputed (`rec_chksums` is on by default), even without a transport layer, or an IPv6 packet with a TCP, ICMPV6 or UDP layer that its `nxt` names: NameError | import `array` and compute the Internet checksum | not executed | Interceptors.ChksumAsWritten, Interceptors.RecChksumsAsWrittenRaises, Interceptors.RecChksumsAsWrittenRaisesIpv6, Interceptors.Modify, Interceptors.ModifyAsWrittenRaises | Interceptors.Chksum, Interceptors.ChksumIsNet, Interceptors.StoreChecksumVerifies, Interceptors.ModifyIntended, Interceptors.RecomputeBeforeForward |
| polymorph/CLI/cli.py:451 | `precondition` and `pattern_match` (line 176) call `.encode()` on every non-int pattern, but a pattern typed `bytes` was already encoded by `_get_patterns` (line 86) | pattern `abc` typed `bytes`: `b'abc'.encode()` raises AttributeError | hex-print a bytes pattern directly | not executed | CliHelpers.Precondition, CliHelpers.PatternMatchAsWritten, CliHelpers.BytesPatternRaises | CliHelpers.PreconditionIntended, CliHelpers.PatternMatch, CliHelpers.PreconditionAgrees |

=== FILE: bitfields.dfy ===
/** Masked bit fields (`raw2bin`, `raw2maskbin`, `bin2raw` of
    `polymorph/converter.py`): a field whose value occupies the set bits of
    a mask within the bytes it shares with its neighbours. */
module BitFields {
  import opened Wrappers
  import opened Bytes
  import opened Text
  import opened Bits

  /** `x << t`. */
  function Shl(x: int, t: nat): (r: int)
    ensures x >= 0 ==> r >= 0
  {
    if t == 0 then x else 2 * Shl(x, t - 1)
  }

  /** `x >> t` for a non-negative `x`. */
  function Shr(x: nat, t: nat): nat
  {
    if t == 0 then x else Shr(x / 2, t - 1)
  }

  lemma {:induction false} ShrBit(x: nat, t: nat, j: nat)
    ensures Bit(Shr(x, t), j) == Bit(x, j + t)
  {
    if t > 0 {
      ShrBit(x / 2, t - 1, j);
      assert Bit(x, j + t) == Bit(x / 2, j + t - 1);
    }
  }

  lemma {:induction false} ShrMonotone(x: nat, y: nat, t: nat)
    requires x <= y
    ensures Shr(x, t) <= Shr(y, t)
  {
    if t > 0 {
      ShrMonotone(x / 2, y / 2, t - 1);
    }
  }

  /** The bits of `v` under `mask`, shifted down by `t`. */
  function MaskedBits(v: nat, mask: nat, t: nat): (r: nat)
    ensures r <= Shr(mask, t)
    ensures mask == 0 ==> r == 0
  {
    AndBound(v, mask);
    ShrMonotone(And(v, mask), mask, t);
    ShrZero(t);
    Shr(And(v, mask), t)
  }

  /** `raw2bin`: the masked bits of the decoded integer, shifted down by the
      number of trailing zeros of the mask spelled at `8 * fsize` bits. */
  function RawToBin(fraw: bytes, mask: nat, fsize: nat, order: Order): (r: nat)
    ensures r <= Shr(mask, MaskShift(mask, 8 * fsize))
    ensures mask == 0 ==> r == 0
    ensures mask > 0 ==> r == MaskedBits(FromBytes(fraw, order), mask, TrailingZeros(mask))
  {
    if mask > 0 then
      MaskShiftPositive(mask, 8 * fsize);
      MaskedBits(FromBytes(fraw, order), mask, MaskShift(mask, 8 * fsize))
    else
      MaskedBits(FromBytes(fraw, order), mask, MaskShift(mask, 8 * fsize))
  }

  lemma {:induction false} ShrZero(t: nat)
    ensures Shr(0, t) == 0
  {
    if t > 0 {
      ShrZero(t - 1);
    }
  }

  /** Bit `j` of the masked bits is bit `j + tz` of `v` when the mask has that bit set, else 0. */
  lemma MaskedBitsBit(v: nat, mask: nat, j: nat)
    requires mask > 0
    ensures Bit(MaskedBits(v, mask, TrailingZeros(mask)), j)
         == if Bit(mask, j + TrailingZeros(mask)) == 1 then Bit(v, j + TrailingZeros(mask)) else 0
  {
    var t := TrailingZeros(mask);
    ShrBit(And(v, mask), t, j);
    AndBit(v, mask, j + t);
  }

  /** `raw2maskbin`: the mask complementing `prev_mask` within `8 * fsize` bits,
      and `raw2bin` under it. `int("", 2)` makes a zero size a ValueError. */
  function RawToMaskBin(fraw: bytes, prevMask: nat, fsize: nat, order: Order): (r: Result<(nat, nat)>)
    ensures r.Ok? <==> fsize > 0
    ensures r.Err? ==> r.error == ValueError
    ensures r.Ok? ==> r.value.0 == RawToBin(fraw, r.value.1, fsize, order)
    ensures r.Ok? ==> r.value.1 == Xor(prevMask, Pow2(8 * fsize) - 1)
  {
    if fsize == 0 then Err(ValueError)
    else
      var newMask := Xor(prevMask, Pow2(8 * fsize) - 1);
      Ok((RawToBin(fraw, newMask, fsize, order), newMask))
  }

  /** Within the field's width the new mask is disjoint from the previous one and together they cover every bit. */
  lemma RawToMaskBinComplement(fraw: bytes, prevMask: nat, fsize: nat, order: Order)
    requires fsize > 0
    requires prevMask < Pow2(8 * fsize)
    ensures RawToMaskBin(fraw, prevMask, fsize, order).Ok?
    ensures And(prevMask, RawToMaskBin(fraw, prevMask, fsize, order).value.1) == 0
    ensures prevMask + RawToMaskBin(fraw, prevMask, fsize, order).value.1 == Pow2(8 * fsize) - 1
  {
    var r := RawToMaskBin(fraw, prevMask, fsize, order);
    assert r.value.1 == Xor(prevMask, Pow2(8 * fsize) - 1);
    XorComplement(prevMask, 8 * fsize);
  }

  /** XOR with `w` one-bits gives the complement: disjoint, and covering every bit. */
  lemma XorComplement(p: nat, w: nat)
    requires p < Pow2(w)
    ensures And(p, Xor(p, Pow2(w) - 1)) == 0
    ensures p + Xor(p, Pow2(w) - 1) == Pow2(w) - 1
  {
    XorAllOnes(p, w);
    AndComplement(p, w);
  }

  /** Index of the first '1' of a binary spelling. */
  function FirstOne(s: string): (k: nat)
    requires '1' in s
    ensures k < |s| && s[k] == '1'
    ensures forall i :: 0 <= i < k ==> s[i] != '1'
  {
    if s[0] == '1' then 0 else 1 + FirstOne(s[1..])
  }

  /** Index of the last '1' of a binary spelling. */
  function LastOne(s: string): (k: nat)
    requires '1' in s
    ensures k < |s| && s[k] == '1'
    ensures forall i :: k < i < |s| ==> s[i] != '1'
  {
    if s[|s| - 1] == '1' then |s| - 1
    else
      assert '1' in s[..|s| - 1] by {
        var i :| 0 <= i < |s| && s[i] == '1';
        assert s[..|s| - 1][i] == '1';
      }
      LastOne(s[..|s| - 1])
  }

  /** The binary spelling `bin2raw` builds: the prior bytes' `8 * fsize`-bit
      spelling with the range from the mask's first set bit replaced by the
      same range of `field << tz`. The source slices the new bits as
      `[ones[0]:ones[-1]]`; `inclusive` extends that range to `ones[-1]`.
      None: the mask has no set bit, where the source's `ones[0]` fails. */
  function NewBin(field: int, fraw: bytes, mask: nat, fsize: nat, order: Order, inclusive: bool): Option<string>
  {
    var w := 8 * fsize;
    var maskBin := BinFormat(mask, w);
    var tz := StripCount(maskBin);
    var fieldBin := BinFormat(Shl(field, tz), w);
    if '1' !in maskBin then None
    else
      var first := FirstOne(maskBin);
      var last := LastOne(maskBin) + (if inclusive then 1 else 0);
      var oldBin := BinFormat(FromBytes(fraw, order), w);
      Some(PyTo(oldBin, first) + PySlice(fieldBin, first, last) + PyFrom(oldBin, last))
  }

  /** The shared body of `bin2raw`: parse the spliced spelling and encode it
      at the field's size. */
  function BinSplice(field: int, fraw: bytes, mask: nat, fsize: nat, order: Order, inclusive: bool): Result<bytes>
  {
    match NewBin(field, fraw, mask, fsize, order, inclusive)
    case None => Err(IndexError)
    case Some(newBin) =>
      var newVal :- ParseBinary(newBin);
      ToBytes(newVal, fsize, order)
  }

  /** `bin2raw` as written: the lowest set bit of the mask is copied from the prior bytes. */
  function BinToRawAsWritten(field: int, fraw: bytes, mask: nat, fsize: nat, order: Order): (r: Result<bytes>)
    ensures mask == 0 ==> r == Err(IndexError)
    ensures r.Ok? ==> |r.value| == fsize
  {
    MaskZeroHasNoOne(8 * fsize);
    BinSplice(field, fraw, mask, fsize, order, false)
  }

  /** `bin2raw` as evidently intended: every bit from the mask's first to its last set bit is rewritten. */
  function BinToRaw(field: int, fraw: bytes, mask: nat, fsize: nat, order: Order): (r: Result<bytes>)
    ensures mask == 0 ==> r == Err(IndexError)
    ensures r.Ok? ==> |r.value| == fsize
  {
    MaskZeroHasNoOne(8 * fsize);
    BinSplice(field, fraw, mask, fsize, order, true)
  }

  lemma MaskZeroHasNoOne(w: nat)
    ensures '1' !in BinFormat(0, w)
  {
  }

  /** The conditions under which the spliced spelling stays a `8 * fsize`-bit number. */
  predicate BinInRange(field: int, fraw: bytes, mask: nat, fsize: nat)
  {
    && fsize >= 1
    && |fraw| == fsize
    && 0 < mask < Pow2(8 * fsize)
    && 0 <= field
    && Shl(field, TrailingZeros(mask)) < Pow2(8 * fsize)
  }

  lemma FromBytesBound(fraw: bytes, order: Order)
    ensures FromBytes(fraw, order) < Pow2(8 * |fraw|)
  {
    BeValueBound(fraw);
    LeValueBound(fraw);
    Pow256IsPow2(|fraw|);
  }

  /** `a[:first] + b[first:stop] + a[stop:]` for equal-length spellings. */
  function Spliced(a: string, b: string, first: nat, stop: nat): (r: string)
    requires first <= stop <= |a| == |b|
    ensures |r| == |a|
    ensures forall k :: 0 <= k < |a| ==> r[k] == if first <= k < stop then b[k] else a[k]
  {
    a[..first] + b[first..stop] + a[stop..]
  }

  /** The positions the splice takes from the new value: from the mask's
      first set bit up to its last set bit, exclusive as written. */
  function SpliceStart(mask: nat, w: nat): (k: nat)
    requires 0 < mask < Pow2(w)
    ensures k < w
  {
    MaskHasOne(mask, w);
    FirstOne(BitString(mask, w))
  }

  function SpliceStop(mask: nat, w: nat, inclusive: bool): (k: nat)
    requires 0 < mask < Pow2(w)
    ensures SpliceStart(mask, w) <= k <= w
  {
    MaskHasOne(mask, w);
    LastOne(BitString(mask, w)) + (if inclusive then 1 else 0)
  }

  /** In range, the spliced spelling: prior bits outside the splice range, bits of `field << tz` inside it. */
  function SplicedBits(field: int, fraw: bytes, mask: nat, fsize: nat, order: Order, inclusive: bool): (r: string)
    requires BinInRange(field, fraw, mask, fsize)
    ensures |r| == 8 * fsize
  {
    var w := 8 * fsize;
    Spliced(BitString(FromBytes(fraw, order), w), BitString(Shl(field, TrailingZeros(mask)), w),
            SpliceStart(mask, w), SpliceStop(mask, w, inclusive))
  }

  /** In range, the source's string splice is the splice of the two `8 * fsize`-bit spellings. */
  lemma NewBinIsSpliced(field: int, fraw: bytes, mask: nat, fsize: nat, order: Order, inclusive: bool)
    requires BinInRange(field, fraw, mask, fsize)
    ensures NewBin(field, fraw, mask, fsize, order, inclusive) == Some(SplicedBits(field, fraw, mask, fsize, order, inclusive))
  {
    var w := 8 * fsize;
    var tz := TrailingZeros(mask);
    MaskShiftPositive(mask, w);
    BinFormatIsBitString(mask, w);
    var fv := Shl(field, tz);
    BinFormatIsBitString(fv, w);
    var prior := FromBytes(fraw, order);
    FromBytesBound(fraw, order);
    BinFormatIsBitString(prior, w);
    var first := SpliceStart(mask, w);
    var stop := SpliceStop(mask, w, inclusive);
    var priorBin := BitString(prior, w);
    var fieldBin := BitString(fv, w);
    assert PyTo(priorBin, first) + PySlice(fieldBin, first, stop) + PyFrom(priorBin, stop)
        == Spliced(priorBin, fieldBin, first, stop);
  }

  /** The spliced spelling is a number of `8 * fsize` bits. */
  lemma SplicedBitsValue(field: int, fraw: bytes, mask: nat, fsize: nat, order: Order, inclusive: bool)
    requires BinInRange(field, fraw, mask, fsize)
    ensures IsBinDigits(SplicedBits(field, fraw, mask, fsize, order, inclusive))
    ensures BinDigitsValue(SplicedBits(field, fraw, mask, fsize, order, inclusive)) < Pow256(fsize)
  {
    var w := 8 * fsize;
    var sp := SplicedBits(field, fraw, mask, fsize, order, inclusive);
    BitStringIsBits(FromBytes(fraw, order), w);
    BitStringIsBits(Shl(field, TrailingZeros(mask)), w);
    assert IsBinDigits(sp);
    BitStringOfBinDigits(sp);
    Pow256IsPow2(fsize);
  }

  /** In range, `bin2raw` encodes the value of the spliced spelling. */
  lemma BinSpliceIsSpliced(field: int, fraw: bytes, mask: nat, fsize: nat, order: Order, inclusive: bool)
    requires BinInRange(field, fraw, mask, fsize)
    ensures IsBinDigits(SplicedBits(field, fraw, mask, fsize, order, inclusive))
    ensures BinSplice(field, fraw, mask, fsize, order, inclusive)
         == ToBytes(BinDigitsValue(SplicedBits(field, fraw, mask, fsize, order, inclusive)), fsize, order)
  {
    NewBinIsSpliced(field, fraw, mask, fsize, order, inclusive);
    SplicedBitsValue(field, fraw, mask, fsize, order, inclusive);
    var sp := SplicedBits(field, fraw, mask, fsize, order, inclusive);
    assert ParseBinary(sp) == Ok(BinDigitsValue(sp));
  }

  /** In range, bit `k` (most significant first) of the output comes from
      `field << tz` for `first <= k < stop` and from the prior bytes
      everywhere else, where `first` is the mask's first set bit and `stop`
      is its last set bit (as written) or one past it (`inclusive`). */
  lemma BinSpliceBits(field: int, fraw: bytes, mask: nat, fsize: nat, order: Order, inclusive: bool, k: nat)
    requires BinInRange(field, fraw, mask, fsize)
    requires k < 8 * fsize
    ensures BinSplice(field, fraw, mask, fsize, order, inclusive).Ok?
    ensures BitAt(FromBytes(BinSplice(field, fraw, mask, fsize, order, inclusive).value, order), 8 * fsize, k)
         == if SpliceStart(mask, 8 * fsize) <= k < SpliceStop(mask, 8 * fsize, inclusive)
            then BitAt(Shl(field, TrailingZeros(mask)), 8 * fsize, k)
            else BitAt(FromBytes(fraw, order), 8 * fsize, k)
  {
    BinSpliceIsSpliced(field, fraw, mask, fsize, order, inclusive);
    SplicedBitsValue(field, fraw, mask, fsize, order, inclusive);
    SplicedBitAt(field, fraw, mask, fsize, order, inclusive, k);
  }

  /** Bit `k` of the spliced spelling's value. */
  lemma SplicedBitAt(field: int, fraw: bytes, mask: nat, fsize: nat, order: Order, inclusive: bool, k: nat)
    requires BinInRange(field, fraw, mask, fsize)
    requires k < 8 * fsize
    ensures IsBinDigits(SplicedBits(field, fraw, mask, fsize, order, inclusive))
    ensures BitAt(BinDigitsValue(SplicedBits(field, fraw, mask, fsize, order, inclusive)), 8 * fsize, k)
         == if SpliceStart(mask, 8 * fsize) <= k < SpliceStop(mask, 8 * fsize, inclusive)
            then BitAt(Shl(field, TrailingZeros(mask)), 8 * fsize, k)
            else BitAt(FromBytes(fraw, order), 8 * fsize, k)
  {
    var w := 8 * fsize;
    var fv := Shl(field, TrailingZeros(mask));
    var prior := FromBytes(fraw, order);
    var sp := SplicedBits(field, fraw, mask, fsize, order, inclusive);
    SplicedBitsValue(field, fraw, mask, fsize, order, inclusive);
    var newVal := BinDigitsValue(sp);
    BitStringOfBinDigits(sp);
    BitStringAt(newVal, w, k);
    BitStringAt(fv, w, k);
    BitStringAt(prior, w, k);
  }

  lemma MaskHasOne(mask: nat, w: nat)
    requires 0 < mask < Pow2(w)
    ensures '1' in BitString(mask, w)
  {
    if mask % 2 == 1 {
      assert BitString(mask, w)[w - 1] == '1';
    } else {
      MaskHasOne(mask / 2, w - 1);
      var i :| 0 <= i < w - 1 && BitString(mask / 2, w - 1)[i] == '1';
      assert BitString(mask, w)[i] == '1';
    }
  }

  /** `bin2raw` followed by `raw2bin` with the evidently intended splice
      gives the value back, restricted to the bits the shifted mask keeps. */
  lemma BinToRawRoundTrip(field: int, fraw: bytes, mask: nat, fsize: nat, order: Order)
    requires BinInRange(field, fraw, mask, fsize)
    ensures BinToRaw(field, fraw, mask, fsize, order).Ok?
    ensures RawToBin(BinToRaw(field, fraw, mask, fsize, order).value, mask, fsize, order)
         == And(field, Shr(mask, TrailingZeros(mask)))
  {
    BinSpliceIsSpliced(field, fraw, mask, fsize, order, true);
    SplicedBitsValue(field, fraw, mask, fsize, order, true);
    SplicedRoundTrip(field, fraw, mask, fsize, order);
  }

  /** The value of the inclusive splice, read back under the mask, is the field's kept bits. */
  lemma SplicedRoundTrip(field: int, fraw: bytes, mask: nat, fsize: nat, order: Order)
    requires BinInRange(field, fraw, mask, fsize)
    ensures IsBinDigits(SplicedBits(field, fraw, mask, fsize, order, true))
    ensures MaskedBits(BinDigitsValue(SplicedBits(field, fraw, mask, fsize, order, true)), mask, TrailingZeros(mask))
         == And(field, Shr(mask, TrailingZeros(mask)))
  {
    SplicedBitsValue(field, fraw, mask, fsize, order, true);
    var v := BinDigitsValue(SplicedBits(field, fraw, mask, fsize, order, true));
    var r := MaskedBits(v, mask, TrailingZeros(mask));
    var want := And(field, Shr(mask, TrailingZeros(mask)));
    forall j: nat
      ensures Bit(r, j) == Bit(want, j)
    {
      SplicedRoundTripBit(field, fraw, mask, fsize, order, j);
    }
    BitExtensionality(r, want);
  }

  lemma SplicedRoundTripBit(field: int, fraw: bytes, mask: nat, fsize: nat, order: Order, j: nat)
    requires BinInRange(field, fraw, mask, fsize)
    ensures IsBinDigits(SplicedBits(field, fraw, mask, fsize, order, true))
    ensures Bit(MaskedBits(BinDigitsValue(SplicedBits(field, fraw, mask, fsize, order, true)), mask, TrailingZeros(mask)), j)
         == Bit(And(field, Shr(mask, TrailingZeros(mask))), j)
  {
    SplicedBitsValue(field, fraw, mask, fsize, order, true);
    var v := BinDigitsValue(SplicedBits(field, fraw, mask, fsize, order, true));
    if Bit(mask, j + TrailingZeros(mask)) == 1 {
      SplicedBitOne(field, fraw, mask, fsize, order, j);
    }
    MaskedBitsOfField(v, field, mask, j);
  }

  /** If `v` agrees with `f << tz` on every set bit of the mask, reading `v`
      under the mask gives bit `j` of `f` kept by the shifted mask. */
  lemma MaskedBitsOfField(v: nat, f: nat, mask: nat, j: nat)
    requires mask > 0
    requires Bit(mask, j + TrailingZeros(mask)) == 1 ==> Bit(v, j + TrailingZeros(mask)) == Bit(f, j)
    ensures Bit(MaskedBits(v, mask, TrailingZeros(mask)), j) == Bit(And(f, Shr(mask, TrailingZeros(mask))), j)
  {
    var tz := TrailingZeros(mask);
    MaskedBitsBit(v, mask, j);
    AndBit(f, Shr(mask, tz), j);
    ShrBit(mask, tz, j);
  }

  /** A set mask bit lies between the mask's first and last set bits, where
      the inclusive splice carries `field << tz`. */
  lemma SplicedBitOne(field: int, fraw: bytes, mask: nat, fsize: nat, order: Order, j: nat)
    requires BinInRange(field, fraw, mask, fsize)
    requires Bit(mask, j + TrailingZeros(mask)) == 1
    ensures IsBinDigits(SplicedBits(field, fraw, mask, fsize, order, true))
    ensures Bit(BinDigitsValue(SplicedBits(field, fraw, mask, fsize, order, true)), j + TrailingZeros(mask)) == Bit(field, j)
  {
    var w := 8 * fsize;
    var tz := TrailingZeros(mask);
    assert j + tz < w by {
      if j + tz >= w {
        BitBeyondWidth(mask, w, j + tz);
        assert false;
      }
    }
    var k := w - 1 - (j + tz);
    BitStringAt(mask, w, k);
    MaskHasOne(mask, w);
    assert SpliceStart(mask, w) <= k < SpliceStop(mask, w, true);
    SplicedBitAt(field, fraw, mask, fsize, order, true, k);
    ShiftedBitAt(BinDigitsValue(SplicedBits(field, fraw, mask, fsize, order, true)), field, tz, w, k, j);
  }

  /** A bit of `x` equal, at spelling position `k`, to that of `f << t` is bit `j` of `f`. */
  lemma ShiftedBitAt(x: nat, f: nat, t: nat, w: nat, k: nat, j: nat)
    requires k < w
    requires j + t == w - 1 - k
    requires BitAt(x, w, k) == BitAt(Shl(f, t), w, k)
    ensures Bit(x, j + t) == Bit(f, j)
  {
    ShiftBit(f, t, j);
  }

  /** Bits at or above the width of a number that fits are zero. */
  lemma {:induction false} BitBeyondWidth(x: nat, w: nat, j: nat)
    requires x < Pow2(w)
    requires j >= w
    ensures Bit(x, j) == 0
  {
    if w == 0 {
      assert Pow2(0) == 1;
      ZeroBit(j);
    } else {
      BitBeyondWidth(x / 2, w - 1, j - 1);
    }
  }

  /** Shifting left by `t` moves bit `j` to bit `j + t`. */
  lemma {:induction false} ShiftBit(x: nat, t: nat, j: nat)
    ensures Bit(Shl(x, t), j + t) == Bit(x, j)
  {
    if t > 0 {
      ShiftBit(x, t - 1, j);
    }
  }

  /** Two numbers with the same bits are equal. */
  lemma {:induction false} BitExtensionality(a: nat, b: nat)
    requires forall j: nat :: Bit(a, j) == Bit(b, j)
    ensures a == b
    decreases a + b
  {
    if a != 0 || b != 0 {
      assert Bit(a, 0) == Bit(b, 0);
      forall j: nat ensures Bit(a / 2, j) == Bit(b / 2, j) {
        assert Bit(a, j + 1) == Bit(b, j + 1);
      }
      if a / 2 + b / 2 < a + b {
        BitExtensionality(a / 2, b / 2);
      }
    }
  }

  /** The lowest set bit of a positive number is bit `TrailingZeros`, and every bit below it is clear. */
  lemma {:induction false} TrailingZerosBits(m: nat)
    requires m > 0
    ensures Bit(m, TrailingZeros(m)) == 1
    ensures forall j: nat :: j < TrailingZeros(m) ==> Bit(m, j) == 0
  {
    if m % 2 == 0 {
      TrailingZerosBits(m / 2);
      forall j: nat | 0 < j < TrailingZeros(m)
        ensures Bit(m, j) == 0
      {
        assert Bit(m, j) == Bit(m / 2, j - 1);
      }
    }
  }

  /** The last '1' of a mask's spelling is its lowest set bit. */
  lemma LastOneIsLowestBit(mask: nat, w: nat)
    requires 0 < mask < Pow2(w)
    ensures TrailingZeros(mask) < w
    ensures '1' in BitString(mask, w)
    ensures LastOne(BitString(mask, w)) == w - 1 - TrailingZeros(mask)
  {
    var tz := TrailingZeros(mask);
    var s := BitString(mask, w);
    TrailingZerosBits(mask);
    TrailingZerosBelowWidth(mask, w);
    MaskHasOne(mask, w);
    var last := LastOne(s);
    BitStringAt(mask, w, w - 1 - tz);
    BitStringAt(mask, w, last);
  }

  /** A positive number below `2^w` has its lowest set bit below `w`. */
  lemma {:induction false} TrailingZerosBelowWidth(m: nat, w: nat)
    requires 0 < m < Pow2(w)
    ensures TrailingZeros(m) < w
  {
    if m % 2 == 0 {
      TrailingZerosBelowWidth(m / 2, w - 1);
    }
  }

  /** As written, `bin2raw` copies the bit at the mask's lowest set bit from
      the prior bytes instead of from the field. */
  lemma AsWrittenKeepsLowestBit(field: int, fraw: bytes, mask: nat, fsize: nat, order: Order)
    requires BinInRange(field, fraw, mask, fsize)
    ensures BinToRawAsWritten(field, fraw, mask, fsize, order).Ok?
    ensures Bit(FromBytes(BinToRawAsWritten(field, fraw, mask, fsize, order).value, order), TrailingZeros(mask))
         == Bit(FromBytes(fraw, order), TrailingZeros(mask))
  {
    var w := 8 * fsize;
    var tz := TrailingZeros(mask);
    LastOneIsLowestBit(mask, w);
    var k := w - 1 - tz;
    assert SpliceStop(mask, w, false) == k;
    BinSpliceBits(field, fraw, mask, fsize, order, false, k);
    var out := BinSplice(field, fraw, mask, fsize, order, false).value;
    BitAtIndex(FromBytes(out, order), w, k, tz);
    BitAtIndex(FromBytes(fraw, order), w, k, tz);
  }

  lemma BitAtIndex(x: nat, w: nat, k: nat, i: nat)
    requires k < w
    requires i == w - 1 - k
    ensures BitAt(x, w, k) == Bit(x, i)
  {
  }

  /** The counterexample of a high nibble mask: writing 3 into the top nibble
      of 0xA5 as written reads back as something other than 3, because the
      nibble's lowest bit stays the prior 0; the intended splice reads back 3. */
  lemma BinToRawLowestBitExample()
    ensures BinToRawAsWritten(3, [0xA5], 0xF0, 1, Big).Ok?
    ensures RawToBin(BinToRawAsWritten(3, [0xA5], 0xF0, 1, Big).value, 0xF0, 1, Big) != 3
    ensures BinToRaw(3, [0xA5], 0xF0, 1, Big).Ok?
    ensures RawToBin(BinToRaw(3, [0xA5], 0xF0, 1, Big).value, 0xF0, 1, Big) == 3
  {
    ExampleInRange();
    AsWrittenKeepsLowestBit(3, [0xA5], 0xF0, 1, Big);
    ExampleBits();
    var out := BinToRawAsWritten(3, [0xA5], 0xF0, 1, Big).value;
    assert Bit(FromBytes(out, Big), 4) == 0;
    ReadBackLowBit(out, 0xF0, 1, Big);
    BinToRawRoundTrip(3, [0xA5], 0xF0, 1, Big);
  }

  /** Bit 0 of `raw2bin` under a positive mask is the raw value's bit at the mask's lowest set bit. */
  lemma ReadBackLowBit(fraw: bytes, mask: nat, fsize: nat, order: Order)
    requires mask > 0
    ensures Bit(RawToBin(fraw, mask, fsize, order), 0) == Bit(FromBytes(fraw, order), TrailingZeros(mask))
  {
    assert RawToBin(fraw, mask, fsize, order) == MaskedBits(FromBytes(fraw, order), mask, TrailingZeros(mask));
    MaskedLowBit(FromBytes(fraw, order), mask);
  }

  lemma MaskedLowBit(v: nat, mask: nat)
    requires mask > 0
    ensures Bit(MaskedBits(v, mask, TrailingZeros(mask)), 0) == Bit(v, TrailingZeros(mask))
  {
    TrailingZerosBits(mask);
    MaskedBitsBit(v, mask, 0);
  }

  lemma ExampleInRange()
    ensures TrailingZeros(0xF0) == 4
    ensures BinInRange(3, [0xA5], 0xF0, 1)
  {
    assert Pow2(8) == 256;
    assert Shl(3, 4) == 48;
  }

  lemma ExampleBits()
    ensures FromBytes([0xA5], Big) == 0xA5
    ensures Bit(0xA5, 4) == 0
    ensures Bit(0xF0, 4) == 1
    ensures Bit(3, 0) == 1
    ensures And(3, Shr(0xF0, 4)) == 3
  {
    assert [0xA5][..0] == [];
    assert BeValue([0xA5]) == BeValue([]) * 256 + 0xA5;
    assert Shr(0xF0, 4) == 15;
  }
}

=== FILE: bits.dfy ===
/** Bitwise operations on natural numbers and their fixed-width binary
    spellings, as Python's `&`, `^`, `>>` and `format(n, "0<w>b")` give them
    for non-negative operands. */
module Bits {
  import opened Wrappers
  import opened Bytes
  import opened Text

  function BitChar(b: nat): char
    requires b < 2
  {
    if b == 0 then '0' else '1'
  }

  /** `a & b`. */
  function And(a: nat, b: nat): (r: nat)
    decreases a
  {
    if a == 0 || b == 0 then 0
    else 2 * And(a / 2, b / 2) + (if a % 2 == 1 && b % 2 == 1 then 1 else 0)
  }

  /** `a ^ b`. */
  function Xor(a: nat, b: nat): (r: nat)
    decreases a + b
  {
    if a == 0 && b == 0 then 0
    else 2 * Xor(a / 2, b / 2) + (if a % 2 != b % 2 then 1 else 0)
  }

  /** `a & b` never exceeds either operand. */
  lemma {:induction false} AndBound(a: nat, b: nat)
    ensures And(a, b) <= a && And(a, b) <= b
    decreases a
  {
    if a != 0 && b != 0 {
      AndBound(a / 2, b / 2);
    }
  }

  /** Number of trailing zero bits of a positive number. */
  function TrailingZeros(m: nat): nat
    requires m > 0
  {
    if m % 2 == 1 then 0 else 1 + TrailingZeros(m / 2)
  }

  /** `w` bits of `v`, most significant first, as '0'/'1' characters. */
  function BitString(v: nat, w: nat): (r: string)
    ensures |r| == w
  {
    if w == 0 then [] else BitString(v / 2, w - 1) + [BitChar(v % 2)]
  }

  /** Bit `j` of `v`, counting from the least significant end. */
  function Bit(v: nat, j: nat): (b: nat)
    ensures b < 2
  {
    if j == 0 then v % 2 else Bit(v / 2, j - 1)
  }

  /** Bit `k` of the `w`-bit spelling of `v`, counting from the most significant end. */
  function BitAt(v: nat, w: nat, k: nat): (b: nat)
    requires k < w
    ensures b < 2
  {
    Bit(v, w - 1 - k)
  }

  /** Each character of the binary spelling is the corresponding bit. */
  lemma {:induction false} BitStringAt(v: nat, w: nat, k: nat)
    requires k < w
    ensures BitString(v, w)[k] == BitChar(BitAt(v, w, k))
  {
    if k < w - 1 {
      BitStringAt(v / 2, w - 1, k);
    }
  }

  /** Zero is spelled with `w` '0' characters. */
  lemma {:induction false} BitStringZero(w: nat)
    ensures BitString(0, w) == Repeat('0', w)
  {
    if w > 0 {
      BitStringZero(w - 1);
      assert Repeat('0', w) == Repeat('0', w - 1) + ['0'];
    }
  }

  lemma BinNumeralLength(v: nat, w: nat)
    requires v < Pow2(w)
    ensures v > 0 ==> |BinNumeral(v)| <= w
  {
    if v >= 2 {
      BinNumeralLength(v / 2, w - 1);
    }
  }

  /** `format(v, "0<w>b")` is the `w`-bit spelling whenever `v` fits in `w >= 1` bits. */
  lemma {:induction false} BinFormatIsBitString(v: nat, w: nat)
    requires w >= 1
    requires v < Pow2(w)
    ensures BinFormat(v, w) == BitString(v, w)
  {
    if v < 2 {
      BitStringZero(w - 1);
    } else {
      assert Pow2(1) == 2;
      BinFormatIsBitString(v / 2, w - 1);
    }
  }

  predicate IsBitString(s: string)
  {
    forall k :: 0 <= k < |s| ==> s[k] == '0' || s[k] == '1'
  }

  lemma BitStringIsBits(v: nat, w: nat)
    ensures IsBitString(BitString(v, w))
    ensures IsBinDigits(BitString(v, w))
  {
  }

  /** Reading the spelling back gives the value. */
  lemma {:induction false} BinDigitsOfBitString(v: nat, w: nat)
    requires v < Pow2(w)
    ensures IsBinDigits(BitString(v, w))
    ensures BinDigitsValue(BitString(v, w)) == v
  {
    BitStringIsBits(v, w);
    if w > 0 {
      var s := BitString(v, w);
      assert s[..|s| - 1] == BitString(v / 2, w - 1);
      BinDigitsOfBitString(v / 2, w - 1);
    }
  }

  /** Every string of binary digits is the spelling of its own value. */
  lemma {:induction false} BitStringOfBinDigits(s: string)
    requires IsBinDigits(s)
    ensures BinDigitsValue(s) < Pow2(|s|)
    ensures BitString(BinDigitsValue(s), |s|) == s
  {
    if |s| > 0 {
      var p := s[..|s| - 1];
      BitStringOfBinDigits(p);
      assert s == p + [s[|s| - 1]];
    }
  }

  // ---------------------------------------------------------------------
  // Trailing zeros of a binary spelling: len(s) - len(s.rstrip('0'))
  // ---------------------------------------------------------------------

  function StripCount(s: string): nat
  {
    |s| - |RStrip(s, '0')|
  }

  lemma RStripAppendZero(s: string)
    ensures RStrip(s + ['0'], '0') == RStrip(s, '0')
  {
    assert (s + ['0'])[..|s|] == s;
  }

  lemma RStripAppendOne(s: string)
    ensures RStrip(s + ['1'], '0') == s + ['1']
  {
  }

  /** For a positive number, the string count of trailing zeros is the arithmetic one. */
  lemma {:induction false} BinNumeralTrailingZeros(m: nat)
    requires m > 0
    ensures |RStrip(BinNumeral(m), '0')| > 0
    ensures StripCount(BinNumeral(m)) == TrailingZeros(m)
  {
    if m >= 2 {
      var p := BinNumeral(m / 2);
      BinNumeralTrailingZeros(m / 2);
      if m % 2 == 0 {
        RStripAppendZero(p);
      } else {
        RStripAppendOne(p);
      }
    } else {
      assert BinNumeral(m) == ['1'];
    }
  }

  lemma {:induction false} RStripConcat(p: string, q: string)
    requires |RStrip(q, '0')| > 0
    ensures RStrip(p + q, '0') == p + RStrip(q, '0')
    decreases |q|
  {
    if q[|q| - 1] == '0' {
      assert (p + q)[..|p + q| - 1] == p + q[..|q| - 1];
      RStripConcat(p, q[..|q| - 1]);
    }
  }

  /** The trailing-zero count the source takes from `format(mask, "0<w>b")`. */
  function MaskShift(mask: nat, w: nat): nat
  {
    StripCount(BinFormat(mask, w))
  }

  /** For a non-zero mask the shift is the mask's trailing zero count, whatever the width. */
  lemma MaskShiftPositive(mask: nat, w: nat)
    requires mask > 0
    ensures MaskShift(mask, w) == TrailingZeros(mask)
  {
    BinNumeralTrailingZeros(mask);
    RStripConcat(Repeat('0', w - |BinNumeral(mask)|), BinNumeral(mask));
  }

  // ---------------------------------------------------------------------
  // Complementing masks
  // ---------------------------------------------------------------------

  /** XOR with `w` one-bits complements a `w`-bit number. */
  lemma {:induction false} XorAllOnes(p: nat, w: nat)
    requires p < Pow2(w)
    ensures Xor(p, Pow2(w) - 1) == Pow2(w) - 1 - p
  {
    if w == 0 {
      assert Pow2(0) == 1;
    } else {
      var q := Pow2(w - 1) - 1;
      assert Pow2(w) - 1 == 2 * q + 1;
      XorAllOnes(p / 2, w - 1);
    }
  }

  /** A `w`-bit number and its complement share no bit. */
  lemma {:induction false} AndComplement(p: nat, w: nat)
    requires p < Pow2(w)
    ensures And(p, Pow2(w) - 1 - p) == 0
  {
    if w > 0 && p != 0 && Pow2(w) - 1 - p != 0 {
      var c := Pow2(w) - 1 - p;
      assert Pow2(w) == 2 * Pow2(w - 1);
      assert c / 2 == Pow2(w - 1) - 1 - p / 2;
      AndComplement(p / 2, w - 1);
    }
  }

  /** `a & b` as a bit-by-bit conjunction. */
  lemma {:induction false} AndBit(a: nat, b: nat, j: nat)
    ensures Bit(And(a, b), j) == if Bit(a, j) == 1 && Bit(b, j) == 1 then 1 else 0
    decreases j
  {
    if a == 0 || b == 0 {
      ZeroBit(j);
    } else if j > 0 {
      AndBit(a / 2, b / 2, j - 1);
    }
  }

  lemma {:induction false} ZeroBit(j: nat)
    ensures Bit(0, j) == 0
  {
    if j > 0 {
      ZeroBit(j - 1);
    }
  }
}

=== FILE: bytes.dfy ===
/** Byte strings, the unsigned integer codecs Python's `int.from_bytes` and
    `int.to_bytes` provide, and Python's slice semantics (negative indices
    count from the end, out-of-range bounds are clipped). */
module Bytes {
  import opened Wrappers

  type byte = x: int | 0 <= x < 256
  type bytes = seq<byte>

  datatype Order = Big | Little

  function Pow(base: nat, n: nat): (r: nat)
    ensures base > 0 ==> r > 0
  {
    if n == 0 then 1 else base * Pow(base, n - 1)
  }

  function Pow256(n: nat): (r: nat)
    ensures r > 0
  {
    Pow(256, n)
  }

  function Pow2(n: nat): (r: nat)
    ensures r > 0
  {
    Pow(2, n)
  }

  lemma {:induction false} PowAdd(base: nat, a: nat, b: nat)
    ensures Pow(base, a + b) == Pow(base, a) * Pow(base, b)
  {
    if a > 0 {
      PowAdd(base, a - 1, b);
      assert Pow(base, a + b) == base * Pow(base, a - 1 + b);
      assert Pow(base, a) == base * Pow(base, a - 1);
      MulAssoc(base, Pow(base, a - 1), Pow(base, b));
    }
  }

  lemma MulAssoc(x: int, y: int, z: int)
    ensures x * (y * z) == (x * y) * z
  {
  }

  lemma PowMonotone(base: nat, a: nat, b: nat)
    requires base > 0
    requires a <= b
    ensures Pow(base, a) <= Pow(base, b)
  {
    if a < b {
      PowMonotone(base, a, b - 1);
    }
  }

  lemma Pow256IsPow2(n: nat)
    ensures Pow256(n) == Pow2(8 * n)
  {
    if n > 0 {
      Pow256IsPow2(n - 1);
      PowAdd(2, 8, 8 * (n - 1));
    }
  }

  function Reverse<T>(s: seq<T>): (r: seq<T>)
    ensures |r| == |s|
    ensures forall i :: 0 <= i < |s| ==> r[i] == s[|s| - 1 - i]
  {
    if |s| == 0 then [] else Reverse(s[1..]) + [s[0]]
  }

  lemma ReverseReverse<T>(s: seq<T>)
    ensures Reverse(Reverse(s)) == s
  {
  }

  /** `int.from_bytes(b, 'big')`: the first byte is the most significant. */
  function BeValue(b: bytes): nat
  {
    if |b| == 0 then 0 else BeValue(b[..|b| - 1]) * 256 + b[|b| - 1]
  }

  /** `int.from_bytes(b, 'little')`: the first byte is the least significant. */
  function LeValue(b: bytes): nat
  {
    if |b| == 0 then 0 else b[0] + 256 * LeValue(b[1..])
  }

  function FromBytes(b: bytes, order: Order): nat
  {
    match order
    case Big => BeValue(b)
    case Little => LeValue(b)
  }

  /** The `n` big-endian base-256 digits of `v` (digits above `n` are dropped). */
  function BeBytes(v: nat, n: nat): (r: bytes)
    ensures |r| == n
  {
    if n == 0 then [] else BeBytes(v / 256, n - 1) + [v % 256]
  }

  /** The `n` little-endian base-256 digits of `v`. */
  function LeBytes(v: nat, n: nat): (r: bytes)
    ensures |r| == n
  {
    if n == 0 then [] else [v % 256] + LeBytes(v / 256, n - 1)
  }

  lemma {:induction false} BeValueBound(b: bytes)
    ensures BeValue(b) < Pow256(|b|)
  {
    if |b| > 0 {
      BeValueBound(b[..|b| - 1]);
    }
  }

  lemma {:induction false} LeValueBound(b: bytes)
    ensures LeValue(b) < Pow256(|b|)
  {
    if |b| > 0 {
      LeValueBound(b[1..]);
    }
  }

  lemma {:induction false} BeBytesValue(v: nat, n: nat)
    requires v < Pow256(n)
    ensures BeValue(BeBytes(v, n)) == v
  {
    if n > 0 {
      var r := BeBytes(v, n);
      assert r[..n - 1] == BeBytes(v / 256, n - 1);
      BeBytesValue(v / 256, n - 1);
    }
  }

  lemma {:induction false} LeBytesValue(v: nat, n: nat)
    requires v < Pow256(n)
    ensures LeValue(LeBytes(v, n)) == v
  {
    if n > 0 {
      var r := LeBytes(v, n);
      assert r[1..] == LeBytes(v / 256, n - 1);
      LeBytesValue(v / 256, n - 1);
    }
  }

  lemma {:induction false} BeValueBytes(b: bytes)
    ensures BeBytes(BeValue(b), |b|) == b
  {
    if |b| > 0 {
      var p := b[..|b| - 1];
      BeValueBytes(p);
      assert b == p + [b[|b| - 1]];
    }
  }

  lemma {:induction false} LeValueBytes(b: bytes)
    ensures LeBytes(LeValue(b), |b|) == b
  {
    if |b| > 0 {
      LeValueBytes(b[1..]);
      assert b == [b[0]] + b[1..];
    }
  }

  /** Little-endian decoding is big-endian decoding of the reversed bytes. */
  lemma {:induction false} LeIsReversedBe(b: bytes)
    ensures LeValue(b) == BeValue(Reverse(b))
  {
    if |b| > 0 {
      LeIsReversedBe(b[1..]);
      var r := Reverse(b);
      assert r[..|r| - 1] == Reverse(b[1..]);
    }
  }

  /** `v.to_bytes(n, order)`: OverflowError unless `0 <= v < 256^n`. */
  function ToBytes(v: int, n: nat, order: Order): (r: Result<bytes>)
    ensures r.Ok? <==> 0 <= v < Pow256(n)
    ensures r.Err? ==> r.error == OverflowError
    ensures r.Ok? ==> |r.value| == n && FromBytes(r.value, order) == v
  {
    if 0 <= v < Pow256(n) then
      match order
      case Big => BeBytesValue(v, n); Ok(BeBytes(v, n))
      case Little => LeBytesValue(v, n); Ok(LeBytes(v, n))
    else
      Err(OverflowError)
  }

  /** Encoding the decoded bytes at their own width gives the bytes back. */
  lemma ToBytesFromBytes(b: bytes, order: Order)
    ensures ToBytes(FromBytes(b, order), |b|, order) == Ok(b)
  {
    match order
    case Big => BeValueBound(b); BeValueBytes(b);
    case Little => LeValueBound(b); LeValueBytes(b);
  }

  // ---------------------------------------------------------------------
  // Python sequence indexing and slicing
  // ---------------------------------------------------------------------

  /** Normalisation of a slice bound (or a `list.insert` index) against length `n`. */
  function Clamp(i: int, n: nat): (r: nat)
    ensures r <= n
    ensures 0 <= i <= n ==> r == i
    ensures i > n ==> r == n
    ensures i < 0 ==> r == if i + n < 0 then 0 else i + n
  {
    if i < 0 then (if i + n < 0 then 0 else i + n)
    else if i > n then n
    else i
  }

  /** `s[i:j]`. */
  function PySlice<T>(s: seq<T>, i: int, j: int): (r: seq<T>)
    ensures 0 <= i <= j <= |s| ==> r == s[i..j]
    ensures |r| <= |s|
  {
    var a := Clamp(i, |s|);
    var b := Clamp(j, |s|);
    if a <= b then s[a..b] else []
  }

  /** `s[i:]`. */
  function PyFrom<T>(s: seq<T>, i: int): (r: seq<T>)
    ensures 0 <= i <= |s| ==> r == s[i..]
    ensures i >= |s| ==> r == []
  {
    PySlice(s, i, |s|)
  }

  /** `s[:j]`. */
  function PyTo<T>(s: seq<T>, j: int): (r: seq<T>)
    ensures 0 <= j <= |s| ==> r == s[..j]
    ensures j >= |s| ==> r == s
  {
    PySlice(s, 0, j)
  }

  /** `s[i]` for a list or str: IndexError outside `-|s| <= i < |s|`. */
  function PyIndex<T>(s: seq<T>, i: int): (r: Result<T>)
    ensures r.Ok? <==> -|s| <= i < |s|
    ensures 0 <= i < |s| ==> r == Ok(s[i])
    ensures -|s| <= i < 0 ==> r == Ok(s[|s| + i])
  {
    if 0 <= i < |s| then Ok(s[i])
    else if -|s| <= i < 0 then Ok(s[|s| + i])
    else Err(IndexError)
  }

  /** A Python `slice(start, stop)`. */
  datatype Slice = Slice(start: int, stop: int)

  /** `s[sl]`. */
  function SliceOf<T>(s: seq<T>, sl: Slice): (r: seq<T>)
    ensures 0 <= sl.start <= sl.stop <= |s| ==> r == s[sl.start..sl.stop]
  {
    PySlice(s, sl.start, sl.stop)
  }

  /** `s[:i] + x + s[j:]`: replace the range between two Python slice bounds. */
  function Splice<T>(s: seq<T>, i: int, j: int, x: seq<T>): seq<T>
  {
    PyTo(s, i) + x + PyFrom(s, j)
  }

  /** Within bounds, splicing replaces exactly `[i, j)` and keeps everything else. */
  lemma SpliceInRange<T>(s: seq<T>, i: int, j: int, x: seq<T>)
    requires 0 <= i <= j <= |s|
    ensures |Splice(s, i, j, x)| == |s| - (j - i) + |x|
    ensures Splice(s, i, j, x)[..i] == s[..i]
    ensures Splice(s, i, j, x)[i..i + |x|] == x
    ensures Splice(s, i, j, x)[i + |x|..] == s[j..]
  {
  }

  /** A same-width splice over an earlier same-width splice keeps only the later one. */
  lemma SpliceTwice<T>(s: seq<T>, i: int, j: int, x: seq<T>, y: seq<T>)
    requires 0 <= i <= j <= |s|
    requires |x| == j - i
    ensures Splice(Splice(s, i, j, x), i, j, y) == Splice(s, i, j, y)
  {
    var t := Splice(s, i, j, x);
    assert t == s[..i] + x + s[j..];
    assert t[..i] == s[..i];
    assert t[j..] == s[j..];
  }

  /** Splicing a range back in with its own contents changes nothing. */
  lemma SpliceSelf<T>(s: seq<T>, i: int, j: int)
    requires 0 <= i <= j <= |s|
    ensures Splice(s, i, j, s[i..j]) == s
  {
    assert s[..i] + s[i..j] + s[j..] == s;
  }

  function Zeros(n: nat): (r: bytes)
    ensures |r| == n
    ensures forall k :: 0 <= k < n ==> r[k] == 0
  {
    if n == 0 then [] else [0] + Zeros(n - 1)
  }
}

=== FILE: checksum.dfy ===
/** The Internet checksum of RFC 1071 section 1 as the newer interceptor
    computes it (`chksum` in `build/lib/polymorph/interceptor.py`): pad to
    an even length, add up the 16-bit words as `array("H")` reads them in
    host order, fold the carries twice and take the one's complement,
    then pack the result in host order again. The host is taken to be
    little-endian. Section 2(B) of RFC 1071 (byte-order independence) is
    proved here: the bytes this produces are the big-endian bytes of the
    checksum computed on network-order words. */
module Checksum {
  import opened Bytes

  /** `if len(packet) % 2 != 0: packet += b'\0'`. */
  function PadEven(d: bytes): (p: bytes)
    ensures |p| % 2 == 0 && |d| <= |p| <= |d| + 1
    ensures p[..|d|] == d
    ensures |p| > |d| ==> p[|d|] == 0
  {
    if |d| % 2 != 0 then d + [0] else d
  }

  /** The sum of the 16-bit words of even-length data, each word read in
      the given byte order. */
  function WordSum(p: bytes, order: Order): nat
    requires |p| % 2 == 0
  {
    if |p| == 0 then 0
    else
      var w := if order == Big then p[0] as nat * 256 + p[1] as nat else p[0] as nat + p[1] as nat * 256;
      w + WordSum(p[2..], order)
  }

  /** `res = (res >> 16) + (res & 0xffff); res += res >> 16`, then the
      low 16 bits that `& 0xffff` keeps. */
  function Carry(s: nat): (c: nat)
    ensures c < 65536
  {
    var r1 := s / 65536 + s % 65536;
    var r2 := r1 + r1 / 65536;
    r2 % 65536
  }

  /** `(~res) & 0xffff` for the non-negative `res` it is applied to:
      Python's `~x` is `-x - 1`, so the masked value is 65535 minus the
      low 16 bits of `res`. */
  function Complement(low: nat): (ck: nat)
    requires low < 65536
    ensures ck < 65536
  {
    65535 - low
  }

  /** The checksum `chksum` computes, as a number. */
  function HostChecksum(d: bytes): (ck: nat)
    ensures ck < 65536
  {
    Complement(Carry(WordSum(PadEven(d), Little)))
  }

  /** `struct.pack("H", ck)`: the checksum's bytes in host order, which
      `chksum` returns as hex text. */
  function HostChecksumBytes(d: bytes): (r: bytes)
    ensures |r| == 2
  {
    LeBytes(HostChecksum(d), 2)
  }

  /** The checksum of RFC 1071 on network-order words. */
  function NetChecksum(d: bytes): (ck: nat)
    ensures ck < 65536
  {
    Complement(Carry(WordSum(PadEven(d), Big)))
  }

  // ---------------------------------------------------------------------
  // Folding
  // ---------------------------------------------------------------------

  /** How many times 65535 the two folds take off the sum. */
  function Folds(s: nat): nat
  {
    s / 65536 + (s / 65536 + s % 65536) / 65536
  }

  /** For a sum that fits in 32 bits, the two folds give the one's
      complement sum: a value in 1..65535 that differs from the sum by a
      multiple of 65535 (which is 2^16 - 1). */
  lemma CarryFolds(s: nat)
    requires 0 < s < 4294967296
    ensures 1 <= Carry(s) <= 65535
    ensures s - Carry(s) == 65535 * Folds(s)
  {
    var q, m := s / 65536, s % 65536;
    var r1 := q + m;
    assert s == 65536 * q + m;
    assert q < 65536;
    if r1 < 65536 {
      assert Carry(s) == r1;
      assert Folds(s) == q;
    } else {
      assert r1 / 65536 == 1;
      assert Carry(s) == r1 + 1 - 65536;
      assert Folds(s) == q + 1;
    }
  }

  /** Two values in 1..65535 that differ by a multiple of 65535 are equal. */
  lemma SameResidue(x: int, y: int, k: int)
    requires 1 <= x <= 65535 && 1 <= y <= 65535
    requires x - y == 65535 * k
    ensures x == y
  {
  }

  // ---------------------------------------------------------------------
  // Byte order
  // ---------------------------------------------------------------------

  /** The sum of the bytes at even positions: the high bytes of the
      network-order words. */
  function HighBytes(p: bytes): nat
    requires |p| % 2 == 0
  {
    if |p| == 0 then 0 else p[0] + HighBytes(p[2..])
  }

  /** Reading every word the other way round multiplies the sum by 256,
      up to multiples of 65535: 256 * (256a + b) = 65536a + 256b, and
      65536a = a + 65535a. */
  lemma {:induction false} WordSumOrders(p: bytes)
    requires |p| % 2 == 0
    ensures 256 * WordSum(p, Big) == WordSum(p, Little) + 65535 * HighBytes(p)
  {
    if |p| > 0 {
      WordSumOrders(p[2..]);
    }
  }

  /** A sum of words is zero only for all-zero data, in either order. */
  lemma {:induction false} WordSumZero(p: bytes)
    requires |p| % 2 == 0
    ensures WordSum(p, Little) == 0 <==> WordSum(p, Big) == 0
  {
    if |p| > 0 {
      WordSumZero(p[2..]);
    }
  }

  lemma {:induction false} WordSumBound(p: bytes, order: Order)
    requires |p| % 2 == 0
    ensures 2 * WordSum(p, order) <= 65535 * |p|
  {
    if |p| > 0 {
      WordSumBound(p[2..], order);
    }
  }

  /** The 16-bit value with its two bytes exchanged. */
  function Swap(x: nat): nat
    requires x < 65536
  {
    (x % 256) * 256 + x / 256
  }

  /** 256 x = swap(x) + 65535 * (x / 256). */
  lemma SwapCongruent(x: nat)
    requires x < 65536
    ensures 1 <= x ==> 1 <= Swap(x) <= 65535
    ensures 256 * x == Swap(x) + 65535 * (x / 256)
  {
    assert x == 256 * (x / 256) + x % 256;
  }

  /** The arithmetic of section 2(B) of RFC 1071: when one sum is 256
      times the other up to multiples of 65535, their folds are each
      other's byte swap. */
  lemma SwappedFold(b: nat, l: nat, h: nat)
    requires 0 < b < 4294967296 && 0 < l < 4294967296
    requires 256 * b == l + 65535 * h
    ensures 1 <= Carry(b) <= 65535
    ensures Carry(l) == Swap(Carry(b))
  {
    CarryFolds(b);
    CarryFolds(l);
    var x := Carry(b);
    SwapCongruent(x);
    SameResidue(Carry(l), Swap(x), 256 * Folds(b) + x / 256 - h - Folds(l));
  }

  /** A 16-bit value's two bytes in either order. */
  lemma TwoBytes(v: nat)
    requires v < 65536
    ensures LeBytes(v, 2) == [v % 256, v / 256]
    ensures BeBytes(v, 2) == [v / 256, v % 256]
  {
    assert LeBytes(v / 256, 1) == [v / 256];
    assert BeBytes(v / 256, 1) == [v / 256];
  }

  /** The complement of the swapped value, little-endian, is the
      complement of the value, big-endian. */
  lemma ComplementBytes(x: nat)
    requires 1 <= x <= 65535
    ensures LeBytes(Complement(Swap(x)), 2) == BeBytes(Complement(x), 2)
  {
    var a, b := x / 256, x % 256;
    assert x == 256 * a + b;
    var v1 := 65535 - Swap(x);
    var v2 := 65535 - x;
    assert v1 == 256 * (255 - b) + (255 - a);
    assert v2 == 256 * (255 - a) + (255 - b);
    assert v1 % 256 == 255 - a && v1 / 256 == 255 - b;
    assert v2 % 256 == 255 - b && v2 / 256 == 255 - a;
    TwoBytes(v1);
    TwoBytes(v2);
  }

  /** All-zero data checks to 0xffff in either byte order. */
  lemma ZeroChecksumBytes()
    ensures LeBytes(Complement(Carry(0)), 2) == BeBytes(Complement(Carry(0)), 2) == [255, 255]
  {
    assert Carry(0) == 0;
    TwoBytes(65535);
  }

  /** The two sums' checksums, each packed in its own byte order, agree. */
  lemma SwappedChecksum(b: nat, l: nat, h: nat)
    requires b < 4294967296 && l < 4294967296
    requires b == 0 <==> l == 0
    requires 256 * b == l + 65535 * h
    ensures LeBytes(Complement(Carry(l)), 2) == BeBytes(Complement(Carry(b)), 2)
  {
    if b == 0 {
      ZeroChecksumBytes();
    } else {
      SwappedFold(b, l, h);
      ComplementBytes(Carry(b));
    }
  }

  /** RFC 1071 section 2(B): summing byte-swapped words gives the
      byte-swapped one's complement sum, so the host-order computation
      written back in host order yields the network-order checksum. The
      bound keeps the sum within the 32 bits the two folds handle. */
  lemma HostOrderChecksum(d: bytes)
    requires |d| <= 131072
    ensures HostChecksumBytes(d) == BeBytes(NetChecksum(d), 2)
  {
    var p := PadEven(d);
    WordSumZero(p);
    WordSumBound(p, Big);
    WordSumBound(p, Little);
    WordSumOrders(p);
    SwappedChecksum(WordSum(p, Big), WordSum(p, Little), HighBytes(p));
  }

  // ---------------------------------------------------------------------
  // Verification
  // ---------------------------------------------------------------------

  lemma {:induction false} WordSumAppend(a: bytes, b: bytes, order: Order)
    requires |a| % 2 == 0 && |b| % 2 == 0
    ensures WordSum(a + b, order) == WordSum(a, order) + WordSum(b, order)
  {
    if |a| > 0 {
      assert (a + b)[2..] == a[2..] + b;
      WordSumAppend(a[2..], b, order);
    } else {
      assert a + b == b;
    }
  }

  /** Adding the checksum of a 32-bit sum to that sum gives a multiple
      of 65535, whose checksum is zero. */
  lemma FoldWithChecksum(s: nat)
    requires s <= 4294901760
    ensures Complement(Carry(s + Complement(Carry(s)))) == 0
  {
    if s == 0 {
      assert Carry(0) == 0;
      CarryFolds(65535);
    } else {
      CarryFolds(s);
      assert Complement(Carry(s)) <= 65534;
      var t := s + Complement(Carry(s));
      CarryFolds(t);
      SameResidue(Carry(t), 65535, Folds(s) - Folds(t));
    }
  }

  /** Splicing a 16-bit field at an even offset into zeroed bytes adds the
      field's word to the sum. */
  lemma SumWithField(d: bytes, k: nat, field: bytes)
    requires |d| % 2 == 0 && |field| == 2
    requires k % 2 == 0 && k + 2 <= |d| && d[k] == 0 && d[k + 1] == 0
    ensures |d[..k] + field + d[k + 2..]| % 2 == 0
    ensures WordSum(d[..k] + field + d[k + 2..], Big) == WordSum(d, Big) + WordSum(field, Big)
  {
    assert d == d[..k] + [0, 0] + d[k + 2..];
    WordSumAppend(d[..k] + [0, 0], d[k + 2..], Big);
    WordSumAppend(d[..k], [0, 0], Big);
    WordSumAppend(d[..k] + field, d[k + 2..], Big);
    WordSumAppend(d[..k], field, Big);
  }

  /** A 16-bit value written big-endian is one word of that value. */
  lemma FieldWord(ck: nat)
    requires ck < 65536
    ensures WordSum(BeBytes(ck, 2), Big) == ck
  {
    TwoBytes(ck);
    assert WordSum(BeBytes(ck, 2)[2..], Big) == 0;
  }

  /** On data of even length no padding byte takes part. */
  lemma NetOfEven(d: bytes)
    requires |d| % 2 == 0
    ensures NetChecksum(d) == Complement(Carry(WordSum(d, Big)))
  {
    assert PadEven(d) == d;
  }

  /** Storing the checksum in the zeroed field adds it, as one word, to
      the sum of the words. */
  lemma SpliceChecksum(d: bytes, k: nat, ck: nat)
    requires |d| % 2 == 0 && ck < 65536
    requires k % 2 == 0 && k + 2 <= |d| && d[k] == 0 && d[k + 1] == 0
    ensures |d[..k] + BeBytes(ck, 2) + d[k + 2..]| % 2 == 0
    ensures WordSum(d[..k] + BeBytes(ck, 2) + d[k + 2..], Big) == WordSum(d, Big) + ck
  {
    SumWithField(d, k, BeBytes(ck, 2));
    FieldWord(ck);
  }

  /** Data whose words add up to a sum plus that sum's checksum checks
      to zero. */
  lemma SumWithOwnChecksum(d: bytes, s: nat)
    requires |d| % 2 == 0 && s <= 4294901760
    requires WordSum(d, Big) == s + Complement(Carry(s))
    ensures NetChecksum(d) == 0
  {
    NetOfEven(d);
    FoldWithChecksum(s);
  }

  /** On data of even length: once the checksum is stored in a zeroed
      16-bit field at an even offset, checking the data again gives zero. */
  lemma ChecksumVerifiesEven(d: bytes, k: nat)
    requires |d| % 2 == 0 && |d| <= 131072
    requires k % 2 == 0 && k + 2 <= |d| && d[k] == 0 && d[k + 1] == 0
    ensures NetChecksum(d[..k] + BeBytes(NetChecksum(d), 2) + d[k + 2..]) == 0
  {
    NetOfEven(d);
    SpliceChecksum(d, k, NetChecksum(d));
    WordSumBound(d, Big);
    SumWithOwnChecksum(d[..k] + BeBytes(NetChecksum(d), 2) + d[k + 2..], WordSum(d, Big));
  }

  /** Writing two bytes inside the data commutes with the padding. */
  lemma PadEvenSplice(d: bytes, k: nat, c: bytes)
    requires k + 2 <= |d| && |c| == 2
    ensures PadEven(d[..k] + c + d[k + 2..]) == PadEven(d)[..k] + c + PadEven(d)[k + 2..]
  {
    if |d| % 2 != 0 {
      assert (d + [0])[k + 2..] == d[k + 2..] + [0];
      assert (d + [0])[..k] == d[..k];
    }
  }

  /** The checksum of data is the checksum of its padded form. */
  lemma NetOfPadded(d: bytes)
    ensures NetChecksum(PadEven(d)) == NetChecksum(d)
  {
    assert PadEven(PadEven(d)) == PadEven(d);
  }

  /** RFC 1071 section 1: once the checksum is stored in a zeroed 16-bit
      field at an even offset, checking the data again gives zero, for
      data of any length up to 128 KiB. */
  lemma ChecksumVerifies(d: bytes, k: nat)
    requires |d| < 131072
    requires k % 2 == 0 && k + 2 <= |d| && d[k] == 0 && d[k + 1] == 0
    ensures NetChecksum(d[..k] + BeBytes(NetChecksum(d), 2) + d[k + 2..]) == 0
  {
    var e := PadEven(d);
    var c := BeBytes(NetChecksum(d), 2);
    NetOfPadded(d);
    PadEvenSplice(d, k, c);
    ChecksumVerifiesEven(e, k);
    NetOfPadded(d[..k] + c + d[k + 2..]);
  }
}

=== FILE: cli.dfy ===
/** The pure helpers of the command-line front end
    (`polymorph/CLI/cli.py`): casting the `;`-separated patterns and values
    the user types, matching patterns against a packet's bytes in hex,
    extracting `this.` dependencies from a struct rule, and the default
    precondition and executions it installs in a template. The extra
    attributes the front end hangs on the interceptor's packet (`count`,
    `insert_times`, `in_pkt`, `insert_layer`, `insert_values`) travel with
    the packet in `CliPacket`. */
module CliHelpers {
  import opened Wrappers
  import opened Bytes
  import opened Text
  import opened OrderedMap
  import opened Converter
  import opened Payload
  import LP = LegacyPackets
  import Layers

  /** A cast pattern or value: an int, a str, or a bytes object. */
  datatype Pattern = PInt(i: int) | PStr(s: string) | PBytes(b: bytes)

  // ---------------------------------------------------------------------
  // _get_patterns
  // ---------------------------------------------------------------------

  /** The type named for position `i`, if the type list reaches that far. */
  function TypeAt(types: seq<string>, i: nat): (r: Option<string>)
    ensures r.Some? <==> i < |types|
  {
    if i < |types| then Some(types[i]) else None
  }

  /** One pattern cast by its type: `int(...)` (ValueError for a bad
      literal), `.encode()` for "bytes", and the text itself otherwise. */
  function Cast(env: Env, part: string, ty: Option<string>): (r: Result<Pattern>)
    ensures r.Err? <==> ty == Some("int") && ParseInt(part).None?
    ensures r.Err? ==> r.error == ValueError
    ensures ty == Some("int") && r.Ok? ==> r.value == PInt(ParseInt(part).value)
    ensures ty == Some("bytes") ==> r == Ok(PBytes(env.encode(part)))
    ensures ty != Some("int") && ty != Some("bytes") ==> r == Ok(PStr(part))
  {
    if ty == Some("int") then
      match ParseInt(part)
      case None => Err(ValueError)
      case Some(i) => Ok(PInt(i))
    else if ty == Some("bytes") then Ok(PBytes(env.encode(part)))
    else Ok(PStr(part))
  }

  /** The casting loop over the parts from position `i` on. */
  function CastFrom(env: Env, parts: seq<string>, types: seq<string>, i: nat): (r: Result<seq<Pattern>>)
    requires i <= |parts|
    ensures r.Ok? ==> |r.value| == |parts| - i
    ensures r.Ok? ==> forall k :: i <= k < |parts| ==> Cast(env, parts[k], TypeAt(types, k)) == Ok(r.value[k - i])
    ensures r.Err? <==> exists k :: i <= k < |parts| && Cast(env, parts[k], TypeAt(types, k)).Err?
    decreases |parts| - i
  {
    if i == |parts| then Ok([])
    else
      match Cast(env, parts[i], TypeAt(types, i))
      case Err(e) => Err(e)
      case Ok(p) =>
        match CastFrom(env, parts, types, i + 1)
        case Err(e) => Err(e)
        case Ok(rest) => Ok([p] + rest)
  }

  /** `_get_patterns(chain, types)`: the chain split on `;`, the i-th part
      cast by the i-th type; parts past the end of the types stay text. */
  function GetPatterns(env: Env, chain: string, types: seq<string>): (r: Result<seq<Pattern>>)
    ensures r.Ok? ==> |r.value| == |Split(chain, ';')| >= 1
    ensures r.Ok? ==> forall k :: |types| <= k < |r.value| ==> r.value[k] == PStr(Split(chain, ';')[k])
  {
    CastFrom(env, Split(chain, ';'), types, 0)
  }

  /** Without types every part is text, and joining the parts with `;`
      gives the chain back. */
  lemma UntypedPatternsRoundTrip(env: Env, parts: seq<string>)
    requires |parts| >= 1 && forall k :: 0 <= k < |parts| ==> ';' !in parts[k]
    ensures GetPatterns(env, Join(parts, ";"), []).Ok?
    ensures var ps := GetPatterns(env, Join(parts, ";"), []).value;
      |ps| == |parts| && forall k :: 0 <= k < |parts| ==> ps[k] == PStr(parts[k])
  {
    SplitJoin(parts, ';');
  }

  /** A non-negative number written in decimal and typed "int" is cast
      back to that number. */
  lemma IntPatternRoundTrip(env: Env, n: nat)
    ensures GetPatterns(env, DecimalNumeral(n), ["int"]) == Ok([PInt(n)])
  {
    var s := DecimalNumeral(n);
    assert forall k :: 0 <= k < |s| ==> s[k] != ';';
    SplitNoSep(s, ';');
    ParseIntOfNumeral(n);
    assert Cast(env, s, TypeAt(["int"], 0)) == Ok(PInt(n));
    assert CastFrom(env, [s], ["int"], 1) == Ok([]);
    assert [PInt(n)] + [] == [PInt(n)];
    assert CastFrom(env, [s], ["int"], 0) == Ok([PInt(n)]);
  }

  // ---------------------------------------------------------------------
  // Matching patterns against a packet in hex
  // ---------------------------------------------------------------------

  /** `format(i, 'x')`: lower-case hex digits, a minus sign in front of a
      negative number. */
  function IntHex(i: int): (r: string)
    ensures i >= 0 ==> r == HexNumeral(i)
    ensures i < 0 ==> r == "-" + HexNumeral(-i)
  {
    if i >= 0 then HexNumeral(i) else "-" + HexNumeral(-i)
  }

  /** The hex text a pattern is looked for as, as written: an int by its
      hex numeral, anything else by `pattern.encode().hex()`, which raises
      AttributeError for a bytes pattern. */
  function PatternHexAsWritten(env: Env, p: Pattern): (r: Result<string>)
    ensures r.Err? <==> p.PBytes?
    ensures r.Err? ==> r.error == AttributeError
    ensures p.PStr? ==> r == Ok(HexOfBytes(env.encode(p.s)))
  {
    match p
    case PInt(i) => Ok(IntHex(i))
    case PStr(s) => Ok(HexOfBytes(env.encode(s)))
    case PBytes(_) => Err(AttributeError)
  }

  /** The hex text a pattern is evidently meant to be looked for as: a
      bytes pattern by the hex of its own bytes. */
  function PatternHex(env: Env, p: Pattern): (r: string)
    ensures p.PBytes? ==> r == HexOfBytes(p.b)
    ensures !p.PBytes? ==> PatternHexAsWritten(env, p) == Ok(r)
  {
    match p
    case PInt(i) => IntHex(i)
    case PStr(s) => HexOfBytes(env.encode(s))
    case PBytes(b) => HexOfBytes(b)
  }

  /** `pattern_match` / the loop of `precondition` with a given rendering
      of patterns: every pattern must occur in the hex of the raw bytes;
      the first miss answers False before later patterns are rendered. */
  function MatchWith(hex: Pattern -> Result<string>, rawHex: string, patterns: seq<Pattern>): (r: Result<bool>)
    ensures r == Ok(true) <==> forall k :: 0 <= k < |patterns| ==> hex(patterns[k]).Ok? && Contains(rawHex, hex(patterns[k]).value)
    ensures r.Err? ==> exists k :: 0 <= k < |patterns| && hex(patterns[k]) == Err(r.error)
  {
    if |patterns| == 0 then Ok(true)
    else
      match hex(patterns[0])
      case Err(e) => Err(e)
      case Ok(h) =>
        if !Contains(rawHex, h) then Ok(false)
        else
          var r := MatchWith(hex, rawHex, patterns[1..]);
          assert forall k :: 1 <= k < |patterns| ==> patterns[k] == patterns[1..][k - 1];
          r
  }

  /** Matching as written. */
  function PatternMatchAsWritten(env: Env, raw: bytes, patterns: seq<Pattern>): (r: Result<bool>)
    ensures r == Ok(true) <==> forall k :: 0 <= k < |patterns| ==>
      !patterns[k].PBytes? && Contains(HexOfBytes(raw), PatternHex(env, patterns[k]))
  {
    MatchWith(p => PatternHexAsWritten(env, p), HexOfBytes(raw), patterns)
  }

  /** Matching as intended: never raises. */
  function PatternMatch(env: Env, raw: bytes, patterns: seq<Pattern>): (r: bool)
    ensures r <==> forall k :: 0 <= k < |patterns| ==> Contains(HexOfBytes(raw), PatternHex(env, patterns[k]))
  {
    MatchWith(p => Ok(PatternHex(env, p)), HexOfBytes(raw), patterns) == Ok(true)
  }

  /** A chain whose first pattern is typed "bytes" casts to a bytes
      pattern, and matching the patterns then raises AttributeError as
      written, while the intended match looks for those bytes in hex. */
  lemma BytesPatternRaises(env: Env, raw: bytes, chain: string)
    ensures GetPatterns(env, chain, ["bytes"]).Ok?
    ensures var ps := GetPatterns(env, chain, ["bytes"]).value;
      && ps[0] == PBytes(env.encode(Split(chain, ';')[0]))
      && PatternMatchAsWritten(env, raw, ps) == Err(AttributeError)
      && (PatternMatch(env, raw, ps) ==> Contains(HexOfBytes(raw), HexOfBytes(env.encode(Split(chain, ';')[0]))))
  {
    var parts := Split(chain, ';');
    assert forall k :: 0 <= k < |parts| ==> Cast(env, parts[k], TypeAt(["bytes"], k)).Ok?;
    var ps := GetPatterns(env, chain, ["bytes"]).value;
    assert Cast(env, parts[0], TypeAt(["bytes"], 0)) == Ok(ps[0]);
  }

  /** `hex` distributes over concatenation. */
  lemma {:induction false} HexOfBytesAppend(a: bytes, b: bytes)
    ensures HexOfBytes(a + b) == HexOfBytes(a) + HexOfBytes(b)
    decreases |b|
  {
    if |b| > 0 {
      var b' := b[..|b| - 1];
      assert (a + b)[..|a + b| - 1] == a + b';
      assert (a + b)[|a + b| - 1] == b[|b| - 1];
      HexOfBytesAppend(a, b');
    } else {
      assert a + b == a;
    }
  }

  /** Bytes that occur in the packet are found by the hex match. */
  lemma BytesInPacketMatch(env: Env, x: bytes, y: bytes, z: bytes)
    ensures PatternMatch(env, x + y + z, [PBytes(y)])
  {
    HexOfBytesAppend(x + y, z);
    HexOfBytesAppend(x, y);
    var h := HexOfBytes(x + y + z);
    assert h[2 * |x|..2 * |x| + 2 * |y|] == HexOfBytes(y);
    assert OccursAt(h, HexOfBytes(y), 2 * |x|);
  }

  /** The converse fails: hex matching is not aligned to bytes, so an
      int pattern can match across two bytes it is neither of. */
  lemma UnalignedMatch(env: Env)
    ensures HexOfBytes([0x01, 0x10]) == "0110"
    ensures PatternMatch(env, [0x01, 0x10], [PInt(0x11)])
  {
    assert HexOfBytes([0x01]) == "01";
    assert HexOfBytes([0x01, 0x10]) == "0110";
    assert IntHex(0x11) == "11";
    assert OccursAt("0110", "11", 1);
  }

  // ---------------------------------------------------------------------
  // _extrac_deps
  // ---------------------------------------------------------------------

  /** What a token contributes: everything after its first five
      characters, if `this.` occurs anywhere in it. */
  predicate Names(p: string)
  {
    Contains(p, "this.")
  }

  /** The loop of `_extrac_deps` with the fields found so far. */
  function Collect(ps: seq<string>, acc: seq<string>): (r: seq<string>)
    ensures Distinct(acc) ==> Distinct(r)
    ensures |r| >= |acc| && r[..|acc|] == acc
    ensures forall x :: x in r ==> x in acc || exists k :: 0 <= k < |ps| && Names(ps[k]) && PyFrom(ps[k], 5) == x
    ensures forall k :: 0 <= k < |ps| && Names(ps[k]) ==> PyFrom(ps[k], 5) in r
    decreases |ps|
  {
    if |ps| == 0 then acc
    else
      var p := ps[0];
      var acc' := if Names(p) && PyFrom(p, 5) !in acc then acc + [PyFrom(p, 5)] else acc;
      var r := Collect(ps[1..], acc');
      assert r[..|acc|] == r[..|acc'|][..|acc|];
      assert forall k :: 1 <= k < |ps| ==> ps[k] == ps[1..][k - 1];
      assert forall x :: x in acc' ==> x in r;
      r
  }

  /** The tokens of a struct rule: both halves split on spaces. */
  function Tokens(startByte: string, expression: string): (ps: seq<string>)
    ensures |ps| >= 2
  {
    Split(startByte, ' ') + Split(expression, ' ')
  }

  /** `_extrac_deps(start_byte, expression)`: the dependencies named in
      the two halves of a struct rule, each once. */
  function ExtracDeps(startByte: string, expression: string): (r: seq<string>)
    ensures Distinct(r)
    ensures forall x :: x in r ==>
      (exists k :: 0 <= k < |Tokens(startByte, expression)| && Names(Tokens(startByte, expression)[k]) && PyFrom(Tokens(startByte, expression)[k], 5) == x)
    ensures forall k :: 0 <= k < |Tokens(startByte, expression)| && Names(Tokens(startByte, expression)[k]) ==>
      PyFrom(Tokens(startByte, expression)[k], 5) in r
  {
    Collect(Tokens(startByte, expression), [])
  }

  /** A token starting with `this.` contributes the field name after it;
      one with `this.` further in loses its first five characters
      whatever they are. */
  lemma ThisPrefix(name: string)
    ensures Names("this." + name) && PyFrom("this." + name, 5) == name
    ensures Names("(this." + name) && PyFrom("(this." + name, 5) == "." + name
  {
    assert OccursAt("this." + name, "this.", 0);
    assert ("(this." + name)[1..6] == "this.";
    assert OccursAt("(this." + name, "this.", 1);
  }

  // ---------------------------------------------------------------------
  // The default precondition and executions
  // ---------------------------------------------------------------------

  /** The interceptor's packet with the attributes the front end sets on
      it; a `count` of 0 stands for no limit (None or 0, both falsy). */
  datatype CliPacket = CliPacket(pkt: LP.Packet, count: int, insertTimes: int, inPkt: seq<Pattern>,
                                 insertLayer: string, insertValues: Entries<Pattern>)

  /** Whether the packet has been modified more times than `count`
      allows. */
  predicate Exhausted(cp: CliPacket)
  {
    cp.count != 0 && cp.insertTimes > cp.count
  }

  /** `precondition(packet)` as written: None once the packet is
      exhausted, or when a pattern does not occur in its payload in hex;
      the packet itself otherwise. A bytes pattern reached in the loop
      raises AttributeError. */
  function Precondition(env: Env, cp: CliPacket): (r: Result<Option<CliPacket>>)
    ensures Exhausted(cp) ==> r == Ok(None)
    ensures r.Ok? && r.value.Some? ==> r.value.value == cp
    ensures r == Ok(Some(cp)) <==>
      (!Exhausted(cp) && forall k :: 0 <= k < |cp.inPkt| ==> !cp.inPkt[k].PBytes? && Contains(HexOfBytes(Raw(cp.pkt.buf)), PatternHex(env, cp.inPkt[k])))
    ensures r.Err? ==> r.error == AttributeError && exists k :: 0 <= k < |cp.inPkt| && cp.inPkt[k].PBytes?
  {
    if Exhausted(cp) then Ok(None)
    else
      match PatternMatchAsWritten(env, Raw(cp.pkt.buf), cp.inPkt)
      case Err(e) => Err(e)
      case Ok(b) => if b then Ok(Some(cp)) else Ok(None)
  }

  /** `precondition(packet)` as evidently intended: a bytes pattern is
      looked for by the hex of its bytes, so nothing raises. */
  function PreconditionIntended(env: Env, cp: CliPacket): (r: Option<CliPacket>)
    ensures Exhausted(cp) ==> r.None?
    ensures r.Some? ==> r.value == cp
    ensures r.Some? <==>
      (!Exhausted(cp) && forall k :: 0 <= k < |cp.inPkt| ==> Contains(HexOfBytes(Raw(cp.pkt.buf)), PatternHex(env, cp.inPkt[k])))
  {
    if Exhausted(cp) then None
    else if PatternMatch(env, Raw(cp.pkt.buf), cp.inPkt) then Some(cp)
    else None
  }

  /** Without bytes patterns the two matchings agree. */
  lemma {:induction false} MatchAgrees(env: Env, raw: bytes, patterns: seq<Pattern>)
    requires forall k :: 0 <= k < |patterns| ==> !patterns[k].PBytes?
    ensures PatternMatchAsWritten(env, raw, patterns) == Ok(PatternMatch(env, raw, patterns))
  {
    if |patterns| > 0 {
      MatchAgrees(env, raw, patterns[1..]);
      assert PatternHexAsWritten(env, patterns[0]) == Ok(PatternHex(env, patterns[0]));
    }
  }

  /** Without bytes patterns the precondition as written is the intended
      one; a single bytes pattern makes it raise where the intended one
      answers by looking the bytes up in hex. */
  lemma PreconditionAgrees(env: Env, cp: CliPacket)
    ensures (forall k :: 0 <= k < |cp.inPkt| ==> !cp.inPkt[k].PBytes?) ==> Precondition(env, cp) == Ok(PreconditionIntended(env, cp))
    ensures !Exhausted(cp) && |cp.inPkt| == 1 && cp.inPkt[0].PBytes? ==>
      && Precondition(env, cp) == Err(AttributeError)
      && (PreconditionIntended(env, cp).Some? <==> Contains(HexOfBytes(Raw(cp.pkt.buf)), HexOfBytes(cp.inPkt[0].b)))
  {
    if forall k :: 0 <= k < |cp.inPkt| ==> !cp.inPkt[k].PBytes? {
      MatchAgrees(env, Raw(cp.pkt.buf), cp.inPkt);
    }
  }

  /** A pattern or value as the packet's setters see it. */
  function ToRepr(p: Pattern): (r: Repr)
    ensures p.PInt? <==> r.RInt?
  {
    match p
    case PInt(i) => RInt(i)
    case PStr(s) => RText(s)
    case PBytes(b) => RBytes(b)
  }

  /** The packet a template function leaves behind, and the exception it
      raised, if any: the attribute and buffer updates made before a
      failure stay. */
  datatype Effect = Effect(state: CliPacket, error: Option<Exc>)

  /** The `for` loop of `execution`: each value written in turn into
      `packet[insert_layer][field]`. */
  function WriteAll(env: Env, cp: CliPacket, vals: Entries<Pattern>): (e: Effect)
    ensures e.state == cp.(pkt := e.state.pkt) && e.state.pkt.layers == cp.pkt.layers
    ensures cp.insertLayer !in Keys(cp.pkt.layers) && |vals| > 0 ==> e == Effect(cp, Some(KeyError))
    decreases |vals|
  {
    if |vals| == 0 then Effect(cp, None)
    else
      match LP.Layer(cp.pkt, cp.insertLayer)
      case Err(x) => Effect(cp, Some(x))
      case Ok(v) =>
        match LP.SetItem(env, v, cp.pkt.buf, vals[0].0, ToRepr(vals[0].1))
        case Err(x) => Effect(cp, Some(x))
        case Ok(b) => WriteAll(env, cp.(pkt := cp.pkt.(buf := b)), vals[1..])
  }

  /** `execution(packet)`: the modification is counted, then every value
      is written into its field of the insert layer. */
  function Execution(env: Env, cp: CliPacket): (e: Effect)
    ensures e.state.insertTimes == cp.insertTimes + 1
    ensures e.state.pkt.layers == cp.pkt.layers && e.state.insertValues == cp.insertValues
  {
    WriteAll(env, cp.(insertTimes := cp.insertTimes + 1), cp.insertValues)
  }

  /** One integer value for an integer field inside the buffer: after the
      execution the field reads back as that value, and nothing outside
      its slice changed. */
  lemma ExecutionWritesInt(env: Env, cp: CliPacket, field: string, value: nat, v: LP.View, sl: Slice, t: Layers.LType)
    requires cp.insertValues == [(field, PInt(value))]
    requires LP.Layer(cp.pkt, cp.insertLayer) == Ok(v)
    requires Get(v.fields, field) == Some((sl, t)) && Get(v.structs, field).None?
    requires t.LInt? && 0 <= sl.start <= sl.stop <= |cp.pkt.buf| && value < Pow256(sl.stop - sl.start)
    ensures Execution(env, cp).error.None?
    ensures Execution(env, cp).state.insertTimes == cp.insertTimes + 1
    ensures var b := Execution(env, cp).state.pkt.buf;
      && |b| == |cp.pkt.buf|
      && b[..sl.start] == cp.pkt.buf[..sl.start]
      && b[sl.stop..] == cp.pkt.buf[sl.stop..]
      && LP.GetItem(env, v, b, field) == Ok(RInt(value))
  {
    LP.SetIntThenGet(env, v, cp.pkt.buf, field, value);
    var b := LP.SetItem(env, v, cp.pkt.buf, field, RInt(value)).value;
    WriteOne(env, cp.(insertTimes := cp.insertTimes + 1), field, PInt(value), v, b);
  }

  /** Writing a single value that the setter accepts. */
  lemma WriteOne(env: Env, cp: CliPacket, field: string, value: Pattern, v: LP.View, b: bytes)
    requires LP.Layer(cp.pkt, cp.insertLayer) == Ok(v)
    requires LP.SetItem(env, v, cp.pkt.buf, field, ToRepr(value)) == Ok(b)
    ensures WriteAll(env, cp, [(field, value)]) == Effect(cp.(pkt := cp.pkt.(buf := b)), None)
  {
    assert WriteAll(env, cp, [(field, value)]) == WriteAll(env, cp.(pkt := cp.pkt.(buf := b)), []);
  }

  /** `int(f.strip('\\'))` for one half of an `a:b` key. */
  function Offset(part: string): (r: Result<int>)
    ensures r.Ok? <==> ParseInt(Strip(part, '\\')).Some?
    ensures r.Err? ==> r.error == ValueError
  {
    match ParseInt(Strip(part, '\\'))
    case None => Err(ValueError)
    case Some(i) => Ok(i)
  }

  /** `value.encode()`: only a str has the method. */
  function Encode(env: Env, p: Pattern): (r: Result<bytes>)
    ensures r.Ok? <==> p.PStr?
    ensures r.Ok? ==> r.value == env.encode(p.s)
    ensures r.Err? ==> r.error == AttributeError
  {
    if p.PStr? then Ok(env.encode(p.s)) else Err(AttributeError)
  }

  /** One `insert` of `execution2`: the key `a:b` is split on `:`, both
      halves lose their backslashes and are read as ints (ValueError),
      a key without `:` raises IndexError, and the value is encoded
      (AttributeError unless it is a str) before the bytes are spliced
      between the two offsets. */
  function InsertOne(env: Env, p: LP.Packet, key: string, value: Pattern): (r: Result<LP.Packet>)
    ensures r.Ok? ==> r.value.layers == p.layers
  {
    var f := Split(key, ':');
    match Offset(f[0])
    case Err(x) => Err(x)
    case Ok(a) =>
      if |f| < 2 then Err(IndexError)
      else
        match Offset(f[1])
        case Err(x) => Err(x)
        case Ok(b) =>
          match Encode(env, value)
          case Err(x) => Err(x)
          case Ok(bs) => Ok(p.(buf := Insert(p.buf, a, b, RBytes(bs)).value))
  }

  /** The `for` loop of `execution2`. */
  function InsertAll(env: Env, cp: CliPacket, vals: Entries<Pattern>): (e: Effect)
    ensures e.state == cp.(pkt := e.state.pkt) && e.state.pkt.layers == cp.pkt.layers
    decreases |vals|
  {
    if |vals| == 0 then Effect(cp, None)
    else
      match InsertOne(env, cp.pkt, vals[0].0, vals[0].1)
      case Err(x) => Effect(cp, Some(x))
      case Ok(p) => InsertAll(env, cp.(pkt := p), vals[1..])
  }

  /** `execution2(packet)`: the modification is counted, then each value
      is inserted at the byte range its key names. */
  function Execution2(env: Env, cp: CliPacket): (e: Effect)
    ensures e.state.insertTimes == cp.insertTimes + 1
    ensures e.state.pkt.layers == cp.pkt.layers && e.state.insertValues == cp.insertValues
  {
    InsertAll(env, cp.(insertTimes := cp.insertTimes + 1), cp.insertValues)
  }

  /** A key `a:b` with two offsets inside the payload and a text value:
      the value's bytes replace exactly the payload bytes between them. */
  lemma Execution2Splices(env: Env, cp: CliPacket, a: nat, b: nat, s: string)
    requires cp.insertValues == [(DecimalNumeral(a) + ":" + DecimalNumeral(b), PStr(s))]
    requires PadLen <= a <= b <= |cp.pkt.buf|
    ensures var e := Execution2(env, cp);
      var raw := Raw(cp.pkt.buf);
      && e.error.None?
      && Raw(e.state.pkt.buf) == raw[..a - PadLen] + env.encode(s) + raw[b - PadLen..]
  {
    var p := cp.pkt.(buf := Insert(cp.pkt.buf, a, b, RBytes(env.encode(s))).value);
    InsertSplice(cp.pkt.buf, a, b, env.encode(s));
    var cp1 := cp.(insertTimes := cp.insertTimes + 1);
    InsertOneEffect(env, cp1, a, b, s, p);
    assert Execution2(env, cp) == Effect(cp1.(pkt := p), None);
  }

  /** Running the loop over the single `a:b` entry leaves the spliced packet. */
  lemma InsertOneEffect(env: Env, cp: CliPacket, a: nat, b: nat, s: string, p: LP.Packet)
    requires p == cp.pkt.(buf := Insert(cp.pkt.buf, a, b, RBytes(env.encode(s))).value)
    ensures InsertAll(env, cp, [(DecimalNumeral(a) + ":" + DecimalNumeral(b), PStr(s))]) == Effect(cp.(pkt := p), None)
  {
    InsertNumerals(env, cp.pkt, a, b, s);
    var vals := [(DecimalNumeral(a) + ":" + DecimalNumeral(b), PStr(s))];
    assert InsertAll(env, cp, vals) == InsertAll(env, cp.(pkt := p), []);
  }

  /** A key written as two numerals around `:` inserts at those offsets. */
  lemma InsertNumerals(env: Env, p: LP.Packet, a: nat, b: nat, s: string)
    ensures InsertOne(env, p, DecimalNumeral(a) + ":" + DecimalNumeral(b), PStr(s))
         == Ok(p.(buf := Insert(p.buf, a, b, RBytes(env.encode(s))).value))
  {
    var key := DecimalNumeral(a) + ":" + DecimalNumeral(b);
    SplitNumerals(a, b);
    NoBackslash(DecimalNumeral(a));
    NoBackslash(DecimalNumeral(b));
    ParseIntOfNumeral(a);
    ParseIntOfNumeral(b);
    assert Offset(Split(key, ':')[0]) == Ok(a);
    assert Offset(Split(key, ':')[1]) == Ok(b);
  }

  lemma SplitNumerals(a: nat, b: nat)
    ensures Split(DecimalNumeral(a) + ":" + DecimalNumeral(b), ':') == [DecimalNumeral(a), DecimalNumeral(b)]
  {
    assert forall k :: 0 <= k < |DecimalNumeral(a)| ==> DecimalNumeral(a)[k] != ':';
    assert forall k :: 0 <= k < |DecimalNumeral(b)| ==> DecimalNumeral(b)[k] != ':';
    SplitAtSep(DecimalNumeral(a), DecimalNumeral(b), ':');
    SplitNoSep(DecimalNumeral(b), ':');
  }

  /** A numeral has no backslash to strip. */
  lemma NoBackslash(s: string)
    requires forall k :: 0 <= k < |s| ==> IsDigit(s[k])
    ensures Strip(s, '\\') == s
  {
    if |s| > 0 {
      assert s[0] != '\\';
      assert s[|s| - 1] != '\\';
    }
  }
}

=== FILE: command_parser.dfy ===
/** The option tokenizer of the interactive shell
    (`polymorph/UI/command_parser.py`). A parser knows each option's kind
    and default; parsing a command walks its tokens after the first, sets
    flags, reads decimal numbers and (possibly quoted) strings, and gives
    up on anything it does not understand. The argument dictionary is the
    parser's own state: a parse starts from whatever the previous one left
    in it, and a failed parse keeps the options it had already set. */
module CommandParsing {
  import opened Wrappers
  import opened Text
  import opened OrderedMap

  /** The `"type"` entry of an option: `bool`, `int`, `str`, some other
      type the parser does not act on, or no `"type"` entry at all. */
  datatype OptKind = BoolOpt | IntOpt | StrOpt | OtherOpt | NoKind

  /** An argument value: what a default may be and what parsing stores. */
  datatype Arg = ABool(b: bool) | AInt(i: int) | AStr(s: string) | ANone

  datatype Opt = Opt(kind: OptKind, default: Arg)

  /** The parser's argument dictionary right after `__init__`: every
      option, in order, with its default. */
  function InitArgs(opts: Entries<Opt>): (args: Entries<Arg>)
    ensures Keys(args) == Keys(opts)
    ensures forall i :: 0 <= i < |opts| ==> args[i].1 == opts[i].1.default
  {
    seq(|opts|, i requires 0 <= i < |opts| => (opts[i].0, opts[i].1.default))
  }

  /** Every option's initial argument is its default, found under its
      own name. */
  lemma InitDefaults(opts: Entries<Opt>, k: string)
    requires Valid(opts)
    ensures Valid(InitArgs(opts))
    ensures Get(InitArgs(opts), k) == if k in Keys(opts) then Some(Get(opts, k).value.default) else None
  {
    var args := InitArgs(opts);
    if k in Keys(opts) {
      var i :| 0 <= i < |opts| && opts[i].0 == k;
      GetAt(opts, i);
      GetAt(args, i);
    }
  }

  /** `_parse_int`: the value of an all-decimal token, None otherwise. */
  function ParseDecimal(value: string): (r: Option<nat>)
    ensures r.Some? <==> IsDecimal(value)
    ensures r.Some? ==> r.value == DigitsValue(value)
  {
    if IsDecimal(value) then Some(DigitsValue(value)) else None
  }

  /** The `while` loop of `_parse_string` after an opening quote: `f`
      holds the tokens read so far joined by single spaces and `value` is
      the last of them; reading stops at a token ending in a quote, and
      the quotes are stripped from both ends. Running out of tokens gives
      None; an empty token raises IndexError at `value[-1]`. */
  function Gather(f: string, value: string, rest: seq<string>): (r: (Result<Option<string>>, seq<string>))
    ensures |r.1| <= |rest|
    decreases |rest|
  {
    if |value| == 0 then (Err(IndexError), rest)
    else if value[|value| - 1] == '"' then (Ok(Some(Strip(f, '"'))), rest)
    else if |rest| == 0 then (Ok(None), rest)
    else Gather(f + " " + rest[0], rest[0], rest[1..])
  }

  /** `_parse_string(value)` with the tokens still unread: a value opening
      with a quote gathers tokens up to the closing one; any other value is
      taken as is unless it ends with a quote. An empty token raises
      IndexError at `value[0]`. The second component is what is left to
      read. */
  function ParseString(value: string, rest: seq<string>): (r: (Result<Option<string>>, seq<string>))
    ensures |r.1| <= |rest|
    ensures |value| > 0 && value[0] != '"' ==>
      r == (Ok(if value[|value| - 1] == '"' then None else Some(value)), rest)
  {
    if |value| == 0 then (Err(IndexError), rest)
    else if value[0] == '"' then Gather(value, value, rest)
    else if value[|value| - 1] != '"' then (Ok(Some(value)), rest)
    else (Ok(None), rest)
  }

  /** Where a parse got to: the argument dictionary as it now stands, and
      whether `parse` returned it (`Ok(true)`), returned None
      (`Ok(false)`), or raised. */
  datatype Parsed = Parsed(args: Entries<Arg>, outcome: Result<bool>)

  /** The `for` loop of `parse` over the unread tokens. An unknown option,
      an option without a `"type"`, a missing value, a number that is not
      all-decimal or is zero, and an empty or unterminated string all end
      the parse with None. A flag is set without reading a value; an
      option of another type is skipped. */
  function Walk(opts: Entries<Opt>, args: Entries<Arg>, toks: seq<string>): (r: Parsed)
    ensures Keys(args) == Keys(opts) ==> Keys(r.args) == Keys(opts)
    decreases |toks|
  {
    if |toks| == 0 then Parsed(args, Ok(true))
    else
      var c := toks[0];
      var rest := toks[1..];
      match Get(opts, c)
      case None => Parsed(args, Ok(false))
      case Some(o) =>
        match o.kind
        case NoKind => Parsed(args, Ok(false))
        case OtherOpt => Walk(opts, args, rest)
        case BoolOpt =>
          PutKeys(args, c, ABool(true));
          Walk(opts, Put(args, c, ABool(true)), rest)
        case IntOpt =>
          if |rest| == 0 then Parsed(args, Ok(false))
          else
            (match ParseDecimal(rest[0])
             case None => Parsed(args, Ok(false))
             case Some(n) =>
               if n == 0 then Parsed(args, Ok(false))
               else
                 PutKeys(args, c, AInt(n));
                 Walk(opts, Put(args, c, AInt(n)), rest[1..]))
        case StrOpt =>
          if |rest| == 0 then Parsed(args, Ok(false))
          else
            var (s, left) := ParseString(rest[0], rest[1..]);
            (match s
             case Err(e) => Parsed(args, Err(e))
             case Ok(None) => Parsed(args, Ok(false))
             case Ok(Some(v)) =>
               if |v| == 0 then Parsed(args, Ok(false))
               else
                 PutKeys(args, c, AStr(v));
                 Walk(opts, Put(args, c, AStr(v)), left))
  }

  /** `parse(command)`: the first token (the command's own name) is
      skipped. */
  function Parse(opts: Entries<Opt>, args: Entries<Arg>, command: seq<string>): (r: Parsed)
    ensures |command| <= 1 ==> r == Parsed(args, Ok(true))
    ensures Keys(args) == Keys(opts) ==> Keys(r.args) == Keys(opts)
  {
    if |command| == 0 then Parsed(args, Ok(true)) else Walk(opts, args, command[1..])
  }

  /** A token that names no option ends the parse with None at once. */
  lemma UnknownOption(opts: Entries<Opt>, args: Entries<Arg>, c: string, rest: seq<string>)
    requires c !in Keys(opts)
    ensures Walk(opts, args, [c] + rest) == Parsed(args, Ok(false))
  {
    assert ([c] + rest)[0] == c;
  }

  /** A flag is set to True and the next token is read as an option. */
  lemma FlagSet(opts: Entries<Opt>, args: Entries<Arg>, c: string, rest: seq<string>)
    requires Get(opts, c).Some? && Get(opts, c).value.kind == BoolOpt
    ensures Walk(opts, args, [c] + rest) == Walk(opts, Put(args, c, ABool(true)), rest)
  {
    assert ([c] + rest)[1..] == rest;
  }

  /** A number option takes the next token exactly when it is all-decimal
      and not zero; otherwise the parse ends with None. */
  lemma NumberOption(opts: Entries<Opt>, args: Entries<Arg>, c: string, v: string, rest: seq<string>)
    requires Get(opts, c).Some? && Get(opts, c).value.kind == IntOpt
    ensures IsDecimal(v) && DigitsValue(v) != 0 ==>
      Walk(opts, args, [c, v] + rest) == Walk(opts, Put(args, c, AInt(DigitsValue(v))), rest)
    ensures !(IsDecimal(v) && DigitsValue(v) != 0) ==> Walk(opts, args, [c, v] + rest) == Parsed(args, Ok(false))
  {
    assert ([c, v] + rest)[1..] == [v] + rest;
    assert ([v] + rest)[1..] == rest;
  }

  /** Writing a positive number in decimal and parsing it gives the number
      back, stored under its option. */
  lemma NumberRoundTrip(opts: Entries<Opt>, args: Entries<Arg>, c: string, n: nat)
    requires Get(opts, c).Some? && Get(opts, c).value.kind == IntOpt && n > 0
    ensures Parse(opts, args, ["cmd", c, DecimalNumeral(n)]) == Parsed(Put(args, c, AInt(n)), Ok(true))
  {
    DigitsValueOfNumeral(n);
    NumberOption(opts, args, c, DecimalNumeral(n), []);
    assert ["cmd", c, DecimalNumeral(n)][1..] == [c, DecimalNumeral(n)] + [];
  }

  /** A number option as the last token has no value: the parse ends with
      None. */
  lemma NumberMissing(opts: Entries<Opt>, args: Entries<Arg>, c: string)
    requires Get(opts, c).Some? && Get(opts, c).value.kind == IntOpt
    ensures Walk(opts, args, [c]) == Parsed(args, Ok(false))
  {
  }

  /** `sep.join` grows by one part at a time at its end. */
  lemma {:induction false} JoinSnoc(parts: seq<string>, x: string, sep: string)
    requires |parts| > 0
    ensures Join(parts + [x], sep) == Join(parts, sep) + sep + x
    decreases |parts|
  {
    if |parts| == 1 {
      assert (parts + [x])[1..] == [x];
    } else {
      assert (parts + [x])[1..] == parts[1..] + [x];
      JoinSnoc(parts[1..], x, sep);
    }
  }

  /** No token but the last ends with a quote. */
  predicate OpenUntilLast(ts: seq<string>)
  {
    forall j :: 0 <= j < |ts| - 1 ==> |ts[j]| > 0 && ts[j][|ts[j]| - 1] != '"'
  }

  /** From the `i`-th token of a quoted run on, gathering reaches the
      closing token and yields the run joined by single spaces. */
  lemma {:induction false} GatherRun(ts: seq<string>, i: nat, rest: seq<string>)
    requires i < |ts| && OpenUntilLast(ts)
    requires |ts[|ts| - 1]| > 0 && ts[|ts| - 1][|ts[|ts| - 1]| - 1] == '"'
    ensures Gather(Join(ts[..i + 1], " "), ts[i], ts[i + 1..] + rest) == (Ok(Some(Strip(Join(ts, " "), '"'))), rest)
    decreases |ts| - i
  {
    if i == |ts| - 1 {
      assert ts[..i + 1] == ts;
      assert ts[i + 1..] + rest == rest;
    } else {
      var more := ts[i + 1..] + rest;
      assert more[0] == ts[i + 1] && more[1..] == ts[i + 2..] + rest;
      assert ts[..i + 2] == ts[..i + 1] + [ts[i + 1]];
      JoinSnoc(ts[..i + 1], ts[i + 1], " ");
      GatherRun(ts, i + 1, rest);
    }
  }

  /** A quoted value spread over several tokens is those tokens joined by
      single spaces, with the quotes stripped from both ends; reading
      resumes after the closing token. */
  lemma QuotedString(ts: seq<string>, rest: seq<string>)
    requires |ts| > 0 && |ts[0]| > 0 && ts[0][0] == '"' && OpenUntilLast(ts)
    requires |ts[|ts| - 1]| > 0 && ts[|ts| - 1][|ts[|ts| - 1]| - 1] == '"'
    ensures ParseString(ts[0], ts[1..] + rest) == (Ok(Some(Strip(Join(ts, " "), '"'))), rest)
  {
    assert ts[..1] == [ts[0]];
    GatherRun(ts, 0, rest);
  }

  /** A quote that is never closed makes the string None, whatever was
      read. */
  lemma {:induction false} Unterminated(f: string, value: string, rest: seq<string>)
    requires |value| > 0 && value[|value| - 1] != '"'
    requires forall j :: 0 <= j < |rest| ==> |rest[j]| > 0 && rest[j][|rest[j]| - 1] != '"'
    ensures Gather(f, value, rest) == (Ok(None), [])
    decreases |rest|
  {
    if |rest| > 0 {
      Unterminated(f + " " + rest[0], rest[0], rest[1..]);
    }
  }

  /** A lone `""` strips to the empty string, which `parse` rejects. */
  lemma EmptyQuotedRejected(opts: Entries<Opt>, args: Entries<Arg>, c: string, rest: seq<string>)
    requires Get(opts, c).Some? && Get(opts, c).value.kind == StrOpt
    ensures Walk(opts, args, [c, "\"\""] + rest) == Parsed(args, Ok(false))
  {
    assert ([c, "\"\""] + rest)[1..] == ["\"\""] + rest;
    assert (["\"\""] + rest)[1..] == rest;
    assert Strip("\"\"", '"') == [];
  }

  /** A failed parse keeps what it had already stored: a flag set before
      an unknown option stays set in the parser's dictionary. */
  lemma FailureKeepsEarlierOptions(opts: Entries<Opt>, args: Entries<Arg>, c: string, u: string)
    requires Get(opts, c).Some? && Get(opts, c).value.kind == BoolOpt
    requires u !in Keys(opts)
    ensures Walk(opts, args, [c, u]) == Parsed(Put(args, c, ABool(true)), Ok(false))
    ensures Get(Walk(opts, args, [c, u]).args, c) == Some(ABool(true))
  {
    assert [c, u][1..] == [u];
    PutGet(args, c, ABool(true), c);
  }
}

=== FILE: converter.dfy ===
/** The type codecs between a field's raw bytes and its typed
    representation (`polymorph/converter.py`), and the two dispatchers
    `get_frepr` / `get_fraw`. Library calls the codecs delegate to (UTF-8,
    the `ipaddress` module, date parsing) are parameters gathered in `Env`. */
module Converter {
  import opened Wrappers
  import opened Bytes
  import opened Text
  import opened Bits
  import opened BitFields
  import opened FieldTypes

  /** A Python value as the codecs see it: an int, a str, a bytes, or None. */
  datatype Repr = RInt(i: int) | RText(s: string) | RBytes(b: bytes) | RNone

  /** Python truthiness: zero, the empty str, the empty bytes and None are false. */
  predicate Truthy(v: Repr)
  {
    match v
    case RInt(i) => i != 0
    case RText(s) => |s| > 0
    case RBytes(b) => |b| > 0
    case RNone => false
  }

  /** The check the text-valued setters make: a str is stored, anything
      else raises TypeError. */
  function TextOnly(value: Repr): (r: Result<string>)
    ensures r.Ok? <==> value.RText?
    ensures r.Ok? ==> r.value == value.s
    ensures r.Err? ==> r.error == TypeError
  {
    if value.RText? then Ok(value.s) else Err(TypeError)
  }

  /** The library behaviour the codecs rely on but do not define. */
  datatype Env = Env(
    decode: bytes -> Option<string>,                        // bytes.decode('utf-8'); None: UnicodeDecodeError
    encode: string -> bytes,                                // str.encode('utf-8')
    ipv4Text: bytes -> string,                              // str(IPv4Address(b)) for 4 bytes
    ipv6Text: bytes -> string,                              // str(IPv6Address(b)) for 16 bytes
    ipv4Pack: Repr -> Result<bytes>,                        // IPv4Address(v).packed
    ipv6Pack: Repr -> Result<bytes>,                        // IPv6Address(v).packed
    absText: (bytes, nat, string) -> Result<Option<string>>,  // raw2absolute
    absRaw: (Repr, bytes, nat, string) -> Result<Option<bytes>>) // absolute2raw

  /** The error Python raises when a `str` method is called on a non-`str`
      value with a `str` argument: bytes objects have the method but reject
      the argument; ints and None lack the method. */
  function StrMethodError(v: Repr): Exc
  {
    if v.RBytes? then TypeError else AttributeError
  }

  // ---------------------------------------------------------------------
  // Integers
  // ---------------------------------------------------------------------

  /** `raw2intbe`. */
  function RawToIntBe(fraw: bytes): (r: nat)
    ensures r < Pow256(|fraw|)
  {
    BeValueBound(fraw);
    BeValue(fraw)
  }

  /** `intbe2raw`: OverflowError unless the value fits in `fsize` bytes. */
  function IntBeToRaw(v: int, fsize: nat): (r: Result<bytes>)
    ensures r.Ok? <==> 0 <= v < Pow256(fsize)
    ensures r.Ok? ==> |r.value| == fsize && RawToIntBe(r.value) == v
  {
    ToBytes(v, fsize, Big)
  }

  /** `raw2intle`. */
  function RawToIntLe(fraw: bytes): (r: nat)
    ensures r < Pow256(|fraw|)
  {
    LeValueBound(fraw);
    LeValue(fraw)
  }

  /** `intle2raw`. */
  function IntLeToRaw(v: int, fsize: nat): (r: Result<bytes>)
    ensures r.Ok? <==> 0 <= v < Pow256(fsize)
    ensures r.Ok? ==> |r.value| == fsize && RawToIntLe(r.value) == v
  {
    ToBytes(v, fsize, Little)
  }

  /** Decoding then encoding at the same width gives the bytes back, in both orders. */
  lemma IntRoundTrip(b: bytes)
    ensures IntBeToRaw(RawToIntBe(b), |b|) == Ok(b)
    ensures IntLeToRaw(RawToIntLe(b), |b|) == Ok(b)
  {
    ToBytesFromBytes(b, Big);
    ToBytesFromBytes(b, Little);
  }

  /** Little-endian decoding is big-endian decoding of the reversed bytes. */
  lemma IntLeIsReversedBe(b: bytes)
    ensures RawToIntLe(b) == RawToIntBe(Reverse(b))
  {
    LeIsReversedBe(b);
  }

  // ---------------------------------------------------------------------
  // Hex text
  // ---------------------------------------------------------------------

  /** `raw2hex`: `format(int.from_bytes(fraw, 'big'), "#0x")`. */
  function RawToHex(fraw: bytes): (r: string)
    ensures |r| >= 3 && r[..2] == "0x"
    ensures forall k :: 2 <= k < |r| ==> HexDigitValue(r[k]).Some?
  {
    HexNumeralDigits(BeValue(fraw));
    "0x" + HexNumeral(BeValue(fraw))
  }

  lemma {:induction false} HexNumeralDigits(n: nat)
    ensures forall k :: 0 <= k < |HexNumeral(n)| ==> HexDigitValue(HexNumeral(n)[k]).Some?
  {
    if n >= 16 {
      HexNumeralDigits(n / 16);
      HexDigitRoundTrip(n % 16);
    } else {
      HexDigitRoundTrip(n);
    }
  }

  /** The digits `hex2raw` decodes: the text after a leading "0x", or all of it. */
  function HexDigits(field: string): string
  {
    if StartsWith(field, "0x") then field[2..] else field
  }

  /** `hex2raw`: left-pad the digits with '0' to `2 * fsize` and decode them
      with `bytes.fromhex` (ValueError on an odd count or a non-hex character). */
  function HexToRaw(field: string, fsize: nat): (r: Result<bytes>)
    ensures r.Err? ==> r.error == ValueError
    ensures r.Ok? ==> 2 * |r.value| == if |HexDigits(field)| < 2 * fsize then 2 * fsize else |HexDigits(field)|
  {
    var digits := HexDigits(field);
    FromHex(Repeat('0', 2 * fsize - |digits|) + digits)
  }

  /** A "0x" prefix makes no difference to `hex2raw`. */
  lemma HexToRawPrefix(s: string, fsize: nat)
    requires !StartsWith(s, "0x")
    ensures HexToRaw("0x" + s, fsize) == HexToRaw(s, fsize)
  {
    assert ("0x" + s)[2..] == s;
  }

  /** `hex2raw(raw2hex(b), len(b)) == b` for every non-empty `b`. */
  lemma HexRoundTrip(b: bytes)
    requires |b| >= 1
    ensures HexToRaw(RawToHex(b), |b|) == Ok(b)
  {
    var v := BeValue(b);
    var h := RawToHex(b);
    assert h[2..] == HexNumeral(v);
    BeValueBound(b);
    Pow16Pow256(|b|);
    PaddedHexNumeral(v, 2 * |b|);
    HexOfBeBytes(v, |b|);
    BeValueBytes(b);
    FromHexOfHex(b);
  }

  /** For the empty byte string the round trip fails: "0x0" leaves one digit. */
  lemma HexRoundTripEmpty()
    ensures HexToRaw(RawToHex([]), 0) == Err(ValueError)
  {
    assert HexNumeral(0) == "0";
    assert RawToHex([]) == "0x0";
    assert HexDigits("0x0") == "0";
  }

  // ---------------------------------------------------------------------
  // UTF-8 text
  // ---------------------------------------------------------------------

  /** The codec's two directions agree: decoding succeeds only on the encoding of its result. */
  ghost predicate Utf8Consistent(env: Env)
  {
    forall b: bytes, s: string :: env.decode(b) == Some(s) ==> env.encode(s) == b
  }

  /** `raw2string`: UnicodeDecodeError for bytes that are not UTF-8. */
  function RawToString(env: Env, fraw: bytes): (r: Result<string>)
    ensures r.Ok? <==> env.decode(fraw).Some?
    ensures r.Err? ==> r.error == UnicodeDecodeError
    ensures r.Ok? ==> r.value == env.decode(fraw).value
  {
    match env.decode(fraw)
    case None => Err(UnicodeDecodeError)
    case Some(s) => Ok(s)
  }

  /** `string2raw`. */
  function StringToRaw(env: Env, field: string): (r: bytes)
    ensures r == env.encode(field)
  {
    env.encode(field)
  }

  /** Bytes that decode encode back to themselves. */
  lemma StringRoundTrip(env: Env, b: bytes)
    requires Utf8Consistent(env)
    requires RawToString(env, b).Ok?
    ensures StringToRaw(env, RawToString(env, b).value) == b
  {
  }

  // ---------------------------------------------------------------------
  // Ether and EUI-64 colon text
  // ---------------------------------------------------------------------

  /** `raw2ether`: the per-byte hex pairs joined with ':'. */
  function RawToEther(fraw: bytes): (r: string)
    ensures r == Join(ByteHexes(fraw), ":")
  {
    Wrap2Hex(fraw);
    Join(Wrap2(HexOfBytes(fraw)), ":")
  }

  /** `ether2raw`: drop every ':' and decode the rest as hex. */
  function EtherToRaw(field: string): (r: Result<bytes>)
    ensures r.Err? ==> r.error == ValueError
    ensures r.Ok? ==> 2 * |r.value| == |RemoveChar(field, ':')|
  {
    FromHex(RemoveChar(field, ':'))
  }

  lemma ByteHexNoColon(b: bytes)
    ensures forall k :: 0 <= k < |ByteHexes(b)| ==> ':' !in ByteHexes(b)[k]
  {
    forall k | 0 <= k < |ByteHexes(b)|
      ensures ':' !in ByteHexes(b)[k]
    {
      var x := b[k];
      assert ByteHexes(b)[k] == [HexDigit(x / 16), HexDigit(x % 16)];
    }
  }

  /** `ether2raw(raw2ether(b)) == b`. */
  lemma EtherRoundTrip(b: bytes)
    ensures EtherToRaw(RawToEther(b)) == Ok(b)
  {
    ByteHexNoColon(b);
    RemoveCharJoin(ByteHexes(b), ':');
    HexOfBytesIsConcat(b);
    FromHexOfHex(b);
  }

  /** `raw2eui64`: the hex pairs in reverse order, joined with ':'. */
  function RawToEui64(fraw: bytes): (r: string)
    ensures r == Join(Reverse(ByteHexes(fraw)), ":")
  {
    Wrap2Hex(fraw);
    Join(Reverse(Wrap2(HexOfBytes(fraw))), ":")
  }

  /** `eui642raw`: split on ':', reverse the parts, concatenate and decode as hex. */
  function Eui64ToRaw(field: string): (r: Result<bytes>)
    ensures r.Err? ==> r.error == ValueError
  {
    FromHex(Concat(Reverse(Split(field, ':'))))
  }

  /** Reversing the bytes reverses the list of hex pairs. */
  lemma ByteHexesReverse(b: bytes)
    ensures ByteHexes(Reverse(b)) == Reverse(ByteHexes(b))
  {
    var l := ByteHexes(Reverse(b));
    var r := Reverse(ByteHexes(b));
    forall i | 0 <= i < |b| ensures l[i] == r[i] {
      assert l[i] == ByteHex(Reverse(b)[i]) == ByteHex(b[|b| - 1 - i]);
    }
  }

  /** EUI-64 text is the ether text of the reversed bytes. */
  lemma Eui64IsReversedEther(b: bytes)
    ensures RawToEui64(b) == RawToEther(Reverse(b))
  {
    ByteHexesReverse(b);
  }

  /** `eui642raw(raw2eui64(b)) == b`. */
  lemma Eui64RoundTrip(b: bytes)
    ensures Eui64ToRaw(RawToEui64(b)) == Ok(b)
  {
    var hs := ByteHexes(b);
    var parts := Reverse(hs);
    if |b| == 0 {
      assert RawToEui64(b) == [];
      assert Split([], ':') == [[]];
      assert Concat(Reverse([[]])) == [];
    } else {
      ReversedHexesNoColon(b);
      SplitJoin(parts, ':');
      assert Eui64ToRaw(RawToEui64(b)) == FromHex(Concat(Reverse(parts)));
      ReverseReverse(hs);
      HexOfBytesIsConcat(b);
      FromHexOfHex(b);
    }
  }

  lemma ReversedHexesNoColon(b: bytes)
    ensures forall k :: 0 <= k < |Reverse(ByteHexes(b))| ==> ':' !in Reverse(ByteHexes(b))[k]
  {
    ByteHexNoColon(b);
    ReverseNoColon(ByteHexes(b));
  }

  lemma ReverseNoColon(ps: seq<string>)
    requires forall k :: 0 <= k < |ps| ==> ':' !in ps[k]
    ensures forall k :: 0 <= k < |Reverse(ps)| ==> ':' !in Reverse(ps)[k]
  {
  }

  // ---------------------------------------------------------------------
  // IP addresses: only the length gates are modelled
  // ---------------------------------------------------------------------

  /** `raw2ipv4`: None unless exactly 4 bytes. */
  function RawToIpv4(env: Env, fraw: bytes): (r: Option<string>)
    ensures r.Some? <==> |fraw| == 4
  {
    if |fraw| == 4 then Some(env.ipv4Text(fraw)) else None
  }

  /** `raw2ipv6`: None unless exactly 16 bytes. */
  function RawToIpv6(env: Env, fraw: bytes): (r: Option<string>)
    ensures r.Some? <==> |fraw| == 16
  {
    if |fraw| == 16 then Some(env.ipv6Text(fraw)) else None
  }

  // ---------------------------------------------------------------------
  // Relative time
  // ---------------------------------------------------------------------

  /** `format(v, "<016")`: the decimal digits, filled with '0' on the right to 16 characters. */
  function LeftAligned16(v: nat): (r: string)
    ensures |r| == if |DecimalNumeral(v)| < 16 then 16 else |DecimalNumeral(v)|
    ensures r[..|DecimalNumeral(v)|] == DecimalNumeral(v)
  {
    DecimalNumeral(v) + Repeat('0', 16 - |DecimalNumeral(v)|)
  }

  /** `raw2relative`: the left-aligned digits with '.' after the seventh character. */
  function RawToRelative(fraw: bytes): (r: string)
    ensures |r| == |LeftAligned16(BeValue(fraw))| + 1 && r[7] == '.'
    ensures RemoveChar(r, '.') == LeftAligned16(BeValue(fraw))
  {
    var t := LeftAligned16(BeValue(fraw));
    NoDot(BeValue(fraw));
    RemoveCharConcat(t[..7] + ".", t[7..], '.');
    RemoveCharConcat(t[..7], ".", '.');
    RemoveCharAbsent(t[..7], '.');
    RemoveCharAbsent(t[7..], '.');
    assert t[..7] + t[7..] == t;
    t[..7] + "." + t[7..]
  }

  lemma NoDot(v: nat)
    ensures '.' !in LeftAligned16(v)
  {
    var t := LeftAligned16(v);
    forall k | 0 <= k < |t| ensures t[k] != '.' {
      if k < |DecimalNumeral(v)| {
        assert t[k] == DecimalNumeral(v)[k];
      }
    }
  }

  /** `relative2raw`: drop '.', strip '0' at both ends, parse as a decimal
      integer (ValueError if nothing is left) and encode it big-endian. */
  function RelativeToRaw(field: string, fsize: nat): (r: Result<bytes>)
    ensures r.Ok? ==> |r.value| == fsize
    ensures ParseInt(Strip(RemoveChar(field, '.'), '0')).None? ==> r == Err(ValueError)
  {
    match ParseInt(Strip(RemoveChar(field, '.'), '0'))
    case None => Err(ValueError)
    case Some(v) => ToBytes(v, fsize, Big)
  }

  /** The value with its trailing decimal zeros removed. */
  function DropTrailingZeros(v: nat): (r: nat)
    ensures v > 0 ==> r > 0 && r % 10 != 0
    ensures r <= v
  {
    if v > 0 && v % 10 == 0 then DropTrailingZeros(v / 10) else v
  }

  /** What `relative2raw(raw2relative(b))` decodes: zero fails, any other
      value loses its trailing decimal zeros. */
  lemma RelativeDecode(b: bytes, fsize: nat)
    ensures BeValue(b) == 0 ==> RelativeToRaw(RawToRelative(b), fsize) == Err(ValueError)
    ensures BeValue(b) > 0 ==> RelativeToRaw(RawToRelative(b), fsize) == ToBytes(DropTrailingZeros(BeValue(b)), fsize, Big)
  {
    var v := BeValue(b);
    var t := LeftAligned16(v);
    assert RemoveChar(RawToRelative(b), '.') == t;
    if v == 0 {
      assert DecimalNumeral(0) == "0";
      assert t == Repeat('0', 16);
      LStripZeros(16);
      assert Strip(t, '0') == [];
    } else {
      NumeralLeadingDigit(v);
      assert LStrip(t, '0') == t;
      RStripZeros(DecimalNumeral(v), 16 - |DecimalNumeral(v)|);
      RStripNumeral(v);
      ParseIntOfNumeral(DropTrailingZeros(v));
    }
  }

  /** The round trip holds exactly for values whose last decimal digit is not zero. */
  lemma RelativeRoundTrip(b: bytes)
    ensures RelativeToRaw(RawToRelative(b), |b|) == Ok(b) <==> BeValue(b) % 10 != 0
  {
    RelativeDecode(b, |b|);
    var v := BeValue(b);
    if v > 0 {
      var d := DropTrailingZeros(v);
      BeValueBound(b);
      ToBytesFromBytes(b, Big);
      if v % 10 == 0 {
        assert d < v by { DropTrailingZerosShrinks(v); }
      }
    }
  }

  lemma DropTrailingZerosShrinks(v: nat)
    requires v > 0 && v % 10 == 0
    ensures DropTrailingZeros(v) < v
  {
  }

  lemma {:induction false} LStripZeros(n: nat)
    ensures LStrip(Repeat('0', n), '0') == []
  {
    if n > 0 {
      assert Repeat('0', n)[1..] == Repeat('0', n - 1);
      LStripZeros(n - 1);
    }
  }

  /** A positive numeral starts with a non-zero digit. */
  lemma {:induction false} NumeralLeadingDigit(v: nat)
    requires v > 0
    ensures DecimalNumeral(v)[0] != '0'
  {
    if v >= 10 {
      NumeralLeadingDigit(v / 10);
    }
  }

  /** Right-stripping '0' ignores any run of '0' appended to the text. */
  lemma {:induction false} RStripZeros(s: string, n: int)
    ensures RStrip(s + Repeat('0', n), '0') == RStrip(s, '0')
    decreases if n < 0 then 0 else n
  {
    if n > 0 {
      var t := s + Repeat('0', n);
      assert t[..|t| - 1] == s + Repeat('0', n - 1);
      RStripZeros(s, n - 1);
    } else {
      assert s + Repeat('0', n) == s;
    }
  }

  /** Right-stripping '0' from a positive numeral drops its trailing zeros. */
  lemma {:induction false} RStripNumeral(v: nat)
    requires v > 0
    ensures RStrip(DecimalNumeral(v), '0') == DecimalNumeral(DropTrailingZeros(v))
  {
    var s := DecimalNumeral(v);
    if v % 10 == 0 {
      assert v >= 10;
      assert s[..|s| - 1] == DecimalNumeral(v / 10);
      RStripNumeral(v / 10);
    }
  }

  // ---------------------------------------------------------------------
  // Dispatch on the field type
  // ---------------------------------------------------------------------

  /** `get_frepr`: the representation of a field's bytes under its type. */
  function GetFrepr(env: Env, ftype: Ftype, fraw: bytes, fsize: nat, fmask: nat, fname: string): (r: Result<Repr>)
    ensures r.Err? ==> ftype == Str || ftype == AbsoluteTime
    ensures ftype == Str ==> (r.Ok? <==> env.decode(fraw).Some?)
    ensures r == Ok(RNone) ==> ftype in {Ipv4, Ipv6, AbsoluteTime}
    ensures ftype == Ipv4 ==> (r == Ok(RNone) <==> |fraw| != 4)
    ensures ftype == Ipv6 ==> (r == Ok(RNone) <==> |fraw| != 16)
    ensures ftype in {IntBe, IntLe, BinBe, BinLe} ==> r.Ok? && r.value.RInt? && r.value.i >= 0
    ensures ftype in {Hex, Ether, RelativeTime, Eui64} ==> r.Ok? && r.value.RText?
  {
    match ftype
    case IntBe => Ok(RInt(RawToIntBe(fraw)))
    case IntLe => Ok(RInt(RawToIntLe(fraw)))
    case Str => (match RawToString(env, fraw) case Err(e) => Err(e) case Ok(s) => Ok(RText(s)))
    case ByteString => Ok(RBytes(fraw))
    case BinBe => Ok(RInt(RawToBin(fraw, fmask, fsize, Big)))
    case BinLe => Ok(RInt(RawToBin(fraw, fmask, fsize, Little)))
    case Hex => Ok(RText(RawToHex(fraw)))
    case Ether => Ok(RText(RawToEther(fraw)))
    case Ipv4 => OptionalText(RawToIpv4(env, fraw))
    case Ipv6 => OptionalText(RawToIpv6(env, fraw))
    case AbsoluteTime => (match env.absText(fraw, fsize, fname) case Err(e) => Err(e) case Ok(t) => Ok(OptionalText(t).value))
    case RelativeTime => Ok(RText(RawToRelative(fraw)))
    case Eui64 => Ok(RText(RawToEui64(fraw)))
  }

  /** A codec's optional text as a Python value: None or a str. */
  function OptionalText(t: Option<string>): (r: Result<Repr>)
    ensures r.Ok? && (r.value == RNone <==> t.None?)
    ensures t.Some? ==> r.value == RText(t.value)
  {
    match t
    case None => Ok(RNone)
    case Some(s) => Ok(RText(s))
  }

  /** `get_fraw`: the bytes of a representation under a field type. A
      representation of the wrong Python type fails with the exception the
      codec raises on it; for FT_BYTES the value is passed through and a
      non-bytes value fails with TypeError where the caller splices it into
      the packet, as does an absolute time that encodes to None. */
  function GetFraw(env: Env, field: Repr, ftype: Ftype, fraw: bytes, fsize: nat, fmask: nat, fname: string): (r: Result<bytes>)
    ensures ftype in {IntBe, IntLe} ==> (r.Ok? <==> field.RInt? && 0 <= field.i < Pow256(fsize))
    ensures ftype in {IntBe, IntLe, BinBe, BinLe} && r.Ok? ==> |r.value| == fsize
    ensures ftype == Str ==> (r.Ok? <==> field.RText?)
    ensures ftype == ByteString ==> (r.Ok? <==> field.RBytes?)
    ensures ftype in {BinBe, BinLe} && !field.RInt? ==> r == Err(TypeError)
    ensures ftype in {BinBe, BinLe} && fmask == 0 ==> r.Err?
    ensures ftype == Hex && r.Ok? ==> |r.value| >= fsize
    ensures ftype == Hex && !field.RText? ==> r == Err(TypeError)
    ensures ftype in {Ether, Eui64, RelativeTime} && !field.RText? ==> r == Err(StrMethodError(field))
  {
    match ftype
    case IntBe => if field.RInt? then IntBeToRaw(field.i, fsize) else Err(AttributeError)
    case IntLe => if field.RInt? then IntLeToRaw(field.i, fsize) else Err(AttributeError)
    case Str => if field.RText? then Ok(StringToRaw(env, field.s)) else Err(AttributeError)
    case ByteString => if field.RBytes? then Ok(field.b) else Err(TypeError)
    case BinBe => if field.RInt? then BinToRawAsWritten(field.i, fraw, fmask, fsize, Big) else Err(TypeError)
    case BinLe => if field.RInt? then BinToRawAsWritten(field.i, fraw, fmask, fsize, Little) else Err(TypeError)
    case Hex => if field.RText? then HexToRaw(field.s, fsize) else Err(TypeError)
    case Ether => if field.RText? then EtherToRaw(field.s) else Err(StrMethodError(field))
    case Ipv4 => env.ipv4Pack(field)
    case Ipv6 => env.ipv6Pack(field)
    case AbsoluteTime =>
      (match env.absRaw(field, fraw, fsize, fname)
       case Err(e) => Err(e)
       case Ok(b) => if b.Some? then Ok(b.value) else Err(TypeError))
    case RelativeTime => if field.RText? then RelativeToRaw(field.s, fsize) else Err(StrMethodError(field))
    case Eui64 => if field.RText? then Eui64ToRaw(field.s) else Err(StrMethodError(field))
  }

  /** Writing an in-range integer into a big-endian bit field goes through
      `bin2raw` as written: the bit at the mask's lowest set bit keeps its
      prior value whatever the field's own lowest bit is. */
  lemma BinFieldWriteKeepsLowestBit(env: Env, field: nat, fraw: bytes, fmask: nat, fsize: nat, fname: string)
    requires BinInRange(field, fraw, fmask, fsize)
    ensures GetFraw(env, RInt(field), BinBe, fraw, fsize, fmask, fname).Ok?
    ensures var out := GetFraw(env, RInt(field), BinBe, fraw, fsize, fmask, fname).value;
      Bit(FromBytes(out, Big), TrailingZeros(fmask)) == Bit(FromBytes(fraw, Big), TrailingZeros(fmask))
  {
    AsWrittenKeepsLowestBit(field, fraw, fmask, fsize, Big);
  }

  /** The field types whose codecs are lossless on every byte string of the field's width. */
  predicate Lossless(ftype: Ftype, fraw: bytes)
  {
    ftype in {IntBe, IntLe, ByteString, Ether, Eui64} || (ftype == Hex && |fraw| >= 1)
  }

  /** Writing back the representation just read leaves the field's bytes as they were. */
  lemma FieldRoundTrip(env: Env, ftype: Ftype, fraw: bytes, fmask: nat, fname: string)
    requires Lossless(ftype, fraw) || (ftype == Str && Utf8Consistent(env) && env.decode(fraw).Some?)
    ensures GetFrepr(env, ftype, fraw, |fraw|, fmask, fname).Ok?
    ensures GetFraw(env, GetFrepr(env, ftype, fraw, |fraw|, fmask, fname).value, ftype, fraw, |fraw|, fmask, fname) == Ok(fraw)
  {
    match ftype {
      case IntBe => IntRoundTrip(fraw);
      case IntLe => IntRoundTrip(fraw);
      case Hex => HexRoundTrip(fraw);
      case Ether => EtherRoundTrip(fraw);
      case Eui64 => Eui64RoundTrip(fraw);
      case _ =>
    }
  }
}

=== FILE: ftype.dfy ===
/** The two type vocabularies of the system: the dissector's field types
    (`Ttype`, with their numeric codes) and the tool's own field
    representations (`Ftype`). */
module FieldTypes {
  import opened Wrappers

  /** The tool's representation of a field's value. */
  datatype Ftype =
    | IntBe | IntLe | Str | ByteString | BinBe | BinLe | Hex
    | Ether | Ipv4 | Ipv6 | AbsoluteTime | RelativeTime | Eui64

  /** The enum value of each representation. */
  function FtypeCode(f: Ftype): (c: nat)
    ensures c <= 12
  {
    match f
    case IntBe => 0 case IntLe => 1 case Str => 2 case ByteString => 3
    case BinBe => 4 case BinLe => 5 case Hex => 6 case Ether => 7
    case Ipv4 => 8 case Ipv6 => 9 case AbsoluteTime => 10
    case RelativeTime => 11 case Eui64 => 12
  }

  /** `Ftype(code)`: the representation with that enum value, ValueError
      for any other integer. */
  function FtypeOf(code: int): (r: Result<Ftype>)
    ensures r.Ok? <==> 0 <= code <= 12
    ensures r.Ok? ==> FtypeCode(r.value) == code
    ensures r.Err? ==> r.error == ValueError
  {
    match code
    case 0 => Ok(IntBe) case 1 => Ok(IntLe) case 2 => Ok(Str) case 3 => Ok(ByteString)
    case 4 => Ok(BinBe) case 5 => Ok(BinLe) case 6 => Ok(Hex) case 7 => Ok(Ether)
    case 8 => Ok(Ipv4) case 9 => Ok(Ipv6) case 10 => Ok(AbsoluteTime)
    case 11 => Ok(RelativeTime) case 12 => Ok(Eui64)
    case _ => Err(ValueError)
  }

  /** Distinct representations have distinct enum values. */
  lemma FtypeCodeInjective(f: Ftype, g: Ftype)
    ensures FtypeCode(f) == FtypeCode(g) ==> f == g
  {
  }

  /** Looking up a representation's enum value gives it back, so the codes
      name the thirteen representations one to one. */
  lemma FtypeOfCode(f: Ftype)
    ensures FtypeOf(FtypeCode(f)) == Ok(f)
  {
    FtypeCodeInjective(FtypeOf(FtypeCode(f)).value, f);
  }

  /** The dissector's field types. */
  datatype Ttype =
    | THex | TNone | TProtocol | TBoolean | TChar
    | TUint8 | TUint16 | TUint24 | TUint32 | TUint40 | TUint48 | TUint56 | TUint64
    | TInt8 | TInt16 | TInt24 | TInt32 | TInt40 | TInt48 | TInt56 | TInt64
    | TIeee11073Sfloat | TIeee11073Float | TFloat | TDouble
    | TAbsoluteTime | TRelativeTime | TString | TStringz | TUintString
    | TEther | TBytes | TUintBytes | TIpv4 | TIpv6 | TIpxnet | TFramenum
    | TPcre | TGuid | TOid | TEui64 | TAx25 | TVines | TRelOid | TSystemId
    | TStringzpad | TFcwwn | TNumTypes

  /** The numeric code of a dissector type. */
  function TtypeCode(t: Ttype): (c: int)
    ensures -1 <= c <= 46
  {
    match t
    case THex => -1 case TNone => 0 case TProtocol => 1 case TBoolean => 2
    case TChar => 3 case TUint8 => 4 case TUint16 => 5 case TUint24 => 6
    case TUint32 => 7 case TUint40 => 8 case TUint48 => 9 case TUint56 => 10
    case TUint64 => 11 case TInt8 => 12 case TInt16 => 13 case TInt24 => 14
    case TInt32 => 15 case TInt40 => 16 case TInt48 => 17 case TInt56 => 18
    case TInt64 => 19 case TIeee11073Sfloat => 20 case TIeee11073Float => 21
    case TFloat => 22 case TDouble => 23 case TAbsoluteTime => 24
    case TRelativeTime => 25 case TString => 26 case TStringz => 27
    case TUintString => 28 case TEther => 29 case TBytes => 30
    case TUintBytes => 31 case TIpv4 => 32 case TIpv6 => 33 case TIpxnet => 34
    case TFramenum => 35 case TPcre => 36 case TGuid => 37 case TOid => 38
    case TEui64 => 39 case TAx25 => 40 case TVines => 41 case TRelOid => 42
    case TSystemId => 43 case TStringzpad => 44 case TFcwwn => 45
    case TNumTypes => 46
  }

  function TtypeOf0(code: int): (t: Ttype)
    requires -1 <= code <= 4
    ensures TtypeCode(t) == code
  {
    match code
    case -1 => THex
    case 0 => TNone
    case 1 => TProtocol
    case 2 => TBoolean
    case 3 => TChar
    case _ => TUint8
  }

  function TtypeOf1(code: int): (t: Ttype)
    requires 5 <= code <= 10
    ensures TtypeCode(t) == code
  {
    match code
    case 5 => TUint16
    case 6 => TUint24
    case 7 => TUint32
    case 8 => TUint40
    case 9 => TUint48
    case _ => TUint56
  }

  function TtypeOf2(code: int): (t: Ttype)
    requires 11 <= code <= 16
    ensures TtypeCode(t) == code
  {
    match code
    case 11 => TUint64
    case 12 => TInt8
    case 13 => TInt16
    case 14 => TInt24
    case 15 => TInt32
    case _ => TInt40
  }

  function TtypeOf3(code: int): (t: Ttype)
    requires 17 <= code <= 22
    ensures TtypeCode(t) == code
  {
    match code
    case 17 => TInt48
    case 18 => TInt56
    case 19 => TInt64
    case 20 => TIeee11073Sfloat
    case 21 => TIeee11073Float
    case _ => TFloat
  }

  function TtypeOf4(code: int): (t: Ttype)
    requires 23 <= code <= 28
    ensures TtypeCode(t) == code
  {
    match code
    case 23 => TDouble
    case 24 => TAbsoluteTime
    case 25 => TRelativeTime
    case 26 => TString
    case 27 => TStringz
    case _ => TUintString
  }

  function TtypeOf5(code: int): (t: Ttype)
    requires 29 <= code <= 34
    ensures TtypeCode(t) == code
  {
    match code
    case 29 => TEther
    case 30 => TBytes
    case 31 => TUintBytes
    case 32 => TIpv4
    case 33 => TIpv6
    case _ => TIpxnet
  }

  function TtypeOf6(code: int): (t: Ttype)
    requires 35 <= code <= 40
    ensures TtypeCode(t) == code
  {
    match code
    case 35 => TFramenum
    case 36 => TPcre
    case 37 => TGuid
    case 38 => TOid
    case 39 => TEui64
    case _ => TAx25
  }

  function TtypeOf7(code: int): (t: Ttype)
    requires 41 <= code <= 46
    ensures TtypeCode(t) == code
  {
    match code
    case 41 => TVines
    case 42 => TRelOid
    case 43 => TSystemId
    case 44 => TStringzpad
    case 45 => TFcwwn
    case _ => TNumTypes
  }

  /** `Ttype(code)`: the member with that value, ValueError for any other number. */
  function TtypeOf(code: int): (r: Result<Ttype>)
    ensures r.Ok? <==> -1 <= code <= 46
    ensures r.Err? ==> r.error == ValueError
    ensures r.Ok? ==> TtypeCode(r.value) == code
  {
    if -1 <= code <= 4 then Ok(TtypeOf0(code))
    else if 5 <= code <= 10 then Ok(TtypeOf1(code))
    else if 11 <= code <= 16 then Ok(TtypeOf2(code))
    else if 17 <= code <= 22 then Ok(TtypeOf3(code))
    else if 23 <= code <= 28 then Ok(TtypeOf4(code))
    else if 29 <= code <= 34 then Ok(TtypeOf5(code))
    else if 35 <= code <= 40 then Ok(TtypeOf6(code))
    else if 41 <= code <= 46 then Ok(TtypeOf7(code))
    else Err(ValueError)
  }

  /** Decoding a type's own code gives the type back. */
  lemma TtypeOfCode(t: Ttype)
    ensures TtypeOf(TtypeCode(t)) == Ok(t)
  {
    match t
    case THex =>
    case TNone =>
    case TProtocol =>
    case TBoolean =>
    case TChar =>
    case TUint8 =>
    case TUint16 =>
    case TUint24 =>
    case TUint32 =>
    case TUint40 =>
    case TUint48 =>
    case TUint56 =>
    case TUint64 =>
    case TInt8 =>
    case TInt16 =>
    case TInt24 =>
    case TInt32 =>
    case TInt40 =>
    case TInt48 =>
    case TInt56 =>
    case TInt64 =>
    case TIeee11073Sfloat =>
    case TIeee11073Float =>
    case TFloat =>
    case TDouble =>
    case TAbsoluteTime =>
    case TRelativeTime =>
    case TString =>
    case TStringz =>
    case TUintString =>
    case TEther =>
    case TBytes =>
    case TUintBytes =>
    case TIpv4 =>
    case TIpv6 =>
    case TIpxnet =>
    case TFramenum =>
    case TPcre =>
    case TGuid =>
    case TOid =>
    case TEui64 =>
    case TAx25 =>
    case TVines =>
    case TRelOid =>
    case TSystemId =>
    case TStringzpad =>
    case TFcwwn =>
    case TNumTypes =>
  }
}

=== FILE: interception.dfy ===
/** What both interceptor versions do with one intercepted packet once a
    template function has answered (`linux_modify` and `windows_modify` in
    `polymorph/interceptor.py` and `build/lib/polymorph/interceptor.py`).
    The packet's fate is a verdict; the template functions are user code,
    so each call is described by how it ended and by the packet state it
    left behind. */
module Interception {
  import opened Wrappers
  import opened Bytes
  import opened Payload

  /** The fate of the intercepted packet: accepted (or re-sent) with a
      payload, dropped (never sent on), or the callback raised. */
  datatype Verdict = Forward(payload: bytes) | Drop | Raised(error: Exc)

  /** The two platforms `intercept` supports: NetfilterQueue on Linux,
      WinDivert on Windows. */
  datatype Platform = Linux | Windows

  /** How a template function's call ended: it returned the packet it was
      given, it returned None, or it raised. */
  datatype Ret = ReturnedPacket | ReturnedNone | RaisedExc(error: Exc)

  /** `not pkt`: the function returned None, or a packet whose payload is
      empty, since a packet's length is its payload's. */
  predicate Falsy(ret: Ret, buf: bytes)
  {
    ret.ReturnedNone? || Length(buf) == 0
  }

  /** The verdict when a function's answer is falsy. On Linux the current
      payload is set on the queued packet only when it is non-empty
      (`if self.packet:`), so an emptied packet goes out as it arrived; on
      Windows the packet as it arrived is re-sent. */
  function FalsyVerdict(platform: Platform, original: bytes, buf: bytes): (v: Verdict)
    ensures v.Forward?
    ensures v.payload == original || (platform == Linux && Length(buf) > 0 && v.payload == Raw(buf))
    ensures platform == Linux && Length(buf) > 0 ==> v.payload == Raw(buf)
    ensures v.payload == [] ==> original == []
  {
    if platform == Linux && Length(buf) > 0 then Forward(Raw(buf)) else Forward(original)
  }
}

=== FILE: interceptor.dfy ===
/** The interceptor of the newer generation
    (`build/lib/polymorph/interceptor.py`): the template's functions run
    in order on the one packet object the interceptor keeps; a falsy
    answer forwards the packet at once, a raised `drop` flag drops it, and
    a packet every function returned has its checksums recomputed (unless
    `rec_chksums` was cleared) before it is forwarded. */
module Interceptors {
  import opened Wrappers
  import opened Bytes
  import opened Text
  import opened OrderedMap
  import opened FieldTypes
  import opened Converter
  import opened Payload
  import opened Packets
  import opened Checksum
  import opened Interception

  // ---------------------------------------------------------------------
  // Reading and writing fields of the packet
  // ---------------------------------------------------------------------

  /** `packet[layer][field]`. */
  function FieldValue(env: Env, p: Packet, layer: string, field: string): (r: Result<Repr>)
    ensures layer !in Keys(p.layers) ==> r == Err(KeyError)
    ensures layer in Keys(p.layers) ==> r == GetItem(env, Layer(p, layer).value, p.buf, field)
  {
    match Layer(p, layer)
    case Err(e) => Err(e)
    case Ok(v) => GetItem(env, v, p.buf, field)
  }

  /** `packet[layer][field] = value`: only the buffer changes. */
  function SetField(env: Env, p: Packet, layer: string, field: string, value: Repr): (r: Result<Packet>)
    ensures layer !in Keys(p.layers) ==> r == Err(KeyError)
    ensures r.Ok? ==> r.value.layers == p.layers && r.value.drop == p.drop && r.value.recChksums == p.recChksums
    ensures r.Ok? ==> SetItem(env, Layer(p, layer).value, p.buf, field, value) == Ok(r.value.buf)
  {
    match Layer(p, layer)
    case Err(e) => Err(e)
    case Ok(v) =>
      match SetItem(env, v, p.buf, field, value)
      case Err(e) => Err(e)
      case Ok(b) => Ok(p.(buf := b))
  }

  /** `present in pkt_layers and packet[layer][field] == value`: the
      field is read only when the first layer is present, and reading it
      may raise. */
  function Guard(env: Env, p: Packet, present: string, layer: string, field: string, value: int): (r: Result<bool>)
    ensures present !in Keys(p.layers) ==> r == Ok(false)
    ensures present in Keys(p.layers) ==> (r == Ok(true) <==> FieldValue(env, p, layer, field) == Ok(RInt(value)))
    ensures present in Keys(p.layers) ==> (r.Err? <==> FieldValue(env, p, layer, field).Err?)
  {
    if present !in Keys(p.layers) then Ok(false)
    else
      match FieldValue(env, p, layer, field)
      case Err(e) => Err(e)
      case Ok(x) => Ok(x == RInt(value))
  }

  /** `len(packet[layer])`: `len()` refuses a negative length with ValueError. */
  function LayerLen(p: Packet, layer: string): (r: Result<nat>)
    ensures layer !in Keys(p.layers) ==> r == Err(KeyError)
    ensures r.Ok? ==> r.value + Layer(p, layer).value.layerStart == |p.buf|
    ensures layer in Keys(p.layers) && r.Err? ==> r.error == ValueError && Layer(p, layer).value.layerStart > |p.buf|
  {
    match Layer(p, layer)
    case Err(e) => Err(e)
    case Ok(v) => if LayerLength(v, p.buf) < 0 then Err(ValueError) else Ok(LayerLength(v, p.buf))
  }

  // ---------------------------------------------------------------------
  // Pseudo headers
  // ---------------------------------------------------------------------

  /** A value of struct's `H` format. */
  type Word = x: int | 0 <= x < 65536

  /** The `Ns` format of `struct.pack`: the bytes cut to `n`, or padded
      with zero bytes up to `n`. */
  function Fit(b: bytes, n: nat): (r: bytes)
    ensures |r| == n
    ensures |b| >= n ==> r == b[..n]
    ensures |b| < n ==> r[..|b|] == b && forall i :: |b| <= i < n ==> r[i] == 0
  {
    if |b| >= n then b[..n] else b + Zeros(n - |b|)
  }

  /** `struct.pack('!NsNsHH', src, dst, proto, length)` with `N` the
      address width: struct.error when the length does not fit 16 bits. */
  function PackHeader(src: bytes, dst: bytes, width: nat, proto: Word, length: nat): (r: Result<bytes>)
    ensures r.Ok? <==> length < 65536
    ensures r.Err? ==> r.error == PackError
    ensures r.Ok? ==> |r.value| == 2 * width + 4
  {
    if length >= 65536 then Err(PackError)
    else Ok(Fit(src, width) + Fit(dst, width) + BeBytes(proto, 2) + BeBytes(length, 2))
  }

  /** The pseudo header's fields read back: the two addresses fitted to
      the width, then the protocol number and the length as big-endian
      16-bit values. */
  lemma PackHeaderFields(src: bytes, dst: bytes, width: nat, proto: Word, length: nat)
    requires length < 65536
    ensures var h := PackHeader(src, dst, width, proto, length).value;
      && h[..width] == Fit(src, width) && h[width..2 * width] == Fit(dst, width)
      && FromBytes(h[2 * width..2 * width + 2], Big) == proto
      && FromBytes(h[2 * width + 2..], Big) == length
  {
    var h := PackHeader(src, dst, width, proto, length).value;
    assert h[2 * width..2 * width + 2] == BeBytes(proto, 2);
    assert h[2 * width + 2..] == BeBytes(length, 2);
    BeBytesValue(proto, 2);
    BeBytesValue(length, 2);
  }

  /** The pseudo header for `layer` under the IP layer `ip`: the "src" and
      "addr" fields of `ip` through `pack`, the protocol number and the
      layer's length, evaluated left to right as `struct.pack`'s
      arguments are. */
  function PseudoHeader(env: Env, pack: Repr -> Result<bytes>, width: nat, p: Packet, ip: string, proto: Word, layer: string): (r: Result<bytes>)
    ensures r.Ok? ==> |r.value| == 2 * width + 4
    ensures ip !in Keys(p.layers) ==> r == Err(KeyError)
  {
    match FieldValue(env, p, ip, "src")
    case Err(e) => Err(e)
    case Ok(s) =>
      match pack(s)
      case Err(e) => Err(e)
      case Ok(a) =>
        match FieldValue(env, p, ip, "addr")
        case Err(e) => Err(e)
        case Ok(d) =>
          match pack(d)
          case Err(e) => Err(e)
          case Ok(b) =>
            match LayerLen(p, layer)
            case Err(e) => Err(e)
            case Ok(n) => PackHeader(a, b, width, proto, n)
  }

  // ---------------------------------------------------------------------
  // The checksum helper
  // ---------------------------------------------------------------------

  /** `chksum` as the module has it: `array` is never imported, so its
      first use raises NameError. */
  function ChksumAsWritten(d: bytes): (r: Result<string>)
    ensures r.Err?
  {
    Err(NameError)
  }

  /** `chksum` with `array` imported: the hex text of the checksum's
      host-order bytes. */
  function Chksum(d: bytes): (r: Result<string>)
    ensures r.Ok? && |r.value| == 4
  {
    Ok(HexOfBytes(HostChecksumBytes(d)))
  }

  /** The text `chksum` produces spells the big-endian bytes of the
      RFC 1071 checksum. */
  lemma ChksumIsNet(d: bytes)
    requires |d| <= 131072
    ensures Chksum(d) == Ok(HexOfBytes(BeBytes(NetChecksum(d), 2)))
  {
    HostOrderChecksum(d);
  }

  // ---------------------------------------------------------------------
  // Recomputing the checksums
  // ---------------------------------------------------------------------

  /** The bytes a layer's checksum covers: from the layer's start to the
      end of the payload, or `span` bytes of it (`packet.raw` counts from
      the end of the pad, hence the shift). */
  function Region(buf: bytes, layerStart: int, span: Option<nat>): (r: bytes)
    ensures PadLen <= layerStart <= |buf| && span.None? ==> r == buf[layerStart..]
    ensures PadLen <= layerStart && span.Some? && layerStart + span.value <= |buf| ==>
      r == buf[layerStart..layerStart + span.value]
  {
    var from := layerStart - PadLen;
    if span.Some? then PySlice(Raw(buf), from, from + span.value) else PyFrom(Raw(buf), from)
  }

  /** Zero the layer's "checksum" field with '0x0000', checksum the header
      followed by the layer's bytes, and write the checksum's text into
      the field. */
  function StoreChecksum(env: Env, chk: bytes -> Result<string>, p: Packet, layer: string, hdr: bytes, span: Option<nat>): (r: Result<Packet>)
    ensures layer !in Keys(p.layers) ==> r == Err(KeyError)
    ensures r.Ok? ==> r.value.layers == p.layers && r.value.drop == p.drop && r.value.recChksums == p.recChksums
  {
    match SetField(env, p, layer, "checksum", RText("0x0000"))
    case Err(e) => Err(e)
    case Ok(p1) =>
      var d := hdr + Region(p1.buf, Layer(p1, layer).value.layerStart, span);
      match chk(d)
      case Err(e) => Err(e)
      case Ok(ck) => SetField(env, p1, layer, "checksum", RText(ck))
  }

  /** A transport layer `_rec_chksums` knows: its name, its protocol
      number, and whether its checksum covers a pseudo header. */
  datatype Transport = Transport(layer: string, proto: Word, pseudo: bool)

  const Ipv4Transports: seq<Transport> :=
    [Transport("TCP", 6, true), Transport("ICMP", 1, false), Transport("UDP", 17, true)]

  const Ipv6Transports: seq<Transport> :=
    [Transport("TCP", 6, true), Transport("ICMPV6", 58, true), Transport("UDP", 17, true)]

  /** The `if`/`elif` chain over the transports: the first one present
      whose protocol number the IP layer's `sel` field carries gets its
      checksum stored; with none, the packet is returned as it is. */
  function FirstTransport(env: Env, pack: Repr -> Result<bytes>, width: nat, chk: bytes -> Result<string>,
                          p: Packet, ip: string, sel: string, ts: seq<Transport>): (r: Result<Packet>)
    decreases |ts|
    ensures r.Ok? ==> r.value.layers == p.layers && r.value.drop == p.drop && r.value.recChksums == p.recChksums
    ensures (forall i :: 0 <= i < |ts| ==> ts[i].layer !in Keys(p.layers)) ==> r == Ok(p)
  {
    if |ts| == 0 then Ok(p)
    else
      var t := ts[0];
      match Guard(env, p, t.layer, ip, sel, t.proto)
      case Err(e) => Err(e)
      case Ok(false) => FirstTransport(env, pack, width, chk, p, ip, sel, ts[1..])
      case Ok(true) =>
        var hdr := if t.pseudo then PseudoHeader(env, pack, width, p, ip, t.proto, t.layer) else Ok([]);
        match hdr
        case Err(e) => Err(e)
        case Ok(h) => StoreChecksum(env, chk, p, t.layer, h, None)
  }

  /** `_rec_chksums` with a given checksum helper: an IPv4 packet gets its
      20-byte header checksum, then at most one of TCP, ICMP, UDP; failing
      that, an IPv6 packet gets at most one of TCP, ICMPv6, UDP. The
      addresses are packed by `aton` (`socket.inet_aton`) for IPv4 and by
      the IPv6 address codec for IPv6. */
  function RecChksumsWith(env: Env, aton: Repr -> Result<bytes>, chk: bytes -> Result<string>, p: Packet): (r: Result<Packet>)
    ensures r.Ok? ==> r.value.layers == p.layers && r.value.drop == p.drop && r.value.recChksums == p.recChksums
    ensures "IP" !in Keys(p.layers) && "IPV6" !in Keys(p.layers) ==> r == Ok(p)
  {
    match Guard(env, p, "IP", "IP", "version", 4)
    case Err(e) => Err(e)
    case Ok(true) =>
      (match StoreChecksum(env, chk, p, "IP", [], Some(20))
       case Err(e) => Err(e)
       case Ok(p1) => FirstTransport(env, aton, 4, chk, p1, "IP", "proto", Ipv4Transports))
    case Ok(false) =>
      (match Guard(env, p, "IPV6", "IPV6", "version", 6)
       case Err(e) => Err(e)
       case Ok(true) => FirstTransport(env, env.ipv6Pack, 16, chk, p, "IPV6", "nxt", Ipv6Transports)
       case Ok(false) => Ok(p))
  }

  /** `_rec_chksums` once `chksum` can run. */
  function RecChksums(env: Env, aton: Repr -> Result<bytes>, p: Packet): (r: Result<Packet>)
    ensures r.Ok? ==> r.value.layers == p.layers && r.value.drop == p.drop && r.value.recChksums == p.recChksums
  {
    RecChksumsWith(env, aton, Chksum, p)
  }

  /** As written, every IPv4 packet whose header checksum field can be
      zeroed makes `_rec_chksums` raise NameError, whatever layers follow
      the IP layer. */
  lemma RecChksumsAsWrittenRaises(env: Env, aton: Repr -> Result<bytes>, p: Packet)
    requires Guard(env, p, "IP", "IP", "version", 4) == Ok(true)
    requires SetField(env, p, "IP", "checksum", RText("0x0000")).Ok?
    ensures RecChksumsWith(env, aton, ChksumAsWritten, p) == Err(NameError)
  {
  }

  /** As written, storing a checksum raises NameError once the field can
      be zeroed. */
  lemma StoreChecksumAsWritten(env: Env, p: Packet, layer: string, hdr: bytes, span: Option<nat>)
    requires SetField(env, p, layer, "checksum", RText("0x0000")).Ok?
    ensures StoreChecksum(env, ChksumAsWritten, p, layer, hdr, span) == Err(NameError)
  {
  }

  /** A transport the IP layer's `sel` field does not name is passed over. */
  lemma FirstTransportSkip(env: Env, pack: Repr -> Result<bytes>, width: nat, chk: bytes -> Result<string>, p: Packet,
                           ip: string, sel: string, ts: seq<Transport>, n: int)
    requires |ts| > 0 && FieldValue(env, p, ip, sel) == Ok(RInt(n)) && n != ts[0].proto
    ensures FirstTransport(env, pack, width, chk, p, ip, sel, ts) == FirstTransport(env, pack, width, chk, p, ip, sel, ts[1..])
  {
    assert Guard(env, p, ts[0].layer, ip, sel, ts[0].proto) == Ok(false);
  }

  /** The transport the IP layer's `sel` field names, when present, gets
      its checksum stored over its header. */
  lemma FirstTransportTake(env: Env, pack: Repr -> Result<bytes>, width: nat, chk: bytes -> Result<string>, p: Packet,
                           ip: string, sel: string, ts: seq<Transport>)
    requires |ts| > 0 && ts[0].layer in Keys(p.layers) && FieldValue(env, p, ip, sel) == Ok(RInt(ts[0].proto))
    ensures FirstTransport(env, pack, width, chk, p, ip, sel, ts) ==
      match (if ts[0].pseudo then PseudoHeader(env, pack, width, p, ip, ts[0].proto, ts[0].layer) else Ok([]))
      case Err(e) => Err(e)
      case Ok(h) => StoreChecksum(env, chk, p, ts[0].layer, h, None)
  {
    assert Guard(env, p, ts[0].layer, ip, sel, ts[0].proto) == Ok(true);
  }

  /** What storing transport `t`'s checksum needs before `chksum` runs:
      the layer is present, its header packs, and its checksum field can be
      zeroed. */
  predicate Storable(env: Env, pack: Repr -> Result<bytes>, width: nat, p: Packet, ip: string, t: Transport)
  {
    && t.layer in Keys(p.layers)
    && (t.pseudo ==> PseudoHeader(env, pack, width, p, ip, t.proto, t.layer).Ok?)
    && SetField(env, p, t.layer, "checksum", RText("0x0000")).Ok?
  }

  /** As written, the transport whose protocol number the IP layer's
      `sel` field carries makes the chain raise NameError once it is
      storable: the transports before it carry other numbers, so their
      tests fail. */
  lemma {:induction false} FirstTransportAsWrittenRaises(env: Env, pack: Repr -> Result<bytes>, width: nat, p: Packet,
                                                        ip: string, sel: string, ts: seq<Transport>, i: nat, n: int)
    requires i < |ts| && ts[i].proto == n && Storable(env, pack, width, p, ip, ts[i])
    requires FieldValue(env, p, ip, sel) == Ok(RInt(n))
    requires forall j :: 0 <= j < i ==> ts[j].proto != n
    ensures FirstTransport(env, pack, width, ChksumAsWritten, p, ip, sel, ts) == Err(NameError)
    decreases i
  {
    if i > 0 {
      FirstTransportSkip(env, pack, width, ChksumAsWritten, p, ip, sel, ts, n);
      TailProtos(ts, i, n);
      FirstTransportAsWrittenRaises(env, pack, width, p, ip, sel, ts[1..], i - 1, n);
    } else {
      FirstTransportTake(env, pack, width, ChksumAsWritten, p, ip, sel, ts);
      var t := ts[0];
      var hdr := if t.pseudo then PseudoHeader(env, pack, width, p, ip, t.proto, t.layer) else Ok([]);
      StoreChecksumAsWritten(env, p, t.layer, hdr.value, None);
    }
  }

  /** Dropping the first transport shifts the ones that do not carry `n`. */
  lemma TailProtos(ts: seq<Transport>, i: nat, n: int)
    requires 0 < i < |ts| && forall j :: 0 <= j < i ==> ts[j].proto != n
    ensures ts[1..][i - 1] == ts[i]
    ensures forall j :: 0 <= j < i - 1 ==> ts[1..][j].proto != n
  {
  }

  /** As written, an IPv6 packet carrying a TCP, ICMPv6 or UDP layer named
      by its `nxt` field raises NameError once the pseudo header packs and
      the layer's checksum field can be zeroed. */
  lemma RecChksumsAsWrittenRaisesIpv6(env: Env, aton: Repr -> Result<bytes>, p: Packet, i: nat)
    requires Guard(env, p, "IP", "IP", "version", 4) == Ok(false)
    requires Guard(env, p, "IPV6", "IPV6", "version", 6) == Ok(true)
    requires i < 3 && Storable(env, env.ipv6Pack, 16, p, "IPV6", Ipv6Transports[i])
    requires FieldValue(env, p, "IPV6", "nxt") == Ok(RInt(Ipv6Transports[i].proto))
    ensures RecChksumsWith(env, aton, ChksumAsWritten, p) == Err(NameError)
  {
    RecChksumsIpv6(env, aton, ChksumAsWritten, p);
    Ipv6ProtosDistinct(i);
    FirstTransportAsWrittenRaises(env, env.ipv6Pack, 16, p, "IPV6", "nxt", Ipv6Transports, i, Ipv6Transports[i].proto);
  }

  /** A packet that is not IPv4 but IPv6 goes through the IPv6 transports. */
  lemma RecChksumsIpv6(env: Env, aton: Repr -> Result<bytes>, chk: bytes -> Result<string>, p: Packet)
    requires Guard(env, p, "IP", "IP", "version", 4) == Ok(false)
    requires Guard(env, p, "IPV6", "IPV6", "version", 6) == Ok(true)
    ensures RecChksumsWith(env, aton, chk, p) == FirstTransport(env, env.ipv6Pack, 16, chk, p, "IPV6", "nxt", Ipv6Transports)
  {
  }

  /** The IPv6 transports carry distinct protocol numbers. */
  lemma Ipv6ProtosDistinct(i: nat)
    requires i < 3
    ensures forall j :: 0 <= j < i ==> Ipv6Transports[j].proto != Ipv6Transports[i].proto
  {
  }

  /** As written, the chain never changes the packet: it raises, or finds
      no transport to fix and returns the packet as it was. */
  lemma {:induction false} FirstTransportAsWrittenKeeps(env: Env, pack: Repr -> Result<bytes>, width: nat, p: Packet,
                                                       ip: string, sel: string, ts: seq<Transport>)
    ensures FirstTransport(env, pack, width, ChksumAsWritten, p, ip, sel, ts).Ok? ==>
      FirstTransport(env, pack, width, ChksumAsWritten, p, ip, sel, ts) == Ok(p)
    decreases |ts|
  {
    if |ts| > 0 {
      FirstTransportAsWrittenKeeps(env, pack, width, p, ip, sel, ts[1..]);
    }
  }

  /** As written, `_rec_chksums` either raises or leaves the packet as it
      was: no checksum is ever stored. */
  lemma RecChksumsAsWrittenKeeps(env: Env, aton: Repr -> Result<bytes>, p: Packet)
    ensures RecChksumsWith(env, aton, ChksumAsWritten, p).Ok? ==> RecChksumsWith(env, aton, ChksumAsWritten, p) == Ok(p)
  {
    FirstTransportAsWrittenKeeps(env, env.ipv6Pack, 16, p, "IPV6", "nxt", Ipv6Transports);
  }

  // ---------------------------------------------------------------------
  // The stored checksum verifies
  // ---------------------------------------------------------------------

  /** A two-byte hexadecimal "checksum" field sitting at `a` in the
      layer's view. */
  predicate HexChecksumField(v: View, a: nat)
  {
    && Get(v.fields, "checksum").Some?
    && Get(v.fields, "checksum").value.slice == Slice(a, a + 2)
    && Get(v.fields, "checksum").value.ftype == Hex
    && Get(v.fields, "checksum").value.size == 2
    && Get(v.structs, "checksum").None?
  }

  /** '0x0000' writes two zero bytes into a two-byte hex field. */
  lemma HexZeros()
    ensures HexToRaw("0x0000", 2) == Ok([0, 0])
  {
    assert PyTo("0x0000", 2) == "0x";
    assert HexDigits("0x0000") == "0000";
    assert Repeat('0', 0) + "0000" == "0000";
    assert HexOfBytes([0]) == "00";
    assert [0, 0][..1] == [0];
    assert HexOfBytes([0, 0]) == "0000";
    FromHexOfHex([0, 0]);
  }

  /** The hex text of two bytes writes those bytes back. */
  lemma HexOfTwo(c: bytes)
    requires |c| == 2
    ensures HexToRaw(HexOfBytes(c), 2) == Ok(c)
  {
    var s := HexOfBytes(c);
    HexOfBytesLast(c);
    HexOfBytesLast(c[..1]);
    assert s[1] == HexDigit(c[0] % 16);
    assert PyTo(s, 2) != "0x" by {
      assert PyTo(s, 2)[1] == s[1];
    }
    assert HexDigits(s) == s;
    assert Repeat('0', 0) + s == s;
    FromHexOfHex(c);
  }

  /** Writing the text of two bytes into a two-byte hex checksum field
      replaces exactly those two bytes of the buffer. */
  lemma WriteChecksumField(env: Env, p: Packet, layer: string, v: View, a: nat, text: string, c: bytes)
    requires Layer(p, layer) == Ok(v) && HexChecksumField(v, a) && a + 2 <= |p.buf|
    requires |c| == 2 && HexToRaw(text, 2) == Ok(c)
    ensures SetField(env, p, layer, "checksum", RText(text)) == Ok(p.(buf := p.buf[..a] + c + p.buf[a + 2..]))
  {
    var info := Get(v.fields, "checksum").value;
    assert GetFraw(env, RText(text), info.ftype, p.buf[a..a + 2], info.size, info.mask, "checksum") == Ok(c);
    SetPlain(env, v, p.buf, "checksum", RText(text), info);
    assert SetItem(env, v, p.buf, "checksum", RText(text)) == Ok(p.buf[..a] + c + p.buf[a + 2..]);
  }

  /** Two bytes written inside a region show up at the same place in it. */
  lemma RegionSplice(buf: bytes, ls: nat, span: Option<nat>, a: nat, c: bytes)
    requires PadLen <= ls <= a && |c| == 2
    requires span.None? ==> a + 2 <= |buf|
    requires span.Some? ==> a + 2 <= ls + span.value <= |buf|
    ensures var r0 := Region(buf, ls, span);
      && a - ls + 2 <= |r0|
      && |Region(buf[..a] + c + buf[a + 2..], ls, span)| == |r0|
      && Region(buf[..a] + c + buf[a + 2..], ls, span) == r0[..a - ls] + c + r0[a - ls + 2..]
  {
    var b2 := buf[..a] + c + buf[a + 2..];
    assert |b2| == |buf|;
    if span.None? {
      assert b2[ls..] == buf[ls..][..a - ls] + c + buf[ls..][a - ls + 2..];
    } else {
      var e := ls + span.value;
      assert b2[ls..e] == buf[ls..e][..a - ls] + c + buf[ls..e][a - ls + 2..];
    }
  }

  /** Prefixing a header shifts the written field by the header's length. */
  lemma HeaderShift(hdr: bytes, r: bytes, k: nat, c: bytes)
    requires k + 2 <= |r|
    ensures hdr + (r[..k] + c + r[k + 2..]) == (hdr + r)[..|hdr| + k] + c + (hdr + r)[|hdr| + k + 2..]
  {
    assert (hdr + r)[..|hdr| + k] == hdr + r[..k];
    assert (hdr + r)[|hdr| + k + 2..] == r[k + 2..];
  }

  /** The two writes `StoreChecksum` makes, spelled out: the field is
      zeroed first, and the checksum is taken over the zeroed bytes. */
  lemma StoreChecksumZeroes(env: Env, chk: bytes -> Result<string>, p: Packet, layer: string, hdr: bytes,
                            span: Option<nat>, v: View, a: nat)
    requires Layer(p, layer) == Ok(v) && HexChecksumField(v, a) && a + 2 <= |p.buf|
    ensures var p1 := p.(buf := p.buf[..a] + [0, 0] + p.buf[a + 2..]);
      StoreChecksum(env, chk, p, layer, hdr, span) ==
        match chk(hdr + Region(p1.buf, v.layerStart, span))
        case Err(e) => Err(e)
        case Ok(ck) => SetField(env, p1, layer, "checksum", RText(ck))
  {
    HexZeros();
    WriteChecksumField(env, p, layer, v, a, "0x0000", [0, 0]);
  }

  /** The sum of two even numbers is even. */
  lemma EvenSum(x: int, y: int)
    requires x % 2 == 0 && y % 2 == 0
    ensures (x + y) % 2 == 0
  {
    assert x == 2 * (x / 2) && y == 2 * (y / 2);
    assert x + y == 2 * (x / 2 + y / 2);
  }

  /** The byte-level half of `StoreChecksumVerifies`: zero the two bytes
      at `a`, checksum the header and the region, write the checksum's
      big-endian bytes at `a`; the region then checks to zero and only
      those two bytes differ from the start. */
  lemma ChecksumInRegion(buf: bytes, ls: nat, span: Option<nat>, a: nat, hdr: bytes)
    requires PadLen <= ls <= a && (a - ls) % 2 == 0 && |hdr| % 2 == 0
    requires span.None? ==> a + 2 <= |buf|
    requires span.Some? ==> a + 2 <= ls + span.value <= |buf|
    requires |hdr| + |Region(buf, ls, span)| < 131072
    ensures var z := buf[..a] + [0, 0] + buf[a + 2..];
      var q := z[..a] + BeBytes(NetChecksum(hdr + Region(z, ls, span)), 2) + z[a + 2..];
      && |q| == |buf| && q[..a] == buf[..a] && q[a + 2..] == buf[a + 2..]
      && NetChecksum(hdr + Region(q, ls, span)) == 0
  {
    var k := a - ls;
    var z := buf[..a] + [0, 0] + buf[a + 2..];
    RegionSplice(buf, ls, span, a, [0, 0]);
    var r0 := Region(buf, ls, span);
    var r := Region(z, ls, span);
    assert r == r0[..k] + [0, 0] + r0[k + 2..];
    var c := BeBytes(NetChecksum(hdr + r), 2);
    RegionSplice(z, ls, span, a, c);
    SplicedVerifies(hdr, r0, k);
    SpliceFrame(buf, a, [0, 0], c);
  }

  /** The checksum of a header and a region whose field at an even offset
      is zeroed, written into that field, makes the two check to zero. */
  lemma SplicedVerifies(hdr: bytes, r0: bytes, k: nat)
    requires k % 2 == 0 && |hdr| % 2 == 0 && k + 2 <= |r0| && |hdr| + |r0| < 131072
    ensures var r := r0[..k] + [0, 0] + r0[k + 2..];
      NetChecksum(hdr + (r[..k] + BeBytes(NetChecksum(hdr + r), 2) + r[k + 2..])) == 0
  {
    var r := r0[..k] + [0, 0] + r0[k + 2..];
    assert |r| == |r0| && r[k] == 0 && r[k + 1] == 0;
    var K := |hdr| + k;
    EvenSum(|hdr|, k);
    assert K % 2 == 0;
    var d := hdr + r;
    var c := BeBytes(NetChecksum(d), 2);
    HeaderShift(hdr, r, k, c);
    ChecksumVerifies(d, K);
  }

  /** Writing two bytes twice at the same place: the second write is all
      that shows, and everything around is the original. */
  lemma SpliceFrame(buf: bytes, a: nat, x: bytes, y: bytes)
    requires a + 2 <= |buf| && |x| == 2 && |y| == 2
    ensures var q := (buf[..a] + x + buf[a + 2..])[..a] + y + (buf[..a] + x + buf[a + 2..])[a + 2..];
      && |q| == |buf| && q[..a] == buf[..a] && q[a + 2..] == buf[a + 2..]
  {
    var z := buf[..a] + x + buf[a + 2..];
    assert z[..a] == buf[..a];
    assert z[a + 2..] == buf[a + 2..];
  }

  /** `StoreChecksum` with the working `chksum` on a two-byte hex field:
      the field is zeroed, and the big-endian checksum of the header and
      the zeroed region is written over it. */
  lemma StoreChecksumWrites(env: Env, p: Packet, layer: string, hdr: bytes, span: Option<nat>, v: View, a: nat)
    requires Layer(p, layer) == Ok(v) && HexChecksumField(v, a) && a + 2 <= |p.buf|
    requires |hdr| + |Region(p.buf[..a] + [0, 0] + p.buf[a + 2..], v.layerStart, span)| <= 131072
    ensures var z := p.buf[..a] + [0, 0] + p.buf[a + 2..];
      var c := BeBytes(NetChecksum(hdr + Region(z, v.layerStart, span)), 2);
      StoreChecksum(env, Chksum, p, layer, hdr, span) == Ok(p.(buf := z[..a] + c + z[a + 2..]))
  {
    var z := p.buf[..a] + [0, 0] + p.buf[a + 2..];
    var p1 := p.(buf := z);
    StoreChecksumZeroes(env, Chksum, p, layer, hdr, span, v, a);
    var d := hdr + Region(z, v.layerStart, span);
    ChksumIsNet(d);
    var c := BeBytes(NetChecksum(d), 2);
    HexOfTwo(c);
    assert Layer(p1, layer) == Ok(v);
    WriteChecksumField(env, p1, layer, v, a, HexOfBytes(c), c);
  }

  /** RFC 1071 section 1 at the packet level: when a layer's "checksum"
      field is a two-byte hex field at an even offset inside the bytes it
      covers, storing the checksum leaves only that field changed and the
      covered bytes (after the header) check to zero. */
  lemma StoreChecksumVerifies(env: Env, p: Packet, layer: string, hdr: bytes, span: Option<nat>, v: View, a: nat)
    requires Layer(p, layer) == Ok(v) && HexChecksumField(v, a)
    requires PadLen <= v.layerStart <= a && (a - v.layerStart) % 2 == 0 && |hdr| % 2 == 0
    requires span.None? ==> a + 2 <= |p.buf|
    requires span.Some? ==> a + 2 <= v.layerStart + span.value <= |p.buf|
    requires |hdr| + |Region(p.buf, v.layerStart, span)| < 131072
    ensures StoreChecksum(env, Chksum, p, layer, hdr, span).Ok?
    ensures var q := StoreChecksum(env, Chksum, p, layer, hdr, span).value;
      && |q.buf| == |p.buf| && q.buf[..a] == p.buf[..a] && q.buf[a + 2..] == p.buf[a + 2..]
      && NetChecksum(hdr + Region(q.buf, v.layerStart, span)) == 0
  {
    ChecksumInRegion(p.buf, v.layerStart, span, a, hdr);
    RegionSplice(p.buf, v.layerStart, span, a, [0, 0]);
    StoreChecksumWrites(env, p, layer, hdr, span, v, a);
    var z := p.buf[..a] + [0, 0] + p.buf[a + 2..];
    var q := z[..a] + BeBytes(NetChecksum(hdr + Region(z, v.layerStart, span)), 2) + z[a + 2..];
    assert StoreChecksum(env, Chksum, p, layer, hdr, span) == Ok(p.(buf := q));
  }

  // ---------------------------------------------------------------------
  // The callbacks
  // ---------------------------------------------------------------------

  /** A template function's call on the interceptor's packet: the packet
      as the call left it, and how the call ended. */
  datatype Call = Call(after: Packet, ret: Ret)

  /** The verdict on one packet and the packet object the interceptor
      keeps for the next one. */
  datatype Outcome = Outcome(verdict: Verdict, state: Packet)

  /** Running part of the function list either settles the packet's fate
      or hands the packet on. */
  datatype Progress = Stopped(outcome: Outcome) | Continued(state: Packet)

  /** The `for` loops of `linux_modify` / `windows_modify` over the
      functions `fs`, starting from packet `p`: a falsy answer forwards, a
      returned packet whose `drop` flag is up is dropped. */
  function Run<F>(call: (F, Packet) -> Call, fs: seq<F>, platform: Platform, original: bytes, p: Packet): (r: Progress)
    decreases |fs|
    ensures r.Continued? ==> r.state == p || (Length(r.state.buf) > 0 && !r.state.drop)
    ensures r.Stopped? && r.outcome.verdict.Drop? ==> r.outcome.state.drop && Length(r.outcome.state.buf) > 0
    ensures r.Stopped? && r.outcome.verdict.Forward? ==>
      r.outcome.verdict.payload == original || r.outcome.verdict.payload == Raw(r.outcome.state.buf)
    ensures r.Stopped? && r.outcome.verdict.Forward? && r.outcome.verdict.payload == [] ==> original == []
  {
    if |fs| == 0 then Continued(p)
    else
      var c := call(fs[0], p);
      if c.ret.RaisedExc? then Stopped(Outcome(Raised(c.ret.error), c.after))
      else if Falsy(c.ret, c.after.buf) then Stopped(Outcome(FalsyVerdict(platform, original, c.after.buf), c.after))
      else if c.after.drop then Stopped(Outcome(Drop, c.after))
      else Run(call, fs[1..], platform, original, c.after)
  }

  /** One intercepted payload, given the checksum helper: the kept packet
      gets the payload (its views and flags stay), the functions run, and a
      packet every function returned has its checksums recomputed when
      `rec_chksums` is set before its payload is forwarded. */
  function ModifyWith<F>(env: Env, aton: Repr -> Result<bytes>, chk: bytes -> Result<string>, call: (F, Packet) -> Call,
                         fs: seq<F>, platform: Platform, st: Packet, payload: bytes): (o: Outcome)
    ensures o.verdict.Drop? ==> o.state.drop
    ensures o.verdict.Forward? ==> o.verdict.payload == payload || o.verdict.payload == Raw(o.state.buf)
    ensures o.verdict.Forward? && o.verdict.payload == [] ==> payload == [] || o.state.recChksums
  {
    var p := SetRaw(st, payload);
    SetRawThenRaw(st, payload);
    match Run(call, fs, platform, payload, p)
    case Stopped(o) => o
    case Continued(q) =>
      if !q.recChksums then Outcome(Forward(Raw(q.buf)), q)
      else
        match RecChksumsWith(env, aton, chk, q)
        case Err(e) => Outcome(Raised(e), q)
        case Ok(q2) => Outcome(Forward(Raw(q2.buf)), q2)
  }

  /** `linux_modify` / `windows_modify` as written: `_rec_chksums` reaches
      `chksum`, which raises NameError, so a packet every function returned
      keeps the bytes the functions left, and is forwarded only when no
      checksum had to be stored. An empty payload goes out only when one
      came in. */
  function Modify<F>(env: Env, aton: Repr -> Result<bytes>, call: (F, Packet) -> Call, fs: seq<F>,
                     platform: Platform, st: Packet, payload: bytes): (o: Outcome)
    ensures o.verdict.Drop? ==> o.state.drop
    ensures o.verdict.Forward? ==> o.verdict.payload == payload || o.verdict.payload == Raw(o.state.buf)
    ensures o.verdict.Forward? && o.verdict.payload == [] ==> payload == []
    ensures Run(call, fs, platform, payload, SetRaw(st, payload)).Continued? ==>
      o.state == Run(call, fs, platform, payload, SetRaw(st, payload)).state
  {
    SetRawThenRaw(st, payload);
    match Run(call, fs, platform, payload, SetRaw(st, payload))
    case Stopped(_) => ModifyWith(env, aton, ChksumAsWritten, call, fs, platform, st, payload)
    case Continued(q) =>
      RecChksumsAsWrittenKeeps(env, aton, q);
      ModifyWith(env, aton, ChksumAsWritten, call, fs, platform, st, payload)
  }

  /** The same once `chksum` can run: the forwarded packet carries the
      recomputed checksums. */
  function ModifyIntended<F>(env: Env, aton: Repr -> Result<bytes>, call: (F, Packet) -> Call, fs: seq<F>,
                             platform: Platform, st: Packet, payload: bytes): (o: Outcome)
    ensures o.verdict.Drop? ==> o.state.drop
    ensures o.verdict.Forward? ==> o.verdict.payload == payload || o.verdict.payload == Raw(o.state.buf)
    ensures o.verdict.Forward? && o.verdict.payload == [] ==> payload == [] || o.state.recChksums
    ensures Run(call, fs, platform, payload, SetRaw(st, payload)).Stopped? ==>
      o == Modify(env, aton, call, fs, platform, st, payload)
  {
    ModifyWith(env, aton, Chksum, call, fs, platform, st, payload)
  }

  /** Running a concatenation is running its first part and, if that
      hands the packet on, the second part on the packet it hands on. */
  lemma {:induction false} RunAppend<F>(call: (F, Packet) -> Call, a: seq<F>, b: seq<F>, platform: Platform,
                                        original: bytes, p: Packet)
    ensures Run(call, a + b, platform, original, p) ==
      match Run(call, a, platform, original, p)
      case Stopped(o) => Stopped(o)
      case Continued(q) => Run(call, b, platform, original, q)
    decreases |a|
  {
    if |a| > 0 {
      assert (a + b)[0] == a[0];
      assert (a + b)[1..] == a[1..] + b;
      var c := call(a[0], p);
      if !c.ret.RaisedExc? && !Falsy(c.ret, c.after.buf) && !c.after.drop {
        RunAppend(call, a[1..], b, platform, original, c.after);
      }
    } else {
      assert a + b == b;
    }
  }

  /** A returned packet with its `drop` flag up is dropped at once: the
      functions after it never run, on either platform. */
  lemma DropStops<F>(call: (F, Packet) -> Call, fs: seq<F>, platform: Platform, original: bytes, p: Packet)
    requires |fs| > 0
    requires var c := call(fs[0], p); c.ret == ReturnedPacket && Length(c.after.buf) > 0 && c.after.drop
    ensures Run(call, fs, platform, original, p) == Stopped(Outcome(Drop, call(fs[0], p).after))
    ensures forall g :: Run(call, fs + [g], platform, original, p) == Run(call, fs, platform, original, p)
  {
    forall g ensures Run(call, fs + [g], platform, original, p) == Run(call, fs, platform, original, p) {
      RunAppend(call, fs, [g], platform, original, p);
    }
  }

  /** When no function ever raises the `drop` flag and the kept packet
      does not carry it, no packet is dropped. */
  lemma {:induction false} NoFlagNoDrop<F>(call: (F, Packet) -> Call, fs: seq<F>, platform: Platform, original: bytes, p: Packet)
    requires forall f, q: Packet :: !q.drop ==> !call(f, q).after.drop
    requires !p.drop
    ensures !(Run(call, fs, platform, original, p).Stopped? && Run(call, fs, platform, original, p).outcome.verdict.Drop?)
    ensures Run(call, fs, platform, original, p).Continued? ==> !Run(call, fs, platform, original, p).state.drop
    decreases |fs|
  {
    if |fs| > 0 {
      var c := call(fs[0], p);
      if !c.ret.RaisedExc? && !Falsy(c.ret, c.after.buf) && !c.after.drop {
        NoFlagNoDrop(call, fs[1..], platform, original, c.after);
      }
    }
  }

  /** The `drop` flag lives on the kept packet and the next payload does
      not lower it: once a callback has dropped a packet, the next packet
      is dropped too by a first function that returns it untouched. */
  lemma DropFlagPersists<F>(env: Env, aton: Repr -> Result<bytes>, call: (F, Packet) -> Call, fs: seq<F>,
                            platform: Platform, st: Packet, payload: bytes, next: bytes)
    requires Modify(env, aton, call, fs, platform, st, payload).verdict.Drop?
    requires |fs| > 0 && |next| > 0
    requires var q := SetRaw(Modify(env, aton, call, fs, platform, st, payload).state, next);
      call(fs[0], q) == Call(q, ReturnedPacket)
    ensures Modify(env, aton, call, fs, platform, Modify(env, aton, call, fs, platform, st, payload).state, next).verdict == Drop
  {
    SetRawThenRaw(Modify(env, aton, call, fs, platform, st, payload).state, next);
  }

  /** On Windows a falsy first answer re-sends the packet exactly as it
      arrived, whatever the function did to the payload. */
  lemma WindowsFalsyOriginal<F>(env: Env, aton: Repr -> Result<bytes>, call: (F, Packet) -> Call, fs: seq<F>,
                                st: Packet, payload: bytes)
    requires |fs| > 0
    requires var c := call(fs[0], SetRaw(st, payload)); !c.ret.RaisedExc? && Falsy(c.ret, c.after.buf)
    ensures Modify(env, aton, call, fs, Windows, st, payload).verdict == Forward(payload)
  {
  }

  /** With `rec_chksums` cleared on the packet every function returned,
      its payload goes out exactly as the functions left it. */
  lemma NoRecomputeForwards<F>(env: Env, aton: Repr -> Result<bytes>, call: (F, Packet) -> Call, fs: seq<F>,
                               platform: Platform, st: Packet, payload: bytes)
    requires Run(call, fs, platform, payload, SetRaw(st, payload)).Continued?
    requires !Run(call, fs, platform, payload, SetRaw(st, payload)).state.recChksums
    ensures var q := Run(call, fs, platform, payload, SetRaw(st, payload)).state;
      Modify(env, aton, call, fs, platform, st, payload) == Outcome(Forward(Raw(q.buf)), q)
  {
  }

  /** As written, with `rec_chksums` set, a packet every function
      returned is forwarded as the functions left it when no checksum had
      to be stored, and otherwise the recomputation's exception is raised. */
  lemma RecomputeAsWritten<F>(env: Env, aton: Repr -> Result<bytes>, call: (F, Packet) -> Call, fs: seq<F>,
                              platform: Platform, st: Packet, payload: bytes)
    requires Run(call, fs, platform, payload, SetRaw(st, payload)).Continued?
    requires Run(call, fs, platform, payload, SetRaw(st, payload)).state.recChksums
    ensures var q := Run(call, fs, platform, payload, SetRaw(st, payload)).state;
      var o := Modify(env, aton, call, fs, platform, st, payload);
      match RecChksumsWith(env, aton, ChksumAsWritten, q)
      case Ok(_) => o == Outcome(Forward(Raw(q.buf)), q)
      case Err(e) => o == Outcome(Raised(e), q)
  {
    RecChksumsAsWrittenKeeps(env, aton, Run(call, fs, platform, payload, SetRaw(st, payload)).state);
  }

  /** As written, an IPv4 packet every function returned, with
      `rec_chksums` set, is never forwarded: `chksum` raises NameError. */
  lemma ModifyAsWrittenRaises<F>(env: Env, aton: Repr -> Result<bytes>, call: (F, Packet) -> Call, fs: seq<F>,
                                 platform: Platform, st: Packet, payload: bytes)
    requires Run(call, fs, platform, payload, SetRaw(st, payload)).Continued?
    requires var q := Run(call, fs, platform, payload, SetRaw(st, payload)).state;
      && q.recChksums
      && Guard(env, q, "IP", "IP", "version", 4) == Ok(true)
      && SetField(env, q, "IP", "checksum", RText("0x0000")).Ok?
    ensures Modify(env, aton, call, fs, platform, st, payload).verdict == Raised(NameError)
  {
    RecChksumsAsWrittenRaises(env, aton, Run(call, fs, platform, payload, SetRaw(st, payload)).state);
    RecomputeAsWritten(env, aton, call, fs, platform, st, payload);
  }

  /** Once `chksum` can run, with `rec_chksums` set, the payload forwarded
      is the one whose checksums `_rec_chksums` rewrote, and a failure there
      is the callback's failure. */
  lemma RecomputeBeforeForward<F>(env: Env, aton: Repr -> Result<bytes>, call: (F, Packet) -> Call, fs: seq<F>,
                                  platform: Platform, st: Packet, payload: bytes)
    requires Run(call, fs, platform, payload, SetRaw(st, payload)).Continued?
    requires Run(call, fs, platform, payload, SetRaw(st, payload)).state.recChksums
    ensures var q := Run(call, fs, platform, payload, SetRaw(st, payload)).state;
      var o := ModifyIntended(env, aton, call, fs, platform, st, payload);
      match RecChksums(env, aton, q)
      case Ok(q2) => o == Outcome(Forward(Raw(q2.buf)), q2)
      case Err(e) => o.verdict == Raised(e)
  {
  }

  /** With no functions to run and no IP layer to fix, the payload goes
      out unchanged. */
  lemma EmptyChainForwards<F>(env: Env, aton: Repr -> Result<bytes>, call: (F, Packet) -> Call, platform: Platform,
                              st: Packet, payload: bytes)
    requires !st.recChksums || ("IP" !in Keys(st.layers) && "IPV6" !in Keys(st.layers))
    ensures Modify(env, aton, call, [], platform, st, payload).verdict == Forward(payload)
  {
    SetRawThenRaw(st, payload);
  }

  /** Each callback starts from the new payload: what the kept packet's
      buffer held before makes no difference. */
  lemma BufferForgotten<F>(env: Env, aton: Repr -> Result<bytes>, call: (F, Packet) -> Call, fs: seq<F>,
                           platform: Platform, st: Packet, other: bytes, payload: bytes)
    ensures Modify(env, aton, call, fs, platform, st.(buf := other), payload) == Modify(env, aton, call, fs, platform, st, payload)
  {
    assert SetRaw(st.(buf := other), payload) == SetRaw(st, payload);
  }
}

=== FILE: legacy_interceptor.dfy ===
/** The interceptor of the first generation (`polymorph/interceptor.py`):
    every intercepted payload is put into the one packet object the
    interceptor keeps, and the template's preconditions, executions and
    postconditions run on it in that order. The first falsy answer
    forwards the packet at once; when every function returns the packet,
    its final payload is forwarded. This version never drops a packet. */
module LegacyInterceptors {
  import opened Wrappers
  import opened Bytes
  import opened OrderedMap
  import opened Payload
  import opened Interception
  import LP = LegacyPackets
  import LT = LegacyTemplates

  /** A template function's call on the interceptor's packet: the packet
      as the call left it, and how the call ended. */
  datatype Call = Call(after: LP.Packet, ret: Ret)

  /** The verdict on one packet and the packet object the interceptor
      keeps for the next one. */
  datatype Outcome = Outcome(verdict: Verdict, state: LP.Packet)

  /** Running part of the chain either settles the packet's fate or
      hands the packet on. */
  datatype Progress = Stopped(outcome: Outcome) | Continued(state: LP.Packet)

  /** `self._functions` flattened: the preconditions, then the executions,
      then the postconditions, each group in its own order; KeyError when a
      group is missing. */
  function Chain<F>(t: LT.Template<F>): (r: Result<seq<F>>)
    ensures r.Ok? <==> "preconditions" in Keys(t.functions) && "executions" in Keys(t.functions)
                       && "postconditions" in Keys(t.functions)
    ensures r.Err? ==> r.error == KeyError
    ensures r.Ok? ==> |r.value| == |LT.Group(t, "preconditions").value| + |LT.Group(t, "executions").value|
                                   + |LT.Group(t, "postconditions").value|
  {
    match LT.Group(t, "preconditions")
    case Err(e) => Err(e)
    case Ok(pre) =>
      match LT.Group(t, "executions")
      case Err(e) => Err(e)
      case Ok(exe) =>
        match LT.Group(t, "postconditions")
        case Err(e) => Err(e)
        case Ok(post) => Ok(Values(pre) + Values(exe) + Values(post))
  }

  /** A fresh template has all three groups and nothing to run. */
  lemma NewTemplateChain<F>(name: string, description: string, version: string)
    ensures Chain(LT.NewTemplate<F>(name, description, version)) == Ok([])
  {
    var t := LT.NewTemplate<F>(name, description, version);
    assert Keys(t.functions) == LT.Groups;
    assert LT.Group(t, "preconditions") == Ok([]);
    assert LT.Group(t, "executions") == Ok([]);
    assert LT.Group(t, "postconditions") == Ok([]);
  }

  /** A new execution runs after every execution already there, before
      every postcondition. */
  lemma AddExecutionChain<F>(t: LT.Template<F>, name: string, f: F)
    requires Chain(t).Ok?
    requires name !in Keys(LT.Group(t, "executions").value)
    ensures LT.AddFunction(t, "executions", name, f).Ok?
    ensures Chain(LT.AddFunction(t, "executions", name, f).value) ==
      Ok(Values(LT.Group(t, "preconditions").value) + (Values(LT.Group(t, "executions").value) + [f])
         + Values(LT.Group(t, "postconditions").value))
  {
    var exe := LT.Group(t, "executions").value;
    var t2 := LT.AddFunction(t, "executions", name, f).value;
    PutAbsent(exe, name, f);
    assert Values(exe + [(name, f)]) == Values(exe) + [f];
    PutGet(t.functions, "executions", exe + [(name, f)], "preconditions");
    PutGet(t.functions, "executions", exe + [(name, f)], "executions");
    PutGet(t.functions, "executions", exe + [(name, f)], "postconditions");
    PutKeys(t.functions, "executions", exe + [(name, f)]);
  }

  /** The `for` loops of `linux_modify` / `windows_modify` over the
      functions `fs`, starting from packet `p`. */
  function Run<F>(call: (F, LP.Packet) -> Call, fs: seq<F>, platform: Platform, original: bytes, p: LP.Packet): (r: Progress)
    decreases |fs|
    ensures r.Continued? ==> r.state == p || Length(r.state.buf) > 0
    ensures r.Stopped? ==> !r.outcome.verdict.Drop?
    ensures r.Stopped? && r.outcome.verdict.Forward? ==>
      r.outcome.verdict.payload == original || r.outcome.verdict.payload == Raw(r.outcome.state.buf)
    ensures r.Stopped? && r.outcome.verdict.Forward? && r.outcome.verdict.payload == [] ==> original == []
  {
    if |fs| == 0 then Continued(p)
    else
      var c := call(fs[0], p);
      if c.ret.RaisedExc? then Stopped(Outcome(Raised(c.ret.error), c.after))
      else if Falsy(c.ret, c.after.buf) then Stopped(Outcome(FalsyVerdict(platform, original, c.after.buf), c.after))
      else Run(call, fs[1..], platform, original, c.after)
  }

  /** One intercepted payload: the kept packet gets the payload (its views
      stay), the chain runs, and a packet every function returned is
      forwarded with its final payload. */
  function Modify<F>(call: (F, LP.Packet) -> Call, fs: seq<F>, platform: Platform, st: LP.Packet, payload: bytes): (o: Outcome)
    ensures !o.verdict.Drop?
    ensures o.verdict.Forward? ==> o.verdict.payload == payload || o.verdict.payload == Raw(o.state.buf)
    ensures o.verdict.Forward? && o.verdict.payload == [] ==> payload == []
  {
    var p := st.(buf := Padded(payload));
    RawPadded(payload);
    match Run(call, fs, platform, payload, p)
    case Stopped(o) => o
    case Continued(q) => Outcome(Forward(Raw(q.buf)), q)
  }

  /** The chain of the three groups runs group after group: running a
      concatenation is running its first part and, if that hands the
      packet on, the second part on the packet it hands on. */
  lemma {:induction false} RunAppend<F>(call: (F, LP.Packet) -> Call, a: seq<F>, b: seq<F>, platform: Platform,
                                        original: bytes, p: LP.Packet)
    ensures Run(call, a + b, platform, original, p) ==
      match Run(call, a, platform, original, p)
      case Stopped(o) => Stopped(o)
      case Continued(q) => Run(call, b, platform, original, q)
    decreases |a|
  {
    if |a| > 0 {
      assert (a + b)[0] == a[0];
      assert (a + b)[1..] == a[1..] + b;
      var c := call(a[0], p);
      if !c.ret.RaisedExc? && !Falsy(c.ret, c.after.buf) {
        RunAppend(call, a[1..], b, platform, original, c.after);
      }
    } else {
      assert a + b == b;
    }
  }

  /** A falsy answer ends the chain: the functions after it never run. */
  lemma FalsyStops<F>(call: (F, LP.Packet) -> Call, fs: seq<F>, platform: Platform, original: bytes, p: LP.Packet)
    requires |fs| > 0
    requires !call(fs[0], p).ret.RaisedExc? && Falsy(call(fs[0], p).ret, call(fs[0], p).after.buf)
    ensures Run(call, fs, platform, original, p) == Run(call, fs[..1], platform, original, p)
    ensures Run(call, fs, platform, original, p).Stopped?
  {
  }

  /** On Windows a falsy first answer re-sends the packet exactly as it
      arrived, whatever the function did to the payload. */
  lemma WindowsFalsyOriginal<F>(call: (F, LP.Packet) -> Call, fs: seq<F>, st: LP.Packet, payload: bytes)
    requires |fs| > 0
    requires var c := call(fs[0], st.(buf := Padded(payload))); !c.ret.RaisedExc? && Falsy(c.ret, c.after.buf)
    ensures Modify(call, fs, Windows, st, payload).verdict == Forward(payload)
  {
  }

  /** On Linux a first function that returns None after rewriting the
      payload to something non-empty still gets its rewrite forwarded. */
  lemma LinuxNoneKeepsRewrite<F>(call: (F, LP.Packet) -> Call, fs: seq<F>, st: LP.Packet, payload: bytes)
    requires |fs| > 0
    requires var c := call(fs[0], st.(buf := Padded(payload))); c.ret == ReturnedNone && Length(c.after.buf) > 0
    ensures var c := call(fs[0], st.(buf := Padded(payload)));
      Modify(call, fs, Linux, st, payload) == Outcome(Forward(Raw(c.after.buf)), c.after)
  {
  }

  /** With no functions to run the payload goes out unchanged. */
  lemma EmptyChainForwards<F>(call: (F, LP.Packet) -> Call, platform: Platform, st: LP.Packet, payload: bytes)
    ensures Modify(call, [], platform, st, payload).verdict == Forward(payload)
    ensures Modify(call, [], platform, st, payload).state == st.(buf := Padded(payload))
  {
    RawPadded(payload);
  }

  /** Each callback starts from the new payload: what the kept packet's
      buffer held before makes no difference. */
  lemma BufferForgotten<F>(call: (F, LP.Packet) -> Call, fs: seq<F>, platform: Platform, st: LP.Packet, other: bytes, payload: bytes)
    ensures Modify(call, fs, platform, st.(buf := other), payload) == Modify(call, fs, platform, st, payload)
  {
    assert st.(buf := other).(buf := Padded(payload)) == st.(buf := Padded(payload));
  }
}

=== FILE: legacy_packet.dfy ===
/** The packet view of the older generation (`polymorph/packet.py`): each
    layer of a template becomes a view that reads and writes its fields in
    the shared padded buffer, decoding by the Python type tag the field
    records. A field with a struct is located by parsing the buffer. */
module LegacyPackets {
  import opened Wrappers
  import opened Bytes
  import opened Text
  import opened OrderedMap
  import opened Structs
  import opened Converter
  import opened Layers
  import opened Payload

  /** `PacketLayer(tlayer)`: the fields by the name they carry, with their
      slice and type tag, and the layer's structs. */
  datatype View = View(layerStart: int, fields: Entries<(Slice, LType)>, structs: Entries<Struct>)

  /** `{f.name: (f.slice, f.type) for f in fields}`. */
  function ViewFields(fs: seq<LField>): (r: Entries<(Slice, LType)>)
  {
    FromPairs(seq(|fs|, i requires 0 <= i < |fs| => (fs[i].name, (fs[i].slice, fs[i].ltype))))
  }

  /** A field is found under its name with its own slice and tag unless a
      later field carries the same name: the later one wins. */
  lemma ViewFieldsLast(fs: seq<LField>, i: nat)
    requires i < |fs|
    requires forall j :: i < j < |fs| ==> fs[j].name != fs[i].name
    ensures Get(ViewFields(fs), fs[i].name) == Some((fs[i].slice, fs[i].ltype))
  {
    FromPairsLast(seq(|fs|, i requires 0 <= i < |fs| => (fs[i].name, (fs[i].slice, fs[i].ltype))), i);
  }

  /** A name no field carries is not found. */
  lemma ViewFieldsAbsent(fs: seq<LField>, k: string)
    requires forall j :: 0 <= j < |fs| ==> fs[j].name != k
    ensures Get(ViewFields(fs), k).None?
  {
    FromPairsAbsent(seq(|fs|, i requires 0 <= i < |fs| => (fs[i].name, (fs[i].slice, fs[i].ltype))), k);
  }

  /** The view of a template layer. */
  function NewView(l: Layer): (v: View)
    ensures v.structs == l.structs
  {
    View(l.lslice.start, ViewFields(FieldValues(l.fields)), l.structs)
  }

  /** A field's bytes decoded by its type tag: an int in its byte order,
      hex text, UTF-8 text (UnicodeDecodeError when invalid), the bytes
      themselves, or None for any other tag. */
  function DecodeTagged(env: Env, t: LType, b: bytes): (r: Result<Repr>)
    ensures t.LInt? ==> r == Ok(RInt(FromBytes(b, t.order)))
    ensures t.LHex? ==> r == Ok(RText(HexOfBytes(b)))
    ensures t.LText? ==> (r.Ok? <==> env.decode(b).Some?)
    ensures t.LBytes? ==> r == Ok(RBytes(b))
    ensures t.LOther? ==> r == Ok(RNone)
  {
    match t
    case LInt(order) => Ok(RInt(FromBytes(b, order)))
    case LHex => Ok(RText(HexOfBytes(b)))
    case LText => (match env.decode(b) case Some(s) => Ok(RText(s)) case None => Err(UnicodeDecodeError))
    case LBytes => Ok(RBytes(b))
    case LOther => Ok(RNone)
  }

  /** The same on what a struct parse bound: an integer has no bytes to
      decode (TypeError for `from_bytes`, AttributeError for `.hex()` and
      `.decode()`), is returned as is under the bytes tag, and ignored under
      any other tag. */
  function DecodeParsed(env: Env, t: LType, v: Parsed): (r: Result<Repr>)
    ensures v.PBytes? ==> r == DecodeTagged(env, t, v.b)
  {
    match v
    case PBytes(b) => DecodeTagged(env, t, b)
    case PInt(i) =>
      match t
      case LInt(_) => Err(TypeError)
      case LHex => Err(AttributeError)
      case LText => Err(AttributeError)
      case LBytes => Ok(RInt(i))
      case LOther => Ok(RNone)
  }

  /** The value a struct binds to `name` when parsing the buffer (KeyError when none). */
  function StructValue(st: Struct, buf: bytes, name: string): (r: Result<Parsed>)
    ensures r.Ok? ==> Parse(st, buf).Ok? && Get(Parse(st, buf).value, name) == Some(r.value)
  {
    match Parse(st, buf)
    case Err(e) => Err(e)
    case Ok(ctx) =>
      match Get(ctx, name)
      case None => Err(KeyError)
      case Some(v) => Ok(v)
  }

  /** `PacketLayer.__getitem__(item)`: KeyError for an unknown field; a
      struct field reads what the struct's parse of the whole buffer binds to
      it, any other field the bytes of its slice. */
  function GetItem(env: Env, v: View, buf: bytes, item: string): (r: Result<Repr>)
    ensures Get(v.fields, item).None? ==> r == Err(KeyError)
    ensures Get(v.fields, item).Some? && Get(v.structs, item).None? ==>
      var (sl, t) := Get(v.fields, item).value;
      r == DecodeTagged(env, t, SliceOf(buf, sl))
  {
    match Get(v.fields, item)
    case None => Err(KeyError)
    case Some(entry) =>
      var (sl, t) := entry;
      match Get(v.structs, item)
      case Some(st) =>
        (match StructValue(st, buf, item)
         case Err(e) => Err(e)
         case Ok(p) => DecodeParsed(env, t, p))
      case None => DecodeTagged(env, t, SliceOf(buf, sl))
  }

  /** A value encoded for a type tag: `to_bytes(size, order)` for an int
      (ValueError for a negative size, OverflowError when the value does not
      fit, AttributeError for a non-int), `bytearray.fromhex` for hex text
      (TypeError for a non-str), `.encode()` for text (AttributeError for a
      non-str), the value itself for bytes (TypeError when it is not bytes
      and cannot be concatenated), and TypeError for any other tag. */
  function EncodeTagged(env: Env, t: LType, value: Repr, size: int): (r: Result<bytes>)
    ensures t.LInt? ==> (r.Ok? <==> value.RInt? && 0 <= size && 0 <= value.i < Pow256(size))
    ensures t.LInt? && r.Ok? ==> |r.value| == size && FromBytes(r.value, t.order) == value.i
    ensures t.LHex? ==> (r.Ok? <==> value.RText? && FromHex(value.s).Ok?)
    ensures t.LText? ==> (r.Ok? <==> value.RText?)
    ensures t.LBytes? ==> (r.Ok? <==> value.RBytes?) && (r.Ok? ==> r.value == value.b)
    ensures t.LOther? ==> r == Err(TypeError)
  {
    match t
    case LInt(order) =>
      if !value.RInt? then Err(AttributeError)
      else if size < 0 then Err(ValueError)
      else ToBytes(value.i, size, order)
    case LHex => if value.RText? then FromHex(value.s) else Err(TypeError)
    case LText => if value.RText? then Ok(env.encode(value.s)) else Err(AttributeError)
    case LBytes => if value.RBytes? then Ok(value.b) else Err(TypeError)
    case LOther => Err(TypeError)
  }

  /** The byte range `__setitem__` replaces, and its width. */
  datatype Range = Range(start: int, stop: int, size: int)

  /** The range of a field located at a start byte: as wide as the bytes
      bound to it; an integer bound to it has no width (TypeError). */
  function Span(l: (int, Parsed)): (r: Result<Range>)
    ensures r.Ok? <==> l.1.PBytes?
    ensures r.Ok? ==> r.value.start == l.0 && r.value.stop == r.value.start + r.value.size
  {
    if l.1.PInt? then Err(TypeError) else Ok(Range(l.0, l.0 + |l.1.b|, |l.1.b|))
  }

  /** Where a struct field lies after parsing the buffer with its struct:
      the span from the start byte `_get_start_byte` computes (KeyError
      when the parse bound nothing to it). */
  function StructRange(st: Struct, buf: bytes, key: string): (r: Result<Range>)
  {
    match Locate(st, buf, key)
    case Err(e) => Err(e)
    case Ok(l) => Span(l)
  }

  /** Where a field lies: its slice, or the range its struct gives. */
  function FieldRange(v: View, buf: bytes, key: string, sl: Slice): (r: Result<Range>)
    ensures Get(v.structs, key).None? ==> r == Ok(Range(sl.start, sl.stop, sl.stop - sl.start))
    ensures Get(v.structs, key).Some? ==> r == StructRange(Get(v.structs, key).value, buf, key)
  {
    match Get(v.structs, key)
    case None => Ok(Range(sl.start, sl.stop, sl.stop - sl.start))
    case Some(st) => StructRange(st, buf, key)
  }

  /** `PacketLayer.__setitem__(key, value)`: the buffer with the encoded
      value in place of the field's range. */
  function SetItem(env: Env, v: View, buf: bytes, key: string, value: Repr): (r: Result<bytes>)
    ensures Get(v.fields, key).None? ==> r == Err(KeyError)
    ensures Get(v.fields, key).Some? && Get(v.structs, key).None? ==>
      var (sl, t) := Get(v.fields, key).value;
      var e := EncodeTagged(env, t, value, sl.stop - sl.start);
      (r.Ok? <==> e.Ok?) && (r.Ok? ==> r.value == Splice(buf, sl.start, sl.stop, e.value))
  {
    match Get(v.fields, key)
    case None => Err(KeyError)
    case Some(entry) =>
      var (sl, t) := entry;
      match FieldRange(v, buf, key, sl)
      case Err(e) => Err(e)
      case Ok(range) =>
        match EncodeTagged(env, t, value, range.size)
        case Err(e) => Err(e)
        case Ok(b) => Ok(Splice(buf, range.start, range.stop, b))
  }

  /** `__setitem__` once the field's range is known. */
  lemma SetAtRange(env: Env, v: View, buf: bytes, key: string, value: Repr, sl: Slice, t: LType, rg: Result<Range>)
    requires Get(v.fields, key) == Some((sl, t)) && FieldRange(v, buf, key, sl) == rg
    ensures rg.Err? ==> SetItem(env, v, buf, key, value) == Err(rg.error)
    ensures rg.Ok? ==>
      var e := EncodeTagged(env, t, value, rg.value.size);
      var r := SetItem(env, v, buf, key, value);
      && (r.Ok? <==> e.Ok?)
      && (r.Ok? ==> r.value == Splice(buf, rg.value.start, rg.value.stop, e.value))
  {
  }

  /** Writing an int field inside the buffer changes only its slice, and
      reading it back gives the value written. */
  lemma SetIntThenGet(env: Env, v: View, buf: bytes, key: string, value: int)
    requires Get(v.fields, key).Some? && Get(v.structs, key).None?
    requires var (sl, t) := Get(v.fields, key).value;
      t.LInt? && 0 <= sl.start <= sl.stop <= |buf| && 0 <= value < Pow256(sl.stop - sl.start)
    ensures var sl := Get(v.fields, key).value.0;
      var r := SetItem(env, v, buf, key, RInt(value));
      && r.Ok?
      && |r.value| == |buf|
      && r.value[..sl.start] == buf[..sl.start]
      && r.value[sl.stop..] == buf[sl.stop..]
      && GetItem(env, v, r.value, key) == Ok(RInt(value))
  {
    var (sl, t) := Get(v.fields, key).value;
    EncodeThenDecode(env, t, value, sl.stop - sl.start);
    var b := EncodeTagged(env, t, RInt(value), sl.stop - sl.start).value;
    SpliceInRange(buf, sl.start, sl.stop, b);
    var nb := Splice(buf, sl.start, sl.stop, b);
    assert SetItem(env, v, buf, key, RInt(value)) == Ok(nb);
    assert SliceOf(nb, sl) == b;
  }

  /** Under the int tag, a value that fits the width decodes back from its encoding. */
  lemma EncodeThenDecode(env: Env, t: LType, value: int, size: int)
    requires t.LInt? && 0 <= size && 0 <= value < Pow256(size)
    ensures EncodeTagged(env, t, RInt(value), size).Ok?
    ensures |EncodeTagged(env, t, RInt(value), size).value| == size
    ensures DecodeTagged(env, t, EncodeTagged(env, t, RInt(value), size).value) == Ok(RInt(value))
  {
  }

  /** Writing back what was read from a bytes or int field leaves the buffer as it was. */
  lemma GetThenSet(env: Env, v: View, buf: bytes, key: string)
    requires Get(v.fields, key).Some? && Get(v.structs, key).None?
    requires var (sl, t) := Get(v.fields, key).value;
      (t.LInt? || t.LBytes?) && 0 <= sl.start <= sl.stop <= |buf|
    ensures GetItem(env, v, buf, key).Ok?
    ensures SetItem(env, v, buf, key, GetItem(env, v, buf, key).value) == Ok(buf)
  {
    var (sl, t) := Get(v.fields, key).value;
    var b := buf[sl.start..sl.stop];
    assert SliceOf(buf, sl) == b;
    EncodeDecoded(env, t, b);
    SpliceSelf(buf, sl.start, sl.stop);
  }

  /** Under the int and bytes tags, encoding what was decoded from some
      bytes, at their width, gives those bytes back. */
  lemma EncodeDecoded(env: Env, t: LType, b: bytes)
    requires t.LInt? || t.LBytes?
    ensures DecodeTagged(env, t, b).Ok?
    ensures EncodeTagged(env, t, DecodeTagged(env, t, b).value, |b|) == Ok(b)
  {
    if t.LInt? {
      ToBytesFromBytes(b, t.order);
    }
  }

  /** A struct field reads the value the struct's parse of the whole
      buffer binds to it, decoded by the field's tag; the field's own slice
      plays no part. */
  lemma GetStruct(env: Env, v: View, buf: bytes, item: string, sl: Slice, t: LType, st: Struct, ctx: Context, x: Parsed)
    requires Get(v.fields, item) == Some((sl, t)) && Get(v.structs, item) == Some(st)
    requires Parse(st, buf) == Ok(ctx) && Get(ctx, item) == Some(x)
    ensures GetItem(env, v, buf, item) == DecodeParsed(env, t, x)
    ensures x.PBytes? ==> GetItem(env, v, buf, item) == DecodeTagged(env, t, x.b)
  {
  }

  /** A struct field whose parse fails, or binds nothing to it, raises. */
  lemma GetStructFails(env: Env, v: View, buf: bytes, item: string, st: Struct)
    requires Get(v.fields, item).Some? && Get(v.structs, item) == Some(st)
    ensures Parse(st, buf).Err? ==> GetItem(env, v, buf, item) == Err(Parse(st, buf).error)
    ensures Parse(st, buf).Ok? && Get(Parse(st, buf).value, item).None? ==> GetItem(env, v, buf, item) == Err(KeyError)
  {
  }

  /** A struct field's write, once `Locate` has found the start byte
      `_get_start_byte` computes and the value the parse bound to it: the
      value, encoded at the width of the bytes bound, replaces the range
      from that start byte; an integer bound to it has no width, and the
      write raises TypeError. */
  lemma SetStruct(env: Env, v: View, buf: bytes, key: string, value: Repr, sl: Slice, t: LType,
                  st: Struct, start: int, x: Parsed)
    requires Get(v.fields, key) == Some((sl, t)) && Get(v.structs, key) == Some(st)
    requires Locate(st, buf, key) == Ok((start, x))
    ensures x.PInt? ==> SetItem(env, v, buf, key, value) == Err(TypeError)
    ensures x.PBytes? ==>
      var e := EncodeTagged(env, t, value, |x.b|);
      var r := SetItem(env, v, buf, key, value);
      && (r.Ok? <==> e.Ok?)
      && (r.Ok? ==> r.value == Splice(buf, start, start + |x.b|, e.value))
  {
    SetAtRange(env, v, buf, key, value, sl, t, Span((start, x)));
  }

  /** A struct field whose parse fails, whose start byte cannot be
      computed, or that the parse binds nothing to, raises on a write. */
  lemma SetStructFails(env: Env, v: View, buf: bytes, key: string, value: Repr, st: Struct)
    requires Get(v.fields, key).Some? && Get(v.structs, key) == Some(st)
    requires Locate(st, buf, key).Err?
    ensures SetItem(env, v, buf, key, value) == Err(Locate(st, buf, key).error)
  {
    var (sl, t) := Get(v.fields, key).value;
    SetAtRange(env, v, buf, key, value, sl, t, StructRange(st, buf, key));
  }

  /** `PacketLayer.__len__`: the buffer length from the layer's start on. */
  function LayerLength(v: View, buf: bytes): (n: int)
    ensures 0 <= v.layerStart <= |buf| ==> n == |buf[v.layerStart..]|
  {
    |buf| - v.layerStart
  }

  /** The packet: the layer views by layer name, and the padded buffer. */
  datatype Packet = Packet(layers: Entries<View>, buf: bytes)

  function ViewPairs(ls: seq<Layer>): (r: seq<(Key, View)>)
    ensures |r| == |ls| && forall i :: 0 <= i < |ls| ==> r[i] == (ls[i].name, NewView(ls[i]))
  {
    seq(|ls|, i requires 0 <= i < |ls| => (ls[i].name, NewView(ls[i])))
  }

  /** `Packet(template)`: a view per template layer, keyed by layer name,
      over the current buffer. */
  function NewPacket(ls: seq<Layer>, buf: bytes): (p: Packet)
    ensures p.buf == buf && Valid(p.layers)
  {
    FromPairsValid(ViewPairs(ls));
    Packet(FromPairs(ViewPairs(ls)), buf)
  }

  /** `Packet.__getitem__(name)`: KeyError for an unknown layer. */
  function Layer(p: Packet, name: string): (r: Result<View>)
    ensures r.Ok? <==> name in Keys(p.layers)
    ensures r.Ok? ==> (name, r.value) in p.layers
    ensures r.Err? ==> r.error == KeyError
  {
    match Get(p.layers, name)
    case None => Err(KeyError)
    case Some(v) => Ok(v)
  }

  /** Each template layer is found under its name (a later layer of the
      same name wins), and a name no layer carries raises KeyError. */
  lemma NewPacketLayers(ls: seq<Layer>, buf: bytes, i: nat, k: string)
    requires i < |ls|
    requires forall j :: i < j < |ls| ==> ls[j].name != ls[i].name
    requires forall j :: 0 <= j < |ls| ==> ls[j].name != k
    ensures Layer(NewPacket(ls, buf), ls[i].name) == Ok(NewView(ls[i]))
    ensures Layer(NewPacket(ls, buf), k) == Err(KeyError)
  {
    FromPairsLast(ViewPairs(ls), i);
    FromPairsAbsent(ViewPairs(ls), k);
  }
}

=== FILE: legacy_template.dfy ===
/** The template of the older generation (`polymorph/template.py`): three
    ordered groups of user functions (preconditions, executions,
    postconditions) and an ordered registry of layers keyed by upper-case
    name. The serialised functions are left abstract (`F`). */
module LegacyTemplates {
  import opened Wrappers
  import opened Bytes
  import opened Text
  import opened OrderedMap
  import opened Converter
  import opened Layers

  datatype Template<F> = Template(
    name: string,
    description: string,
    version: string,
    functions: Entries<Entries<F>>,
    layers: Entries<Layer>)

  /** The function groups, in the order the chain runs them. */
  const Groups: seq<Key> := ["preconditions", "executions", "postconditions"]

  /** `Template(name, description=..., version=...)`: the three groups,
      each empty, and no layers. */
  function NewTemplate<F>(name: string, description: string, version: string): (t: Template<F>)
    ensures Keys(t.functions) == Groups && Valid(t.functions)
    ensures forall i :: 0 <= i < |t.functions| ==> t.functions[i].1 == []
    ensures t.layers == [] && t.description == description && t.version == version
  {
    Template(name, description, version,
      [("preconditions", []), ("executions", []), ("postconditions", [])], [])
  }

  // ---------------------------------------------------------------------
  // Text attributes
  // ---------------------------------------------------------------------

  /** The `description` setter: TypeError unless the value is a str. */
  function SetDescription<F>(t: Template<F>, value: Repr): (r: Result<Template<F>>)
    ensures r.Ok? <==> value.RText?
    ensures r.Err? ==> r.error == TypeError
    ensures r.Ok? ==> r.value.description == value.s && r.value == t.(description := value.s)
  {
    match TextOnly(value)
    case Err(e) => Err(e)
    case Ok(s) => Ok(t.(description := s))
  }

  /** The `version` setter: TypeError unless the value is a str. */
  function SetVersion<F>(t: Template<F>, value: Repr): (r: Result<Template<F>>)
    ensures r.Ok? <==> value.RText?
    ensures r.Err? ==> r.error == TypeError
    ensures r.Ok? ==> r.value.version == value.s && r.value == t.(version := value.s)
  {
    match TextOnly(value)
    case Err(e) => Err(e)
    case Ok(s) => Ok(t.(version := s))
  }

  // ---------------------------------------------------------------------
  // Function groups
  // ---------------------------------------------------------------------

  /** `self._functions[cond]`: KeyError for an unknown group. */
  function Group<F>(t: Template<F>, cond: string): (r: Result<Entries<F>>)
    ensures r.Ok? <==> cond in Keys(t.functions)
    ensures r.Ok? ==> Get(t.functions, cond) == Some(r.value)
    ensures r.Err? ==> r.error == KeyError
  {
    match Get(t.functions, cond)
    case None => Err(KeyError)
    case Some(g) => Ok(g)
  }

  /** `add_function(cond, name, func)`: store under `name` in the group. */
  function AddFunction<F>(t: Template<F>, cond: string, name: string, f: F): (r: Result<Template<F>>)
    ensures r.Ok? <==> cond in Keys(t.functions)
    ensures r.Err? ==> r.error == KeyError
  {
    match Group(t, cond)
    case Err(e) => Err(e)
    case Ok(g) => Ok(t.(functions := Put(t.functions, cond, Put(g, name, f))))
  }

  /** `get_function(cond, name)`: KeyError for an unknown group or name. */
  function GetFunction<F>(t: Template<F>, cond: string, name: string): (r: Result<F>)
    ensures r.Ok? <==> cond in Keys(t.functions) && name in Keys(Group(t, cond).value)
    ensures r.Err? ==> r.error == KeyError
  {
    match Group(t, cond)
    case Err(e) => Err(e)
    case Ok(g) =>
      (match Get(g, name)
       case None => Err(KeyError)
       case Some(f) => Ok(f))
  }

  /** `del_function(cond, name)`. */
  function DelFunction<F>(t: Template<F>, cond: string, name: string): (r: Result<Template<F>>)
    ensures r.Ok? <==> cond in Keys(t.functions) && name in Keys(Group(t, cond).value)
    ensures r.Err? ==> r.error == KeyError
  {
    match Group(t, cond)
    case Err(e) => Err(e)
    case Ok(g) =>
      (match Pop(g, name)
       case Err(e) => Err(e)
       case Ok(g2) => Ok(t.(functions := Put(t.functions, cond, g2))))
  }

  /** `change_cond_pos(cond, element, index)`: KeyError for an unknown
      group, ValueError when the element is not in it. */
  function ChangeCondPos<F>(t: Template<F>, cond: string, element: string, index: int): (r: Result<Template<F>>)
    ensures r.Err? <==> cond !in Keys(t.functions) || element !in Keys(Group(t, cond).value)
    ensures r.Err? ==> r.error == if cond in Keys(t.functions) then ValueError else KeyError
  {
    match Group(t, cond)
    case Err(e) => Err(e)
    case Ok(g) =>
      (match MoveTo(g, element, index)
       case Err(e) => Err(e)
       case Ok(g2) => Ok(t.(functions := Put(t.functions, cond, g2))))
  }

  /** A function added to a group is found there again. */
  lemma AddThenGetFunction<F>(t: Template<F>, cond: string, name: string, f: F)
    requires cond in Keys(t.functions)
    ensures AddFunction(t, cond, name, f).Ok?
    ensures GetFunction(AddFunction(t, cond, name, f).value, cond, name) == Ok(f)
  {
    var g := Group(t, cond).value;
    PutGet(t.functions, cond, Put(g, name, f), cond);
    PutGet(g, name, f, name);
  }

  /** Replacing one group's entries keeps the group order and every other group. */
  lemma ReplaceGroup<F>(t: Template<F>, cond: string, g2: Entries<F>, c: string)
    requires cond in Keys(t.functions)
    ensures Keys(Put(t.functions, cond, g2)) == Keys(t.functions)
    ensures Get(Put(t.functions, cond, g2), c) == if c == cond then Some(g2) else Get(t.functions, c)
  {
    PutKeys(t.functions, cond, g2);
    PutGet(t.functions, cond, g2, c);
  }

  /** Deleting removes exactly the named function from its group: the others
      keep their order and functions, and every other group is untouched. */
  lemma DelFunctionRemoves<F>(t: Template<F>, cond: string, name: string, c: string, k: string)
    requires cond in Keys(t.functions) && name in Keys(Group(t, cond).value)
    ensures DelFunction(t, cond, name).Ok?
    ensures var r := DelFunction(t, cond, name).value;
      && Keys(r.functions) == Keys(t.functions)
      && Keys(Group(r, cond).value) == Without(Keys(Group(t, cond).value), name)
      && (k != name ==> Get(Group(r, cond).value, k) == Get(Group(t, cond).value, k))
      && (c != cond ==> Get(r.functions, c) == Get(t.functions, c))
  {
    var g2 := Pop(Group(t, cond).value, name).value;
    ReplaceGroup(t, cond, g2, c);
    ReplaceGroup(t, cond, g2, cond);
  }

  /** Moving rebuilds only the named group, by the shared reordering. */
  lemma ChangeCondPosGroup<F>(t: Template<F>, cond: string, element: string, index: int, c: string)
    requires cond in Keys(t.functions) && element in Keys(Group(t, cond).value)
    ensures ChangeCondPos(t, cond, element, index).Ok?
    ensures var r := ChangeCondPos(t, cond, element, index).value;
      && Keys(r.functions) == Keys(t.functions)
      && Group(r, cond) == MoveTo(Group(t, cond).value, element, index)
      && (c != cond ==> Get(r.functions, c) == Get(t.functions, c))
  {
    var g2 := MoveTo(Group(t, cond).value, element, index).value;
    ReplaceGroup(t, cond, g2, c);
    ReplaceGroup(t, cond, g2, cond);
  }

  /** Moving puts the element at the clamped index, keeps the relative order
      of the group's other functions and every function's value, and leaves
      the other groups untouched. */
  lemma ChangeCondPosMoves<F>(t: Template<F>, cond: string, element: string, index: int, c: string, k: string)
    requires cond in Keys(t.functions)
    requires Valid(Group(t, cond).value) && element in Keys(Group(t, cond).value)
    ensures ChangeCondPos(t, cond, element, index).Ok?
    ensures Keys(ChangeCondPos(t, cond, element, index).value.functions) == Keys(t.functions)
    ensures c != cond ==> Get(ChangeCondPos(t, cond, element, index).value.functions, c) == Get(t.functions, c)
    ensures var g := Group(t, cond).value;
      var moved := Group(ChangeCondPos(t, cond, element, index).value, cond).value;
      && Valid(moved) && |moved| == |g|
      && Keys(moved)[Clamp(index, |g| - 1)] == element
      && Without(Keys(moved), element) == Without(Keys(g), element)
      && Get(moved, k) == Get(g, k)
  {
    var g := Group(t, cond).value;
    ChangeCondPosGroup(t, cond, element, index, c);
    MoveToOrder(g, element, index);
    MoveToValues(g, element, index, k);
  }

  // ---------------------------------------------------------------------
  // Layers
  // ---------------------------------------------------------------------

  /** `layernames()`. */
  function LayerNames<F>(t: Template<F>): (r: seq<string>)
    ensures |r| == |t.layers|
  {
    Keys(t.layers)
  }

  /** `addlayer(layer)`. A fresh name goes at the end under the layer's
      name; on a collision the layer is renamed to its name followed by
      `rand` (drawn from 0..999 in the source) and stored under that. */
  function AddLayer<F>(t: Template<F>, layer: Layer, rand: nat): (r: Template<F>)
    requires rand <= 999
    ensures r == t.(layers := r.layers)
  {
    if layer.name !in Keys(t.layers) then t.(layers := Put(t.layers, layer.name, layer))
    else
      var key := layer.name + DecimalNumeral(rand);
      t.(layers := Put(t.layers, key, Rename(layer, key)))
  }

  /** A layer with a fresh name is appended after every existing layer. */
  lemma AddLayerFresh<F>(t: Template<F>, layer: Layer, rand: nat)
    requires rand <= 999
    requires layer.name !in Keys(t.layers)
    ensures AddLayer(t, layer, rand).layers == t.layers + [(layer.name, layer)]
  {
    PutAbsent(t.layers, layer.name, layer);
  }

  /** On a collision the renamed layer is found under the suffixed name and
      the layer it collided with stays where it was. */
  lemma AddLayerCollision<F>(t: Template<F>, layer: Layer, rand: nat)
    requires rand <= 999
    requires layer.name in Keys(t.layers)
    ensures var key := layer.name + DecimalNumeral(rand);
      && Get(AddLayer(t, layer, rand).layers, key) == Some(Rename(layer, key))
      && Get(AddLayer(t, layer, rand).layers, layer.name) == Get(t.layers, layer.name)
  {
    var key := layer.name + DecimalNumeral(rand);
    assert key != layer.name by {
      assert |key| > |layer.name|;
    }
    PutGet(t.layers, key, Rename(layer, key), key);
    PutGet(t.layers, key, Rename(layer, key), layer.name);
  }

  /** The argument of `dellayer`: a layer object, a name, or anything else. */
  datatype LayerRef = ByLayer(layer: Layer) | ByName(text: string) | Neither

  /** `dellayer(layer)`: pops the layer's name for a layer and the
      upper-cased text for a string (KeyError when absent); any other
      argument changes nothing. */
  function DelLayer<F>(t: Template<F>, arg: LayerRef): (r: Result<Template<F>>)
    ensures arg.Neither? ==> r == Ok(t)
    ensures r.Ok? ==> r.value == t.(layers := r.value.layers)
  {
    match arg
    case ByLayer(l) =>
      (match Pop(t.layers, l.name)
       case Err(e) => Err(e)
       case Ok(m) => Ok(t.(layers := m)))
    case ByName(s) =>
      (match Pop(t.layers, Upper(s))
       case Err(e) => Err(e)
       case Ok(m) => Ok(t.(layers := m)))
    case Neither => Ok(t)
  }

  /** The key `dellayer` removes for a layer or a name. */
  function DelKey(arg: LayerRef): string
    requires !arg.Neither?
  {
    if arg.ByLayer? then arg.layer.name else Upper(arg.text)
  }

  /** Deleting fails exactly for an absent key; otherwise only that layer
      goes and the others keep their order and values. */
  lemma DelLayerRemoves<F>(t: Template<F>, arg: LayerRef, k: string)
    requires !arg.Neither?
    ensures DelLayer(t, arg).Err? <==> DelKey(arg) !in Keys(t.layers)
    ensures DelLayer(t, arg).Err? ==> DelLayer(t, arg).error == KeyError
    ensures DelLayer(t, arg).Ok? ==>
      && Keys(DelLayer(t, arg).value.layers) == Without(Keys(t.layers), DelKey(arg))
      && (k != DelKey(arg) ==> Get(DelLayer(t, arg).value.layers, k) == Get(t.layers, k))
  {
  }

  /** `islayer(name)`: membership of `name.upper()`. */
  predicate IsLayer<F>(t: Template<F>, layername: string)
  {
    Upper(layername) in Keys(t.layers)
  }

  /** `getlayer(name)` (and `template[name]`): the layer under
      `name.upper()`, None when absent. */
  function GetLayer<F>(t: Template<F>, layername: string): (r: Option<Layer>)
    ensures r.Some? <==> IsLayer(t, layername)
    ensures r.Some? ==> (Upper(layername), r.value) in t.layers
  {
    if IsLayer(t, layername) then Get(t.layers, Upper(layername)) else None
  }

  /** Lookup ignores case: names that differ only in case find the same layer. */
  lemma GetLayerCaseInsensitive<F>(t: Template<F>, a: string, b: string)
    requires Upper(a) == Upper(b)
    ensures GetLayer(t, a) == GetLayer(t, b)
  {
  }

  /** A layer (whose stored name is upper case) added under a fresh name is
      found again under any spelling of it. */
  lemma GetAddedLayer<F>(t: Template<F>, layer: Layer, rand: nat, spelling: string)
    requires rand <= 999
    requires layer.name !in Keys(t.layers)
    requires Upper(spelling) == layer.name
    ensures GetLayer(AddLayer(t, layer, rand), spelling) == Some(layer)
  {
    PutGet(t.layers, layer.name, layer, layer.name);
  }

  /** `getlayers()`: the layer objects in registry order. */
  function LayerValues(layers: Entries<Layer>): (r: seq<Layer>)
    ensures |r| == |layers| && forall i :: 0 <= i < |layers| ==> r[i] == layers[i].1
  {
    seq(|layers|, i requires 0 <= i < |layers| => layers[i].1)
  }

  /** `[l for l in layers if l.is_custom()]`. */
  function CustomLayers(ls: seq<Layer>): (r: seq<Layer>)
    ensures forall l :: l in r <==> l in ls && l.custom
    ensures |r| <= |ls|
  {
    if |ls| == 0 then []
    else if ls[0].custom then [ls[0]] + CustomLayers(ls[1..])
    else CustomLayers(ls[1..])
  }

  /** The filter keeps order: filtering a concatenation concatenates the
      filtered parts. */
  lemma {:induction false} CustomLayersAppend(a: seq<Layer>, b: seq<Layer>)
    ensures CustomLayers(a + b) == CustomLayers(a) + CustomLayers(b)
  {
    if |a| == 0 {
      assert a + b == b;
    } else {
      assert (a + b)[0] == a[0];
      assert (a + b)[1..] == a[1..] + b;
      CustomLayersAppend(a[1..], b);
    }
  }

  /** `customlayers()` of a template. */
  function TemplateCustomLayers<F>(t: Template<F>): (r: seq<Layer>)
    ensures forall l :: l in r <==> l in LayerValues(t.layers) && l.custom
  {
    CustomLayers(LayerValues(t.layers))
  }
}

=== FILE: legacy_tlist.dfy ===
/** The template list of the first generation (`polymorph/tlist.py`): a
    declared length, a list of names, the templates generated so far, and
    the generator the rest still come from. Templates are generated on
    first access, each renamed after its layers as it is pulled. The
    generator is modelled as the sequence of templates it has still to
    yield. */
module LegacyTemplateLists {
  import opened Wrappers
  import opened Bytes
  import opened Text
  import LT = LegacyTemplates

  datatype TList<F> = TList(gen: seq<LT.Template<F>>, len: int, names: seq<string>, templates: seq<LT.Template<F>>)

  /** `TList(tgen, length, names)`: nothing generated yet. */
  function NewTList<F>(gen: seq<LT.Template<F>>, len: int, names: seq<string>): (l: TList<F>)
    ensures l.templates == [] && l.gen == gen && l.len == len && l.names == names
  {
    TList(gen, len, names, [])
  }

  /** `_name(template)`: "Template:" followed by the layer names joined by
      slashes. */
  function Name<F>(t: LT.Template<F>): (r: string)
    ensures StartsWith(r, "Template:")
    ensures r[|"Template:"|..] == Join(LT.LayerNames(t), "/")
  {
    var r := "Template:" + Join(LT.LayerNames(t), "/");
    assert r[..|"Template:"|] == "Template:";
    r
  }

  /** A template as the list stores it once pulled: renamed after its
      layers. */
  function Renamed<F>(t: LT.Template<F>): (r: LT.Template<F>)
    ensures r == t.(name := Name(t))
  {
    t.(name := Name(t))
  }

  /** Every template in `ts` renamed. */
  function RenamedAll<F>(ts: seq<LT.Template<F>>): (r: seq<LT.Template<F>>)
    ensures |r| == |ts|
    ensures forall k :: 0 <= k < |ts| ==> r[k] == Renamed(ts[k])
  {
    seq(|ts|, k requires 0 <= k < |ts| => Renamed(ts[k]))
  }

  /** The list as `utils` builds it and as every access keeps it: the
      declared length is the number of names and of templates, generated
      or not, and each generated template carries its layer name, also
      recorded at its position in the names. */
  predicate Good<F>(l: TList<F>)
  {
    && |l.names| == l.len
    && |l.templates| + |l.gen| == l.len
    && forall k :: 0 <= k < |l.templates| ==> l.templates[k].name == Name(l.templates[k]) && l.names[k] == l.templates[k].name
  }

  /** The `islice` loop of `__getitem__`: pull up to `k` templates; each
      is renamed, appended, and its name stored at its position in the
      names (IndexError when the names are too short, after the append). */
  function Pull<F>(l: TList<F>, k: nat): (r: (Result<()>, TList<F>))
    ensures r.1.len == l.len
    ensures |r.1.templates| >= |l.templates| && r.1.templates[..|l.templates|] == l.templates
    decreases k
  {
    if k == 0 || |l.gen| == 0 then (Ok(()), l)
    else if |l.templates| >= |l.names| then
      (Err(IndexError), l.(gen := l.gen[1..], templates := l.templates + [Renamed(l.gen[0])]))
    else
      var r := Pull(Step(l), k - 1);
      assert r.1.templates[..|l.templates|] == (r.1.templates[..|Step(l).templates|])[..|l.templates|];
      r
  }

  /** One successful turn of the loop: the next template is appended
      renamed and its name stored at its position. */
  function Step<F>(l: TList<F>): (r: TList<F>)
    requires |l.gen| > 0 && |l.templates| < |l.names|
    ensures r.len == l.len && |r.names| == |l.names|
    ensures r.templates == l.templates + [Renamed(l.gen[0])] && r.gen == l.gen[1..]
  {
    var item := Renamed(l.gen[0]);
    l.(gen := l.gen[1..], templates := l.templates + [item], names := l.names[|l.templates| := item.name])
  }

  /** The list after `k` successful turns, in closed form. */
  function Pulled<F>(l: TList<F>, k: nat): (r: TList<F>)
    requires k <= |l.gen|
    ensures r.gen == l.gen[k..] && r.len == l.len
    ensures r.templates == l.templates + RenamedAll(l.gen[..k])
    ensures |r.names| == |l.names|
  {
    TList(l.gen[k..], l.len, NamedFrom(l.names, |l.templates|, l.gen[..k]), l.templates + RenamedAll(l.gen[..k]))
  }

  /** `names` with the names of `xs` written from position `t` on. */
  function NamedFrom<F>(names: seq<string>, t: nat, xs: seq<LT.Template<F>>): (r: seq<string>)
    ensures |r| == |names|
  {
    seq(|names|, p requires 0 <= p < |names| => if t <= p < t + |xs| then Name(xs[p - t]) else names[p])
  }

  lemma PulledZero<F>(l: TList<F>)
    ensures Pulled(l, 0) == l
  {
    assert Pulled(l, 0).names == l.names;
    assert Pulled(l, 0).templates == l.templates;
  }

  lemma PulledStep<F>(l: TList<F>, k: nat)
    requires 0 < k <= |l.gen| && |l.templates| < |l.names|
    ensures Pulled(Step(l), k - 1) == Pulled(l, k)
  {
    PulledStepTemplates(l, k);
    PulledStepNames(l, k);
    assert l.gen[1..][k - 1..] == l.gen[k..];
  }

  lemma PulledStepTemplates<F>(l: TList<F>, k: nat)
    requires 0 < k <= |l.gen| && |l.templates| < |l.names|
    ensures Pulled(Step(l), k - 1).templates == Pulled(l, k).templates
  {
    var xs := l.gen[..k];
    assert xs[1..] == l.gen[1..][..k - 1];
    RenamedAllCons(xs);
    AppendOne(l.templates, Renamed(l.gen[0]), RenamedAll(xs[1..]));
  }

  lemma RenamedAllCons<F>(xs: seq<LT.Template<F>>)
    requires |xs| > 0
    ensures RenamedAll(xs) == [Renamed(xs[0])] + RenamedAll(xs[1..])
  {
  }

  lemma AppendOne<T>(a: seq<T>, x: T, b: seq<T>)
    ensures (a + [x]) + b == a + ([x] + b)
  {
  }

  lemma PulledStepNames<F>(l: TList<F>, k: nat)
    requires 0 < k <= |l.gen| && |l.templates| < |l.names|
    ensures Pulled(Step(l), k - 1).names == Pulled(l, k).names
  {
    var a := Pulled(Step(l), k - 1).names;
    var b := Pulled(l, k).names;
    var t := |l.templates|;
    forall p | 0 <= p < |l.names| ensures a[p] == b[p] {
      PulledNameAt(Step(l), k - 1, p);
      PulledNameAt(l, k, p);
      if t + 1 <= p < t + k {
        assert l.gen[1..][p - (t + 1)] == l.gen[p - t];
      }
    }
  }

  /** What the closed form holds at each position of the names. */
  lemma PulledNameAt<F>(l: TList<F>, k: nat, p: nat)
    requires k <= |l.gen| && p < |l.names|
    ensures Pulled(l, k).names[p] == if |l.templates| <= p < |l.templates| + k then Name(l.gen[p - |l.templates|]) else l.names[p]
  {
    var t := |l.templates|;
    var r := NamedFrom(l.names, t, l.gen[..k]);
    assert r[p] == if t <= p < t + k then Name(l.gen[..k][p - t]) else l.names[p];
  }

  /** What the closed form holds at each position of the templates. */
  lemma PulledTemplateAt<F>(l: TList<F>, k: nat, p: nat)
    requires k <= |l.gen| && p < |l.templates| + k
    ensures Pulled(l, k).templates[p] == if p < |l.templates| then l.templates[p] else Renamed(l.gen[p - |l.templates|])
  {
  }

  /** Pulling that succeeds keeps a good list good. */
  lemma PulledGood<F>(l: TList<F>, k: nat)
    requires Good(l) && k <= |l.gen|
    ensures Good(Pulled(l, k))
  {
    var l2 := Pulled(l, k);
    forall p | 0 <= p < |l2.templates|
      ensures l2.templates[p].name == Name(l2.templates[p]) && l2.names[p] == l2.templates[p].name
    {
      PulledTemplateAt(l, k, p);
      PulledNameAt(l, k, p);
    }
  }

  /** `len(tlist)`: the declared length, however much was generated. */
  function Length<F>(l: TList<F>): int
  {
    l.len
  }

  /** What an access gives and the list it leaves. */
  datatype Access<F> = Access(result: Result<LT.Template<F>>, state: TList<F>)

  /** `tlist[i]`: -1 stands for the last declared index; an index at or
      past the declared length raises IndexError; an index already
      generated is served as is (other negative indices count from the end
      of what was generated); otherwise templates are pulled up to index
      `i` and the last one pulled is returned. */
  function GetItem<F>(l: TList<F>, i: int): (a: Access<F>)
    ensures Length(a.state) == Length(l)
    ensures (if i == -1 then l.len - 1 else i) >= l.len ==> a == Access(Err(IndexError), l)
    ensures i != -1 && i < |l.templates| && i < l.len ==> a == Access(PyIndex(l.templates, i), l)
  {
    var j := if i == -1 then l.len - 1 else i;
    if j >= l.len then Access(Err(IndexError), l)
    else if j < |l.templates| then Access(PyIndex(l.templates, j), l)
    else Fetch(l, j - |l.templates| + 1)
  }

  /** The pulling branch of `tlist[i]`: pull `k` templates and return the
      last one pulled. */
  function Fetch<F>(l: TList<F>, k: nat): (a: Access<F>)
    ensures a.state.len == l.len
  {
    var r := Pull(l, k);
    match r.0
    case Err(e) => Access(Err(e), r.1)
    case Ok(_) => Access(PyIndex(r.1.templates, -1), r.1)
  }

  /** `_generate_templates`: every remaining template is appended as the
      generator yields it, neither renamed nor recorded in the names. */
  function GenerateAll<F>(l: TList<F>): (r: TList<F>)
    ensures r.gen == [] && r.templates == l.templates + l.gen
    ensures r.names == l.names && r.len == l.len
  {
    l.(gen := [], templates := l.templates + l.gen)
  }

  /** Pulling `k` templates that are there, with room for their names:
      exactly the next `k` templates are appended renamed and their names
      recorded at their positions; no other name changes. */
  lemma {:induction false} PullSpec<F>(l: TList<F>, k: nat)
    requires k <= |l.gen| && |l.templates| + k <= |l.names|
    ensures Pull(l, k) == (Ok(()), Pulled(l, k))
    decreases k
  {
    if k == 0 {
      PulledZero(l);
    } else {
      PullSpec(Step(l), k - 1);
      PulledStep(l, k);
    }
  }

  /** Accessing a not yet generated index of a good list generates every
      template up to it, renamed, and returns that template; the list
      stays good. */
  lemma GetItemGenerates<F>(l: TList<F>, i: int)
    requires Good(l) && |l.templates| <= i < l.len
    ensures GetItem(l, i).result == Ok(Renamed(l.gen[i - |l.templates|]))
    ensures Good(GetItem(l, i).state)
    ensures |GetItem(l, i).state.templates| == i + 1
  {
    var k := i - |l.templates| + 1;
    GetItemPulls(l, i);
    PulledGood(l, k);
    assert GetItem(l, i).state == Pulled(l, k);
  }

  /** The access of a not yet generated index, when the names have room:
      the closed form of the pull, and its last template. */
  lemma GetItemPulls<F>(l: TList<F>, i: int)
    requires |l.templates| <= i < l.len && i < |l.templates| + |l.gen| && i < |l.names|
    ensures GetItem(l, i) == Access(Ok(Renamed(l.gen[i - |l.templates|])), Pulled(l, i - |l.templates| + 1))
    ensures |Pulled(l, i - |l.templates| + 1).templates| == i + 1
  {
    var k := i - |l.templates| + 1;
    assert GetItem(l, i) == Fetch(l, k);
    FetchRenamed(l, k);
  }

  /** Pulling `k` templates returns the `k`-th generated one, renamed. */
  lemma FetchRenamed<F>(l: TList<F>, k: nat)
    requires 0 < k <= |l.gen| && |l.templates| + k <= |l.names|
    ensures Fetch(l, k) == Access(Ok(Renamed(l.gen[k - 1])), Pulled(l, k))
    ensures |Pulled(l, k).templates| == |l.templates| + k
  {
    FetchPulled(l, k);
    var l2 := Pulled(l, k);
    PulledTemplateAt(l, k, |l.templates| + k - 1);
    assert l2.templates[|l2.templates| - 1] == Renamed(l.gen[k - 1]);
  }

  lemma FetchPulled<F>(l: TList<F>, k: nat)
    requires 0 < k <= |l.gen| && |l.templates| + k <= |l.names|
    ensures var l2 := Pulled(l, k);
      Fetch(l, k) == Access(Ok(l2.templates[|l2.templates| - 1]), l2)
  {
    PullSpec(l, k);
  }

  /** Every access keeps a good list good. */
  lemma GetItemKeepsGood<F>(l: TList<F>, i: int)
    requires Good(l)
    ensures Good(GetItem(l, i).state)
  {
    var j := if i == -1 then l.len - 1 else i;
    if |l.templates| <= j < l.len {
      GetItemGenerates(l, j);
    }
  }

  /** Repeated access to an index returns the same template and leaves
      the list as the first access left it. */
  lemma RepeatedAccessCached<F>(l: TList<F>, i: int)
    requires Good(l) && 0 <= i < l.len
    ensures var a := GetItem(l, i);
      GetItem(a.state, i) == a
  {
    if i >= |l.templates| {
      GetItemGenerates(l, i);
    }
  }

  /** A declared length past what the generator yields: the access of an
      index the generator cannot reach returns the last template it did
      yield instead. */
  lemma ShortGeneratorReturnsLast<F>(l: TList<F>, i: int)
    requires |l.templates| + |l.gen| <= i < l.len && |l.gen| > 0
    requires |l.templates| + |l.gen| <= |l.names|
    ensures GetItem(l, i).result == Ok(Renamed(l.gen[|l.gen| - 1]))
  {
    var k := i - |l.templates| + 1;
    PullAll(l, k);
    var l2 := Pull(l, k).1;
    assert GetItem(l, i) == Fetch(l, k);
    assert Fetch(l, k) == Access(PyIndex(l2.templates, -1), l2);
    assert l2.templates[|l2.templates| - 1] == Renamed(l.gen[|l.gen| - 1]);
  }

  /** Asking for more templates than are left pulls all of them. */
  lemma {:induction false} PullAll<F>(l: TList<F>, k: nat)
    requires |l.gen| <= k && |l.templates| + |l.gen| <= |l.names|
    ensures Pull(l, k).0 == Ok(())
    ensures Pull(l, k).1.templates == l.templates + RenamedAll(l.gen)
    decreases k
  {
    if k > 0 && |l.gen| > 0 {
      PullUnfold(l, k);
      PullAll(Step(l), k - 1);
      RenamedAllCons(l.gen);
      AppendOne(l.templates, Renamed(l.gen[0]), RenamedAll(l.gen[1..]));
    } else {
      assert l.gen == [];
    }
  }

  lemma PullUnfold<F>(l: TList<F>, k: nat)
    requires k > 0 && |l.gen| > 0 && |l.templates| < |l.names|
    ensures Pull(l, k) == Pull(Step(l), k - 1)
  {
  }

  /** Generating the rest keeps the generated prefix and the names: a
      template generated this way keeps the name it came with. */
  lemma GenerateAllKeepsNames<F>(l: TList<F>, k: nat)
    requires |l.templates| <= k < |l.templates| + |l.gen|
    ensures GenerateAll(l).templates[k] == l.gen[k - |l.templates|]
    ensures GenerateAll(l).templates[..|l.templates|] == l.templates
  {
  }
}

=== FILE: ordered_map.dfy ===
/** Python's `OrderedDict` as a sequence of key/value entries with distinct
    keys. Assignment overwrites in place or appends; `pop`/`del` raise
    KeyError for a missing key; the move-to-index reordering is the
    `list.pop(list.index(k))` / `list.insert(i, k)` idiom on the key list. */
module OrderedMap {
  import opened Wrappers
  import opened Bytes

  /** Every ordered dictionary of the modelled code is keyed by text. */
  type Key = seq<char>

  type Entries<V> = seq<(Key, V)>

  function Keys<V>(m: Entries<V>): (r: seq<Key>)
    ensures |r| == |m|
    ensures forall i :: 0 <= i < |m| ==> r[i] == m[i].0
  {
    if |m| == 0 then [] else [m[0].0] + Keys(m[1..])
  }

  predicate Distinct<T(==)>(s: seq<T>)
  {
    forall i, j :: 0 <= i < j < |s| ==> s[i] != s[j]
  }

  /** The invariant every ordered map of the model keeps. */
  predicate Valid<V>(m: Entries<V>)
  {
    Distinct(Keys(m))
  }

  /** `d.get(k)`. */
  function Get<V>(m: Entries<V>, k: Key): (r: Option<V>)
    ensures r.Some? <==> k in Keys(m)
    ensures r.Some? ==> (k, r.value) in m
    ensures r.None? ==> forall i :: 0 <= i < |m| ==> m[i].0 != k
  {
    if |m| == 0 then None
    else if m[0].0 == k then Some(m[0].1)
    else Get(m[1..], k)
  }

  /** `d.values()` in entry order. */
  function Values<V>(m: Entries<V>): (r: seq<V>)
    ensures |r| == |m|
    ensures forall i :: 0 <= i < |m| ==> r[i] == m[i].1
  {
    seq(|m|, i requires 0 <= i < |m| => m[i].1)
  }

  /** The entries after the first of a valid map form a valid map. */
  lemma ValidTail<V>(m: Entries<V>)
    requires Valid(m)
    requires |m| > 0
    ensures Valid(m[1..])
  {
    forall a, b | 0 <= a < b < |m| - 1
      ensures Keys(m[1..])[a] != Keys(m[1..])[b]
    {
      assert Keys(m)[a + 1] != Keys(m)[b + 1];
    }
  }

  /** In a valid map, the value stored at a position is what `Get` finds for its key. */
  lemma {:induction false} GetAt<V>(m: Entries<V>, i: nat)
    requires Valid(m)
    requires i < |m|
    ensures Get(m, m[i].0) == Some(m[i].1)
  {
    if i > 0 {
      assert Keys(m)[0] != Keys(m)[i];
      ValidTail(m);
      GetAt(m[1..], i - 1);
    }
  }

  /** `d[k] = v`: overwrite the value in place, or append a new entry at the end. */
  function Put<V>(m: Entries<V>, k: Key, v: V): (r: Entries<V>)
  {
    if |m| == 0 then [(k, v)]
    else if m[0].0 == k then [(k, v)] + m[1..]
    else [m[0]] + Put(m[1..], k, v)
  }

  /** Assignment keeps the key order and appends a new key at the end. */
  lemma {:induction false} PutKeys<V>(m: Entries<V>, k: Key, v: V)
    ensures Keys(Put(m, k, v)) == if k in Keys(m) then Keys(m) else Keys(m) + [k]
  {
    if |m| > 0 {
      var r := Put(m, k, v);
      assert Keys(m) == [m[0].0] + Keys(m[1..]);
      if m[0].0 == k {
        assert r[1..] == m[1..];
        assert Keys(r) == [k] + Keys(m[1..]);
      } else {
        var rest := Put(m[1..], k, v);
        PutKeys(m[1..], k, v);
        assert r[1..] == rest;
        assert Keys(r) == [m[0].0] + Keys(rest);
      }
    }
  }

  /** After `d[k] = v`, `k` maps to `v` and every other key to what it mapped to before. */
  lemma {:induction false} PutGet<V>(m: Entries<V>, k: Key, v: V, k': Key)
    ensures Get(Put(m, k, v), k') == if k' == k then Some(v) else Get(m, k')
  {
    if |m| > 0 && m[0].0 != k {
      PutGet(m[1..], k, v, k');
      assert ([m[0]] + Put(m[1..], k, v))[1..] == Put(m[1..], k, v);
    } else if |m| > 0 {
      assert ([(k, v)] + m[1..])[1..] == m[1..];
    }
  }

  /** Every entry after `d[k] = v` is the new one or was there before. */
  lemma {:induction false} PutEntries<V>(m: Entries<V>, k: Key, v: V)
    ensures forall e :: e in Put(m, k, v) ==> e == (k, v) || e in m
  {
    if |m| > 0 && m[0].0 != k {
      PutEntries(m[1..], k, v);
    }
  }

  /** A new key is appended at the end. */
  lemma {:induction false} PutAbsent<V>(m: Entries<V>, k: Key, v: V)
    requires k !in Keys(m)
    ensures Put(m, k, v) == m + [(k, v)]
  {
    if |m| > 0 {
      assert Keys(m) == [m[0].0] + Keys(m[1..]);
      assert m[0].0 != k && k !in Keys(m[1..]);
      assert Put(m, k, v) == [m[0]] + Put(m[1..], k, v);
      PutAbsent(m[1..], k, v);
      assert m + [(k, v)] == [m[0]] + (m[1..] + [(k, v)]);
    }
  }

  /** An existing key keeps its position; only its value changes. */
  lemma {:induction false} PutAt<V>(m: Entries<V>, i: nat, v: V)
    requires Valid(m)
    requires i < |m|
    ensures Put(m, m[i].0, v) == m[i := (m[i].0, v)]
  {
    var k := m[i].0;
    var t := m[1..];
    if i > 0 {
      assert Keys(m)[0] != Keys(m)[i];
      ValidTail(m);
      assert t[i - 1] == m[i];
      PutAt(t, i - 1, v);
      assert Put(m, k, v) == [m[0]] + Put(t, k, v);
      UpdateCons(m, i, (k, v));
    } else {
      assert Put(m, k, v) == [(k, v)] + t;
    }
  }

  lemma UpdateCons<T>(s: seq<T>, i: nat, x: T)
    requires 0 < i < |s|
    ensures s[i := x] == [s[0]] + s[1..][i - 1 := x]
  {
  }

  lemma PutValid<V>(m: Entries<V>, k: Key, v: V)
    requires Valid(m)
    ensures Valid(Put(m, k, v))
  {
    PutKeys(m, k, v);
  }

  /** `{k: v for k, v in pairs}`: a later pair for a key overwrites the
      value, the key keeps the place of its first pair. */
  function FromPairs<V>(pairs: seq<(Key, V)>): (r: Entries<V>)
  {
    if |pairs| == 0 then []
    else Put(FromPairs(pairs[..|pairs| - 1]), pairs[|pairs| - 1].0, pairs[|pairs| - 1].1)
  }

  /** A key is found with the value of its last pair. */
  lemma {:induction false} FromPairsLast<V>(pairs: seq<(Key, V)>, i: nat)
    requires i < |pairs|
    requires forall j :: i < j < |pairs| ==> pairs[j].0 != pairs[i].0
    ensures Get(FromPairs(pairs), pairs[i].0) == Some(pairs[i].1)
  {
    var last := pairs[|pairs| - 1];
    var prefix := pairs[..|pairs| - 1];
    PutGet(FromPairs(prefix), last.0, last.1, pairs[i].0);
    if i < |pairs| - 1 {
      FromPairsLast(prefix, i);
    }
  }

  /** A key no pair carries is not found. */
  lemma {:induction false} FromPairsAbsent<V>(pairs: seq<(Key, V)>, k: Key)
    requires forall j :: 0 <= j < |pairs| ==> pairs[j].0 != k
    ensures Get(FromPairs(pairs), k).None?
  {
    if |pairs| > 0 {
      var last := pairs[|pairs| - 1];
      PutGet(FromPairs(pairs[..|pairs| - 1]), last.0, last.1, k);
      FromPairsAbsent(pairs[..|pairs| - 1], k);
    }
  }

  /** The result is a valid map. */
  lemma {:induction false} FromPairsValid<V>(pairs: seq<(Key, V)>)
    ensures Valid(FromPairs(pairs))
  {
    if |pairs| > 0 {
      FromPairsValid(pairs[..|pairs| - 1]);
      PutValid(FromPairs(pairs[..|pairs| - 1]), pairs[|pairs| - 1].0, pairs[|pairs| - 1].1);
    }
  }

  /** `s` with every occurrence of `x` removed, order kept. */
  function Without(s: seq<Key>, x: Key): (r: seq<Key>)
    ensures x !in r
    ensures forall y :: y in r ==> y in s
    ensures |r| <= |s|
  {
    if |s| == 0 then []
    else if s[0] == x then Without(s[1..], x)
    else [s[0]] + Without(s[1..], x)
  }

  lemma {:induction false} WithoutAbsent(s: seq<Key>, x: Key)
    requires x !in s
    ensures Without(s, x) == s
  {
    if |s| > 0 {
      WithoutAbsent(s[1..], x);
    }
  }

  lemma {:induction false} WithoutDistinct(s: seq<Key>, x: Key)
    requires Distinct(s)
    ensures Distinct(Without(s, x))
  {
    if |s| > 0 {
      assert Distinct(s[1..]) by {
        forall a, b | 0 <= a < b < |s| - 1 ensures s[1..][a] != s[1..][b] {
          assert s[a + 1] != s[b + 1];
        }
      }
      WithoutDistinct(s[1..], x);
      var w := Without(s[1..], x);
      assert s[0] !in s[1..];
      assert s[0] !in w;
    }
  }

  /** The entries of `m` except the one keyed `k`. */
  function Erase<V>(m: Entries<V>, k: Key): (r: Entries<V>)
    ensures Keys(r) == Without(Keys(m), k)
    ensures Get(r, k).None?
    ensures forall k' :: k' != k ==> Get(r, k') == Get(m, k')
  {
    if |m| == 0 then []
    else if m[0].0 == k then Erase(m[1..], k)
    else
      var rest := Erase(m[1..], k);
      assert Keys([m[0]] + rest) == [m[0].0] + Keys(rest);
      [m[0]] + rest
  }

  /** `d.pop(k)` / `del d[k]`: KeyError when `k` is absent; otherwise the
      entry goes and every other entry keeps its value and relative order. */
  function Pop<V>(m: Entries<V>, k: Key): (r: Result<Entries<V>>)
    ensures r.Err? <==> k !in Keys(m)
    ensures r.Err? ==> r.error == KeyError
    ensures r.Ok? ==> Keys(r.value) == Without(Keys(m), k)
    ensures r.Ok? ==> forall k' :: k' != k ==> Get(r.value, k') == Get(m, k')
  {
    if k in Keys(m) then Ok(Erase(m, k)) else Err(KeyError)
  }

  lemma PopValid<V>(m: Entries<V>, k: Key)
    requires Valid(m)
    requires k in Keys(m)
    ensures Valid(Pop(m, k).value)
  {
    WithoutDistinct(Keys(m), k);
  }

  /** `lista.index(x)` for an element that is present. */
  function IndexOf(s: seq<Key>, x: Key): (i: nat)
    requires x in s
    ensures i < |s| && s[i] == x
    ensures forall j :: 0 <= j < i ==> s[j] != x
  {
    if s[0] == x then 0 else 1 + IndexOf(s[1..], x)
  }

  /** `e = lista.pop(lista.index(name)); lista.insert(index, e)`:
      ValueError when `name` is not in the list. The result is a
      permutation of the list with `name` at the clamped index. */
  function MoveKey(keys: seq<Key>, name: Key, index: int): (r: Result<seq<Key>>)
    ensures r.Err? <==> name !in keys
    ensures r.Err? ==> r.error == ValueError
    ensures r.Ok? ==> |r.value| == |keys| && multiset(r.value) == multiset(keys)
    ensures r.Ok? ==> r.value[Clamp(index, |keys| - 1)] == name
  {
    if name !in keys then Err(ValueError)
    else
      var i := IndexOf(keys, name);
      var rest := keys[..i] + keys[i + 1..];
      var j := Clamp(index, |rest|);
      assert keys == keys[..i] + [name] + keys[i + 1..];
      assert multiset(keys) == multiset(keys[..i]) + multiset{name} + multiset(keys[i + 1..]);
      assert rest == rest[..j] + rest[j..];
      assert multiset(rest) == multiset(rest[..j]) + multiset(rest[j..]);
      assert multiset(rest) == multiset(keys[..i]) + multiset(keys[i + 1..]);
      var moved := rest[..j] + [name] + rest[j..];
      assert multiset(moved) == multiset(rest[..j]) + multiset{name} + multiset(rest[j..]);
      assert multiset(moved) == multiset(rest) + multiset{name};
      assert multiset(keys) == multiset(rest) + multiset{name};
      Ok(moved)
  }

  lemma {:induction false} WithoutSplit(a: seq<Key>, b: seq<Key>, x: Key)
    ensures Without(a + b, x) == Without(a, x) + Without(b, x)
  {
    if |a| == 0 {
      assert a + b == b;
    } else {
      assert (a + b)[0] == a[0];
      assert (a + b)[1..] == a[1..] + b;
      WithoutSplit(a[1..], b, x);
      if a[0] == x {
        assert Without(a + b, x) == Without(a[1..] + b, x);
        assert Without(a, x) == Without(a[1..], x);
      } else {
        assert Without(a + b, x) == [a[0]] + Without(a[1..] + b, x);
        assert Without(a, x) == [a[0]] + Without(a[1..], x);
      }
    }
  }

  /** Removing the only occurrence of `x`, found at `i`, is what `Without` computes. */
  lemma WithoutAt(s: seq<Key>, i: nat, x: Key)
    requires Distinct(s)
    requires i < |s| && s[i] == x
    ensures x !in s[..i] + s[i + 1..]
    ensures Without(s, x) == s[..i] + s[i + 1..]
  {
    var p, q := s[..i], s[i + 1..];
    assert s == p + [x] + q;
    assert x !in p;
    assert x !in q by {
      forall a | 0 <= a < |q| ensures q[a] != x {
        assert q[a] == s[i + 1 + a];
      }
    }
    WithoutAbsent(p, x);
    WithoutAbsent(q, x);
    assert Without([x], x) == [];
    calc {
      Without(s, x);
      Without(p + [x] + q, x);
      { WithoutSplit(p + [x], q, x); }
      Without(p + [x], x) + Without(q, x);
      { WithoutSplit(p, [x], x); }
      Without(p, x) + Without([x], x) + Without(q, x);
      p + q;
    }
  }

  /** Inserting an absent element anywhere and removing it again gives the list back. */
  lemma WithoutInserted(rest: seq<Key>, j: nat, x: Key)
    requires j <= |rest|
    requires x !in rest
    ensures Without(rest[..j] + [x] + rest[j..], x) == rest
  {
    var p, q := rest[..j], rest[j..];
    assert rest == p + q;
    assert x !in p && x !in q;
    WithoutAbsent(p, x);
    WithoutAbsent(q, x);
    assert Without([x], x) == [];
    calc {
      Without(p + [x] + q, x);
      { WithoutSplit(p + [x], q, x); }
      Without(p + [x], x) + Without(q, x);
      { WithoutSplit(p, [x], x); }
      Without(p, x) + Without([x], x) + Without(q, x);
      p + q;
    }
  }

  lemma DistinctPermutation(s: seq<Key>, t: seq<Key>)
    requires Distinct(s)
    requires multiset(s) == multiset(t)
    ensures Distinct(t)
  {
    forall a, b | 0 <= a < b < |t| ensures t[a] != t[b] {
      if t[a] == t[b] {
        assert t == t[..a] + [t[a]] + t[a + 1..b] + [t[b]] + t[b + 1..];
        assert multiset(t)[t[a]] >= 2;
        DistinctCount(s, t[a]);
      }
    }
  }

  lemma {:induction false} DistinctCount(s: seq<Key>, x: Key)
    requires Distinct(s)
    ensures multiset(s)[x] <= 1
  {
    if |s| > 0 {
      assert Distinct(s[1..]) by {
        forall a, b | 0 <= a < b < |s| - 1 ensures s[1..][a] != s[1..][b] {
          assert s[a + 1] != s[b + 1];
        }
      }
      DistinctCount(s[1..], x);
      assert s == [s[0]] + s[1..];
      assert s[0] !in s[1..];
    }
  }

  /** Moving a distinct key keeps the list distinct and leaves the relative
      order of all other keys unchanged. */
  lemma MoveKeyPreserves(keys: seq<Key>, name: Key, index: int)
    requires Distinct(keys)
    requires name in keys
    ensures MoveKey(keys, name, index).Ok?
    ensures Without(MoveKey(keys, name, index).value, name) == Without(keys, name)
    ensures Distinct(MoveKey(keys, name, index).value)
  {
    var i := IndexOf(keys, name);
    var rest := keys[..i] + keys[i + 1..];
    var j := Clamp(index, |rest|);
    assert MoveKey(keys, name, index).value == rest[..j] + [name] + rest[j..];
    WithoutAt(keys, i, name);
    WithoutInserted(rest, j, name);
    DistinctPermutation(keys, MoveKey(keys, name, index).value);
  }

  /** `OrderedDict((k, d[k]) for k in keys)`: KeyError for a key `d` lacks. */
  function Rebuild<V>(m: Entries<V>, keys: seq<Key>): (r: Result<Entries<V>>)
    ensures r.Ok? <==> forall x :: x in keys ==> x in Keys(m)
    ensures r.Ok? ==> Keys(r.value) == keys
    ensures r.Ok? ==> forall i :: 0 <= i < |keys| ==> Some(r.value[i].1) == Get(m, keys[i])
  {
    if |keys| == 0 then Ok([])
    else
      var v := Get(m, keys[0]);
      if v.None? then
        assert keys[0] in keys;
        Err(KeyError)
      else
        var rest := Rebuild(m, keys[1..]);
        if rest.Err? then
          assert forall x :: x in keys[1..] ==> x in keys;
          rest
        else
          var r := [(keys[0], v.value)] + rest.value;
          assert Keys(r) == [keys[0]] + Keys(rest.value);
          assert forall x :: x in keys ==> x == keys[0] || x in keys[1..];
          Ok(r)
  }

  lemma {:induction false} RebuildGet<V>(m: Entries<V>, keys: seq<Key>, k: Key)
    requires Distinct(keys)
    requires Rebuild(m, keys).Ok?
    ensures k in keys ==> Get(Rebuild(m, keys).value, k) == Get(m, k)
  {
    var r := Rebuild(m, keys).value;
    if k in keys {
      var i := IndexOf(keys, k);
      assert Valid(r);
      GetAt(r, i);
    }
  }

  /** The reordering both template generations perform: move one key to an
      index (ValueError if it is absent) and rebuild the map in the new order. */
  function MoveTo<V>(m: Entries<V>, name: Key, index: int): (r: Result<Entries<V>>)
    ensures r.Err? <==> name !in Keys(m)
    ensures r.Err? ==> r.error == ValueError
  {
    match MoveKey(Keys(m), name, index)
    case Err(e) => Err(e)
    case Ok(keys) =>
      assert forall x :: x in keys ==> x in multiset(Keys(m));
      Rebuild(m, keys)
  }

  /** Moving rebuilds the map in exactly the order the key move produces. */
  lemma MoveToKeys<V>(m: Entries<V>, name: Key, index: int)
    requires name in Keys(m)
    ensures MoveTo(m, name, index).Ok?
    ensures Keys(MoveTo(m, name, index).value) == MoveKey(Keys(m), name, index).value
  {
    var keys := MoveKey(Keys(m), name, index).value;
    assert forall x :: x in keys ==> x in multiset(Keys(m));
    assert MoveTo(m, name, index) == Rebuild(m, keys);
  }

  /** Moving keeps the map valid, the moved key lands at the clamped index
      and the other keys keep their relative order. */
  lemma MoveToOrder<V>(m: Entries<V>, name: Key, index: int)
    requires Valid(m)
    requires name in Keys(m)
    ensures MoveTo(m, name, index).Ok?
    ensures Valid(MoveTo(m, name, index).value)
    ensures Keys(MoveTo(m, name, index).value)[Clamp(index, |m| - 1)] == name
    ensures Without(Keys(MoveTo(m, name, index).value), name) == Without(Keys(m), name)
  {
    MoveToKeys(m, name, index);
    MoveKeyPreserves(Keys(m), name, index);
  }

  /** Moving leaves the value stored under every key unchanged. */
  lemma MoveToValues<V>(m: Entries<V>, name: Key, index: int, k: Key)
    requires Valid(m)
    requires name in Keys(m)
    ensures MoveTo(m, name, index).Ok?
    ensures Get(MoveTo(m, name, index).value, k) == Get(m, k)
  {
    var keys := MoveKey(Keys(m), name, index).value;
    MoveKeyPreserves(Keys(m), name, index);
    assert MoveTo(m, name, index) == Rebuild(m, keys);
    assert k in keys <==> k in multiset(Keys(m));
    RebuildGet(m, keys, k);
  }
}

=== FILE: packet.dfy ===
/** The packet view of the newer generation (`build/lib/polymorph/packet.py`):
    each layer of a template becomes a view that reads and writes its
    fields in the shared padded buffer through the field type codecs. A
    field with a struct is located by parsing the buffer. The packet also
    carries the two flags the interceptor reads: `drop` and `rec_chksums`. */
module Packets {
  import opened Wrappers
  import opened Bytes
  import opened Text
  import opened OrderedMap
  import opened Structs
  import opened FieldTypes
  import opened Converter
  import opened Fields
  import opened Payload

  /** What a view keeps of a field: `(f.slice, f.type, f.mask, f.size)`. */
  datatype FieldInfo = FieldInfo(slice: Slice, ftype: Ftype, mask: nat, size: nat)

  /** `PacketLayer(tlayer)`: the start of the layer's slice, its fields by
      name and its structs. */
  datatype View = View(layerStart: int, fields: Entries<FieldInfo>, structs: Entries<Struct>)

  function Info(f: TField): FieldInfo
  {
    FieldInfo(f.slice, f.ftype, f.mask, f.size)
  }

  /** `{f.name: (f.slice, f.type, f.mask, f.size) for f in tlayer.fields}`. */
  function InfoPairs(fs: seq<TField>): (r: seq<(Key, FieldInfo)>)
    ensures |r| == |fs| && forall i :: 0 <= i < |fs| ==> r[i] == (fs[i].name, Info(fs[i]))
  {
    seq(|fs|, i requires 0 <= i < |fs| => (fs[i].name, Info(fs[i])))
  }

  function NewView(layerStart: int, fs: seq<TField>, structs: Entries<Struct>): (v: View)
  {
    View(layerStart, FromPairs(InfoPairs(fs)), structs)
  }

  /** A view finds each field by its name, with the slice, type, mask and
      size of the last field of that name, and no other name. */
  lemma NewViewFields(layerStart: int, fs: seq<TField>, structs: Entries<Struct>, i: nat, k: string)
    requires i < |fs|
    requires forall j :: i < j < |fs| ==> fs[j].name != fs[i].name
    requires forall j :: 0 <= j < |fs| ==> fs[j].name != k
    ensures Get(NewView(layerStart, fs, structs).fields, fs[i].name) == Some(Info(fs[i]))
    ensures Get(NewView(layerStart, fs, structs).fields, k).None?
    ensures Valid(NewView(layerStart, fs, structs).fields)
  {
    FromPairsLast(InfoPairs(fs), i);
    FromPairsAbsent(InfoPairs(fs), k);
    FromPairsValid(InfoPairs(fs));
  }

  // ---------------------------------------------------------------------
  // Reading a field
  // ---------------------------------------------------------------------

  /** `get_frepr` applied to the integer a struct parse bound instead of
      bytes: `from_bytes`, `len` and `int.from_bytes` reject an int with
      TypeError, `.decode()` and `.hex()` do not exist on it
      (AttributeError), FT_BYTES hands it back, and the absolute-time
      decoder fails the way its branch for the field size does. */
  function FreprOfInt(ftype: Ftype, i: nat, fsize: nat, fname: string): (r: Result<Repr>)
    ensures r.Ok? <==> ftype == ByteString || (ftype == AbsoluteTime && fsize != 4 && fsize != 8)
  {
    match ftype
    case IntBe => Err(TypeError)
    case IntLe => Err(TypeError)
    case Str => Err(AttributeError)
    case ByteString => Ok(RInt(i))
    case BinBe => Err(TypeError)
    case BinLe => Err(TypeError)
    case Hex => Err(TypeError)
    case Ether => Err(AttributeError)
    case Ipv4 => Err(TypeError)
    case Ipv6 => Err(TypeError)
    case AbsoluteTime =>
      if fsize == 4 then Err(AttributeError)
      else if fsize == 8 then (if Contains(fname, "ntp.") then Err(AttributeError) else Err(TypeError))
      else Ok(RNone)
    case RelativeTime => Err(TypeError)
    case Eui64 => Err(AttributeError)
  }

  /** `PacketLayer.__getitem__(item)`: KeyError for an unknown field; a
      struct field decodes what the struct's parse of the whole buffer
      binds to it (KeyError when it binds nothing), any other field the
      bytes of its slice. */
  function GetItem(env: Env, v: View, buf: bytes, item: string): (r: Result<Repr>)
    ensures Get(v.fields, item).None? ==> r == Err(KeyError)
  {
    match Get(v.fields, item)
    case None => Err(KeyError)
    case Some(info) =>
      match Get(v.structs, item)
      case None => GetFrepr(env, info.ftype, SliceOf(buf, info.slice), info.size, info.mask, item)
      case Some(st) =>
        match Parse(st, buf)
        case Err(e) => Err(e)
        case Ok(ctx) =>
          match Get(ctx, item)
          case None => Err(KeyError)
          case Some(p) =>
            match p
            case PBytes(b) => GetFrepr(env, info.ftype, b, info.size, info.mask, item)
            case PInt(i) => FreprOfInt(info.ftype, i, info.size, item)
  }

  /** A plain field reads the codec's value of the bytes its slice selects. */
  lemma GetPlain(env: Env, v: View, buf: bytes, item: string, info: FieldInfo)
    requires Get(v.fields, item) == Some(info) && Get(v.structs, item).None?
    requires 0 <= info.slice.start <= info.slice.stop <= |buf|
    ensures GetItem(env, v, buf, item) ==
      GetFrepr(env, info.ftype, buf[info.slice.start..info.slice.stop], info.size, info.mask, item)
  {
  }

  /** A struct field reads the codec's value of the bytes the parse bound to it. */
  lemma GetStruct(env: Env, v: View, buf: bytes, item: string, info: FieldInfo, st: Struct, ctx: Context, b: bytes)
    requires Get(v.fields, item) == Some(info) && Get(v.structs, item) == Some(st)
    requires Parse(st, buf) == Ok(ctx) && Get(ctx, item) == Some(PBytes(b))
    ensures GetItem(env, v, buf, item) == GetFrepr(env, info.ftype, b, info.size, info.mask, item)
  {
  }

  // ---------------------------------------------------------------------
  // Writing a field
  // ---------------------------------------------------------------------

  /** An NTP absolute time of eight bytes: the one case where
      `absolute2raw` reads the field's old bytes (`fraw[4:]`). */
  predicate NtpTime(ftype: Ftype, fsize: nat, fname: string)
  {
    ftype == AbsoluteTime && fsize == 8 && Contains(fname, "ntp.")
  }

  /** `get_fraw` as a struct field calls it: the parse result stands where
      the field's bytes would, so the codecs that read those bytes fail
      with TypeError. The bit-field codecs read them as an integer; an NTP
      time slices them once the text has been parsed, so a parse failure
      comes first. */
  function StructFraw(env: Env, value: Repr, ftype: Ftype, b: bytes, fsize: nat, fmask: nat, fname: string): (r: Result<bytes>)
    ensures ftype in {BinBe, BinLe} ==> r == Err(TypeError)
    ensures NtpTime(ftype, fsize, fname) ==> r.Err?
    ensures NtpTime(ftype, fsize, fname) && env.absRaw(value, b, fsize, fname).Ok? ==> r == Err(TypeError)
    ensures NtpTime(ftype, fsize, fname) && env.absRaw(value, b, fsize, fname).Err? ==> r == Err(env.absRaw(value, b, fsize, fname).error)
    ensures ftype !in {BinBe, BinLe} && !NtpTime(ftype, fsize, fname) ==> r == GetFraw(env, value, ftype, b, fsize, fmask, fname)
  {
    if ftype in {BinBe, BinLe} then Err(TypeError)
    else if NtpTime(ftype, fsize, fname) then
      match env.absRaw(value, b, fsize, fname)
      case Err(e) => Err(e)
      case Ok(_) => Err(TypeError)
    else GetFraw(env, value, ftype, b, fsize, fmask, fname)
  }

  /** `raw[:start] + fraw + raw[stop:]` once the codec has produced `fraw`. */
  function Write(buf: bytes, start: int, stop: int, enc: Result<bytes>): Result<bytes>
  {
    match enc
    case Err(e) => Err(e)
    case Ok(out) => Ok(Splice(buf, start, stop, out))
  }

  /** `PacketLayer.__setitem__(key, value)`: the buffer with the encoded
      value in place of the field's bytes. A plain field is encoded at its
      own size over its slice; a struct field as `StructSet` says. */
  function SetItem(env: Env, v: View, buf: bytes, key: string, value: Repr): (r: Result<bytes>)
    ensures Get(v.fields, key).None? ==> r == Err(KeyError)
  {
    match Get(v.fields, key)
    case None => Err(KeyError)
    case Some(info) =>
      match Get(v.structs, key)
      case None => Write(buf, info.slice.start, info.slice.stop,
                         GetFraw(env, value, info.ftype, SliceOf(buf, info.slice), info.size, info.mask, key))
      case Some(st) => StructSet(env, info, buf, key, value, Locate(st, buf, key))
  }

  /** The write to a struct field, given where `Locate` found it: over the
      range that starts at its start byte and is as wide as the bytes the
      parse bound to it, encoded at that width (TypeError when the parse
      bound an integer, whose `len` fails). */
  function StructSet(env: Env, info: FieldInfo, buf: bytes, key: string, value: Repr, loc: Result<(int, Parsed)>): Result<bytes>
  {
    match loc
    case Err(e) => Err(e)
    case Ok(l) =>
      if l.1.PInt? then Err(TypeError)
      else Write(buf, l.0, l.0 + |l.1.b|, StructFraw(env, value, info.ftype, l.1.b, |l.1.b|, info.mask, key))
  }

  /** A plain field's write replaces exactly its slice with the codec's
      bytes for the value; every byte outside the slice stays. */
  lemma SetPlain(env: Env, v: View, buf: bytes, key: string, value: Repr, info: FieldInfo)
    requires Get(v.fields, key) == Some(info) && Get(v.structs, key).None?
    requires 0 <= info.slice.start <= info.slice.stop <= |buf|
    ensures var e := GetFraw(env, value, info.ftype, buf[info.slice.start..info.slice.stop], info.size, info.mask, key);
      var r := SetItem(env, v, buf, key, value);
      && (r.Ok? <==> e.Ok?)
      && (r.Ok? ==>
            && r.value == buf[..info.slice.start] + e.value + buf[info.slice.stop..]
            && |r.value| == |buf| - (info.slice.stop - info.slice.start) + |e.value|)
  {
  }

  /** Writing back what was read from a plain field whose codec is
      lossless on its bytes leaves the buffer as it was. */
  lemma GetThenSet(env: Env, v: View, buf: bytes, key: string, info: FieldInfo)
    requires Get(v.fields, key) == Some(info) && Get(v.structs, key).None?
    requires 0 <= info.slice.start <= info.slice.stop <= |buf|
    requires info.size == info.slice.stop - info.slice.start
    requires Lossless(info.ftype, buf[info.slice.start..info.slice.stop])
    ensures GetItem(env, v, buf, key).Ok?
    ensures SetItem(env, v, buf, key, GetItem(env, v, buf, key).value) == Ok(buf)
  {
    var (i, j) := (info.slice.start, info.slice.stop);
    var b := buf[i..j];
    GetPlain(env, v, buf, key, info);
    FieldRoundTrip(env, info.ftype, b, info.mask, key);
    var x := GetFrepr(env, info.ftype, b, |b|, info.mask, key).value;
    assert GetItem(env, v, buf, key) == Ok(x);
    SetPlain(env, v, buf, key, x, info);
    SpliceSelf(buf, i, j);
    assert SetItem(env, v, buf, key, x).value == buf[..i] + b + buf[j..] == buf;
  }

  /** Writing an integer that fits a big-endian integer field and reading
      the field back gives that integer; the buffer keeps its length and
      every byte outside the slice. */
  lemma SetIntThenGet(env: Env, v: View, buf: bytes, key: string, value: nat, info: FieldInfo)
    requires Get(v.fields, key) == Some(info) && Get(v.structs, key).None?
    requires 0 <= info.slice.start <= info.slice.stop <= |buf|
    requires info.size == info.slice.stop - info.slice.start
    requires info.ftype in {IntBe, IntLe} && value < Pow256(info.size)
    ensures var r := SetItem(env, v, buf, key, RInt(value));
      && r.Ok?
      && |r.value| == |buf|
      && r.value[..info.slice.start] == buf[..info.slice.start]
      && r.value[info.slice.stop..] == buf[info.slice.stop..]
      && GetItem(env, v, r.value, key) == Ok(RInt(value))
  {
    var (i, j) := (info.slice.start, info.slice.stop);
    SetPlain(env, v, buf, key, RInt(value), info);
    var out := GetFraw(env, RInt(value), info.ftype, buf[i..j], info.size, info.mask, key).value;
    IntCodecRoundTrip(env, info.ftype, value, info.size, buf[i..j], info.mask, key);
    var nb := buf[..i] + out + buf[j..];
    assert nb[i..j] == out;
    GetPlain(env, v, nb, key, info);
  }

  /** The integer codecs decode what they encode. */
  lemma IntCodecRoundTrip(env: Env, ftype: Ftype, value: nat, fsize: nat, fraw: bytes, fmask: nat, fname: string)
    requires ftype in {IntBe, IntLe} && value < Pow256(fsize)
    ensures GetFraw(env, RInt(value), ftype, fraw, fsize, fmask, fname).Ok?
    ensures var out := GetFraw(env, RInt(value), ftype, fraw, fsize, fmask, fname).value;
      |out| == fsize && GetFrepr(env, ftype, out, fsize, fmask, fname) == Ok(RInt(value))
  {
  }

  /** A struct field's write, once the parse has bound bytes to it and
      located it: the codec's bytes for the value, at the width of the bound
      bytes, replace the range that starts at the start byte. */
  lemma SetStruct(env: Env, v: View, buf: bytes, key: string, value: Repr,
                  info: FieldInfo, st: Struct, start: int, b: bytes)
    requires Get(v.fields, key) == Some(info) && Get(v.structs, key) == Some(st)
    requires Locate(st, buf, key) == Ok((start, PBytes(b)))
    ensures SetItem(env, v, buf, key, value) ==
      Write(buf, start, start + |b|, StructFraw(env, value, info.ftype, b, |b|, info.mask, key))
  {
    SetStructLocated(env, v, buf, key, value, info, st, start, b);
    StructSetBytes(env, buf, key, value, info, start, b);
  }

  lemma SetStructLocated(env: Env, v: View, buf: bytes, key: string, value: Repr,
                         info: FieldInfo, st: Struct, start: int, b: bytes)
    requires Get(v.fields, key) == Some(info) && Get(v.structs, key) == Some(st)
    requires Locate(st, buf, key) == Ok((start, PBytes(b)))
    ensures SetItem(env, v, buf, key, value) == StructSet(env, info, buf, key, value, Ok((start, PBytes(b))))
  {
  }

  lemma StructSetBytes(env: Env, buf: bytes, key: string, value: Repr, info: FieldInfo, start: int, b: bytes)
    ensures StructSet(env, info, buf, key, value, Ok((start, PBytes(b)))) ==
      Write(buf, start, start + |b|, StructFraw(env, value, info.ftype, b, |b|, info.mask, key))
  {
  }

  /** A write that succeeds keeps every byte before its start and, shifted,
      every byte from its stop on. */
  lemma WriteFrame(buf: bytes, start: int, stop: int, enc: Result<bytes>)
    requires 0 <= start <= stop <= |buf|
    ensures Write(buf, start, stop, enc).Ok? <==> enc.Ok?
    ensures Write(buf, start, stop, enc).Ok? ==>
      var r := Write(buf, start, stop, enc).value;
      && |r| == |buf| - (stop - start) + |enc.value|
      && r[..start] == buf[..start]
      && r[start..start + |enc.value|] == enc.value
      && r[start + |enc.value|..] == buf[stop..]
  {
    if enc.Ok? {
      SpliceInRange(buf, start, stop, enc.value);
    }
  }

  /** `PacketLayer.__len__`: the buffer length from the layer's start on. */
  function LayerLength(v: View, buf: bytes): (n: int)
    ensures 0 <= v.layerStart <= |buf| ==> n == |buf[v.layerStart..]|
    ensures v.layerStart <= 0 ==> n >= |buf|
  {
    |buf| - v.layerStart
  }

  // ---------------------------------------------------------------------
  // The packet
  // ---------------------------------------------------------------------

  /** A template layer as the packet reads it. */
  datatype TemplateLayer = TemplateLayer(name: string, layerStart: int, fields: seq<TField>, structs: Entries<Struct>)

  /** The packet: the views by layer name, the padded buffer and the two flags. */
  datatype Packet = Packet(layers: Entries<View>, buf: bytes, drop: bool, recChksums: bool)

  function ViewPairs(ls: seq<TemplateLayer>): (r: seq<(Key, View)>)
    ensures |r| == |ls| && forall i :: 0 <= i < |ls| ==>
      r[i] == (ls[i].name, NewView(ls[i].layerStart, ls[i].fields, ls[i].structs))
  {
    seq(|ls|, i requires 0 <= i < |ls| => (ls[i].name, NewView(ls[i].layerStart, ls[i].fields, ls[i].structs)))
  }

  /** `Packet(template)` over the current buffer: a view per layer name,
      not dropped, checksums to be recomputed. */
  function NewPacket(ls: seq<TemplateLayer>, buf: bytes): (p: Packet)
    ensures !p.drop && p.recChksums && p.buf == buf
  {
    Packet(FromPairs(ViewPairs(ls)), buf, false, true)
  }

  /** `Packet.__getitem__(name)`: KeyError for an unknown layer. */
  function Layer(p: Packet, name: string): (r: Result<View>)
    ensures r.Ok? <==> name in Keys(p.layers)
    ensures r.Ok? ==> (name, r.value) in p.layers
    ensures r.Err? ==> r.error == KeyError
  {
    match Get(p.layers, name)
    case None => Err(KeyError)
    case Some(v) => Ok(v)
  }

  /** Each layer of the template is found under its name (the last layer
      of a name wins), and no other name is. */
  lemma NewPacketLayers(ls: seq<TemplateLayer>, buf: bytes, i: nat, k: string)
    requires i < |ls|
    requires forall j :: i < j < |ls| ==> ls[j].name != ls[i].name
    requires forall j :: 0 <= j < |ls| ==> ls[j].name != k
    ensures Layer(NewPacket(ls, buf), ls[i].name) == Ok(NewView(ls[i].layerStart, ls[i].fields, ls[i].structs))
    ensures Layer(NewPacket(ls, buf), k) == Err(KeyError)
  {
    FromPairsLast(ViewPairs(ls), i);
    FromPairsAbsent(ViewPairs(ls), k);
  }

  /** The `raw` setter (and `set_payload`): the payload behind the pad. */
  function SetRaw(p: Packet, payload: bytes): Packet
  {
    p.(buf := Padded(payload))
  }

  /** Setting the payload and reading it back gives it unchanged; the
      packet's length is the payload's, and nothing else changes. */
  lemma SetRawThenRaw(p: Packet, payload: bytes)
    ensures Raw(SetRaw(p, payload).buf) == payload
    ensures Length(SetRaw(p, payload).buf) == |payload|
    ensures SetRaw(p, payload).layers == p.layers
    ensures SetRaw(p, payload).drop == p.drop && SetRaw(p, payload).recChksums == p.recChksums
  {
    RawPadded(payload);
  }

  /** `Packet.insert(index1, index2, value)` on the packet's buffer. */
  function InsertInto(p: Packet, index1: int, index2: int, value: Repr): (r: Result<Packet>)
    ensures r.Ok? <==> value.RBytes?
    ensures r.Ok? ==> r.value == p.(buf := Insert(p.buf, index1, index2, value).value)
  {
    match Insert(p.buf, index1, index2, value)
    case Err(e) => Err(e)
    case Ok(b) => Ok(p.(buf := b))
  }
}

=== FILE: payload.dfy ===
/** The packet buffer both packet views share (`Packet.raw`, `insert` and
    `__len__` in `polymorph/packet.py` and `build/lib/polymorph/packet.py`):
    the intercepted payload kept behind 14 zero bytes that stand in for the
    Ethernet header the queue does not deliver. Field offsets count from the
    start of that padded buffer. */
module Payload {
  import opened Wrappers
  import opened Bytes
  import opened Converter

  /** Length of the link-layer pad. */
  const PadLen: nat := 14

  /** The buffer after `raw = payload`. */
  function Padded(payload: bytes): (buf: bytes)
    ensures |buf| == PadLen + |payload|
    ensures buf[..PadLen] == Zeros(PadLen) && buf[PadLen..] == payload
  {
    Zeros(PadLen) + payload
  }

  /** The `raw` getter: the buffer without its first 14 bytes. */
  function Raw(buf: bytes): (r: bytes)
    ensures |buf| >= PadLen ==> r == buf[PadLen..]
    ensures |buf| <= PadLen ==> r == []
  {
    PyFrom(buf, PadLen)
  }

  /** Setting the payload and reading it back gives it unchanged. */
  lemma RawPadded(payload: bytes)
    ensures Raw(Padded(payload)) == payload
  {
  }

  /** `len(packet)`: the payload length, without the pad. */
  function Length(buf: bytes): (n: nat)
    ensures n == if |buf| >= PadLen then |buf| - PadLen else 0
  {
    |Raw(buf)|
  }

  /** A packet is falsy exactly when its payload is empty. */
  lemma EmptyPayloadFalsy(payload: bytes)
    ensures Length(Padded(payload)) == |payload|
    ensures Length(Padded(payload)) == 0 <==> payload == []
  {
  }

  /** `insert(index1, index2, value)`: ValueError only when the range is
      empty or reversed and the value is not bytes; otherwise
      `(pad + raw)[:index1] + value + (pad + raw)[index2:]`, which raises
      TypeError for a non-bytes value, and the pad is stripped again. The
      pad is rebuilt from zeros, whatever the buffer held in front. */
  function Insert(buf: bytes, index1: int, index2: int, value: Repr): (r: Result<bytes>)
    ensures r.Err? <==> !value.RBytes?
    ensures r.Err? ==> r.error == if index1 >= index2 then ValueError else TypeError
    ensures r.Ok? ==> |r.value| >= PadLen && r.value[..PadLen] == Zeros(PadLen)
  {
    if index1 >= index2 && !value.RBytes? then Err(ValueError)
    else if !value.RBytes? then Err(TypeError)
    else
      var payload := Padded(Raw(buf));
      Ok(Padded(Raw(Splice(payload, index1, index2, value.b))))
  }

  /** Within the payload, inserting replaces exactly the bytes between the
      two indices (counted from the start of the padded buffer). */
  lemma InsertSplice(buf: bytes, index1: int, index2: int, value: bytes)
    requires PadLen <= index1 <= index2 <= |buf|
    ensures Insert(buf, index1, index2, RBytes(value)).Ok?
    ensures var raw := Raw(buf);
      Raw(Insert(buf, index1, index2, RBytes(value)).value) ==
        raw[..index1 - PadLen] + value + raw[index2 - PadLen..]
  {
    var raw := Raw(buf);
    var payload := Padded(raw);
    var s := Splice(payload, index1, index2, value);
    assert s == payload[..index1] + value + payload[index2..];
    assert payload[..index1] == Zeros(PadLen) + raw[..index1 - PadLen];
    assert payload[index2..] == raw[index2 - PadLen..];
    assert s[PadLen..] == raw[..index1 - PadLen] + value + raw[index2 - PadLen..];
  }

  /** With bytes, a reversed range is not rejected: the bytes between the
      indices are repeated around the inserted value. */
  lemma InsertReversed(buf: bytes, index1: int, index2: int, value: bytes)
    requires PadLen <= index2 <= index1 <= |buf|
    ensures Insert(buf, index1, index2, RBytes(value)).Ok?
    ensures Length(Insert(buf, index1, index2, RBytes(value)).value) == Length(buf) + |value| + (index1 - index2)
  {
    var raw := Raw(buf);
    var payload := Padded(raw);
    var s := Splice(payload, index1, index2, value);
    assert s == payload[..index1] + value + payload[index2..];
  }
}

=== FILE: structs.dfy ===
/** The byte layout of a field whose position and length depend on other
    fields of its layer. `create_struct` (`polymorph/tlayer.py`) builds a
    construct `Struct` of padding, fixed-width integers and a final
    variable-width target; here that struct is a list of segments whose
    widths are small arithmetic expressions over earlier segments. The
    module also holds the parse of such a struct and the start-byte
    computation both packet views use (`_getflens`, `_get_start_byte`). */
module Structs {
  import opened Wrappers
  import opened Bytes
  import opened OrderedMap

  /** A width rule: literals, `this.<segment>`, and `+ - * /`. */
  datatype Expr =
    | Lit(n: int)
    | This(name: string)
    | Add(a: Expr, b: Expr)
    | Sub(a: Expr, b: Expr)
    | Mul(a: Expr, b: Expr)
    | Div(a: Expr, b: Expr)

  /** A value a parse binds: the integer of a fixed-width segment or the bytes of a blob. */
  datatype Parsed = PInt(i: nat) | PBytes(b: bytes)

  /** construct's Container: values by segment name, in first-assignment order. */
  type Context = Entries<Parsed>

  /** An expression that mentions no segment. */
  predicate Closed(e: Expr)
  {
    match e
    case Lit(_) => true
    case This(_) => false
    case Add(a, b) => Closed(a) && Closed(b)
    case Sub(a, b) => Closed(a) && Closed(b)
    case Mul(a, b) => Closed(a) && Closed(b)
    case Div(a, b) => Closed(a) && Closed(b)
  }

  /** The value of a width rule in a parse context. `this.x` on a name not
      parsed yet is a KeyError and on a blob a TypeError; Python's `/` is
      true division, so a quotient is a float no width accepts (TypeError),
      and a zero divisor is a ZeroDivisionError. */
  function Eval(e: Expr, ctx: Context): (r: Result<int>)
    ensures e.This? ==> (r.Ok? <==> Get(ctx, e.name).Some? && Get(ctx, e.name).value.PInt?)
    ensures e.Div? ==> r.Err?
  {
    match e
    case Lit(n) => Ok(n)
    case This(x) =>
      (match Get(ctx, x)
       case None => Err(KeyError)
       case Some(v) => if v.PInt? then Ok(v.i) else Err(TypeError))
    case Add(a, b) => var x :- Eval(a, ctx); var y :- Eval(b, ctx); Ok(x + y)
    case Sub(a, b) => var x :- Eval(a, ctx); var y :- Eval(b, ctx); Ok(x - y)
    case Mul(a, b) => var x :- Eval(a, ctx); var y :- Eval(b, ctx); Ok(x * y)
    case Div(a, b) =>
      var x :- Eval(a, ctx);
      var y :- Eval(b, ctx);
      if y == 0 then Err(ZeroDivisionError) else Err(TypeError)
  }

  /** A closed expression has the same value in every context. */
  lemma {:induction false} EvalClosed(e: Expr, ctx: Context)
    requires Closed(e)
    ensures Eval(e, ctx) == Eval(e, [])
  {
    match e
    case Lit(_) =>
    case Add(a, b) => EvalClosed(a, ctx); EvalClosed(b, ctx);
    case Sub(a, b) => EvalClosed(a, ctx); EvalClosed(b, ctx);
    case Mul(a, b) => EvalClosed(a, ctx); EvalClosed(b, ctx);
    case Div(a, b) => EvalClosed(a, ctx); EvalClosed(b, ctx);
  }

  /** The exact value of a closed expression as Python computes it when
      the rule text is evaluated: true division, None for a zero divisor. */
  function ClosedValue(e: Expr): (r: Option<real>)
    requires Closed(e)
  {
    match e
    case Lit(n) => Some(n as real)
    case Add(a, b) => Combine(e, ClosedValue(a), ClosedValue(b))
    case Sub(a, b) => Combine(e, ClosedValue(a), ClosedValue(b))
    case Mul(a, b) => Combine(e, ClosedValue(a), ClosedValue(b))
    case Div(a, b) => Combine(e, ClosedValue(a), ClosedValue(b))
  }

  /** The operator of `e` applied to the values of its operands. */
  function Combine(e: Expr, x: Option<real>, y: Option<real>): Option<real>
  {
    if x.None? || y.None? then None
    else
      match e
      case Add(_, _) => Some(x.value + y.value)
      case Sub(_, _) => Some(x.value - y.value)
      case Mul(_, _) => Some(x.value * y.value)
      case Div(_, _) => if y.value == 0.0 then None else Some(x.value / y.value)
      case _ => None
  }

  /** Whether evaluating the rule text raises ZeroDivisionError. `this.x`
      builds a lazy expression, so only the closed sub-expressions are
      computed then, and one raises when a divisor in it is zero. */
  predicate DividesByZero(e: Expr)
  {
    if Closed(e) then ClosedValue(e).None?
    else
      match e
      case Lit(_) => false
      case This(_) => false
      case Add(a, b) => DividesByZero(a) || DividesByZero(b)
      case Sub(a, b) => DividesByZero(a) || DividesByZero(b)
      case Mul(a, b) => DividesByZero(a) || DividesByZero(b)
      case Div(a, b) => DividesByZero(a) || DividesByZero(b)
  }

  /** A closed rule that fails with ZeroDivisionError when parsed already
      fails when the rule text is evaluated; one parsed to an integer has
      that integer as its exact value. */
  lemma {:induction false} ParseErrorsAtBuild(e: Expr)
    requires Closed(e)
    ensures Eval(e, []) == Err(ZeroDivisionError) ==> DividesByZero(e)
    ensures Eval(e, []).Ok? ==> ClosedValue(e) == Some(Eval(e, []).value as real)
  {
    match e
    case Lit(_) =>
    case This(_) =>
    case Add(a, b) => ParseErrorsAtBuild(a); ParseErrorsAtBuild(b); BinaryStep(e);
    case Sub(a, b) => ParseErrorsAtBuild(a); ParseErrorsAtBuild(b); BinaryStep(e);
    case Mul(a, b) => ParseErrorsAtBuild(a); ParseErrorsAtBuild(b); BinaryStep(e);
    case Div(a, b) => ParseErrorsAtBuild(a); ParseErrorsAtBuild(b); BinaryStep(e);
  }

  /** One step of the induction: the property for a binary rule from the
      property for its operands. */
  lemma BinaryStep(e: Expr)
    requires Closed(e) && !e.Lit? && !e.This?
    requires Eval(e.a, []) == Err(ZeroDivisionError) ==> ClosedValue(e.a).None?
    requires Eval(e.a, []).Ok? ==> ClosedValue(e.a) == Some(Eval(e.a, []).value as real)
    requires Eval(e.b, []) == Err(ZeroDivisionError) ==> ClosedValue(e.b).None?
    requires Eval(e.b, []).Ok? ==> ClosedValue(e.b) == Some(Eval(e.b, []).value as real)
    ensures Eval(e, []) == Err(ZeroDivisionError) ==> ClosedValue(e).None?
    ensures Eval(e, []).Ok? ==> ClosedValue(e) == Some(Eval(e, []).value as real)
  {
    var ea := Eval(e.a, []);
    var eb := Eval(e.b, []);
    if ea.Ok? && eb.Ok? {
      BinaryOk(e, ea.value, eb.value);
    }
  }

  lemma BinaryOk(e: Expr, x: int, y: int)
    requires Closed(e) && !e.Lit? && !e.This?
    requires Eval(e.a, []) == Ok(x) && Eval(e.b, []) == Ok(y)
    requires ClosedValue(e.a) == Some(x as real) && ClosedValue(e.b) == Some(y as real)
    ensures Eval(e, []).Ok? ==> ClosedValue(e) == Some(Eval(e, []).value as real)
    ensures Eval(e, []) != Err(ZeroDivisionError) || ClosedValue(e).None?
  {
    assert ClosedValue(e) == Combine(e, Some(x as real), Some(y as real));
    match e
    case Add(_, _) => assert Eval(e, []) == Ok(x + y);
    case Sub(_, _) => assert Eval(e, []) == Ok(x - y);
    case Mul(a, b) => assert Eval(e, []) == Ok(x * y); MulCombine(a, b, x, y);
    case Div(_, _) =>
  }

  lemma MulCombine(a: Expr, b: Expr, x: int, y: int)
    ensures Combine(Mul(a, b), Some(x as real), Some(y as real)) == Some((x * y) as real)
  {
    var c := Combine(Mul(a, b), Some(x as real), Some(y as real));
    assert c.Some?;
    assert c.value == (x as real) * (y as real);
    MulAsReal(x, y);
  }

  /** An integer product is the product of the two as reals. */
  lemma {:induction false} MulAsReal(x: int, y: int)
    ensures (x * y) as real == x as real * y as real
    decreases if y < 0 then -y else y
  {
    if y > 0 {
      MulAsReal(x, y - 1);
      assert x * y == x * (y - 1) + x;
      assert x as real * y as real == x as real * (y - 1) as real + x as real;
    } else if y < 0 {
      MulAsReal(x, y + 1);
      assert x * y == x * (y + 1) - x;
      assert x as real * y as real == x as real * (y + 1) as real - x as real;
    }
  }

  /** The converse fails: `1 / 2 / 0` divides a float by zero when the
      rule text is evaluated, while the parse reports the float width. */
  lemma FloatDividedByZero()
    ensures DividesByZero(Div(Div(Lit(1), Lit(2)), Lit(0)))
    ensures Eval(Div(Div(Lit(1), Lit(2)), Lit(0)), []) == Err(TypeError)
  {
    assert ClosedValue(Div(Lit(1), Lit(2))).Some?;
    assert Eval(Div(Lit(1), Lit(2)), []) == Err(TypeError);
  }

  /** A `Bytes(width)` blob, or an unsigned integer of `size` bytes (`Int8ub` … `Int32ul`). */
  datatype Segment = Blob(name: string, width: Expr) | Num(name: string, size: nat, order: Order)

  type Struct = seq<Segment>

  function Names(st: Struct): (r: seq<string>)
    ensures |r| == |st| && forall i :: 0 <= i < |st| ==> r[i] == st[i].name
  {
    if |st| == 0 then [] else [st[0].name] + Names(st[1..])
  }

  /** The structs `create_struct` builds: distinct names, integers of at least one byte. */
  predicate WellFormed(st: Struct)
  {
    Distinct(Names(st)) && forall i :: 0 <= i < |st| ==> st[i].Num? ==> st[i].size >= 1
  }

  /** What parsing one segment produced: its name, the bytes it took, its value. */
  datatype Piece = Piece(name: string, width: nat, value: Parsed)

  /** Total width of parsed pieces: the stream position after them. */
  function Offset(ps: seq<Piece>): nat
  {
    if |ps| == 0 then 0 else ps[0].width + Offset(ps[1..])
  }

  lemma {:induction false} OffsetAppend(ps: seq<Piece>, p: Piece)
    ensures Offset(ps + [p]) == Offset(ps) + p.width
  {
    if |ps| > 0 {
      assert (ps + [p])[1..] == ps[1..] + [p];
      OffsetAppend(ps[1..], p);
    }
  }

  /** The context after the pieces, each assigned in turn. */
  function ToContext(ps: seq<Piece>): Context
  {
    if |ps| == 0 then [] else Put(ToContext(ps[..|ps| - 1]), ps[|ps| - 1].name, ps[|ps| - 1].value)
  }

  /** What parsing one segment produced: its name, the bytes it took, its value. */
  predicate PieceOf(seg: Segment, p: Piece, before: seq<Piece>, raw: bytes)
  {
    var off := Offset(before);
    && p.name == seg.name
    && off + p.width <= |raw|
    && match seg
       case Num(_, size, order) => p.width == size && p.value == PInt(FromBytes(raw[off..off + size], order))
       case Blob(_, w) => Eval(w, ToContext(before)) == Ok(p.width as int) && p.value == PBytes(raw[off..off + p.width])
  }

  /** Parsing one segment at the position the earlier pieces reached: a
      negative width or a short stream is a StreamError. */
  function NextPiece(seg: Segment, raw: bytes, done: seq<Piece>): (r: Result<Piece>)
  {
    var pos := Offset(done);
    match seg
    case Num(name, size, order) =>
      if pos + size > |raw| then Err(StreamError)
      else Ok(Piece(name, size, PInt(FromBytes(raw[pos..pos + size], order))))
    case Blob(name, w) =>
      match Eval(w, ToContext(done))
      case Err(e) => Err(e)
      case Ok(n) =>
        if n < 0 || pos + n > |raw| then Err(StreamError)
        else Ok(Piece(name, n, PBytes(raw[pos..pos + n])))
  }

  /** A piece read is what its segment describes; an integer segment is
      read exactly when its bytes are all there. */
  lemma NextPieceOf(seg: Segment, raw: bytes, done: seq<Piece>)
    ensures NextPiece(seg, raw, done).Ok? ==> PieceOf(seg, NextPiece(seg, raw, done).value, done, raw)
    ensures seg.Num? ==> (NextPiece(seg, raw, done).Ok? <==> Offset(done) + seg.size <= |raw|)
  {
    if seg.Num? {
      NumPiece(seg, raw, done);
    } else {
      BlobPiece(seg, raw, done);
    }
  }

  lemma NumPiece(seg: Segment, raw: bytes, done: seq<Piece>)
    requires seg.Num?
    ensures NextPiece(seg, raw, done).Ok? <==> Offset(done) + seg.size <= |raw|
    ensures NextPiece(seg, raw, done).Ok? ==> PieceOf(seg, NextPiece(seg, raw, done).value, done, raw)
  {
    var pos := Offset(done);
    if pos + seg.size <= |raw| {
      assert NextPiece(seg, raw, done) == Ok(Piece(seg.name, seg.size, PInt(FromBytes(raw[pos..pos + seg.size], seg.order))));
    }
  }

  lemma BlobPiece(seg: Segment, raw: bytes, done: seq<Piece>)
    requires seg.Blob?
    ensures NextPiece(seg, raw, done).Ok? ==> PieceOf(seg, NextPiece(seg, raw, done).value, done, raw)
  {
    var pos := Offset(done);
    var n := Eval(seg.width, ToContext(done));
    if n.Ok? && n.value >= 0 && pos + n.value <= |raw| {
      assert NextPiece(seg, raw, done) == Ok(Piece(seg.name, n.value, PBytes(raw[pos..pos + n.value])));
    }
  }

  /** construct's `Struct.parse`: segment by segment, each read where the
      earlier ones ended and with their values in scope. */
  function ParsePieces(st: Struct, raw: bytes): (r: Result<seq<Piece>>)
    ensures r.Ok? ==> |r.value| == |st|
    decreases |st|
  {
    if |st| == 0 then Ok([])
    else
      match ParsePieces(st[..|st| - 1], raw)
      case Err(e) => Err(e)
      case Ok(ps) =>
        match NextPiece(st[|st| - 1], raw, ps)
        case Err(e) => Err(e)
        case Ok(p) => Ok(ps + [p])
  }

  /** `st.parse(raw)`: the resulting context. */
  function Parse(st: Struct, raw: bytes): (r: Result<Context>)
  {
    match ParsePieces(st, raw)
    case Err(e) => Err(e)
    case Ok(ps) => Ok(ToContext(ps))
  }

  /** A parse succeeds exactly when every segment could be read, and binds the pieces in order. */
  lemma ParseContext(st: Struct, raw: bytes)
    ensures Parse(st, raw).Ok? <==> ParsePieces(st, raw).Ok?
    ensures Parse(st, raw).Ok? ==> Parse(st, raw).value == ToContext(ParsePieces(st, raw).value)
  {
  }

  /** Parsing a prefix of the struct gives a prefix of the pieces. */
  lemma {:induction false} ParsePrefix(st: Struct, raw: bytes, n: nat)
    requires ParsePieces(st, raw).Ok?
    requires n <= |st|
    ensures ParsePieces(st[..n], raw) == Ok(ParsePieces(st, raw).value[..n])
    decreases |st|
  {
    var ps := ParsePieces(st, raw).value;
    if n < |st| {
      var q := st[..|st| - 1];
      assert st[..n] == q[..n];
      ParsePrefix(q, raw, n);
      assert ps[..n] == ps[..|st| - 1][..n];
    } else {
      assert st[..n] == st;
      assert ps[..n] == ps;
    }
  }

  /** The `k`-th piece of a successful parse is what the `k`-th segment
      reads where the earlier pieces end. */
  lemma ParsedPiece(st: Struct, raw: bytes, k: nat)
    requires ParsePieces(st, raw).Ok?
    requires k < |st|
    ensures var ps := ParsePieces(st, raw).value;
      PieceOf(st[k], ps[k], ps[..k], raw)
  {
    var ps := ParsePieces(st, raw).value;
    ParsePrefix(st, raw, k);
    ParsePrefix(st, raw, k + 1);
    var q := st[..k + 1];
    assert q[..|q| - 1] == st[..k];
    assert ps[..k + 1] == ps[..k] + [ps[k]];
    NextPieceOf(st[k], raw, ps[..k]);
  }

  // ---------------------------------------------------------------------
  // Start byte of a struct field (PacketLayer._getflens / _get_start_byte)
  // ---------------------------------------------------------------------

  /** `sizeof()` of a segment: its size when the width needs no context, None where construct raises. */
  function StaticSize(s: Segment): (r: Option<int>)
    ensures s.Num? ==> r == Some(s.size)
    ensures s.Blob? && !Closed(s.width) ==> r.None?
  {
    match s
    case Num(_, size, _) => Some(size)
    case Blob(_, w) => if Closed(w) && Eval(w, []).Ok? then Some(Eval(w, []).value) else None
  }

  /** The first loop of `_getflens`: `d[s.name] = s.sizeof()` for every segment. */
  function StaticSizes(st: Struct): Entries<Option<int>>
  {
    if |st| == 0 then [] else Put(StaticSizes(st[..|st| - 1]), st[|st| - 1].name, StaticSize(st[|st| - 1]))
  }

  predicate Falsy(v: Option<int>)
  {
    v.None? || v.value == 0
  }

  /** One iteration of the second loop of `_getflens`: a falsy entry for a
      parsed name becomes the parsed value's length (TypeError for an integer). */
  function FillOne(d: Entries<Option<int>>, f: string, v: Parsed): (r: Result<Entries<Option<int>>>)
    ensures r.Ok? ==> Keys(r.value) == Keys(d)
  {
    match Get(d, f)
    case None => Ok(d)
    case Some(w) =>
      if !Falsy(w) then Ok(d)
      else if v.PBytes? then PutKeys(d, f, Some(|v.b|)); Ok(Put(d, f, Some(|v.b|)))
      else Err(TypeError)
  }

  /** The second loop of `_getflens`, over the parsed names in order. */
  function FillLengths(d: Entries<Option<int>>, praw: Context): (r: Result<Entries<Option<int>>>)
    ensures r.Ok? ==> Keys(r.value) == Keys(d)
  {
    if |praw| == 0 then Ok(d)
    else
      match FillLengths(d, praw[..|praw| - 1])
      case Err(e) => Err(e)
      case Ok(d') => FillOne(d', praw[|praw| - 1].0, praw[|praw| - 1].1)
  }

  /** `_getflens(st, praw)`. */
  function Flens(st: Struct, praw: Context): Result<Entries<Option<int>>>
  {
    FillLengths(StaticSizes(st), praw)
  }

  /** The loop of `_get_start_byte`: add up the entries before `field`
      (all of them when it is absent); None in the sum is a TypeError. */
  function SumBefore(flens: Entries<Option<int>>, field: string): (r: Result<int>)
    ensures r.Ok? && (forall i :: 0 <= i < |flens| ==> flens[i].1.Some? && flens[i].1.value >= 0) ==> r.value >= 0
  {
    if |flens| == 0 then Ok(0)
    else if flens[0].0 == field then Ok(0)
    else if flens[0].1.None? then Err(TypeError)
    else
      match SumBefore(flens[1..], field)
      case Err(e) => Err(e)
      case Ok(rest) => Ok(flens[0].1.value + rest)
  }

  /** `_get_start_byte(st, praw, field)`. */
  function StartByte(st: Struct, praw: Context, field: string): Result<int>
  {
    match Flens(st, praw)
    case Err(e) => Err(e)
    case Ok(fl) => SumBefore(fl, field)
  }

  // ---------------------------------------------------------------------
  // For well-formed structs the start byte is where the parse read the field
  // ---------------------------------------------------------------------

  function PieceEntries(ps: seq<Piece>): (r: Context)
    ensures |r| == |ps| && forall i :: 0 <= i < |ps| ==> r[i] == (ps[i].name, ps[i].value)
  {
    if |ps| == 0 then [] else PieceEntries(ps[..|ps| - 1]) + [(ps[|ps| - 1].name, ps[|ps| - 1].value)]
  }

  /** With distinct names each assignment appends: the context lists the pieces in order. */
  lemma {:induction false} ToContextDistinct(ps: seq<Piece>)
    requires forall i, j :: 0 <= i < j < |ps| ==> ps[i].name != ps[j].name
    ensures ToContext(ps) == PieceEntries(ps)
  {
    if |ps| > 0 {
      var q := ps[..|ps| - 1];
      var last := ps[|ps| - 1];
      ToContextDistinct(q);
      assert last.name !in Keys(PieceEntries(q)) by {
        forall a | 0 <= a < |q| ensures Keys(PieceEntries(q))[a] != last.name {
          assert Keys(PieceEntries(q))[a] == ps[a].name;
        }
      }
      PutAbsent(PieceEntries(q), last.name, last.value);
      assert ToContext(ps) == Put(ToContext(q), last.name, last.value);
      assert PieceEntries(ps) == PieceEntries(q) + [(last.name, last.value)];
    }
  }

  function SizeEntries(st: Struct): (r: Entries<Option<int>>)
    ensures |r| == |st| && forall i :: 0 <= i < |st| ==> r[i] == (st[i].name, StaticSize(st[i]))
  {
    if |st| == 0 then [] else SizeEntries(st[..|st| - 1]) + [(st[|st| - 1].name, StaticSize(st[|st| - 1]))]
  }

  lemma {:induction false} StaticSizesDistinct(st: Struct)
    requires Distinct(Names(st))
    ensures StaticSizes(st) == SizeEntries(st)
  {
    if |st| > 0 {
      var q := st[..|st| - 1];
      var last := st[|st| - 1];
      assert Distinct(Names(q)) by {
        forall a, b | 0 <= a < b < |q| ensures Names(q)[a] != Names(q)[b] {
          assert Names(st)[a] != Names(st)[b];
        }
      }
      StaticSizesDistinct(q);
      assert last.name !in Keys(SizeEntries(q)) by {
        forall a | 0 <= a < |q| ensures Keys(SizeEntries(q))[a] != last.name {
          assert Names(st)[a] != Names(st)[|st| - 1];
        }
      }
      PutAbsent(SizeEntries(q), last.name, StaticSize(last));
    }
  }

  /** The width `_getflens` settles on for one parsed segment. */
  function Filled(size: Option<int>, p: Piece): Option<int>
  {
    if Falsy(size) then Some(if p.value.PBytes? then |p.value.b| else 0) else size
  }

  /** One step of the second loop on an entry present at index `i`. */
  lemma FillOneAt(d: Entries<Option<int>>, i: nat, p: Piece)
    requires Valid(d) && i < |d| && d[i].0 == p.name
    requires Falsy(d[i].1) ==> p.value.PBytes?
    ensures FillOne(d, p.name, p.value) == Ok(d[i := (d[i].0, Filled(d[i].1, p))])
  {
    GetAt(d, i);
    if Falsy(d[i].1) {
      PutAt(d, i, Some(|p.value.b|));
    } else {
      assert d[i := (d[i].0, d[i].1)] == d;
    }
  }

  /** The second loop over `n` pieces is the loop over `n - 1` and one more step. */
  lemma FillLengthsStep(d: Entries<Option<int>>, ps: seq<Piece>, n: nat, prev: Entries<Option<int>>)
    requires 0 < n <= |ps|
    requires FillLengths(d, PieceEntries(ps)[..n - 1]) == Ok(prev)
    ensures FillLengths(d, PieceEntries(ps)[..n]) == FillOne(prev, ps[n - 1].name, ps[n - 1].value)
  {
    var praw := PieceEntries(ps)[..n];
    assert praw[..n - 1] == PieceEntries(ps)[..n - 1];
    assert praw[n - 1] == (ps[n - 1].name, ps[n - 1].value);
  }

  /** The second loop over the first `n` pieces fills exactly the first `n` entries. */
  lemma {:induction false} FillLengthsPrefix(d: Entries<Option<int>>, ps: seq<Piece>, n: nat)
    requires Valid(d) && |d| == |ps| && n <= |ps|
    requires forall i :: 0 <= i < |ps| ==> d[i].0 == ps[i].name
    requires forall i :: 0 <= i < |ps| ==> Falsy(d[i].1) ==> ps[i].value.PBytes?
    ensures FillLengths(d, PieceEntries(ps)[..n]).Ok?
    ensures var r := FillLengths(d, PieceEntries(ps)[..n]).value;
      |r| == |d| && forall i :: 0 <= i < |d| ==> r[i] == if i < n then (d[i].0, Filled(d[i].1, ps[i])) else d[i]
  {
    if n == 0 {
      assert PieceEntries(ps)[..n] == [];
    } else {
      FillLengthsPrefix(d, ps, n - 1);
      var prev := FillLengths(d, PieceEntries(ps)[..n - 1]).value;
      FillLengthsStep(d, ps, n, prev);
      var p := ps[n - 1];
      assert prev[n - 1] == d[n - 1];
      assert Keys(prev) == Keys(d);
      FillOneAt(prev, n - 1, p);
      var r := prev[n - 1 := (prev[n - 1].0, Filled(prev[n - 1].1, p))];
      assert FillLengths(d, PieceEntries(ps)[..n]) == Ok(r);
      FilledOneMore(d, ps, n, prev);
    }
  }

  /** Filling entry `n - 1` of a map whose first `n - 1` entries are filled. */
  lemma FilledOneMore(d: Entries<Option<int>>, ps: seq<Piece>, n: nat, prev: Entries<Option<int>>)
    requires |d| == |ps| && 0 < n <= |ps| && |prev| == |d|
    requires forall i :: 0 <= i < |d| ==> prev[i] == if i < n - 1 then (d[i].0, Filled(d[i].1, ps[i])) else d[i]
    ensures var r := prev[n - 1 := (prev[n - 1].0, Filled(prev[n - 1].1, ps[n - 1]))];
      forall i :: 0 <= i < |d| ==> r[i] == if i < n then (d[i].0, Filled(d[i].1, ps[i])) else d[i]
  {
  }

  /** For a well-formed struct whose parse succeeded, every entry of
      `_getflens` is the width the parse gave that segment. */
  lemma FlensAreWidths(st: Struct, raw: bytes)
    requires WellFormed(st)
    requires ParsePieces(st, raw).Ok?
    ensures var ps := ParsePieces(st, raw).value;
      var fl := Flens(st, ToContext(ps));
      && fl.Ok? && |fl.value| == |st|
      && forall i :: 0 <= i < |st| ==> fl.value[i] == (st[i].name, Some(ps[i].width as int))
  {
    var ps := ParsePieces(st, raw).value;
    PiecesDistinct(st, raw);
    ToContextDistinct(ps);
    StaticSizesDistinct(st);
    var d := SizeEntries(st);
    assert Keys(d) == Names(st);
    forall i | 0 <= i < |ps|
      ensures d[i].0 == ps[i].name && (Falsy(d[i].1) ==> ps[i].value.PBytes?)
      ensures Filled(d[i].1, ps[i]) == Some(ps[i].width as int)
    {
      ParsedPiece(st, raw, i);
      FilledIsWidth(st[i], ps[i], ps[..i], raw);
    }
    FillLengthsPrefix(d, ps, |ps|);
    assert PieceEntries(ps)[..|ps|] == PieceEntries(ps);
  }

  /** Each piece carries its segment's name. */
  lemma PieceNames(st: Struct, raw: bytes)
    requires ParsePieces(st, raw).Ok?
    ensures var ps := ParsePieces(st, raw).value;
      forall i :: 0 <= i < |ps| ==> ps[i].name == st[i].name
  {
    var ps := ParsePieces(st, raw).value;
    forall i | 0 <= i < |ps| ensures ps[i].name == st[i].name {
      ParsedPiece(st, raw, i);
    }
  }

  /** The pieces of a well-formed struct's parse have distinct names. */
  lemma PiecesDistinct(st: Struct, raw: bytes)
    requires WellFormed(st)
    requires ParsePieces(st, raw).Ok?
    ensures var ps := ParsePieces(st, raw).value;
      forall i, j :: 0 <= i < j < |ps| ==> ps[i].name != ps[j].name
  {
    var ps := ParsePieces(st, raw).value;
    PieceNames(st, raw);
    forall i, j | 0 <= i < j < |ps| ensures ps[i].name != ps[j].name {
      assert Names(st)[i] != Names(st)[j];
    }
  }

  lemma FilledIsWidth(seg: Segment, p: Piece, before: seq<Piece>, raw: bytes)
    requires seg.Num? ==> seg.size >= 1
    requires PieceOf(seg, p, before, raw)
    ensures Filled(StaticSize(seg), p) == Some(p.width as int)
  {
    if seg.Blob? && Closed(seg.width) {
      EvalClosed(seg.width, ToContext(before));
    }
  }

  /** Adding up entries that are the pieces' widths gives the offset of the named piece. */
  lemma {:induction false} SumBeforeOffset(fl: Entries<Option<int>>, ps: seq<Piece>, j: nat)
    requires |fl| == |ps| && j < |ps|
    requires forall a, b :: 0 <= a < b < |ps| ==> ps[a].name != ps[b].name
    requires forall i :: 0 <= i < |ps| ==> fl[i] == (ps[i].name, Some(ps[i].width as int))
    ensures SumBefore(fl, ps[j].name) == Ok(Offset(ps[..j]) as int)
  {
    if j > 0 {
      assert fl[0].0 != ps[j].name;
      SumBeforeOffset(fl[1..], ps[1..], j - 1);
      assert ps[1..][..j - 1] == ps[..j][1..];
    }
  }

  /** The start byte `_get_start_byte` computes for a segment of a
      well-formed struct is exactly where the parse began reading it. */
  lemma StartByteIsOffset(st: Struct, raw: bytes, j: nat)
    requires WellFormed(st)
    requires ParsePieces(st, raw).Ok?
    requires j < |st|
    ensures var ps := ParsePieces(st, raw).value;
      StartByte(st, ToContext(ps), st[j].name) == Ok(Offset(ps[..j]) as int)
  {
    var ps := ParsePieces(st, raw).value;
    FlensAreWidths(st, raw);
    PiecesDistinct(st, raw);
    PieceNames(st, raw);
    var fl := Flens(st, ToContext(ps)).value;
    SumBeforeOffset(fl, ps, j);
  }

  /** With distinct names, the context binds each piece's name to its value. */
  lemma PieceBound(ps: seq<Piece>, j: nat)
    requires forall a, b :: 0 <= a < b < |ps| ==> ps[a].name != ps[b].name
    requires j < |ps|
    ensures Get(ToContext(ps), ps[j].name) == Some(ps[j].value)
  {
    ToContextDistinct(ps);
    var e := PieceEntries(ps);
    forall a | 0 <= a < |ps| ensures Keys(e)[a] == ps[a].name {
      assert e[a] == (ps[a].name, ps[a].value);
    }
    assert Valid(e);
    GetAt(e, j);
  }

  /** In the parsed context, a blob segment of a well-formed struct is bound
      to the bytes of its width from where the parse began reading it. */
  lemma BlobValueAt(st: Struct, raw: bytes, j: nat)
    requires WellFormed(st)
    requires ParsePieces(st, raw).Ok?
    requires j < |st| && st[j].Blob?
    ensures var ps := ParsePieces(st, raw).value;
      var start := Offset(ps[..j]);
      && start + ps[j].width <= |raw|
      && Get(ToContext(ps), st[j].name) == Some(PBytes(raw[start..start + ps[j].width]))
  {
    var ps := ParsePieces(st, raw).value;
    PiecesDistinct(st, raw);
    ParsedPiece(st, raw, j);
    PieceBound(ps, j);
  }

  /** Where a struct field lies after parsing the buffer with its struct:
      the start byte `_get_start_byte` computes and the value the parse
      bound to the field (KeyError when it binds nothing). */
  function Locate(st: Struct, buf: bytes, key: string): Result<(int, Parsed)>
  {
    match Parse(st, buf)
    case Err(e) => Err(e)
    case Ok(ctx) =>
      match StartByte(st, ctx, key)
      case Err(e) => Err(e)
      case Ok(start) =>
        match Get(ctx, key)
        case None => Err(KeyError)
        case Some(p) => Ok((start, p))
  }
}

=== FILE: template.dfy ===
/** The template of the newer generation (`build/lib/polymorph/template.py`):
    one ordered map of user functions, run in order, and an ordered
    registry of layers keyed by upper-case name, where a colliding layer
    name is made unique by counting up its last digit. The serialised
    functions are left abstract (`F`). */
module Templates {
  import opened Wrappers
  import opened Bytes
  import opened Text
  import opened OrderedMap
  import opened Converter
  import opened Packets

  datatype Template<F> = Template(
    name: string,
    description: string,
    version: string,
    functions: Entries<F>,
    layers: Entries<TemplateLayer>)

  /** `Template(name, description=..., version=..., layers=...)`: no
      functions; the given layers, or none. */
  function NewTemplate<F>(name: string, description: string, version: string, layers: Entries<TemplateLayer>): (t: Template<F>)
    ensures t.functions == [] && Keys(t.functions) == []
    ensures t.layers == layers && t.description == description && t.version == version
  {
    Template(name, description, version, [], layers)
  }

  /** The `description` setter: TypeError unless the value is a str. */
  function SetDescription<F>(t: Template<F>, value: Repr): (r: Result<Template<F>>)
    ensures r.Ok? <==> value.RText?
    ensures r.Err? ==> r.error == TypeError
    ensures r.Ok? ==> r.value.description == value.s && r.value == t.(description := value.s)
  {
    match TextOnly(value)
    case Err(e) => Err(e)
    case Ok(s) => Ok(t.(description := s))
  }

  /** The `version` setter: TypeError unless the value is a str. */
  function SetVersion<F>(t: Template<F>, value: Repr): (r: Result<Template<F>>)
    ensures r.Ok? <==> value.RText?
    ensures r.Err? ==> r.error == TypeError
    ensures r.Ok? ==> r.value.version == value.s && r.value == t.(version := value.s)
  {
    match TextOnly(value)
    case Err(e) => Err(e)
    case Ok(s) => Ok(t.(version := s))
  }

  // ---------------------------------------------------------------------
  // Functions
  // ---------------------------------------------------------------------

  /** `add_function(name, func)`. */
  function AddFunction<F>(t: Template<F>, name: string, f: F): (r: Template<F>)
    ensures Get(r.functions, name) == Some(f)
    ensures r == t.(functions := r.functions)
  {
    PutGet(t.functions, name, f, name);
    t.(functions := Put(t.functions, name, f))
  }

  /** `del_function(name)`: KeyError when the name is absent; otherwise
      only that function goes and the others keep order and value. */
  function DelFunction<F>(t: Template<F>, name: string): (r: Result<Template<F>>)
    ensures r.Err? <==> name !in Keys(t.functions)
    ensures r.Err? ==> r.error == KeyError
    ensures r.Ok? ==> Keys(r.value.functions) == Without(Keys(t.functions), name)
    ensures r.Ok? ==> forall k :: k != name ==> Get(r.value.functions, k) == Get(t.functions, k)
  {
    match Pop(t.functions, name)
    case Err(e) => Err(e)
    case Ok(m) => Ok(t.(functions := m))
  }

  /** `change_func_pos(element, index)`: ValueError when the function is absent. */
  function ChangeFuncPos<F>(t: Template<F>, element: string, index: int): (r: Result<Template<F>>)
    ensures r.Err? <==> element !in Keys(t.functions)
    ensures r.Err? ==> r.error == ValueError
  {
    match MoveTo(t.functions, element, index)
    case Err(e) => Err(e)
    case Ok(m) => Ok(t.(functions := m))
  }

  /** Moving puts the function at the clamped index, keeps the relative
      order of the others and every function's value. */
  lemma ChangeFuncPosMoves<F>(t: Template<F>, element: string, index: int, k: string)
    requires Valid(t.functions) && element in Keys(t.functions)
    ensures ChangeFuncPos(t, element, index).Ok?
    ensures var moved := ChangeFuncPos(t, element, index).value.functions;
      && Valid(moved) && |moved| == |t.functions|
      && Keys(moved)[Clamp(index, |t.functions| - 1)] == element
      && Without(Keys(moved), element) == Without(Keys(t.functions), element)
      && Get(moved, k) == Get(t.functions, k)
  {
    MoveToOrder(t.functions, element, index);
    MoveToValues(t.functions, element, index, k);
  }

  // ---------------------------------------------------------------------
  // _new_lname
  // ---------------------------------------------------------------------

  /** The value of the last character when it is a digit, else 0. */
  function LastDigit(s: string): nat
  {
    if |s| > 0 && IsDigit(s[|s| - 1]) then s[|s| - 1] as nat - '0' as nat else 0
  }

  /** A measure every renaming step increases: ten per character plus
      the last digit. */
  function Rank(s: string): nat
  {
    10 * |s| + LastDigit(s)
  }

  /** `str(d)` for one digit more than a digit: one character, except for 10. */
  lemma NumeralOfSmall(n: nat)
    requires 1 <= n <= 10
    ensures n < 10 ==> DecimalNumeral(n) == ['0' + n as char]
    ensures n == 10 ==> DecimalNumeral(n) == "10"
  {
  }

  /** One step of the renaming: a trailing digit d becomes `str(d + 1)`,
      anything else gets `2` appended. Everything before the last
      character is kept. */
  function Bump(lname: string): (r: string)
    requires |lname| > 0
    ensures Rank(r) > Rank(lname)
    ensures |r| > 0 && r[..|lname| - 1] == lname[..|lname| - 1]
  {
    var c := lname[|lname| - 1];
    var prefix := lname[..|lname| - 1];
    if IsDigit(c) then
      var d := c as nat - '0' as nat;
      NumeralOfSmall(d + 1);
      var r := prefix + DecimalNumeral(d + 1);
      assert r[..|lname| - 1] == prefix;
      r
    else
      var r := lname + "2";
      assert r[..|lname| - 1] == prefix;
      r
  }

  /** The longest key. */
  function MaxLen(keys: seq<Key>): (n: nat)
    ensures forall i :: 0 <= i < |keys| ==> |keys[i]| <= n
  {
    if |keys| == 0 then 0
    else
      var m := MaxLen(keys[1..]);
      if |keys[0]| > m then |keys[0]| else m
  }

  /** `_new_lname(lname, keys)`: the name itself when it is free, otherwise
      the first free name of the renaming steps. An empty name that is taken
      has no last character (IndexError). */
  function NewLname(lname: string, keys: seq<Key>): (r: Result<string>)
    ensures r.Err? <==> lname == [] && [] in keys
    ensures r.Err? ==> r.error == IndexError
    ensures r.Ok? ==> r.value !in keys
    ensures lname !in keys ==> r == Ok(lname)
    ensures r.Ok? ==> Rank(r.value) >= Rank(lname)
    ensures r.Ok? && |lname| > 0 ==> |r.value| >= |lname| - 1 && r.value[..|lname| - 1] == lname[..|lname| - 1]
    decreases 10 * MaxLen(keys) + 10 - Rank(lname)
  {
    if lname !in keys then Ok(lname)
    else if |lname| == 0 then Err(IndexError)
    else
      var next := Bump(lname);
      assert |lname| <= MaxLen(keys) by {
        var i :| 0 <= i < |keys| && keys[i] == lname;
      }
      var r := NewLname(next, keys);
      assert r.Ok? ==> r.value[..|lname| - 1] == next[..|lname| - 1];
      r
  }

  /** The renaming as the source's docstring example has it: `X9` taken gives `X10`. */
  lemma NewLnameNine()
    ensures NewLname("X9", ["X9"]) == Ok("X10")
  {
    NumeralOfSmall(10);
    assert Bump("X9") == "X10";
  }

  /** A name without a trailing digit gets `2`, then `3`, … : with `IP` and
      `IP2` taken the result is `IP3`. */
  lemma NewLnameCounts()
    ensures NewLname("IP", ["IP", "IP2"]) == Ok("IP3")
  {
    assert Bump("IP") == "IP2";
    NumeralOfSmall(3);
    assert Bump("IP2") == "IP3";
  }

  // ---------------------------------------------------------------------
  // Layers
  // ---------------------------------------------------------------------

  /** `layernames()`. */
  function LayerNames<F>(t: Template<F>): (r: seq<string>)
    ensures |r| == |t.layers|
  {
    Keys(t.layers)
  }

  /** `addlayer(layer)`: a fresh name is stored as is; on a collision the
      layer is renamed to the `_new_lname` result and stored under it. */
  function AddLayer<F>(t: Template<F>, layer: TemplateLayer): (r: Result<Template<F>>)
    ensures r.Err? <==> layer.name == [] && [] in Keys(t.layers)
    ensures r.Ok? ==> r.value == t.(layers := r.value.layers)
  {
    if layer.name !in Keys(t.layers) then Ok(t.(layers := Put(t.layers, layer.name, layer)))
    else
      match NewLname(layer.name, Keys(t.layers))
      case Err(e) => Err(e)
      case Ok(n) => Ok(t.(layers := Put(t.layers, n, layer.(name := n))))
  }

  /** Adding never disturbs an existing layer: the new one is appended
      after all of them, under a name no layer had, and carries that name. */
  lemma AddLayerAppends<F>(t: Template<F>, layer: TemplateLayer)
    requires AddLayer(t, layer).Ok?
    ensures exists key ::
      && key !in Keys(t.layers)
      && AddLayer(t, layer).value.layers == t.layers + [(key, layer.(name := key))]
  {
    if layer.name !in Keys(t.layers) {
      PutAbsent(t.layers, layer.name, layer);
      assert layer.(name := layer.name) == layer;
    } else {
      var n := NewLname(layer.name, Keys(t.layers)).value;
      PutAbsent(t.layers, n, layer.(name := n));
    }
  }

  /** The argument of `dellayer`: a layer object, a name, or anything else. */
  datatype LayerRef = ByLayer(layer: TemplateLayer) | ByName(text: string) | Neither

  /** `dellayer(layer)`: pops the layer's name for a layer and the
      upper-cased text for a string (KeyError when absent); any other
      argument changes nothing. */
  function DelLayer<F>(t: Template<F>, arg: LayerRef): (r: Result<Template<F>>)
    ensures arg.Neither? ==> r == Ok(t)
    ensures r.Ok? ==> r.value == t.(layers := r.value.layers)
  {
    match arg
    case ByLayer(l) =>
      (match Pop(t.layers, l.name)
       case Err(e) => Err(e)
       case Ok(m) => Ok(t.(layers := m)))
    case ByName(s) =>
      (match Pop(t.layers, Upper(s))
       case Err(e) => Err(e)
       case Ok(m) => Ok(t.(layers := m)))
    case Neither => Ok(t)
  }

  /** The key `dellayer` removes for a layer or a name. */
  function DelKey(arg: LayerRef): string
    requires !arg.Neither?
  {
    if arg.ByLayer? then arg.layer.name else Upper(arg.text)
  }

  /** Deleting fails exactly for an absent key; otherwise only that layer
      goes and the others keep their order and values. */
  lemma DelLayerRemoves<F>(t: Template<F>, arg: LayerRef, k: string)
    requires !arg.Neither?
    ensures DelLayer(t, arg).Err? <==> DelKey(arg) !in Keys(t.layers)
    ensures DelLayer(t, arg).Err? ==> DelLayer(t, arg).error == KeyError
    ensures DelLayer(t, arg).Ok? ==>
      && Keys(DelLayer(t, arg).value.layers) == Without(Keys(t.layers), DelKey(arg))
      && (k != DelKey(arg) ==> Get(DelLayer(t, arg).value.layers, k) == Get(t.layers, k))
  {
  }

  /** `islayer(name)`: membership of `name.upper()`. */
  predicate IsLayer<F>(t: Template<F>, layername: string)
  {
    Upper(layername) in Keys(t.layers)
  }

  /** `getlayer(name)` (and `template[name]`): the layer under
      `name.upper()`, None when absent. */
  function GetLayer<F>(t: Template<F>, layername: string): (r: Option<TemplateLayer>)
    ensures r.Some? <==> IsLayer(t, layername)
    ensures r.Some? ==> (Upper(layername), r.value) in t.layers
  {
    if IsLayer(t, layername) then Get(t.layers, Upper(layername)) else None
  }

  /** Lookup ignores case: names that differ only in case find the same layer. */
  lemma GetLayerCaseInsensitive<F>(t: Template<F>, a: string, b: string)
    requires Upper(a) == Upper(b)
    ensures GetLayer(t, a) == GetLayer(t, b)
  {
  }
}

=== FILE: text.dfy ===
/** Text helpers mirroring the Python `str` and `format` behaviour the
    source relies on: hexadecimal and decimal numerals, `bytes.hex` and
    `bytes.fromhex`, `int()` parsing, ASCII case mapping, `split`/`join`,
    `strip` and substring search. */
module Text {
  import opened Wrappers
  import opened Bytes


  // ---------------------------------------------------------------------
  // Digits
  // ---------------------------------------------------------------------

  function HexDigit(d: nat): (c: char)
    requires d < 16
  {
    if d < 10 then '0' + d as char else 'a' + (d - 10) as char
  }

  /** The value of a hexadecimal digit, upper or lower case. */
  function HexDigitValue(c: char): (r: Option<nat>)
    ensures r.Some? ==> r.value < 16
  {
    if '0' <= c <= '9' then Some(c as int - '0' as int)
    else if 'a' <= c <= 'f' then Some(c as int - 'a' as int + 10)
    else if 'A' <= c <= 'F' then Some(c as int - 'A' as int + 10)
    else None
  }

  lemma HexDigitRoundTrip(d: nat)
    requires d < 16
    ensures HexDigitValue(HexDigit(d)) == Some(d)
  {
  }

  predicate IsDigit(c: char) { '0' <= c <= '9' }

  function Repeat(c: char, n: int): (r: string)
    ensures |r| == if n < 0 then 0 else n
    ensures forall k :: 0 <= k < |r| ==> r[k] == c
  {
    if n <= 0 then [] else [c] + Repeat(c, n - 1)
  }

  // ---------------------------------------------------------------------
  // bytes.hex / bytes.fromhex
  // ---------------------------------------------------------------------

  /** `b.hex()`: two lower-case digits per byte, most significant nibble first. */
  function HexOfBytes(b: bytes): (r: string)
    ensures |r| == 2 * |b|
  {
    if |b| == 0 then []
    else HexOfBytes(b[..|b| - 1]) + [HexDigit(b[|b| - 1] / 16), HexDigit(b[|b| - 1] % 16)]
  }

  /** `bytes.fromhex(s)`: ValueError on an odd digit count or a non-hex character. */
  function FromHex(s: string): (r: Result<bytes>)
    ensures r.Ok? ==> |s| == 2 * |r.value|
    ensures r.Err? ==> r.error == ValueError
  {
    if |s| == 0 then Ok([])
    else if |s| == 1 then Err(ValueError)
    else
      var hi := HexDigitValue(s[|s| - 2]);
      var lo := HexDigitValue(s[|s| - 1]);
      if hi.None? || lo.None? then Err(ValueError)
      else
        match FromHex(s[..|s| - 2])
        case Err(e) => Err(e)
        case Ok(rest) => Ok(rest + [hi.value * 16 + lo.value])
  }

  lemma {:induction false} FromHexOfHex(b: bytes)
    ensures FromHex(HexOfBytes(b)) == Ok(b)
  {
    if |b| > 0 {
      var p := b[..|b| - 1];
      var x := b[|b| - 1];
      var s := HexOfBytes(b);
      HexOfBytesLast(b);
      FromHexOfHex(p);
      HexDigitRoundTrip(x / 16);
      HexDigitRoundTrip(x % 16);
      FromHexStep(s, p, x / 16, x % 16);
      assert b == p + [x];
    }
  }

  lemma HexOfBytesLast(b: bytes)
    requires |b| > 0
    ensures var s := HexOfBytes(b); var x := b[|b| - 1];
      && s[..|s| - 2] == HexOfBytes(b[..|b| - 1])
      && s[|s| - 2] == HexDigit(x / 16) && s[|s| - 1] == HexDigit(x % 16)
  {
  }

  /** The last two digits decode to one more byte after the bytes of the rest. */
  lemma FromHexStep(s: string, p: bytes, hi: nat, lo: nat)
    requires |s| >= 2 && hi < 16 && lo < 16
    requires HexDigitValue(s[|s| - 2]) == Some(hi) && HexDigitValue(s[|s| - 1]) == Some(lo)
    requires FromHex(s[..|s| - 2]) == Ok(p)
    ensures FromHex(s) == Ok(p + [hi * 16 + lo])
  {
  }

  /** The two hex digits of one byte. */
  function ByteHex(x: byte): (r: string)
    ensures |r| == 2
  {
    [HexDigit(x / 16), HexDigit(x % 16)]
  }

  /** The hex digits of `b`, one two-character string per byte. */
  function ByteHexes(b: bytes): (r: seq<string>)
    ensures |r| == |b|
    ensures forall i :: 0 <= i < |b| ==> r[i] == ByteHex(b[i])
  {
    if |b| == 0 then [] else [ByteHex(b[0])] + ByteHexes(b[1..])
  }

  /** `"".join(parts)`. */
  function Concat(parts: seq<string>): string
  {
    if |parts| == 0 then [] else parts[0] + Concat(parts[1..])
  }

  lemma {:induction false} ConcatAppend(parts: seq<string>, x: string)
    ensures Concat(parts + [x]) == Concat(parts) + x
  {
    if |parts| > 0 {
      assert (parts + [x])[1..] == parts[1..] + [x];
      ConcatAppend(parts[1..], x);
    }
  }

  /** `b.hex()` is the concatenation of the per-byte digit pairs. */
  lemma {:induction false} HexOfBytesIsConcat(b: bytes)
    ensures HexOfBytes(b) == Concat(ByteHexes(b))
  {
    if |b| > 0 {
      var p := b[..|b| - 1];
      HexOfBytesIsConcat(p);
      assert ByteHexes(b) == ByteHexes(p) + [ByteHex(b[|b| - 1])];
      ConcatAppend(ByteHexes(p), ByteHex(b[|b| - 1]));
    }
  }

  /** `textwrap.wrap(s, 2)` for a string without whitespace: consecutive
      two-character chunks, the last one possibly shorter; no chunk for "". */
  function Wrap2(s: string): (r: seq<string>)
  {
    if |s| == 0 then [] else if |s| <= 2 then [s] else [s[..2]] + Wrap2(s[2..])
  }

  lemma {:induction false} Wrap2Hex(b: bytes)
    ensures Wrap2(HexOfBytes(b)) == ByteHexes(b)
  {
    HexOfBytesIsConcat(b);
    Wrap2Pairs(b);
  }

  lemma {:induction false} Wrap2Pairs(b: bytes)
    ensures Wrap2(Concat(ByteHexes(b))) == ByteHexes(b)
  {
    if |b| > 0 {
      var c := Concat(ByteHexes(b));
      assert ByteHexes(b)[1..] == ByteHexes(b[1..]);
      assert c == ByteHex(b[0]) + Concat(ByteHexes(b[1..]));
      Wrap2Pairs(b[1..]);
      if |b| == 1 {
        assert c == ByteHex(b[0]);
      } else {
        assert c[..2] == ByteHex(b[0]);
        assert c[2..] == Concat(ByteHexes(b[1..]));
      }
    }
  }

  // ---------------------------------------------------------------------
  // Numerals
  // ---------------------------------------------------------------------

  /** `format(n, 'x')`: lower-case hexadecimal without leading zeros ("0" for 0). */
  function HexNumeral(n: nat): (r: string)
    ensures |r| >= 1
  {
    if n < 16 then [HexDigit(n)] else HexNumeral(n / 16) + [HexDigit(n % 16)]
  }

  /** The `k` least significant hexadecimal digits of `v`, zero padded. */
  function HexFixed(v: nat, k: nat): (r: string)
    ensures |r| == k
  {
    if k == 0 then [] else HexFixed(v / 16, k - 1) + [HexDigit(v % 16)]
  }

  lemma {:induction false} HexFixedZero(k: nat)
    ensures HexFixed(0, k) == Repeat('0', k)
  {
    if k > 0 {
      HexFixedZero(k - 1);
      assert Repeat('0', k) == Repeat('0', k - 1) + ['0'];
    }
  }

  /** Left-padding the short numeral with '0' up to `k` digits gives the fixed-width digits. */
  lemma {:induction false} PaddedHexNumeral(v: nat, k: nat)
    requires k >= 1
    requires v < Pow(16, k)
    ensures |HexNumeral(v)| <= k
    ensures Repeat('0', k - |HexNumeral(v)|) + HexNumeral(v) == HexFixed(v, k)
  {
    if v < 16 {
      HexFixedZero(k - 1);
    } else {
      assert Pow(16, 1) == 16;
      PaddedHexNumeral(v / 16, k - 1);
    }
  }

  /** The hex digits of `BeBytes(v, n)` are the `2n` least significant hex digits of `v`. */
  lemma {:induction false} HexOfBeBytes(v: nat, n: nat)
    ensures HexOfBytes(BeBytes(v, n)) == HexFixed(v, 2 * n)
  {
    if n > 0 {
      var b := BeBytes(v, n);
      assert b[..|b| - 1] == BeBytes(v / 256, n - 1);
      HexOfBeBytes(v / 256, n - 1);
      var d := v % 256;
      assert (v / 16) / 16 == v / 256;
      assert (v / 16) % 16 == d / 16;
      assert v % 16 == d % 16;
      calc {
        HexFixed(v, 2 * n);
        HexFixed(v / 16, 2 * n - 1) + [HexDigit(v % 16)];
        HexFixed((v / 16) / 16, 2 * n - 2) + [HexDigit((v / 16) % 16)] + [HexDigit(v % 16)];
      }
    }
  }

  lemma Pow16Pow256(n: nat)
    ensures Pow(16, 2 * n) == Pow256(n)
  {
    if n > 0 {
      Pow16Pow256(n - 1);
      PowAdd(16, 2, 2 * (n - 1));
    }
  }

  /** `str(n)` for a natural number. */
  function DecimalNumeral(n: nat): (r: string)
    ensures |r| >= 1
    ensures forall k :: 0 <= k < |r| ==> IsDigit(r[k])
  {
    if n < 10 then ['0' + n as char] else DecimalNumeral(n / 10) + ['0' + (n % 10) as char]
  }

  /** The value of a string of ASCII digits (0 for the empty string). */
  function DigitsValue(s: string): nat
    requires forall k :: 0 <= k < |s| ==> IsDigit(s[k])
  {
    if |s| == 0 then 0
    else
      assert IsDigit(s[|s| - 1]);
      DigitsValue(s[..|s| - 1]) * 10 + (s[|s| - 1] as int - '0' as int)
  }

  lemma {:induction false} DigitsValueOfNumeral(n: nat)
    ensures DigitsValue(DecimalNumeral(n)) == n
  {
    if n >= 10 {
      var s := DecimalNumeral(n);
      assert s[..|s| - 1] == DecimalNumeral(n / 10);
      DigitsValueOfNumeral(n / 10);
    }
  }

  /** `str.isdecimal()` restricted to ASCII digits: non-empty and all digits. */
  predicate IsDecimal(s: string)
  {
    |s| > 0 && forall k :: 0 <= k < |s| ==> IsDigit(s[k])
  }

  /** `int(s)` in base 10: an optional sign followed by at least one ASCII digit. */
  function ParseInt(s: string): (r: Option<int>)
    ensures IsDecimal(s) ==> r == Some(DigitsValue(s))
  {
    if |s| > 0 && (s[0] == '-' || s[0] == '+') then
      if IsDecimal(s[1..]) then
        var v: int := if s[0] == '-' then 0 - DigitsValue(s[1..]) as int else DigitsValue(s[1..]);
        Some(v)
      else None
    else if IsDecimal(s) then Some(DigitsValue(s))
    else None
  }

  lemma ParseIntOfNumeral(n: nat)
    ensures ParseInt(DecimalNumeral(n)) == Some(n)
  {
    DigitsValueOfNumeral(n);
  }

  // ---------------------------------------------------------------------
  // Binary numerals: format(n, "0<w>b") and int(s, 2)
  // ---------------------------------------------------------------------

  /** `format(n, 'b')` for a natural number. */
  function BinNumeral(n: nat): (r: string)
    ensures |r| >= 1
  {
    if n < 2 then [if n == 0 then '0' else '1'] else BinNumeral(n / 2) + [if n % 2 == 0 then '0' else '1']
  }

  /** `format(n, "0" + str(w) + "b")`: sign-aware zero padding to at least `w` characters. */
  function BinFormat(n: int, w: nat): string
  {
    if n < 0 then
      var digits := BinNumeral(-n);
      ['-'] + Repeat('0', w - 1 - |digits|) + digits
    else
      var digits := BinNumeral(n);
      Repeat('0', w - |digits|) + digits
  }

  predicate IsBinDigits(s: string)
  {
    forall k :: 0 <= k < |s| ==> s[k] == '0' || s[k] == '1'
  }

  function BinDigitsValue(s: string): nat
    requires IsBinDigits(s)
  {
    if |s| == 0 then 0 else 2 * BinDigitsValue(s[..|s| - 1]) + (if s[|s| - 1] == '1' then 1 else 0)
  }

  /** `int(s, 2)` for strings built from binary digits and an optional leading '-'. */
  function ParseBinary(s: string): (r: Result<int>)
    ensures r.Ok? && |s| > 0 && s[0] != '-' ==> r.value >= 0
  {
    if |s| > 0 && s[0] == '-' then
      if |s| > 1 && IsBinDigits(s[1..]) then Ok(0 - BinDigitsValue(s[1..]) as int) else Err(ValueError)
    else if |s| > 0 && IsBinDigits(s) then Ok(BinDigitsValue(s))
    else Err(ValueError)
  }

  // ---------------------------------------------------------------------
  // str methods
  // ---------------------------------------------------------------------

  function LowerChar(c: char): char
  {
    if 'A' <= c <= 'Z' then (c as int + 32) as char else c
  }

  function UpperChar(c: char): char
  {
    if 'a' <= c <= 'z' then (c as int - 32) as char else c
  }

  /** `s.lower()` (ASCII letters). */
  function Lower(s: string): (r: string)
    ensures |r| == |s|
    ensures forall k :: 0 <= k < |s| ==> r[k] == LowerChar(s[k])
  {
    if |s| == 0 then [] else [LowerChar(s[0])] + Lower(s[1..])
  }

  /** `s.upper()` (ASCII letters). */
  function Upper(s: string): (r: string)
    ensures |r| == |s|
    ensures forall k :: 0 <= k < |s| ==> r[k] == UpperChar(s[k])
  {
    if |s| == 0 then [] else [UpperChar(s[0])] + Upper(s[1..])
  }

  lemma LowerIdempotent(s: string)
    ensures Lower(Lower(s)) == Lower(s)
  {
  }

  lemma UpperIdempotent(s: string)
    ensures Upper(Upper(s)) == Upper(s)
  {
  }

  /** `sep.join(parts)`. */
  function Join(parts: seq<string>, sep: string): string
  {
    if |parts| == 0 then []
    else if |parts| == 1 then parts[0]
    else parts[0] + sep + Join(parts[1..], sep)
  }

  /** `s.split(c)` for a one-character separator: always at least one part. */
  function Split(s: string, c: char): (r: seq<string>)
    ensures |r| >= 1
    ensures forall k :: 0 <= k < |r| ==> c !in r[k]
    decreases |s|
  {
    if |s| == 0 then [[]]
    else
      var rest := Split(s[1..], c);
      if s[0] == c then [[]] + rest
      else [[s[0]] + rest[0]] + rest[1..]
  }

  /** `s.replace(c, "")`. */
  function RemoveChar(s: string, c: char): (r: string)
    ensures c !in r
  {
    if |s| == 0 then [] else (if s[0] == c then [] else [s[0]]) + RemoveChar(s[1..], c)
  }

  /** `s.lstrip(c)`. */
  function LStrip(s: string, c: char): (r: string)
    ensures |r| == 0 || r[0] != c
  {
    if |s| > 0 && s[0] == c then LStrip(s[1..], c) else s
  }

  /** `s.rstrip(c)`. */
  function RStrip(s: string, c: char): (r: string)
    ensures |r| <= |s|
    ensures |r| == 0 || r[|r| - 1] != c
  {
    if |s| > 0 && s[|s| - 1] == c then RStrip(s[..|s| - 1], c) else s
  }

  /** `s.strip(c)`: remove `c` from both ends. */
  function Strip(s: string, c: char): (r: string)
    ensures |r| == 0 || (r[0] != c && r[|r| - 1] != c)
  {
    var l := LStrip(s, c);
    var r := RStrip(l, c);
    assert |r| > 0 ==> r == l[..|r|] by { RStripPrefix(l, c); }
    r
  }

  lemma {:induction false} RStripPrefix(s: string, c: char)
    ensures |RStrip(s, c)| <= |s|
    ensures RStrip(s, c) == s[..|RStrip(s, c)|]
  {
    if |s| > 0 && s[|s| - 1] == c {
      RStripPrefix(s[..|s| - 1], c);
    }
  }

  /** `needle in hay` for strings. */
  predicate Contains(hay: string, needle: string)
  {
    exists i :: 0 <= i <= |hay| - |needle| && OccursAt(hay, needle, i)
  }

  predicate OccursAt(hay: string, needle: string, i: int)
  {
    0 <= i <= |hay| - |needle| && hay[i..i + |needle|] == needle
  }

  /** `s.startswith(p)` spelled as the source does: `s[:len(p)] == p`. */
  predicate StartsWith(s: string, p: string)
  {
    PyTo(s, |p|) == p
  }

  /** `s.replace(c, "")` distributes over concatenation. */
  lemma {:induction false} RemoveCharConcat(a: string, b: string, c: char)
    ensures RemoveChar(a + b, c) == RemoveChar(a, c) + RemoveChar(b, c)
  {
    if |a| > 0 {
      assert (a + b)[0] == a[0];
      assert (a + b)[1..] == a[1..] + b;
      RemoveCharConcat(a[1..], b, c);
    } else {
      assert a + b == b;
    }
  }

  lemma {:induction false} RemoveCharAbsent(s: string, c: char)
    requires c !in s
    ensures RemoveChar(s, c) == s
  {
    if |s| > 0 {
      RemoveCharAbsent(s[1..], c);
      assert s == [s[0]] + s[1..];
    }
  }

  /** Removing the separator from the joined parts concatenates them. */
  lemma {:induction false} RemoveCharJoin(parts: seq<string>, c: char)
    requires forall k :: 0 <= k < |parts| ==> c !in parts[k]
    ensures RemoveChar(Join(parts, [c]), c) == Concat(parts)
  {
    if |parts| == 1 {
      RemoveCharAbsent(parts[0], c);
      assert Concat(parts) == parts[0] + Concat([]);
    } else if |parts| > 1 {
      RemoveCharJoin(parts[1..], c);
      RemoveCharConcat(parts[0] + [c], Join(parts[1..], [c]), c);
      RemoveCharConcat(parts[0], [c], c);
      RemoveCharAbsent(parts[0], c);
    }
  }

  lemma {:induction false} SplitNoSep(p: string, c: char)
    requires c !in p
    ensures Split(p, c) == [p]
  {
    if |p| > 0 {
      SplitNoSep(p[1..], c);
      assert [p[0]] + p[1..] == p;
    }
  }

  lemma {:induction false} SplitAtSep(p: string, rest: string, c: char)
    requires c !in p
    ensures Split(p + [c] + rest, c) == [p] + Split(rest, c)
  {
    var s := p + [c] + rest;
    if |p| == 0 {
      assert s[0] == c && s[1..] == rest;
    } else {
      assert s[0] == p[0];
      assert s[1..] == p[1..] + [c] + rest;
      SplitAtSep(p[1..], rest, c);
      assert [p[0]] + p[1..] == p;
    }
  }

  /** Splitting the joined parts on the separator gives the parts back. */
  lemma {:induction false} SplitJoin(parts: seq<string>, c: char)
    requires |parts| >= 1
    requires forall k :: 0 <= k < |parts| ==> c !in parts[k]
    ensures Split(Join(parts, [c]), c) == parts
  {
    if |parts| == 1 {
      SplitNoSep(parts[0], c);
    } else {
      SplitJoin(parts[1..], c);
      SplitAtSep(parts[0], Join(parts[1..], [c]), c);
      assert [parts[0]] + parts[1..] == parts;
    }
  }
}

=== FILE: tfield.dfy ===
/** A template field (`build/lib/polymorph/tfield.py`): its lower-cased
    name, its slice of the packet, and the type and representation the
    dissector's declared type, text and mask lead to. */
module Fields {
  import opened Wrappers
  import opened Bytes
  import opened Text
  import opened Bits
  import opened BitFields
  import opened FieldTypes
  import opened Converter

  /** What inference reads from the layer the field is added to: the slice
      and mask of the layer's last field, if it has one. */
  datatype PrevField = PrevField(slice: Slice, mask: nat)

  datatype TField = TField(
    name: string,
    slice: Slice,
    pktRaw: bytes,
    fraw: bytes,
    ttype: int,
    trepr: string,
    size: nat,
    mask: nat,
    frepr: Repr,
    ftype: Ftype)

  /** The outcome of type inference: type, representation and (possibly complemented) mask. */
  datatype Inferred = Inferred(ftype: Ftype, frepr: Repr, mask: nat)

  /** The fallback every failed or unlisted inference ends in. */
  function HexFallback(fraw: bytes, fmask: nat): Inferred
  {
    Inferred(Hex, RText(RawToHex(fraw)), fmask)
  }

  /** The dissector types read as numbers. */
  predicate IntLike(t: Ttype)
  {
    t in {TUint8, TUint16, TUint24, TUint32, TUint40, TUint48, TUint56, TUint64,
          TInt8, TInt16, TInt24, TInt32, TInt40, TInt48, TInt56, TInt64,
          TIeee11073Sfloat, TIeee11073Float, TFloat, TDouble, TBoolean}
  }

  predicate StringLike(t: Ttype)
  {
    t in {TChar, TString, TStringz, TUintString}
  }

  predicate BytesLike(t: Ttype)
  {
    t in {TBytes, TUintBytes, TVines}
  }

  predicate HexLike(t: Ttype)
  {
    t in {TIpxnet, TPcre, TGuid, TOid, TAx25, TRelOid, TSystemId, TStringzpad,
          TFcwwn, TNumTypes, TFramenum, THex, TProtocol}
  }

  /** `int(trepr)`: ValueError for text that is not a decimal integer. */
  function IntOfText(trepr: string): (r: Result<int>)
    ensures r.Ok? <==> ParseInt(trepr).Some?
    ensures r.Ok? ==> r.value == ParseInt(trepr).value
    ensures r.Err? ==> r.error == ValueError
  {
    match ParseInt(trepr)
    case None => Err(ValueError)
    case Some(n) => Ok(n)
  }

  /** The number branch: a mask wins, then a "0x" text, then the byte order
      whose value matches the text, then a bit field sharing the previous
      field's bytes, and finally hex. */
  function InferNumber(fraw: bytes, fsize: nat, fmask: nat, trepr: string,
                       prev: Option<PrevField>, fslice: Slice): (r: Result<Inferred>)
  {
    if fmask != 0 then
      Ok(Inferred(BinBe, RInt(RawToBin(fraw, fmask, fsize, Big)), fmask))
    else if PyTo(trepr, 2) == "0x" then
      Ok(HexFallback(fraw, fmask))
    else
      var n :- IntOfText(trepr);
      if BeValue(fraw) == n then Ok(Inferred(IntBe, RInt(BeValue(fraw)), fmask))
      else if LeValue(fraw) == n then Ok(Inferred(IntLe, RInt(LeValue(fraw)), fmask))
      else if prev.Some? && prev.value.slice == fslice then
        var vm :- RawToMaskBin(fraw, prev.value.mask, fsize, Big);
        Ok(Inferred(BinBe, RInt(vm.0), vm.1))
      else Ok(HexFallback(fraw, fmask))
  }

  /** `_get_ftype_frepr` once the type code is known; an Err is the exception it raises. */
  function InferFrom(env: Env, t: Ttype, fraw: bytes, fsize: nat, fmask: nat, trepr: string,
                     name: string, prev: Option<PrevField>, fslice: Slice): (r: Result<Inferred>)
  {
    if IntLike(t) then InferNumber(fraw, fsize, fmask, trepr, prev, fslice)
    else if StringLike(t) then
      match RawToString(env, fraw)
      case Err(e) => Err(e)
      case Ok(s) => Ok(Inferred(Str, RText(s), fmask))
    else if BytesLike(t) then Ok(Inferred(ByteString, RBytes(fraw), fmask))
    else if HexLike(t) then Ok(HexFallback(fraw, fmask))
    else if t == TAbsoluteTime then
      match env.absText(fraw, fsize, name)
      case Err(e) => Err(e)
      case Ok(text) =>
        if text.None? then Err(TypeError)   // slicing None
        else if PyTo(text.value, 20) != PyTo(trepr, 20) || |text.value| == 0 then Ok(HexFallback(fraw, fmask))
        else Ok(Inferred(AbsoluteTime, RText(text.value), fmask))
    else if t == TRelativeTime then Ok(Inferred(RelativeTime, RText(RawToRelative(fraw)), fmask))
    else if t == TEther then Ok(Inferred(Ether, RText(RawToEther(fraw)), fmask))
    else if t == TIpv4 then
      var a := RawToIpv4(env, fraw);
      if a.None? || |a.value| == 0 then Ok(HexFallback(fraw, fmask))
      else Ok(Inferred(Ipv4, RText(a.value), fmask))
    else if t == TIpv6 then
      var a := RawToIpv6(env, fraw);
      if a.None? || |a.value| == 0 then Ok(HexFallback(fraw, fmask))
      else Ok(Inferred(Ipv6, RText(a.value), fmask))
    else if t == TEui64 then Ok(Inferred(Eui64, RText(RawToEui64(fraw)), fmask))
    else Ok(HexFallback(fraw, fmask))
  }

  /** Inference as the constructor runs it: an unknown type code or any
      exception on the way yields hex with the mask as given. */
  function Infer(env: Env, ttype: int, fraw: bytes, fsize: nat, fmask: nat, trepr: string,
                 name: string, prev: Option<PrevField>, fslice: Slice): (r: Inferred)
    ensures TtypeOf(ttype).Err? ==> r == HexFallback(fraw, fmask)
    ensures r.ftype != BinBe ==> r.mask == fmask
  {
    match TtypeOf(ttype)
    case Err(_) => HexFallback(fraw, fmask)
    case Ok(t) =>
      match InferFrom(env, t, fraw, fsize, fmask, trepr, name, prev, fslice)
      case Err(_) => HexFallback(fraw, fmask)
      case Ok(i) => i
  }

  /** The representation inference settles on is what the converter decodes
      from the field's bytes under the inferred type and mask. */
  lemma InferIsDecoding(env: Env, ttype: int, fraw: bytes, fsize: nat, fmask: nat, trepr: string,
                        name: string, prev: Option<PrevField>, fslice: Slice)
    ensures var i := Infer(env, ttype, fraw, fsize, fmask, trepr, name, prev, fslice);
      GetFrepr(env, i.ftype, fraw, fsize, i.mask, name) == Ok(i.frepr)
  {
    HexFallbackDecodes(env, fraw, fsize, fmask, name);
    match TtypeOf(ttype)
    case Err(_) =>
    case Ok(t) =>
      InferFromDecodes(env, t, fraw, fsize, fmask, trepr, name, prev, fslice);
  }

  lemma HexFallbackDecodes(env: Env, fraw: bytes, fsize: nat, fmask: nat, name: string)
    ensures var i := HexFallback(fraw, fmask);
      GetFrepr(env, i.ftype, fraw, fsize, i.mask, name) == Ok(i.frepr)
  {
  }

  lemma InferNumberDecodes(env: Env, fraw: bytes, fsize: nat, fmask: nat, trepr: string,
                           name: string, prev: Option<PrevField>, fslice: Slice)
    ensures var r := InferNumber(fraw, fsize, fmask, trepr, prev, fslice);
      r.Ok? ==> GetFrepr(env, r.value.ftype, fraw, fsize, r.value.mask, name) == Ok(r.value.frepr)
  {
    var r := InferNumber(fraw, fsize, fmask, trepr, prev, fslice);
    if fmask != 0 {
      assert r == Ok(Inferred(BinBe, RInt(RawToBin(fraw, fmask, fsize, Big)), fmask));
    } else if PyTo(trepr, 2) == "0x" || ParseInt(trepr).None? {
      HexFallbackDecodes(env, fraw, fsize, fmask, name);
    } else if BeValue(fraw) == ParseInt(trepr).value {
      assert r == Ok(Inferred(IntBe, RInt(BeValue(fraw)), fmask));
      assert RawToIntBe(fraw) == BeValue(fraw);
    } else if LeValue(fraw) == ParseInt(trepr).value {
      assert r == Ok(Inferred(IntLe, RInt(LeValue(fraw)), fmask));
      assert RawToIntLe(fraw) == LeValue(fraw);
    } else if !(prev.Some? && prev.value.slice == fslice) {
      HexFallbackDecodes(env, fraw, fsize, fmask, name);
    } else if fsize > 0 {
      var vm := RawToMaskBin(fraw, prev.value.mask, fsize, Big).value;
      assert r == Ok(Inferred(BinBe, RInt(vm.0), vm.1));
    }
  }

  lemma InferFromDecodes(env: Env, t: Ttype, fraw: bytes, fsize: nat, fmask: nat, trepr: string,
                         name: string, prev: Option<PrevField>, fslice: Slice)
    ensures var r := InferFrom(env, t, fraw, fsize, fmask, trepr, name, prev, fslice);
      r.Ok? ==> GetFrepr(env, r.value.ftype, fraw, fsize, r.value.mask, name) == Ok(r.value.frepr)
  {
    if IntLike(t) {
      InferNumberDecodes(env, fraw, fsize, fmask, trepr, name, prev, fslice);
    } else {
      InferOtherDecodes(env, t, fraw, fsize, fmask, trepr, name, prev, fslice);
    }
  }

  lemma InferOtherDecodes(env: Env, t: Ttype, fraw: bytes, fsize: nat, fmask: nat, trepr: string,
                          name: string, prev: Option<PrevField>, fslice: Slice)
    requires !IntLike(t)
    ensures var r := InferFrom(env, t, fraw, fsize, fmask, trepr, name, prev, fslice);
      r.Ok? ==> GetFrepr(env, r.value.ftype, fraw, fsize, r.value.mask, name) == Ok(r.value.frepr)
  {
    HexFallbackDecodes(env, fraw, fsize, fmask, name);
  }

  /** For number types the choice follows a strict priority. */
  lemma InferNumberPriority(env: Env, ttype: int, fraw: bytes, fsize: nat, fmask: nat, trepr: string,
                            name: string, prev: Option<PrevField>, fslice: Slice)
    requires TtypeOf(ttype).Ok? && IntLike(TtypeOf(ttype).value)
    ensures var i := Infer(env, ttype, fraw, fsize, fmask, trepr, name, prev, fslice);
      && (fmask != 0 ==> i.ftype == BinBe && i.mask == fmask)
      && (i.ftype == IntBe <==> fmask == 0 && PyTo(trepr, 2) != "0x" && ParseInt(trepr) == Some(BeValue(fraw) as int))
      && (i.ftype == IntLe <==> fmask == 0 && PyTo(trepr, 2) != "0x" && ParseInt(trepr) == Some(LeValue(fraw) as int)
                                && LeValue(fraw) != BeValue(fraw))
      && (ParseInt(trepr).None? && fmask == 0 ==> i == HexFallback(fraw, fmask))
  {
  }

  /** With no mask and a number text that matches neither byte order, a field
      sharing the previous field's bytes becomes a bit field under the
      complement of that field's mask; any other such field is hex. */
  lemma InferSharedBits(env: Env, ttype: int, fraw: bytes, fsize: nat, trepr: string,
                        name: string, prev: Option<PrevField>, fslice: Slice)
    requires TtypeOf(ttype).Ok? && IntLike(TtypeOf(ttype).value)
    requires PyTo(trepr, 2) != "0x"
    requires ParseInt(trepr).Some? && ParseInt(trepr).value != BeValue(fraw) && ParseInt(trepr).value != LeValue(fraw)
    requires fsize > 0
    ensures var i := Infer(env, ttype, fraw, fsize, 0, trepr, name, prev, fslice);
      if prev.Some? && prev.value.slice == fslice then
        i.ftype == BinBe && i.mask == Xor(prev.value.mask, Pow2(8 * fsize) - 1)
        && i.frepr == RInt(RawToBin(fraw, i.mask, fsize, Big))
      else i == HexFallback(fraw, 0)
  {
  }

  /** IPv4/IPv6 fields whose bytes have the wrong length degrade to hex. */
  lemma InferAddressLength(env: Env, ttype: int, fraw: bytes, fsize: nat, fmask: nat, trepr: string,
                           name: string, prev: Option<PrevField>, fslice: Slice)
    requires TtypeOf(ttype) == Ok(TIpv4) || TtypeOf(ttype) == Ok(TIpv6)
    ensures var i := Infer(env, ttype, fraw, fsize, fmask, trepr, name, prev, fslice);
      (i.ftype == Ipv4 || i.ftype == Ipv6) ==> |fraw| == (if i.ftype == Ipv4 then 4 else 16)
    ensures TtypeOf(ttype) == Ok(TIpv4) && |fraw| != 4 ==>
      Infer(env, ttype, fraw, fsize, fmask, trepr, name, prev, fslice) == HexFallback(fraw, fmask)
    ensures TtypeOf(ttype) == Ok(TIpv6) && |fraw| != 16 ==>
      Infer(env, ttype, fraw, fsize, fmask, trepr, name, prev, fslice) == HexFallback(fraw, fmask)
  {
  }

  /** An absolute time survives only when its first 20 characters agree with the dissector's text. */
  lemma InferAbsoluteTime(env: Env, ttype: int, fraw: bytes, fsize: nat, fmask: nat, trepr: string,
                          name: string, prev: Option<PrevField>, fslice: Slice)
    requires TtypeOf(ttype) == Ok(TAbsoluteTime)
    ensures var i := Infer(env, ttype, fraw, fsize, fmask, trepr, name, prev, fslice);
      i.ftype == AbsoluteTime <==>
        (env.absText(fraw, fsize, name).Ok? && env.absText(fraw, fsize, name).value.Some?
         && var t := env.absText(fraw, fsize, name).value.value;
            |t| > 0 && PyTo(t, 20) == PyTo(trepr, 20))
    ensures var i := Infer(env, ttype, fraw, fsize, fmask, trepr, name, prev, fslice);
      i.ftype != AbsoluteTime ==> i == HexFallback(fraw, fmask)
  {
  }

  /** `TField.__init__`. With a type but a falsy representation the
      representation is decoded (an exception there propagates); with no
      type it is inferred; otherwise both are stored as given. */
  function NewField(env: Env, fname: string, fslice: Slice, fsize: nat, pktRaw: bytes, trepr: string,
                    ttype: int, tmask: nat, prev: Option<PrevField>,
                    ftype: Option<Ftype>, frepr: Repr): (r: Result<TField>)
    ensures r.Err? ==> ftype.Some? && !Truthy(frepr)
    ensures r.Ok? ==> r.value.name == Lower(fname) && r.value.fraw == SliceOf(pktRaw, fslice)
    ensures r.Ok? && ftype.Some? ==> r.value.ftype == ftype.value && r.value.mask == tmask
    ensures r.Ok? && ftype.Some? && Truthy(frepr) ==> r.value.frepr == frepr
  {
    var name := Lower(fname);
    var fraw := SliceOf(pktRaw, fslice);
    if ftype.Some? && !Truthy(frepr) then
      var v :- GetFrepr(env, ftype.value, fraw, fsize, tmask, fname);
      Ok(TField(name, fslice, pktRaw, fraw, ttype, trepr, fsize, tmask, v, ftype.value))
    else if ftype.None? then
      var i := Infer(env, ttype, fraw, fsize, tmask, trepr, name, prev, fslice);
      Ok(TField(name, fslice, pktRaw, fraw, ttype, trepr, fsize, i.mask, i.frepr, i.ftype))
    else
      Ok(TField(name, fslice, pktRaw, fraw, ttype, trepr, fsize, tmask, frepr, ftype.value))
  }

  /** A field built with a type and no representation holds the converter's decoding. */
  lemma NewFieldDecodes(env: Env, fname: string, fslice: Slice, fsize: nat, pktRaw: bytes, trepr: string,
                        ttype: int, tmask: nat, prev: Option<PrevField>, ftype: Ftype)
    ensures var r := NewField(env, fname, fslice, fsize, pktRaw, trepr, ttype, tmask, prev, Some(ftype), RNone);
      var dec := GetFrepr(env, ftype, SliceOf(pktRaw, fslice), fsize, tmask, fname);
      (r.Ok? <==> dec.Ok?) && (r.Ok? ==> r.value.frepr == dec.value)
  {
  }

  /** Without a type the constructor never fails, and what it infers is a
      decoding of the field's bytes under the lower-cased name. */
  lemma NewFieldInfers(env: Env, fname: string, fslice: Slice, fsize: nat, pktRaw: bytes, trepr: string,
                       ttype: int, tmask: nat, prev: Option<PrevField>, frepr: Repr)
    ensures var r := NewField(env, fname, fslice, fsize, pktRaw, trepr, ttype, tmask, prev, None, frepr);
      r.Ok? && GetFrepr(env, r.value.ftype, r.value.fraw, fsize, r.value.mask, Lower(fname)) == Ok(r.value.frepr)
  {
    InferIsDecoding(env, ttype, SliceOf(pktRaw, fslice), fsize, tmask, trepr, Lower(fname), prev, fslice);
  }

  predicate IsInt(f: TField) { f.ftype in {IntBe, IntLe} }
  predicate IsStr(f: TField) { f.ftype == Str }
  predicate IsHex(f: TField) { f.ftype == Hex }

  /** For inferred fields the three type tests describe the representation:
      an int field holds the value in its byte order, a str field holds
      text, and a hex field holds the `0x` spelling of its bytes. */
  lemma InferredTypeTests(env: Env, fname: string, fslice: Slice, fsize: nat, pktRaw: bytes, trepr: string,
                          ttype: int, tmask: nat, prev: Option<PrevField>, frepr: Repr)
    ensures var f := NewField(env, fname, fslice, fsize, pktRaw, trepr, ttype, tmask, prev, None, frepr).value;
      && (IsInt(f) ==> f.frepr == RInt(if f.ftype == IntBe then BeValue(f.fraw) else LeValue(f.fraw)))
      && (IsStr(f) ==> f.frepr.RText? && env.decode(f.fraw) == Some(f.frepr.s))
      && (IsHex(f) ==> f.frepr == RText(RawToHex(f.fraw)))
  {
    NewFieldInfers(env, fname, fslice, fsize, pktRaw, trepr, ttype, tmask, prev, frepr);
  }

  /** The `name` setter: the new name is stored lower-cased, nothing else changes. */
  function Rename(f: TField, value: string): (r: TField)
    ensures r.name == Lower(value) && r.(name := f.name) == f
  {
    f.(name := Lower(value))
  }

  /** Field names are always in lower case: renaming to the stored name changes nothing. */
  lemma RenameStoredName(f: TField, value: string)
    ensures Rename(Rename(f, value), Rename(f, value).name) == Rename(f, value)
  {
    LowerIdempotent(value);
  }
}

=== FILE: tlayer.dfy ===
/** A template layer of the older generation (`polymorph/tlayer.py`): an
    ordered registry of fields keyed by lower-case name, and the dependent
    fields whose position and width are computed by a struct built from
    the fields they depend on. */
module Layers {
  import opened Wrappers
  import opened Bytes
  import opened Text
  import opened OrderedMap
  import opened Structs

  /** The Python type tag a field of this generation records: an integer
      in a byte order, hex text, decoded text, raw bytes, or anything else. */
  datatype LType = LInt(order: Order) | LHex | LText | LBytes | LOther

  /** The parts of a field the layer and the packet view use. */
  datatype LField = LField(name: string, slice: Slice, size: nat, order: Order, ltype: LType, custom: bool)

  /** The textual rule `add_struct` saves for a dependent field. */
  datatype StructRule = StructRule(deps: seq<string>, startByte: Expr, length: Expr)

  datatype Layer = Layer(
    name: string,
    lslice: Slice,
    raw: bytes,
    fields: Entries<LField>,
    structs: Entries<Struct>,
    rules: Entries<StructRule>,
    custom: bool)

  /** `TLayer(name, lslice, raw, fields, custom)`: the name is stored upper-cased, no structs yet. */
  function NewLayer(name: string, lslice: Slice, raw: bytes, fields: Entries<LField>, custom: bool): (l: Layer)
    ensures l.name == Upper(name) && l.fields == fields
    ensures l.structs == [] && l.rules == []
  {
    Layer(Upper(name), lslice, raw, fields, [], [], custom)
  }

  /** The `name` setter. */
  function Rename(l: Layer, value: string): (r: Layer)
    ensures r.name == Upper(value)
    ensures r == l.(name := r.name)
  {
    l.(name := Upper(value))
  }

  /** A stored layer name is its own upper-case form: renaming to it changes nothing. */
  lemma RenameStable(l: Layer, value: string)
    ensures Rename(Rename(l, value), Rename(l, value).name) == Rename(l, value)
  {
    UpperIdempotent(value);
  }

  // ---------------------------------------------------------------------
  // The field registry
  // ---------------------------------------------------------------------

  /** `addfield(field)`. A fresh name is stored as is; on a collision the
      field is renamed to its name followed by `rand` (the source draws it
      from 0..999) and stored under that name. */
  function AddField(l: Layer, f: LField, rand: nat): (r: Layer)
    requires rand <= 999
    ensures r == l.(fields := r.fields)
  {
    if f.name !in Keys(l.fields) then l.(fields := Put(l.fields, f.name, f))
    else
      var key := f.name + DecimalNumeral(rand);
      l.(fields := Put(l.fields, key, f.(name := key)))
  }

  /** A fresh name is appended after every existing field. */
  lemma AddFieldFresh(l: Layer, f: LField, rand: nat)
    requires rand <= 999
    requires f.name !in Keys(l.fields)
    ensures AddField(l, f, rand).fields == l.fields + [(f.name, f)]
  {
    PutAbsent(l.fields, f.name, f);
  }

  /** On a collision the field is reachable under its suffixed name, carries
      that name, and the entry it collided with is left as it was. */
  lemma AddFieldCollision(l: Layer, f: LField, rand: nat)
    requires rand <= 999
    requires f.name in Keys(l.fields)
    ensures var key := f.name + DecimalNumeral(rand);
      && Get(AddField(l, f, rand).fields, key) == Some(f.(name := key))
      && Get(AddField(l, f, rand).fields, f.name) == Get(l.fields, f.name)
  {
    var key := f.name + DecimalNumeral(rand);
    assert key != f.name by {
      assert |key| > |f.name|;
    }
    PutGet(l.fields, key, f.(name := key), key);
    PutGet(l.fields, key, f.(name := key), f.name);
  }

  /** Only the stored key changes: every other name finds what it found before. */
  lemma AddFieldOthers(l: Layer, f: LField, rand: nat, k: string)
    requires rand <= 999
    requires k != f.name && k != f.name + DecimalNumeral(rand)
    ensures Get(AddField(l, f, rand).fields, k) == Get(l.fields, k)
  {
    if f.name !in Keys(l.fields) {
      PutGet(l.fields, f.name, f, k);
    } else {
      PutGet(l.fields, f.name + DecimalNumeral(rand), f.(name := f.name + DecimalNumeral(rand)), k);
    }
  }

  /** The argument of `delfield`: a field object, a name, or anything else. */
  datatype FieldRef = ByField(field: LField) | ByName(text: string) | Neither

  /** `delfield(field)`: pops `field.name` for a field and `text.lower()` for a
      string (KeyError when absent); any other argument changes nothing. */
  function DelField(l: Layer, arg: FieldRef): (r: Result<Layer>)
    ensures arg.Neither? ==> r == Ok(l)
    ensures r.Ok? ==> r.value == l.(fields := r.value.fields)
  {
    match arg
    case ByField(f) => var m :- Pop(l.fields, f.name); Ok(l.(fields := m))
    case ByName(s) => var m :- Pop(l.fields, Lower(s)); Ok(l.(fields := m))
    case Neither => Ok(l)
  }

  /** The key `delfield` removes for a field or a name. */
  function DelKey(arg: FieldRef): string
    requires !arg.Neither?
  {
    if arg.ByField? then arg.field.name else Lower(arg.text)
  }

  /** Deleting fails exactly for an absent key; otherwise only that key goes
      and the remaining fields keep their order and values. */
  lemma DelFieldRemoves(l: Layer, arg: FieldRef)
    requires !arg.Neither?
    ensures DelField(l, arg).Err? <==> DelKey(arg) !in Keys(l.fields)
    ensures DelField(l, arg).Err? ==> DelField(l, arg).error == KeyError
    ensures DelField(l, arg).Ok? ==>
      && Keys(DelField(l, arg).value.fields) == Without(Keys(l.fields), DelKey(arg))
      && forall k :: k != DelKey(arg) ==> Get(DelField(l, arg).value.fields, k) == Get(l.fields, k)
  {
  }

  /** `isfield(name)`: case-insensitive membership. */
  predicate IsField(l: Layer, fieldname: string)
  {
    Lower(fieldname) in Keys(l.fields)
  }

  /** `getfield(name)`: the field under `name.lower()`, None when absent. */
  function GetField(l: Layer, fieldname: string): (r: Option<LField>)
    ensures r.Some? <==> IsField(l, fieldname)
    ensures r.Some? ==> (Lower(fieldname), r.value) in l.fields
  {
    if IsField(l, fieldname) then Get(l.fields, Lower(fieldname)) else None
  }

  /** Lookup ignores case: names that differ only in case find the same field. */
  lemma GetFieldCaseInsensitive(l: Layer, a: string, b: string)
    requires Lower(a) == Lower(b)
    ensures GetField(l, a) == GetField(l, b)
  {
  }

  /** A field added under a lower-case name is found again under any spelling of it. */
  lemma GetAddedField(l: Layer, f: LField, rand: nat, spelling: string)
    requires rand <= 999
    requires f.name !in Keys(l.fields)
    requires Lower(spelling) == f.name
    ensures GetField(AddField(l, f, rand), spelling) == Some(f)
  {
    PutGet(l.fields, f.name, f, f.name);
  }

  /** `getfields()`: the field objects in registry order. */
  function FieldValues(fields: Entries<LField>): (r: seq<LField>)
    ensures |r| == |fields| && forall i :: 0 <= i < |fields| ==> r[i] == fields[i].1
  {
    if |fields| == 0 then [] else [fields[0].1] + FieldValues(fields[1..])
  }

  /** `fieldnames()`: the names the field objects carry, in registry order. */
  function FieldNames(l: Layer): (r: seq<string>)
    ensures |r| == |l.fields| && forall i :: 0 <= i < |l.fields| ==> r[i] == l.fields[i].1.name
  {
    var vs := FieldValues(l.fields);
    seq(|vs|, i requires 0 <= i < |vs| => vs[i].name)
  }

  /** `customfields()`: the fields whose custom flag is set, in order. */
  function CustomFields(fs: seq<LField>): (r: seq<LField>)
    ensures forall f :: f in r <==> f in fs && f.custom
    ensures |r| <= |fs|
  {
    if |fs| == 0 then []
    else if fs[0].custom then [fs[0]] + CustomFields(fs[1..])
    else CustomFields(fs[1..])
  }

  /** Keeping the custom fields twice keeps the same ones. */
  lemma {:induction false} CustomFieldsIdempotent(fs: seq<LField>)
    ensures CustomFields(CustomFields(fs)) == CustomFields(fs)
  {
    if |fs| > 0 {
      CustomFieldsIdempotent(fs[1..]);
      if fs[0].custom {
        assert ([fs[0]] + CustomFields(fs[1..]))[1..] == CustomFields(fs[1..]);
      }
    }
  }

  /** Every field a layer built by `addfield` holds is stored under the name it carries. */
  predicate NamesMatch(fields: Entries<LField>)
  {
    forall e :: e in fields ==> e.1.name == e.0
  }

  /** `addfield` keeps every field stored under its own name: the field
      names list is then the key list. */
  lemma AddFieldNamesMatch(l: Layer, f: LField, rand: nat)
    requires rand <= 999
    requires NamesMatch(l.fields)
    ensures NamesMatch(AddField(l, f, rand).fields)
    ensures FieldNames(AddField(l, f, rand)) == Keys(AddField(l, f, rand).fields)
  {
    var r := AddField(l, f, rand);
    if f.name !in Keys(l.fields) {
      PutEntries(l.fields, f.name, f);
    } else {
      var key := f.name + DecimalNumeral(rand);
      PutEntries(l.fields, key, f.(name := key));
    }
    forall i | 0 <= i < |r.fields| ensures FieldNames(r)[i] == Keys(r.fields)[i] {
      assert r.fields[i] in r.fields;
    }
  }

  // ---------------------------------------------------------------------
  // create_struct
  // ---------------------------------------------------------------------

  predicate SortedByStart(fs: seq<LField>)
  {
    forall i, j :: 0 <= i < j < |fs| ==> fs[i].slice.start <= fs[j].slice.start
  }

  /** The fields starting at byte `s`, in their order in `fs`. */
  function SameStart(fs: seq<LField>, s: int): seq<LField>
  {
    if |fs| == 0 then []
    else (if fs[0].slice.start == s then [fs[0]] else []) + SameStart(fs[1..], s)
  }

  /** Put `f` before the first field that does not start earlier; `f` came
      before all of `fs` in the input, so equal starts keep input order. */
  function InsertByStart(f: LField, fs: seq<LField>): (r: seq<LField>)
    requires SortedByStart(fs)
    ensures SortedByStart(r)
    ensures multiset(r) == multiset(fs) + multiset{f}
    ensures |r| == |fs| + 1
  {
    if |fs| == 0 || f.slice.start <= fs[0].slice.start then [f] + fs
    else
      var rest := InsertByStart(f, fs[1..]);
      assert fs == [fs[0]] + fs[1..];
      InsertKeepsFirst(f, fs, rest);
      [fs[0]] + rest
  }

  lemma SameStartCons(x: LField, t: seq<LField>, s: int)
    ensures SameStart([x] + t, s) == (if x.slice.start == s then [x] else []) + SameStart(t, s)
  {
    assert ([x] + t)[1..] == t;
  }

  /** Inserting `f` puts it ahead of every field of `fs` with its start:
      among fields that start at the same byte, the order is `f`, then `fs`'s. */
  lemma {:induction false} InsertByStartStable(f: LField, fs: seq<LField>, s: int)
    requires SortedByStart(fs)
    ensures SameStart(InsertByStart(f, fs), s) == (if f.slice.start == s then [f] else []) + SameStart(fs, s)
  {
    if |fs| == 0 || f.slice.start <= fs[0].slice.start {
      SameStartCons(f, fs, s);
    } else {
      var rest := InsertByStart(f, fs[1..]);
      assert InsertByStart(f, fs) == [fs[0]] + rest;
      InsertByStartStable(f, fs[1..], s);
      SameStartCons(fs[0], rest, s);
      assert fs == [fs[0]] + fs[1..];
      SameStartCons(fs[0], fs[1..], s);
      // `fs[0]` starts strictly before `f`, so at most one of them starts at `s`.
      SwapEmpty(if fs[0].slice.start == s then [fs[0]] else [],
                if f.slice.start == s then [f] else [],
                SameStart(fs[1..], s));
    }
  }

  /** Concatenation commutes when one side is empty. */
  lemma SwapEmpty<T>(a: seq<T>, b: seq<T>, t: seq<T>)
    requires |a| == 0 || |b| == 0
    ensures a + (b + t) == b + (a + t)
  {
  }

  lemma InsertKeepsFirst(f: LField, fs: seq<LField>, rest: seq<LField>)
    requires SortedByStart(fs) && SortedByStart(rest)
    requires |fs| > 0 && fs[0].slice.start < f.slice.start
    requires multiset(rest) == multiset(fs[1..]) + multiset{f}
    ensures SortedByStart([fs[0]] + rest)
  {
    forall k | 0 <= k < |rest| ensures fs[0].slice.start <= rest[k].slice.start {
      assert rest[k] in multiset(rest);
      if rest[k] != f {
        assert rest[k] in multiset(fs[1..]);
        var m :| 0 <= m < |fs[1..]| && fs[1..][m] == rest[k];
        assert fs[m + 1] == rest[k];
      }
    }
  }

  /** `sorted(fs, key=lambda f: f.slice.start)`: Python's sort is stable,
      so the fields sharing a start byte keep their input order. */
  function SortByStart(fs: seq<LField>): (r: seq<LField>)
    ensures SortedByStart(r)
    ensures multiset(r) == multiset(fs)
    ensures |r| == |fs|
    ensures forall s :: SameStart(r, s) == SameStart(fs, s)
  {
    if |fs| == 0 then []
    else
      assert fs == [fs[0]] + fs[1..];
      var tail := SortByStart(fs[1..]);
      SortByStartStep(fs[0], fs[1..], tail);
      InsertByStart(fs[0], tail)
  }

  /** Inserting the head into a stable sort of the tail is a stable sort. */
  lemma SortByStartStep(f: LField, fs: seq<LField>, tail: seq<LField>)
    requires SortedByStart(tail)
    requires forall s :: SameStart(tail, s) == SameStart(fs, s)
    ensures forall s :: SameStart(InsertByStart(f, tail), s) == SameStart([f] + fs, s)
  {
    forall s ensures SameStart(InsertByStart(f, tail), s) == SameStart([f] + fs, s) {
      InsertByStartStable(f, tail, s);
      SameStartCons(f, fs, s);
    }
  }

  /** Where the previous dependency stopped (0 before the first). */
  function PrevStop(fs: seq<LField>, i: nat): int
    requires i <= |fs|
  {
    if i == 0 then 0 else fs[i - 1].slice.stop
  }

  /** Sizes construct has an integer class for (`Int8ub` … `Int32ul`). */
  predicate SizesOk(fs: seq<LField>)
  {
    forall f :: f in fs ==> 1 <= f.size <= 4
  }

  /** The two segments `create_struct` emits for dependency `j`: the pad
      from the previous stop (`half == 0`), then the integer itself. */
  function DepSegment(fs: seq<LField>, j: nat, half: nat): Segment
    requires j < |fs|
  {
    if half == 0 then Blob(fs[j].name + "pad", Lit(fs[j].slice.start - PrevStop(fs, j)))
    else Num(fs[j].name, fs[j].size, fs[j].order)
  }

  /** The loop of `create_struct` from dependency `i` on (KeyError for a size
      with no integer class). */
  function DepSegments(fs: seq<LField>, i: nat): (r: Result<Struct>)
    requires i <= |fs|
    ensures r.Ok? <==> SizesOk(fs[i..])
    ensures r.Err? ==> r.error == KeyError
    ensures r.Ok? ==> |r.value| == 2 * (|fs| - i)
    ensures r.Ok? ==> forall k :: 0 <= k < |r.value| ==> r.value[k] == DepSegment(fs, i + k / 2, k % 2)
    decreases |fs| - i
  {
    if i == |fs| then Ok([])
    else
      assert fs[i..] == [fs[i]] + fs[i + 1..];
      if !(1 <= fs[i].size <= 4) then Err(KeyError)
      else
        match DepSegments(fs, i + 1)
        case Err(e) => Err(e)
        case Ok(rest) =>
          DepSegmentsShift(fs, i, rest);
          Ok([DepSegment(fs, i, 0), DepSegment(fs, i, 1)] + rest)
  }

  /** Two segments for dependency `i` in front of the segments from `i + 1` on. */
  lemma DepSegmentsShift(fs: seq<LField>, i: nat, rest: Struct)
    requires i < |fs| && |rest| == 2 * (|fs| - i - 1)
    requires forall k :: 0 <= k < |rest| ==> rest[k] == DepSegment(fs, i + 1 + k / 2, k % 2)
    ensures var r := [DepSegment(fs, i, 0), DepSegment(fs, i, 1)] + rest;
      forall k :: 0 <= k < |r| ==> r[k] == DepSegment(fs, i + k / 2, k % 2)
  {
    var r := [DepSegment(fs, i, 0), DepSegment(fs, i, 1)] + rest;
    forall k | 2 <= k < |r| ensures r[k] == DepSegment(fs, i + k / 2, k % 2) {
      assert r[k] == rest[k - 2];
      assert (i + 1) + (k - 2) / 2 == i + k / 2 && (k - 2) % 2 == k % 2;
    }
  }

  /** The values of a list of optional fields, or AttributeError at the first None. */
  function AllPresent(deps: seq<Option<LField>>): (r: Result<seq<LField>>)
    ensures r.Ok? <==> forall i :: 0 <= i < |deps| ==> deps[i].Some?
    ensures r.Err? ==> r.error == AttributeError
    ensures r.Ok? ==> |r.value| == |deps| && forall i :: 0 <= i < |deps| ==> r.value[i] == deps[i].value
  {
    if |deps| == 0 then Ok([])
    else if deps[0].None? then Err(AttributeError)
    else
      var rest :- AllPresent(deps[1..]);
      Ok([deps[0].value] + rest)
  }

  /** A permutation keeps the same members. */
  lemma SameMembers(a: seq<LField>, b: seq<LField>)
    requires multiset(a) == multiset(b)
    ensures SizesOk(a) <==> SizesOk(b)
  {
    forall f ensures f in a <==> f in b {
      assert f in a <==> f in multiset(a);
      assert f in b <==> f in multiset(b);
    }
  }

  /** Every dependency was found and has an integer class. */
  predicate DepsOk(deps: seq<Option<LField>>)
  {
    forall i :: 0 <= i < |deps| ==> deps[i].Some? && 1 <= deps[i].value.size <= 4
  }

  lemma SizesOkPresent(deps: seq<Option<LField>>)
    requires AllPresent(deps).Ok?
    ensures SizesOk(AllPresent(deps).value) <==> DepsOk(deps)
  {
    var fs := AllPresent(deps).value;
    if SizesOk(fs) {
      forall i | 0 <= i < |deps| ensures 1 <= deps[i].value.size <= 4 {
        assert fs[i] in fs;
      }
    }
  }

  /** `create_struct(tfield, fdeps, start_byte, expression)`. Missing
      fields (None from `getfield`) fail with AttributeError: the sort key
      reads each dependency's slice, the target's name is read after the
      loop; a dependency size with no integer class fails with KeyError;
      last, the start byte and the length rule texts are evaluated, which
      raises ZeroDivisionError for a closed zero division. */
  function CreateStruct(target: Option<LField>, deps: seq<Option<LField>>, startByte: Expr, length: Expr): (r: Result<Struct>)
    ensures r.Ok? <==> DepsOk(deps) && target.Some? && !DividesByZero(startByte) && !DividesByZero(length)
    ensures r.Err? && !(forall i :: 0 <= i < |deps| ==> deps[i].Some?) ==> r.error == AttributeError
    ensures r.Err? && (forall i :: 0 <= i < |deps| ==> deps[i].Some?) && !DepsOk(deps) ==> r.error == KeyError
    ensures r.Err? && DepsOk(deps) && target.None? ==> r.error == AttributeError
    ensures r.Err? && DepsOk(deps) && target.Some? ==> r.error == ZeroDivisionError
  {
    match AllPresent(deps)
    case Err(e) => Err(e)
    case Ok(present) =>
      var ordered := SortByStart(present);
      SameMembers(ordered, present);
      SizesOkPresent(deps);
      match Assemble(ordered, target, startByte, length)
      case Err(e) => Err(e)
      case Ok(st) =>
        if DividesByZero(startByte) || DividesByZero(length) then Err(ZeroDivisionError) else Ok(st)
  }

  /** The struct built from the dependencies once they are sorted by start:
      per dependency a pad from the previous stop and the integer itself,
      then a pad from the last stop up to the start expression and the
      target, whose width is the length expression. */
  function Assemble(ordered: seq<LField>, target: Option<LField>, startByte: Expr, length: Expr): (r: Result<Struct>)
    ensures r.Ok? <==> SizesOk(ordered) && target.Some?
    ensures r.Err? ==> r.error == if SizesOk(ordered) then AttributeError else KeyError
    ensures r.Ok? ==>
      && |r.value| == 2 * |ordered| + 2
      && (forall k :: 0 <= k < 2 * |ordered| ==> r.value[k] == DepSegment(ordered, k / 2, k % 2))
      && r.value[2 * |ordered|] == Blob(target.value.name + "pad", Sub(startByte, Lit(PrevStop(ordered, |ordered|))))
      && r.value[2 * |ordered| + 1] == Blob(target.value.name, length)
  {
    assert ordered[0..] == ordered;
    match DepSegments(ordered, 0)
    case Err(e) => Err(e)
    case Ok(body) =>
      if target.None? then Err(AttributeError)
      else
        var t := target.value;
        Ok(body + [Blob(t.name + "pad", Sub(startByte, Lit(PrevStop(ordered, |ordered|)))), Blob(t.name, length)])
  }

  /** The layout of a struct built from fields that are all present and
      have an integer class is the one `Assemble` gives for them in order
      of start. */
  lemma CreateStructLayout(target: LField, deps: seq<LField>, startByte: Expr, length: Expr)
    requires DepsOk(Lift(deps))
    ensures CreateStruct(Some(target), Lift(deps), startByte, length) ==
      if DividesByZero(startByte) || DividesByZero(length) then Err(ZeroDivisionError)
      else Assemble(SortByStart(deps), Some(target), startByte, length)
    ensures Assemble(SortByStart(deps), Some(target), startByte, length).Ok?
  {
    AllPresentLift(deps);
    SizesOkPresent(Lift(deps));
    SameMembers(SortByStart(deps), deps);
  }

  function Lift(fs: seq<LField>): (r: seq<Option<LField>>)
    ensures |r| == |fs| && forall i :: 0 <= i < |fs| ==> r[i] == Some(fs[i])
  {
    seq(|fs|, i requires 0 <= i < |fs| => Some(fs[i]))
  }

  lemma {:induction false} AllPresentLift(fs: seq<LField>)
    ensures AllPresent(Lift(fs)) == Ok(fs)
  {
    if |fs| > 0 {
      AllPresentLift(fs[1..]);
      assert Lift(fs)[1..] == Lift(fs[1..]);
      assert fs == [fs[0]] + fs[1..];
    }
  }

  // ---------------------------------------------------------------------
  // add_struct / test_struct / del_struct / is_struct
  // ---------------------------------------------------------------------

  /** `[self.getfield(f) for f in fdeps]`. */
  function GetFields(l: Layer, names: seq<string>): (r: seq<Option<LField>>)
    ensures |r| == |names| && forall i :: 0 <= i < |names| ==> r[i] == GetField(l, names[i])
  {
    if |names| == 0 then [] else [GetField(l, names[0])] + GetFields(l, names[1..])
  }

  /** The layer after `add_struct`, and the exception it raised, if any. */
  datatype Outcome = Outcome(layer: Layer, error: Option<Exc>)

  /** `add_struct(fname, fdeps, start_byte, expression)`: the rule is saved
      first; the struct is stored only when building it succeeds. */
  function AddStruct(l: Layer, fname: string, fdeps: seq<string>, startByte: Expr, length: Expr): (o: Outcome)
    ensures Get(o.layer.rules, fname) == Some(StructRule(fdeps, startByte, length))
    ensures o.layer == l.(rules := o.layer.rules, structs := o.layer.structs)
  {
    var saved := l.(rules := Put(l.rules, fname, StructRule(fdeps, startByte, length)));
    PutGet(l.rules, fname, StructRule(fdeps, startByte, length), fname);
    match CreateStruct(GetField(l, fname), GetFields(l, fdeps), startByte, length)
    case Ok(st) => Outcome(saved.(structs := Put(l.structs, fname, st)), None)
    case Err(e) => Outcome(saved, Some(e))
  }

  /** A failed build keeps the saved rule and stores no struct; a successful
      one stores the struct under `fname`. */
  lemma AddStructStores(l: Layer, fname: string, fdeps: seq<string>, startByte: Expr, length: Expr)
    ensures var o := AddStruct(l, fname, fdeps, startByte, length);
      && (o.error.Some? ==> o.layer.structs == l.structs)
      && (o.error.None? <==> IsField(l, fname) && DepsOk(GetFields(l, fdeps)) && !DividesByZero(startByte) && !DividesByZero(length))
      && (o.error.None? ==> Get(o.layer.structs, fname).Some?)
  {
    var st := CreateStruct(GetField(l, fname), GetFields(l, fdeps), startByte, length);
    if st.Ok? {
      PutGet(l.structs, fname, st.value, fname);
    }
  }

  /** `is_struct(name)`. */
  predicate IsStruct(l: Layer, fname: string)
  {
    fname in Keys(l.structs)
  }

  /** `del_struct(name)`: drops a stored struct, nothing for an absent name;
      the saved rule stays. */
  function DelStruct(l: Layer, fname: string): (r: Layer)
    ensures !IsStruct(r, fname)
    ensures !IsStruct(l, fname) ==> r == l
    ensures forall k :: k != fname ==> Get(r.structs, k) == Get(l.structs, k)
    ensures r == l.(structs := r.structs)
  {
    if fname in Keys(l.structs) then l.(structs := Erase(l.structs, fname)) else l
  }

  /** `test_struct(name)`: None without a struct; otherwise the value the
      struct's parse of the layer bytes binds to that name (KeyError when the
      parse binds nothing under it). */
  function TestStruct(l: Layer, fname: string): (r: Result<Option<Parsed>>)
    ensures !IsStruct(l, fname) ==> r == Ok(None)
    ensures r.Ok? && r.value.Some? ==>
      IsStruct(l, fname) && Parse(Get(l.structs, fname).value, l.raw).Ok? &&
      Get(Parse(Get(l.structs, fname).value, l.raw).value, fname) == r.value
  {
    match Get(l.structs, fname)
    case None => Ok(None)
    case Some(st) =>
      match Parse(st, l.raw)
      case Err(e) => Err(e)
      case Ok(ctx) =>
        match Get(ctx, fname)
        case None => Err(KeyError)
        case Some(v) => Ok(Some(v))
  }
}

=== FILE: tlist.dfy ===
/** The template list of the newer generation
    (`build/lib/polymorph/tlist.py`): every template is generated when the
    list is built, its name recorded alongside, and access is 1-based. */
module TemplateLists {
  import opened Wrappers
  import opened Bytes
  import T = Templates

  datatype TList<F> = TList(names: seq<string>, templates: seq<T.Template<F>>)

  /** `TList(tgen)`: the templates the generator yields, in its order,
      with their names. */
  function NewTList<F>(gen: seq<T.Template<F>>): (l: TList<F>)
    ensures l.templates == gen
    ensures |l.names| == |gen| && forall k :: 0 <= k < |gen| ==> l.names[k] == gen[k].name
  {
    TList(seq(|gen|, k requires 0 <= k < |gen| => gen[k].name), gen)
  }

  /** `len(tlist)`: the number of templates generated. */
  function Length<F>(l: TList<F>): (n: nat)
    ensures n == |l.templates|
  {
    |l.templates|
  }

  /** `tlist[i]`: the template at `i - 1` under Python indexing, so that
      1 is the first, `len` the last, and 0 the last again. */
  function GetItem<F>(l: TList<F>, i: int): (r: Result<T.Template<F>>)
    ensures 1 <= i <= Length(l) ==> r == Ok(l.templates[i - 1])
    ensures i == 0 && Length(l) > 0 ==> r == Ok(l.templates[Length(l) - 1])
    ensures r.Ok? <==> 0 < i + Length(l) && i <= Length(l)
    ensures i <= 0 && r.Ok? ==> r.value == l.templates[Length(l) + i - 1]
  {
    PyIndex(l.templates, i - 1)
  }

  /** In a freshly built list, the name shown at position `i` (counting
      from 1) is the name of the template `tlist[i]` returns. */
  lemma NamesMatchAccess<F>(gen: seq<T.Template<F>>, i: int)
    requires 1 <= i <= |gen|
    ensures GetItem(NewTList(gen), i) == Ok(gen[i - 1])
    ensures NewTList(gen).names[i - 1] == GetItem(NewTList(gen), i).value.name
  {
  }

  /** Past the end, access raises IndexError. */
  lemma PastEndRaises<F>(l: TList<F>)
    ensures GetItem(l, Length(l) + 1) == Err(IndexError)
  {
  }
}

=== FILE: value.dfy ===
/** The field value of the first generation (`polymorph/value.py`): the
    raw bytes of a field, a recorded Python type (a pair of a type and a
    tag: `(int, 'big')`, `(str, 'hex')`, `(bytes, None)`, ...) and the
    value decoded under that type. Without a type, the value is guessed:
    text when the bytes are valid UTF-8, a big-endian integer otherwise. */
module Values {
  import opened Wrappers
  import opened Bytes
  import opened Text
  import opened Converter

  /** The first element of the type pair. */
  datatype Kind = IntKind | StrKind | BytesKind | OtherKind

  /** The second element: a byte order, `'hex'`, None, or some other
      string. */
  datatype Tag = BigTag | LittleTag | HexTag | NoTag | OtherTag

  datatype VType = VType(kind: Kind, tag: Tag)

  /** The decoded value: an int, a str, a bytes object, or None. */
  datatype PyVal = VInt(i: nat) | VStr(s: string) | VBytes(b: bytes) | VNone

  datatype Value = Value(raw: bytes, vtype: VType, value: PyVal)

  /** `int.from_bytes(raw, tag)`: the tag must be `'big'` or `'little'`;
      another string raises ValueError and None raises TypeError. */
  function IntFromBytes(raw: bytes, tag: Tag): (r: Result<nat>)
    ensures r.Ok? <==> tag == BigTag || tag == LittleTag
    ensures tag == BigTag ==> r == Ok(BeValue(raw))
    ensures tag == LittleTag ==> r == Ok(LeValue(raw))
    ensures tag == NoTag ==> r == Err(TypeError)
  {
    match tag
    case BigTag => Ok(BeValue(raw))
    case LittleTag => Ok(LeValue(raw))
    case NoTag => Err(TypeError)
    case _ => Err(ValueError)
  }

  /** The type and value agree: the value is what the raw bytes decode to
      under the recorded type. */
  predicate Consistent(env: Env, v: Value)
  {
    match v.vtype.kind
    case IntKind =>
      (v.vtype.tag == BigTag && v.value == VInt(BeValue(v.raw)))
      || (v.vtype.tag == LittleTag && v.value == VInt(LeValue(v.raw)))
    case StrKind =>
      if v.vtype.tag == HexTag then v.value == VStr(HexOfBytes(v.raw))
      else env.decode(v.raw).Some? && v.value == VStr(env.decode(v.raw).value)
    case BytesKind => v.value == VBytes(v.raw)
    case OtherKind => v.value == VNone
  }

  /** `_guess_repr` from the type given at construction. With a type, a
      failed UTF-8 decode of a str switches to `(str, 'hex')` and the hex
      text, an int with a bad byte order raises, and an unknown type gives
      None. Without one, text is tried first and `(int, 'big')` is the
      fallback. */
  function GuessRepr(env: Env, raw: bytes, ftype: Option<VType>): (r: Result<Value>)
    ensures r.Ok? ==> r.value.raw == raw && Consistent(env, r.value)
    ensures r.Err? <==> ftype.Some? && ftype.value.kind == IntKind && ftype.value.tag != BigTag && ftype.value.tag != LittleTag
    ensures ftype.None? ==> r.Ok? && (r.value.vtype == VType(StrKind, NoTag) <==> env.decode(raw).Some?)
    ensures ftype.None? && env.decode(raw).None? ==> r == Ok(Value(raw, VType(IntKind, BigTag), VInt(BeValue(raw))))
    ensures ftype.Some? && r.Ok? && r.value.vtype != ftype.value ==>
      ftype.value.kind == StrKind && env.decode(raw).None? && r.value.vtype == VType(StrKind, HexTag)
  {
    match ftype
    case None =>
      (match env.decode(raw)
       case Some(s) => Ok(Value(raw, VType(StrKind, NoTag), VStr(s)))
       case None => Ok(Value(raw, VType(IntKind, BigTag), VInt(BeValue(raw)))))
    case Some(t) =>
      match t.kind
      case IntKind =>
        (match IntFromBytes(raw, t.tag)
         case Err(e) => Err(e)
         case Ok(n) => Ok(Value(raw, t, VInt(n))))
      case StrKind =>
        if t.tag == HexTag then Ok(Value(raw, t, VStr(HexOfBytes(raw))))
        else
          (match env.decode(raw)
           case Some(s) => Ok(Value(raw, t, VStr(s)))
           case None => Ok(Value(raw, VType(StrKind, HexTag), VStr(HexOfBytes(raw)))))
      case BytesKind => Ok(Value(raw, t, VBytes(raw)))
      case OtherKind => Ok(Value(raw, t, VNone))
  }

  /** `to_int(order)`: value and type change together; a bad order raises
      and leaves the value as it was. */
  function ToInt(v: Value, order: Tag): (r: Result<Value>)
    ensures r.Ok? <==> order == BigTag || order == LittleTag
    ensures r.Ok? ==> r.value.raw == v.raw && r.value.vtype == VType(IntKind, order)
    ensures r.Ok? ==> r.value.value == VInt(FromBytes(v.raw, if order == BigTag then Big else Little))
  {
    match IntFromBytes(v.raw, order)
    case Err(e) => Err(e)
    case Ok(n) => Ok(v.(vtype := VType(IntKind, order), value := VInt(n)))
  }

  /** `to_str()`: UnicodeDecodeError escapes when the bytes are not UTF-8. */
  function ToStr(env: Env, v: Value): (r: Result<Value>)
    ensures r.Ok? <==> env.decode(v.raw).Some?
    ensures r.Err? ==> r.error == UnicodeDecodeError
    ensures r.Ok? ==> r.value.raw == v.raw && r.value.vtype == VType(StrKind, NoTag)
    ensures r.Ok? ==> r.value.value == VStr(env.decode(v.raw).value)
  {
    match env.decode(v.raw)
    case None => Err(UnicodeDecodeError)
    case Some(s) => Ok(v.(vtype := VType(StrKind, NoTag), value := VStr(s)))
  }

  /** `hex()`: the hex text of the raw bytes; as a side effect the type
      becomes `(str, 'hex')` while the value stays. */
  function Hex(v: Value): (r: (string, Value))
    ensures |r.0| == 2 * |v.raw| && FromHex(r.0) == Ok(v.raw)
    ensures r.1 == v.(vtype := VType(StrKind, HexTag))
  {
    FromHexOfHex(v.raw);
    (HexOfBytes(v.raw), v.(vtype := VType(StrKind, HexTag)))
  }

  /** `to_hex()`: the value becomes the hex text. */
  function ToHex(v: Value): (r: Value)
    ensures r.raw == v.raw && r.vtype == VType(StrKind, HexTag)
    ensures r.value.VStr? && FromHex(r.value.s) == Ok(v.raw)
  {
    var (h, w) := Hex(v);
    w.(value := VStr(h))
  }

  /** `bytes(value)`: the raw bytes; as a side effect the type becomes
      `(bytes, None)` while the value stays. */
  function AsBytes(v: Value): (r: (bytes, Value))
    ensures r.0 == v.raw
    ensures r.1 == v.(vtype := VType(BytesKind, NoTag))
  {
    (v.raw, v.(vtype := VType(BytesKind, NoTag)))
  }

  /** `to_bytes()`: the value becomes the raw bytes. */
  function ToBytesValue(v: Value): (r: Value)
    ensures r.raw == v.raw && r.vtype == VType(BytesKind, NoTag) && r.value == VBytes(v.raw)
  {
    v.(vtype := VType(BytesKind, NoTag), value := VBytes(v.raw))
  }

  /** Every conversion leaves type and value in agreement. */
  lemma ConversionsConsistent(env: Env, v: Value, order: Tag)
    ensures ToInt(v, order).Ok? ==> Consistent(env, ToInt(v, order).value)
    ensures ToStr(env, v).Ok? ==> Consistent(env, ToStr(env, v).value)
    ensures Consistent(env, ToHex(v))
    ensures Consistent(env, ToBytesValue(v))
  {
  }

  /** An integer read back at its own width gives the raw bytes again. */
  lemma ToIntRoundTrip(v: Value, order: Tag)
    requires order == BigTag || order == LittleTag
    ensures var o := if order == BigTag then Big else Little;
      ToBytes(ToInt(v, order).value.value.i, |v.raw|, o) == Ok(v.raw)
  {
    ToBytesFromBytes(v.raw, if order == BigTag then Big else Little);
  }

  /** `hex()` and `bytes()` change only the recorded type, so a value
      that was not already of that kind no longer agrees with it. */
  lemma SideEffectsDesynchronise(env: Env, v: Value)
    requires Consistent(env, v)
    ensures v.vtype.kind != StrKind && v.vtype.kind != BytesKind ==> !Consistent(env, Hex(v).1)
    ensures v.vtype.kind != BytesKind ==> !Consistent(env, AsBytes(v).1)
  {
  }

  /** An untyped value of bytes that are not UTF-8 becomes the big-endian
      integer; converting it to bytes at its width gives them back. */
  lemma UntypedFallbackRoundTrip(env: Env, raw: bytes)
    requires env.decode(raw).None?
    ensures GuessRepr(env, raw, None).value.value == VInt(BeValue(raw))
    ensures BeBytes(GuessRepr(env, raw, None).value.value.i, |raw|) == raw
  {
    BeValueBytes(raw);
  }
}

=== FILE: wrappers.dfy ===
/** Failure-compatible result types shared by every module of the model.

    Python signals failure by raising; the model returns `Err` with the kind
    of exception the source would raise, so callers can tell which path was
    taken without any exception machinery. */
module Wrappers {

  /** The Python exception kinds the modelled code can raise. */
  datatype Exc =
    | KeyError            // missing dict key (`d[k]`, `d.pop(k)`, `del d[k]`)
    | ValueError          // bad literal for int(), bytes.fromhex, list.index miss, explicit raise
    | TypeError           // operation on a value of the wrong type
    | AttributeError      // method missing on the value's type (None.slice, str.to_bytes, ...)
    | IndexError          // sequence index out of range
    | OverflowError       // int.to_bytes of a value that does not fit
    | UnicodeDecodeError  // bytes.decode('utf-8') of invalid UTF-8
    | ZeroDivisionError   // constant division by zero evaluated eagerly
    | StreamError         // the struct parser ran past the buffer or got a bad length
    | PackError           // struct.pack of an out-of-range value
    | NameError           // use of a name that was never imported

  datatype Option<+T> = None | Some(value: T) {
    predicate IsFailure() { None? }

    function PropagateFailure<U>(): Option<U>
      requires None?
    {
      None
    }

    function Extract(): T
      requires Some?
    {
      value
    }
  }

  datatype Result<+T> = Ok(value: T) | Err(error: Exc) {
    predicate IsFailure() { Err? }

    function PropagateFailure<U>(): Result<U>
      requires Err?
    {
      Err(error)
    }

    function Extract(): T
      requires Ok?
    {
      value
    }
  }
}
